=== FILE: README.md ===
# graylink core in Dafny

graylink keeps a local mirror of a Google Drive folder in front of an Emby media server:
- It scans the Drive listing into a table of file records.
- It turns changes into events.
- It projects files into a symlink tree.
- It asks Emby to refresh the libraries that hold the changed paths.

This project models the backend pieces that hold that logic, plus the path and duration helpers of the web frontend. Each piece is written as immutable datatypes and pure step functions, and the properties are proved about them.

| file | module | models |
|---|---|---|
| `wrappers.dfy`, `seqs.dfy`, `text.dfy`, `decimal.dfy`, `json.dfy` | `Wrappers`, `Seqs`, `Text`, `Decimal`, `JsonValues` | Shared helpers:<br>• `Option`/`Result`<br>• sequence filters<br>• string search, split, replace and strip<br>• decimal rendering<br>• JSON-like values with Python truthiness |
| `file_record.dfy` | `FileRecords` | the `FileRecord` model: path and id validators, file type, media test, parent path, update stamp |
| `scanner.dfy`, `scanner_facts.dfy` | `Scanner`, `ScannerFacts` | the directory scanner that diffs a Drive listing against the stored records |
| `database.dfy` | `Database` | batched upsert of file records, the path query and database statistics |
| `events.dfy` | `Events` | the event queue, batch collection, grouped handling and Emby refresh |
| `monitor_service.dfy` | `MonitorService` | the monitor loop: scans, callbacks, linear retry back-off and stop |
| `fs.dfy` | `FileSystem` | an abstract filesystem `map<path, File \| Dir \| Link>`:<br>• `exists` follows links<br>• `islink`, `mkdir -p`, `unlink`, `rmtree` |
| `symlink_util.dfy` | `SymlinkUtil` | create, verify, find broken and repair symlinks |
| `symlink_manager.dfy` | `SymlinkManager` | the symlink registry:<br>• create, remove, verify, rebuild, clear<br>• timestamped backups and backup cleanup |
| `app_paths.dfy`, `config_store.dfy` | `AppPaths`, `ConfigStore` | backslash normalisation, relative paths, path validity, and the cached configuration singleton |
| `cache.dfy`, `session.dfy`, `settings.dfy` | `Cache`, `Sessions`, `AppSettings` | the namespaced cache manager with statistics and `cached`; the session manager; settings validation |
| `emby_http.dfy`, `emby_client.dfy`, `emby_service.dfy` | `EmbyHttp`, `EmbyServiceClient`, `EmbyService` | the Emby HTTP client with retries, the library-aware client and the Emby service |
| `drive_activity.dfy`, `drive_handler.dfy`, `drive_client.dfy` | `DriveActivity`, `DriveHandler`, `DriveClient` | Drive activity filtering and parsing, path mapping, the change query, paging, the OAuth callback code and the rclone token scan |
| `file_ops.dfy` | `FileOps` | both `batch_operation`s and `list_directory` |
| `web_path.dfy`, `durations.dfy` | `WebPath`, `Durations` | `path.ts`, plus the duration and relative-time formatting of `time.ts` and `format.ts` |

Parameters stand in for everything the model does not own:
- **Collaborators, the clock and the outside world.** The Drive API, the Emby server, the database session, `os.path.normpath`, the system clock and the outcome of each filesystem or HTTP call are parameters of the operations that use them. An outcome is usually a function from the attempt or item index to its result, so every property holds for all possible answers.
- **Timestamps.** They are integer seconds.
- **Dictionaries.** Python dictionaries keep their insertion order as sequences of pairs.

## Model

| member | source | states |
|---|---|---|
| FileRecords.ValidatePath | backend/app/modules/monitor/models.py:38-44 | an empty path is refused; otherwise the path keeps its length and every character except that each backslash becomes `/` |
| FileRecords.ValidatePathIdempotent | backend/app/modules/monitor/models.py:38-44 | validating an already validated path gives the same result |
| FileRecords.ValidatePathKeeps | backend/app/modules/monitor/models.py:38-44 | a non-empty path without backslashes is accepted unchanged |
| FileRecords.ValidateFileId | backend/app/modules/monitor/models.py:46-51 | only the empty id is refused, and any other id is kept as is |
| FileRecords.ExtensionAfterLastDot | backend/app/modules/monitor/models.py:61 | the extension is the lower-cased text after the last dot |
| FileRecords.TypeOfExtension | backend/app/modules/monitor/models.py:70-83 | `unknown` exactly for the empty extension, `other` exactly for a non-empty one in none of the five tables, never `directory` |
| FileRecords.TypeOf | backend/app/modules/monitor/models.py:64-83 | a directory is `directory`; any other record is classified by its extension |
| FileRecords.MediaIffMediaType | backend/app/modules/monitor/models.py:53-62 | for a file, `is_media_file` holds exactly when `file_type` is video, audio or image |
| FileRecords.ParentPath | backend/app/modules/monitor/models.py:85-90 | there is no parent exactly when the path has no `/` |
| FileRecords.ParentPathBeforeLastSlash | backend/app/modules/monitor/models.py:85-90 | rejoining all segments but the last gives exactly the text before the last `/` |
| FileRecords.Touch | backend/app/modules/monitor/models.py:107-110 | an update stamps `last_checked` with the current time and changes no other field |
| Scanner.Ids | backend/app/modules/monitor/scanner.py:64 | every listed id is in the id set |
| Scanner.IdsListed | backend/app/modules/monitor/scanner.py:64 | every id in the set is the id of some listed entry |
| Scanner.SizeValue | backend/app/modules/monitor/scanner.py:151 | an absent size reads as 0, a number as itself, and only text that `int()` rejects raises |
| Scanner.NewRecord | backend/app/modules/monitor/scanner.py:137-154 | a record is built exactly when id, name, mime type and size pass; it has the validated name as path, size defaulting to 0, the listed time, and is a directory iff the mime type is the Drive folder type |
| Scanner.UpdateRecord | backend/app/modules/monitor/scanner.py:157-168 | an update sets the time and stamps `last_checked`; when the entry is readable it overwrites exactly size, path and mime type, and id and directory flag never change |
| Scanner.AssignNameAndType | backend/app/modules/monitor/scanner.py:167-168 | the path and mime-type assignments touch no other field, even when one of them raises |
| Scanner.FirstMatch | backend/app/modules/monitor/scanner.py:77-80 | the position found is the first stored row with the id; none is found exactly when no row has it |
| Scanner.Fold | backend/app/modules/monitor/scanner.py:71-99 | the loop only appends rows and never emits a deleted change |
| Scanner.DeletedChanges | backend/app/modules/monitor/scanner.py:170-199 | a change is reported exactly when it is `deleted` for a stored row under `directory/` whose id is not listed |
| Scanner.Remaining | backend/app/modules/monitor/scanner.py:192-197 | a row survives exactly when it is not one of the deleted ones |
| Scanner.Sweep | backend/app/modules/monitor/scanner.py:201-210 | a row survives exactly when its `last_checked` is no older than 30 days |
| Scanner.ScanWith | backend/app/modules/monitor/scanner.py:46-120 | a failed listing changes nothing but the sweep; a listed scan is rolled back exactly when the unique `path` constraint fails after one of the commit's statements: each UPDATE in row order, then the INSERTs, with the rows to be deleted still present; a successful scan leaves unique paths, every surviving row within the retention window, and deleted changes after all added and modified ones |
| Scanner.Scan | backend/app/modules/monitor/scanner.py:46-120 | the scan as written; it is rolled back exactly when a statement of the commit's flush collides on `path`, a failed scan only sweeps, and a successful one leaves unique paths, every surviving row within the retention window |
| Scanner.ScanConfirming | backend/app/modules/monitor/scanner.py:46-120 | the corrected scan; it is rolled back exactly when a statement of the commit's flush collides on `path`, a failed scan only sweeps, and a successful one leaves unique paths, every surviving row within the retention window |
| ScannerFacts.FoldChanges | backend/app/modules/monitor/scanner.py:71-99 | the loop reports each listed entry's classification against the snapshot, in listing order |
| ScannerFacts.FoldNewRows | backend/app/modules/monitor/scanner.py:82-88 | the loop appends the new records after the existing rows, in listing order |
| ScannerFacts.FoldExistingRows | backend/app/modules/monitor/scanner.py:89-95 | an existing row changes only when its id is listed, and then into its expected update |
| ScannerFacts.FoldAgainstSnapshot | backend/app/modules/monitor/scanner.py:71-99 | the three facts above together, for any state that agrees with the snapshot |
| ScannerFacts.FoldIsExpected | backend/app/modules/monitor/scanner.py:71-99 | from an empty change list, the loop yields exactly the reference rows and the reference change list |
| ScannerFacts.ScanAgainstSnapshot | backend/app/modules/monitor/scanner.py:46-120 | a whole scan equals the reference diff followed by the deleted changes, with deleted rows removed and the sweep applied, unless a statement of the flush collides on `path`, which rolls back to the swept snapshot with an error |
| ScannerFacts.ScanSwapRejected | backend/app/modules/monitor/scanner.py:104-111 | two stored records trading paths in one listing are rolled back: the rows after the loop have distinct paths, but the first UPDATE puts both records on one path |
| ScannerFacts.DiffAddsUnmatched | backend/app/modules/monitor/scanner.py:77-88 | a dated listed id with no stored record is reported `added` exactly once |
| ScannerFacts.DiffMentionsOnlyListed | backend/app/modules/monitor/scanner.py:71-95 | no added or modified change is reported for an unlisted id |
| ScannerFacts.MatchedRowOutcome | backend/app/modules/monitor/scanner.py:89-95 | a stored record is reported `modified` iff the listed time is strictly later, and only then is it updated; it is never reported `added` |
| ScannerFacts.DiffEntryPosition | backend/app/modules/monitor/scanner.py:71-95 | the only change the scan reports about an entry is the one its classification gives |
| ScannerFacts.NewRowsIds | backend/app/modules/monitor/scanner.py:82-88 | new records carry distinct listed ids that no stored row has |
| ScannerFacts.RowsUniqueIds | backend/app/modules/monitor/scanner.py:77-95 | with the corrected scan, a snapshot with unique ids keeps unique ids |
| ScannerFacts.ListedRow | backend/app/modules/monitor/scanner.py:77-95 | after the corrected loop every creatable entry has a row with its id and a time at least its own, stamped now |
| ScannerFacts.QuietRows | backend/app/modules/monitor/scanner.py:77-95 | over a snapshot that already reflects the listing, nothing is reported or added and every row keeps path, id and time |
| ScannerFacts.QuietScanIsSilent | backend/app/modules/monitor/scanner.py:77-103 | scanning a snapshot that already reflects the listing reports no change |
| ScannerFacts.ConfirmingStaysQuiet | backend/app/modules/monitor/models.py:107-110 | the corrected scan keeps such a snapshot reflecting the listing, at any later time |
| ScannerFacts.ConfirmedEntriesSurvive | backend/app/modules/monitor/scanner.py:201-210 | under the corrected scan, the sweep keeps a row for every dated listed entry |
| ScannerFacts.FirstScanQuiet | backend/app/modules/monitor/scanner.py:46-120 | for a snapshot with one record per id and a listing with distinct ids whose entries all carry a modified time and pass the record validators, a successful corrected scan leaves the snapshot reflecting that listing: unique paths and ids, every dated entry recorded at least as new, nothing unlisted under the directory |
| ScannerFacts.ScanConfirmingIdempotent | backend/app/modules/monitor/scanner.py:77-95 | under the same conditions (one record per id in the snapshot; distinct ids, a modified time and valid fields in every listed entry), once the corrected scan has seen a listing, every later scan of the same listing, at any times, reports nothing |
| ScannerFacts.RepeatStaysQuiet | backend/app/modules/monitor/scanner.py:77-95 | any non-empty run of corrected scans over a snapshot that reflects the listing reports nothing |
| ScannerFacts.ExampleFirstScan | backend/app/modules/monitor/scanner.py:82-88 | a one-file listing over an empty store is reported added and recorded with the scan time |
| ScannerFacts.ScanForgetsConfirmedRecords | backend/app/modules/monitor/scanner.py:201-210 | as written, a file listed unchanged for over 30 days is swept, and the next scan of the same listing reports it added again |
| ScannerFacts.SecondScanSweeps | backend/app/modules/monitor/scanner.py:89-95 | as written, the scan confirming an unchanged record does not stamp it, so the sweep removes it |
| ScannerFacts.ScanConfirmingKeepsConfirmedRecords | backend/app/modules/monitor/models.py:107-110 | the corrected scan keeps the confirmed record over the same history, and reports nothing twice |
| Database.Apply | backend/app/modules/database/manager.py:167-170 | setting every key of a dictionary on a row succeeds exactly when the validators accept it; named columns take the given value (the path validated) and every other column keeps its value |
| Database.ApplyIdempotent | backend/app/modules/database/manager.py:169-170 | applying the same dictionary twice is the same as applying it once |
| Database.NewRow | backend/app/modules/database/manager.py:172-175 | `FileRecord(**record)` flushes exactly when the dictionary is valid and names a path and a time; the row is the column defaults with the dictionary applied |
| Database.LastMatch | backend/app/modules/database/manager.py:160-162 | the map built from the query keeps the last row returned for an id, and has an entry exactly for the ids the rows hold |
| Database.KnownCount | backend/app/modules/database/manager.py:165-175 | the number of dictionaries that update: at most the batch size, zero exactly when no dictionary's id was found by the batch's query, the batch size exactly when all were |
| Database.KnownCountAppend | backend/app/modules/database/manager.py:165-175 | the count of known dictionaries adds up over consecutive parts of a batch |
| Database.KnownIffLastMatch | backend/app/modules/database/manager.py:160-166 | a dictionary counts as known exactly when its id has an entry in the batch's `existing_map` |
| Database.AbsorbOne | backend/app/modules/database/manager.py:165-175 | a dictionary whose id the batch's query found updates in place and counts one update; any other inserts one row at the end and counts one insert; rows with other ids are untouched |
| Database.Absorb | backend/app/modules/database/manager.py:165-175 | over a batch, updates equal the known dictionaries and inserts the rest; rows whose ids the batch does not name are untouched; every named id ends up in the table |
| Database.RunBatch | backend/app/modules/database/manager.py:151-177 | a dictionary without `file_id` raises; otherwise the batch is flushed exactly when the unique path constraint holds after each UPDATE in row order and after the INSERTs, and it counts updates and inserts against the rows its query saw |
| Database.PathSwapRejected | backend/app/modules/database/manager.py:164-177 | two rows swapping paths in one batch raise at the flush, although the table after the batch would have unique paths |
| Database.Batches | backend/app/modules/database/manager.py:151-152 | the slices concatenate back to the records; every slice is non-empty and at most the batch size, and all but the last are full |
| Database.RunBatches | backend/app/modules/database/manager.py:151-177 | over all batches, updates plus inserts grow by the number of records, rows grow by the inserts, and a missing `file_id` anywhere raises |
| Database.UpsertAll | backend/app/modules/database/manager.py:144-185 | `update_file_records`: a raise rolls back to the rows before the call; on success updates plus inserts equal the number of records, unique paths are kept, unnamed rows are untouched and every named id is present |
| Database.SameBatchDuplicatesBothInserted | backend/app/modules/database/manager.py:156-175 | two dictionaries for the same new id in one batch are both inserted, because the query ran before either of them |
| Database.SeparateBatchesUpdate | backend/app/modules/database/manager.py:151-177 | with batches of one, the second dictionary for that id updates the row the first one inserted |
| Database.SortByPath | backend/app/modules/database/manager.py:97 | the result is ordered by path and is a permutation of the rows |
| Database.InsertByPath | backend/app/modules/database/manager.py:97 | inserting into a path-ordered list keeps it ordered and adds exactly the one row |
| Database.FilesByPath | backend/app/modules/database/manager.py:87-106 | `get_files_by_path`: ordered by path, holding exactly the rows whose path starts with the argument, each as often as the table holds it |
| Database.SortedPermutationUnique | backend/app/modules/database/manager.py:97 | two path-ordered arrangements of the same rows, in which a path determines its row, are the same list |
| Database.FilesByPathOrderIndependent | backend/app/modules/database/manager.py:94-100 | with unique paths the query's answer does not depend on the order the rows are stored in |
| Database.SumOfSizes | backend/app/modules/database/manager.py:115 | `SUM(size)` is NULL exactly over no rows |
| Database.CountDirectories | backend/app/modules/database/manager.py:116 | the directory count is at most the number of rows |
| Database.StatsOf | backend/app/modules/database/manager.py:108-137 | the reported total is the row count, directories never exceed it, and the empty table reports zeros |
| Database.StatsOfAppend | backend/app/modules/database/manager.py:112-137 | one more row adds one record, its size, and one directory when it is one |
| Database.Recent | backend/app/modules/database/manager.py:127 | the report shows the last five slow queries, or all when fewer: a suffix of the log of that length |
| Database.RecentAppend | backend/app/modules/database/manager.py:45-54 | keeping only the recent entries before appending one loses nothing the report shows |
| Events.HandleChanges | backend/app/modules/monitor/events.py:62-77 | `total_events` grows by exactly the number of changes, the changes are queued in order, and a processing task starts only when none is running |
| Events.OneProcessingTask | backend/app/modules/monitor/events.py:75-77 | because `_is_processing` is never cleared, any sequence of calls starts at most one processing task, and none if one is already running |
| Events.AddTo | backend/app/modules/monitor/events.py:129 | appending a file to its type's group: a new group is opened exactly when the type has none, and only that type's group gains the file |
| Events.GroupAll | backend/app/modules/monitor/events.py:121-131 | the batch built by the collector holds at most one group per type |
| Events.GroupAllIsGrouping | backend/app/modules/monitor/events.py:121-131 | one group per type, each holding exactly its type's files in arrival order, and a group for every type that occurs |
| Events.SizeGroupAll | backend/app/modules/monitor/events.py:121-131 | grouping neither loses nor adds a file |
| Events.TakeCount | backend/app/modules/monitor/events.py:123-132 | the collector takes at most `batch_size` events, all readable, stopping early only at the queue's end or at an unreadable event |
| Events.Collect | backend/app/modules/monitor/events.py:115-136 | a batch holds at most `batch_size` of the leading events, grouped by type in arrival order; the rest stays queued, except that an unreadable event that stops collection is lost |
| Events.LinkFiles | backend/app/modules/monitor/events.py:139-182 | the add and delete handlers count at most one processed event per file, add one failure per symlink call that raised, never set `last_error` themselves, and let an exception escape exactly when some file lacks the key they read |
| Events.LinkFilesRecordsLinked | backend/app/modules/monitor/events.py:145-149 | a link handler records exactly the paths whose symlink call returned true, and counts exactly those as processed |
| Events.ModifyFiles | backend/app/modules/monitor/events.py:154-167 | the modify handler adds no failure; an exception escapes it exactly when some file lacks `name`; when every file has one, every file is counted processed and the changed paths gain exactly their names, in order |
| Events.RunGroup | backend/app/modules/monitor/events.py:91-103 | one group counts at most its size processed; its failures are the raising symlink calls plus the whole group when its handler raised (a file without the key read); the error is recorded exactly then; a group of unknown type changes nothing |
| Events.GroupIsolated | backend/app/modules/monitor/events.py:91-103 | a group's effect on the counters does not depend on what earlier groups did |
| Events.GroupFailureCountsEarlierFiles | backend/app/modules/monitor/events.py:99-103 | a group that fails part-way adds its whole size to `failed_events` although its earlier files were already counted processed |
| Events.RunGroups | backend/app/modules/monitor/events.py:91-103 | the groups of a batch together count at most the batch's size processed |
| Events.Flush | backend/app/modules/monitor/events.py:105-108 | refresh is called once only when paths changed, the list is empty afterwards, and a refresh failure lands in `last_error` without touching the counters |
| Events.ProcessStep | backend/app/modules/monitor/events.py:79-113 | one loop iteration counts no more events processed than it took off the queue and refreshes at most once |
| Events.ApplyConsistent | backend/app/modules/monitor/events.py:62-113 | every operation keeps processed plus queued within the total, the changed-path list empty between iterations, and every refresh non-empty |
| Events.ReachableConsistent | backend/app/modules/monitor/events.py:22-113 | every state reachable from a fresh handler keeps those invariants |
| MonitorService.NewMonitor | backend/app/modules/monitor/service.py:24-54 | a new service is stopped with every counter at zero |
| MonitorService.Start | backend/app/modules/monitor/service.py:56-73 | start while running changes nothing; a failed Drive authentication propagates and the service stays stopped; otherwise it runs with its loop task, the retry counter untouched |
| MonitorService.StartFresh | backend/app/modules/monitor/service.py:56-73 | the same, except that a real start also resets the retry counter |
| MonitorService.Stop | backend/app/modules/monitor/service.py:75-90 | stop of a stopped service is a no-op; otherwise it clears `is_running` and the task |
| MonitorService.Iterate | backend/app/modules/monitor/service.py:112-150 | every iteration counts a scan first; a success resets the retry count and clears the error, whatever the callback did; a failure counts, and either retries after `retry_delay * retry_count` or, with the counter at the limit, stops |
| MonitorService.Loop | backend/app/modules/monitor/service.py:112-150 | the loop reads outcomes only while running, and stops early only by stopping the service |
| MonitorService.Backoff | backend/app/modules/monitor/service.py:144 | the delays of successive retries grow linearly with the counter |
| MonitorService.FailuresBackOffThenStop | backend/app/modules/monitor/service.py:141-150 | from any counter, failures back off linearly until the counter reaches `max_retries`, and the next failure stops the service |
| MonitorService.LoopBounded | backend/app/modules/monitor/service.py:112-150 | failed scans never exceed total scans and the retry counter never exceeds `max_retries` |
| MonitorService.RestartKeepsExhaustedCounter | backend/app/modules/monitor/service.py:142-150 | as written, a service restarted after exhausting its retries stops on its first failure, without any retry |
| MonitorService.RestartFreshRetriesAgain | backend/app/modules/monitor/service.py:56-73 | with the counter reset on start, a restarted service again retries `max_retries` times with the full backoff |
| FileSystem.RealPath | backend/app/utils/symlink.py:39 | a path that is not a link is its own real path |
| FileSystem.PlainExists | backend/app/utils/symlink.py:33 | a present file or directory exists and is its own real path |
| FileSystem.RealPathOfExisting | backend/app/utils/symlink.py:84-86 | the real path of an existing path is present, not a link, and exists |
| FileSystem.Remove | backend/app/utils/symlink.py:46 | `os.remove` succeeds exactly on a present non-directory, and removes just that entry (a link, not its target) |
| FileSystem.Symlink | backend/app/utils/symlink.py:60 | `os.symlink` succeeds exactly when nothing, not even a dangling link, is at the target, and adds just the link |
| FileSystem.MakeDirs | backend/app/utils/symlink.py:55-57 | creating the missing parent adds just that directory |
| FileSystem.Dirname | backend/app/utils/symlink.py:55 | the parent is a prefix of the path, and empty for a path without `/` |
| FileSystem.Basename | backend/app/modules/symlink/manager.py:283 | the name is a single component |
| FileSystem.JoinPath | backend/app/utils/symlink.py:106 | joining onto an absolute part gives that part; otherwise the result ends with the second part |
| SymlinkUtil.CreateSymlink | backend/app/utils/symlink.py:12-66 | a missing source gives False with nothing changed; None exactly when the target already links to the source, with nothing changed; True leaves a link to the source with its parent directory present; only the target and its parent can be added, and no other entry changes |
| SymlinkUtil.CreateSymlinkIdempotent | backend/app/utils/symlink.py:37-42 | a second identical call after a successful one returns None and changes nothing |
| SymlinkUtil.DanglingTargetFails | backend/app/utils/symlink.py:37 | because `exists` follows links, a dangling link at the target is not removed, the link is not made, and False is returned |
| SymlinkUtil.VerifySymlink | backend/app/utils/symlink.py:68-91 | a missing path reports "link missing" and a present non-link reports "not a link" |
| SymlinkUtil.VerifyValidIff | backend/app/utils/symlink.py:78-88 | a path is valid exactly when it exists and is a link; the "target missing" answer can never be given |
| SymlinkUtil.FindBroken | backend/app/utils/symlink.py:93-114 | a directory that cannot be walked gives nothing; everything reported is a link below the directory |
| SymlinkUtil.BrokenAreDangling | backend/app/utils/symlink.py:104-111 | a path is reported exactly when it is a link below a walkable directory that does not exist, that is, whose chain dangles or loops |
| SymlinkUtil.RepairSymlink | backend/app/utils/symlink.py:116-146 | a non-link or a missing source fails with nothing changed; otherwise the link is removed and the result is whether `create_symlink` returned True |
| SymlinkUtil.RepairedLinksSource | backend/app/utils/symlink.py:139-142 | a successful repair leaves a link to the chosen source |
| SymlinkUtil.RepairWithoutSourceNeedsValidLink | backend/app/utils/symlink.py:130-136 | without a new source a repair succeeds only on a link that was not broken |
| SymlinkManager.NewManager | backend/app/modules/symlink/manager.py:26-45 | a new manager has no entries and zero counters, and uses the given backup directory or `data/symlink_backups` when none or an empty one is given |
| SymlinkManager.Find | backend/app/modules/symlink/manager.py:148 | an entry is found exactly when one is registered for the target |
| SymlinkManager.Put | backend/app/modules/symlink/manager.py:74-82 | registering replaces the entry for the same target or adds one; entries for other targets stay, and targets stay unique |
| SymlinkManager.Delete | backend/app/modules/symlink/manager.py:154 | exactly the entry for the target is dropped |
| SymlinkManager.Fail | backend/app/modules/symlink/manager.py:84-94 | a failure counts one and records the error, leaving entries and other counters alone |
| SymlinkManager.StampText | backend/app/modules/symlink/manager.py:283 | `%Y%m%d_%H%M%S` is always 15 characters |
| SymlinkManager.StampTextInjective | backend/app/modules/symlink/manager.py:283 | different valid moments give different stamps |
| SymlinkManager.BackupPath | backend/app/modules/symlink/manager.py:282-284 | the backup path ends in the file's name, an underscore and the stamp |
| SymlinkManager.BackupPathsDistinct | backend/app/modules/symlink/manager.py:282-284 | backups of one path taken in different seconds get different names |
| SymlinkManager.BackupFile | backend/app/modules/symlink/manager.py:272-292 | a missing file is skipped; a directory raises; otherwise the content the path resolves to is copied to the backup path |
| SymlinkManager.SameSecondBackupsCollide | backend/app/modules/symlink/manager.py:282-287 | two files with one name backed up within one second share a backup path, and the second copy replaces the first |
| SymlinkManager.ClearTarget | backend/app/modules/symlink/manager.py:116-119 | clearing a present non-link target removes it, and without backup removes nothing else |
| SymlinkManager.ClearBacksUp | backend/app/modules/symlink/manager.py:116-119 | clearing a plain file with backup copies it to the backup path and then removes it |
| SymlinkManager.CreateLink | backend/app/modules/symlink/manager.py:96-134 | a missing source fails and counts, with nothing changed; success registers target to source, keeps the other entries and counts one created; failure leaves the entries and counts one failed |
| SymlinkManager.CreateBacksUpPlainFile | backend/app/modules/symlink/manager.py:115-126 | a file in the way of a new link is copied to its backup path first, and on success the link replaces it |
| SymlinkManager.RemoveLink | backend/app/modules/symlink/manager.py:136-163 | an unregistered target fails with nothing changed; a registered present non-link fails, counts, and leaves the registry; success counts one removed, drops the entry only with cleanup, and removes at most the link |
| SymlinkManager.RemoveLeavesDanglingLink | backend/app/modules/symlink/manager.py:148-157 | removing a registered dangling link forgets the entry but leaves the link file, since it does not exist |
| SymlinkManager.RemoveEach | backend/app/modules/symlink/manager.py:190-191 | removing a list of targets only ever takes entries off the filesystem |
| SymlinkManager.RemoveEachEffect | backend/app/modules/symlink/manager.py:190-191 | removing each listed entry keeps exactly the unlisted ones and the stuck ones, counts the stuck ones failed and the rest removed |
| SymlinkManager.ClassCounts | backend/app/modules/symlink/manager.py:179-186 | every entry is counted in exactly one of valid, invalid and missing |
| SymlinkManager.VerifyLinks | backend/app/modules/symlink/manager.py:166-199 | the undecorated body of `verify` (see Left out): valid plus invalid plus missing is the registry size, orphaned equals invalid, and total is the size after cleanup |
| SymlinkManager.VerifyEffect | backend/app/modules/symlink/manager.py:179-191 | after `verify` exactly the entries whose source is gone are dropped, save those whose link cannot be removed, which count as failures |
| SymlinkManager.RebuildEach | backend/app/modules/symlink/manager.py:225-231 | the loop's result is true exactly when every `create` it made succeeded, with one call at most per entry |
| SymlinkManager.Rebuild | backend/app/modules/symlink/manager.py:212-236 | `rebuild` as written: the `verify()` of line 223 is a coroutine that is never awaited, so the loop runs over the registry as it is; the result is false exactly when one of its `create` calls fails, with at most one call per entry and nothing removed |
| SymlinkManager.RebuildIgnoresVerifyFirst | backend/app/modules/symlink/manager.py:222-223 | `rebuild(True)` and `rebuild(False)` give the same result |
| SymlinkManager.RebuildVerifying | backend/app/modules/symlink/manager.py:212-236 | the corrected `rebuild(True)`: the verify pass runs first, and the loop makes at most one call per entry that pass leaves |
| SymlinkManager.OrphanFailsRebuild | backend/app/modules/symlink/manager.py:222-231 | as written, one registered entry whose target exists but whose source is gone makes `rebuild(True)` return false and stays registered |
| SymlinkManager.OrphanRemovedBeforeRebuild | backend/app/modules/symlink/manager.py:179-191 | with the verify pass awaited, the same entry (its target a link) is removed first and the rebuild succeeds over an empty registry |
| SymlinkManager.RebuildNothingMissing | backend/app/modules/symlink/manager.py:226-229 | with every registered link and source in place, `rebuild` makes no call and changes nothing |
| SymlinkManager.ClearEach | backend/app/modules/symlink/manager.py:248-252 | the loop fails only through a backup error, which is recorded |
| SymlinkManager.Clear | backend/app/modules/symlink/manager.py:238-257 | without backup, `clear` always returns true |
| SymlinkManager.ClearEachWithoutBackup | backend/app/modules/symlink/manager.py:248-251 | without backup, clearing is removing each entry in turn |
| SymlinkManager.ClearKeepsOnlyStuck | backend/app/modules/symlink/manager.py:238-257 | after `clear` without backup, only the entries whose link cannot be removed remain, and every other entry counts as removed |
| SymlinkManager.CleanupBackups | backend/app/modules/symlink/manager.py:307-331 | the count is at most the number of listed files, and the sweep only removes entries |
| SymlinkManager.CleanupRemovesExactlyOld | backend/app/modules/symlink/manager.py:316-327 | over a listing of plain backups, exactly the files older than the cutoff are removed, nothing else is touched, and the count is their number |
| SymlinkManager.CreateLinkOverPlain | backend/app/modules/symlink/manager.py:115-126 | with a plain file in the way and backup on, creating a link clears the file first and then places the link |
| SymlinkManager.CleanupFrom | backend/app/modules/symlink/manager.py:320-327 | the sweep only removes entries, and its count grows by at most one per listed name |
| AppPaths.NormalizePath | backend/app/utils/path.py:4-8 | every backslash becomes a forward slash and every other character stays where it was |
| AppPaths.NormalizeIdempotent | backend/app/utils/path.py:4-8 | normalising twice is normalising once |
| AppPaths.NormalizeKeeps | backend/app/utils/path.py:4-8 | a path without backslashes is left unchanged |
| AppPaths.RelativePath | backend/app/utils/path.py:10-21 | raises exactly when the normalised full path does not start with the normalised base; otherwise the normalised full path is the base, a run of slashes, and the result, which does not start with a slash |
| AppPaths.LStripSlashes | backend/app/utils/path.py:20 | `lstrip('/')` removes exactly the leading run of slashes |
| AppPaths.PrefixIsTextual | backend/app/utils/path.py:17-20 | the prefix test compares text, not path components: `/a/bc` counts as lying below `/a/b` |
| AppPaths.ContinuationIsRelative | backend/app/utils/path.py:17-20 | for every base, any text continuing it that has no backslash and does not start with `/` is accepted, with or without a separating `/`, and is itself the relative path |
| ConfigStore.IsValidPath | backend/utils/path.py:8-18 | a valid path normalises to an absolute path free of `<`, `>`, `\|`, `*` and `?` |
| ConfigStore.ValidComponents | backend/utils/path.py:11-16 | for an absolute path given as components, validity is exactly: no component is `..` and no forbidden character occurs |
| ConfigStore.DotDotRejected | backend/utils/path.py:14 | a `..` component anywhere makes a normalised path invalid |
| ConfigStore.FirstBadEntry | backend/utils/config.py:52-54 | the scan reaches the end of the mapping exactly when both sides of every entry are valid paths, and every entry before the stopping point is valid |
| ConfigStore.SaveConfig | backend/utils/config.py:42-70 | saving succeeds exactly when both directories and every mapping entry are valid and the file is written; success makes the config the cached instance; any failure is a 500 that leaves the cache alone, with the source directory checked before the target |
| ConfigStore.GetConfig | backend/utils/config.py:18-23 | the cached instance is returned when present; otherwise a successful load becomes the cached instance and a failed one is a 500 that caches nothing |
| ConfigStore.ReloadConfig | backend/utils/config.py:72-76 | reloading always loads afresh, and caches the result only when loading succeeds |
| ConfigStore.GetConfigLoadsOnce | backend/utils/config.py:18-23 | after one successful `get_config`, later calls return the same instance whatever loading would now give |
| ConfigStore.SaveThenGet | backend/utils/config.py:42-76 | a saved config is what `get_config` returns next, without loading; a rejected one leaves `get_config` as it was |
| Cache.NewManager | backend/app/core/cache.py:82-128 | construction fails exactly for a strategy other than `ttl` and `lru`; a new manager is empty with zero counters |
| Cache.FullKeyInjective | backend/app/core/cache.py:130-132 | within one namespace, distinct keys never share a full key |
| Cache.Get | backend/app/core/cache.py:155-186 | every lookup counts exactly one hit or miss; a hit returns the stored value, records an access time and marks the key hot exactly when the access is fast; nothing stored changes |
| Cache.Set | backend/app/core/cache.py:188-231 | the full key maps to the value, wrapped exactly when tracking is on, its size is recorded, one set is counted, and every other key is untouched |
| Cache.GetAfterSet | backend/app/core/cache.py:168-178 | a value set is the value read back; an untracked `None` is stored but reads as a miss |
| Cache.SetLeavesOtherKeys | backend/app/core/cache.py:206-222 | setting one key changes what no other key reads |
| Cache.Invalidate | backend/app/core/cache.py:233-258 | the key is no longer stored; a stored key loses its access time, size and hot mark and becomes expired; a key not stored changes nothing |
| Cache.InvalidateThenMiss | backend/app/core/cache.py:233-258 | after `invalidate` the key misses, and invalidating twice is invalidating once |
| Cache.Clear | backend/app/core/cache.py:260-275 | every stored key becomes expired, all per-key data is emptied and the counters stay |
| Cache.ClearThenMiss | backend/app/core/cache.py:260-275 | after `clear` every key misses, and every key that was stored is recorded as expired |
| Cache.CleanupPass | backend/app/core/cache.py:336-357 | after a pass only stored keys keep access times, sizes and hot marks, and the expired set holds only stored keys; what is stored does not change |
| Cache.CleanupForgetsInvalidated | backend/app/core/cache.py:352-357 | a pass forgets an invalidated key's expiry, and after `clear` it empties the expired set, so the expired count does not count past invalidations |
| Cache.CleanupIdempotent | backend/app/core/cache.py:336-357 | a second pass changes nothing, and no pass changes what a key reads |
| Cache.HotKeyNameAsWritten | backend/app/core/cache.py:298 | `split(":", 1)[1]` raises exactly when the key has no ':', and otherwise yields a proper suffix of the key |
| Cache.HotKeyNameAsWrittenMangles | backend/app/core/cache.py:298 | for namespace `a:b` and key `k` the reported name is `b:k`, not `k` |
| Cache.HotKeyName | backend/app/core/cache.py:298 | removing this namespace's prefix gives a key whose full key is the input |
| Cache.HotKeyNameRoundTrip | backend/app/core/cache.py:130-132 | removing the prefix from a full key gives back the key, for every namespace |
| Cache.AsWrittenAgreesWithoutColon | backend/app/core/cache.py:298 | the code as written agrees with prefix removal exactly when the namespace has no ':' |
| Cache.GetStats | backend/app/core/cache.py:277-323 | under `AsWritten` the names are `split(":", 1)[1]` of each hot key and the call raises exactly when some hot key has no ':' (the names are built before the list is cut to ten); under `Corrected` they are the prefix removal; size and expired count are those of the manager; hit rate is hits over lookups and lies in [0, 1], error rate is failures over all operations; the first ten hot keys in iteration order are listed |
| Cache.Names | backend/app/core/cache.py:296-303 | one name per hot key, in order, and none at all exactly when some key has no name |
| Cache.HotKeysStayNamespaced | backend/app/core/cache.py:130-141 | every hot key is a full key of the manager's namespace, and `get`, `set`, `invalidate`, `clear` and the cleanup pass keep it so |
| Cache.GetStatsAgreeWithoutColon | backend/app/core/cache.py:296-303 | over namespaced hot keys the code as written never raises, and for a namespace without ':' it reports exactly the corrected names |
| Cache.GetStatsMangles | backend/app/core/cache.py:296-303 | for namespace `a:b` with hot key `k`, `get_stats` as written lists `b:k` and the correction lists `k` |
| Cache.Value | backend/app/core/cache.py:312-315 | a rate with nothing to divide by is 0, and a part of its whole lies in [0, 1] |
| Cache.ValueScales | backend/app/core/cache.py:312-315 | a rate times its whole is its part |
| Cache.GetInstance | backend/app/core/cache.py:63-80 | the registry keeps one manager per namespace; a known namespace returns its manager unchanged, a new one is built and added, and no existing manager changes |
| Cache.GetInstanceTwice | backend/app/core/cache.py:78-80 | asking twice for a namespace returns the same manager whatever the second call's arguments |
| Cache.DefaultCache | backend/app/core/cache.py:364-374 | the default instance uses the configured strategy, ttl and size when the strategy is known, and falls back to `ttl`, 300 and 1000 otherwise |
| Cache.CallCached | backend/app/core/cache.py:395-429 | a key-builder error runs the function uncached; a cached non-`None` value is returned without running it; otherwise the function runs, its error propagates with nothing stored, and its result is stored under the key |
| Cache.CachedTwice | backend/app/core/cache.py:408-413 | once a call has produced a value, the next call with the same key returns that value without running the function |
| Cache.CachedNoneRunsAgain | backend/app/core/cache.py:411-417 | a function returning `None` runs again on every call |
| Sessions.NewSessionManager | backend/app/core/session.py:22-28 | a new manager has no active, opened or failed sessions and no recorded times |
| Sessions.KeepRecent | backend/app/core/session.py:79-81 | the history keeps its last 1000 times in order once it grows past 1000, and is untouched otherwise |
| Sessions.Open | backend/app/core/session.py:48-51 | entering a session adds one active and one opened session |
| Sessions.Close | backend/app/core/session.py:53-81 | leaving a session ends it; a failure counts one failed session, re-raises and records no time; a commit records the elapsed time last; the history stays within its bound |
| Sessions.RunSession | backend/app/core/session.py:41-81 | a whole session block leaves the active count as it was, counts one more session, and raises exactly when the block failed, with that error |
| Sessions.RunAllCounts | backend/app/core/session.py:41-81 | after a run of session blocks, the active count is unchanged, one session is counted per block, one failure per failed block, and the history stays within its bound |
| Sessions.Stats | backend/app/core/session.py:30-39 | the counters are reported as kept; the average is 0 for an empty history and otherwise the sum of the times over their number |
| Sessions.AverageBetween | backend/app/core/session.py:37 | the average lies between the shortest and the longest recorded time |
| AppSettings.Check | backend/app/core/config.py:36 | one bound produces an error for its field exactly when it is broken |
| AppSettings.Need | backend/app/core/config.py:28-43 | a field's check reports it exactly when the input supplied the field and the bound is broken; a defaulted field is never checked |
| AppSettings.ValidateDrive | backend/app/core/config.py:22-32 | a supplied empty token file is rejected; a supplied one is normalised, a defaulted one kept, and nothing else changes |
| AppSettings.ValidateMonitor | backend/app/core/config.py:34-43 | rejected exactly when a supplied scan interval is under 60 or a supplied token file is empty, reporting each broken field; an accepted interval is kept, and at least 60 when supplied |
| AppSettings.ValidateSymlink | backend/app/core/config.py:45-58 | rejected exactly when a supplied directory is empty or a supplied backup count is under one, reporting each broken field; supplied directories are normalised, defaulted ones and the flags kept |
| AppSettings.ValidateEmby | backend/app/core/config.py:60-82 | rejected exactly when a supplied address is empty, a supplied API key is empty, or a supplied delay, timeout or retry count is out of range; a supplied address loses its trailing slashes |
| AppSettings.SlashOnlyServerUrlBecomesEmpty | backend/app/core/config.py:73-76 | the supplied address `/` passes the emptiness check and becomes the empty string |
| AppSettings.ValidateDatabase | backend/app/core/config.py:84-98 | rejected exactly when a supplied URL is empty or a supplied pool figure or batch size is under its bound; accepted settings are unchanged |
| AppSettings.ValidateSecurity | backend/app/core/config.py:100-117 | rejected exactly when a supplied algorithm is not HS256, HS384 or HS512 or a supplied expiry is under a minute; a supplied empty secret key is replaced by the generated token and a defaulted one stays as it is |
| AppSettings.ValidateCache | backend/app/core/config.py:119-131 | rejected exactly when a supplied strategy is not `ttl` or `lru` or a supplied figure is under its bound; accepted settings are unchanged |
| AppSettings.AllErrors | backend/app/core/config.py:133-143 | only fields the input supplied are ever reported |
| AppSettings.Validate | backend/app/core/config.py:133-143 | settings are rejected exactly when some group is, with every broken field reported and only supplied fields among them; accepted groups are each what their own check made of them |
| AppSettings.AcceptedIsSound | backend/app/core/config.py:22-143 | settings built from an input whose other fields hold their defaults satisfy every declared bound (all `ge=` bounds and every validator); the secret key is non-empty when supplied and empty when left out |
| AppSettings.RStripIdempotent | backend/app/core/config.py:76 | stripping trailing slashes twice is stripping them once |
| AppSettings.ValidateIdempotent | backend/app/core/config.py:234-272 | loading the saved form of built settings, which supplies every field, gives them back except that an empty secret key is generated afresh, unless the address was only slashes |
| AppSettings.OtherGroupsStayAccepted | backend/app/core/config.py:22-143 | every group but the server address passes its checks again when every field is supplied |
| AppSettings.SlashOnlyServerUrlNotReloadable | backend/app/core/config.py:73-76 | settings whose supplied address is `/` are accepted once, and rejected with exactly that field when their saved form is loaded |
| AppSettings.DefaultsAccepted | backend/app/core/config.py:249-251 | `Settings()` with nothing supplied is exactly the declared defaults, secret key empty |
| AppSettings.SavedDefaultsRekeyedOnLoad | backend/app/core/config.py:249-270 | the default file written with an empty secret key is accepted on every load, and each load's key is the token generated then |
| EmbyHttp.NewClient | backend/app/utils/emby.py:21-48 | the server address loses exactly its trailing slashes, and the counters start at zero with no error |
| EmbyHttp.UrlJoinsWithOneSlash | backend/app/utils/emby.py:80 | the request URL is the stripped server address, exactly one slash, and the endpoint without its leading slashes |
| EmbyHttp.Detail | backend/app/utils/emby.py:107-113 | a failed answer adds a detail only when its body is an object with an `error` field |
| EmbyHttp.Judge | backend/app/utils/emby.py:102-133 | an attempt succeeds exactly when it was answered with 204, or with 200 and a decodable body |
| EmbyHttp.Attempts | backend/app/utils/emby.py:93-133 | the retry loop stops at the first successful attempt, every earlier one having failed, and fails exactly when all remaining attempts fail, after using them all |
| EmbyHttp.MakeRequest | backend/app/utils/emby.py:61-133 | every call counts one request and sends the built URL with the key; a call fails after exactly `max_retries` attempts, counting one failed request and recording its error; with no attempts allowed the call returns nothing |
| EmbyHttp.MakeRequestSucceedsIff | backend/app/utils/emby.py:93-133 | a call succeeds exactly when one of its attempts does |
| EmbyHttp.MakeRequestFirstSuccess | backend/app/utils/emby.py:93-105 | a successful call returns the answer of its first successful attempt |
| EmbyHttp.AttemptsSucceedIff | backend/app/utils/emby.py:93-133 | the retry loop succeeds exactly when some attempt within the limit succeeds |
| EmbyHttp.ClientStats | backend/app/utils/emby.py:50-59 | the reported failures never exceed the reported requests |
| EmbyHttp.RunCalls | backend/app/utils/emby.py:90 | each call adds one to the request count |
| EmbyHttp.RunCallsSane | backend/app/utils/emby.py:90-132 | over any run of calls, failed requests never exceed requests and grow by at most one per call |
| EmbyHttp.RefreshLibrary | backend/app/utils/emby.py:135-162 | a non-empty path posts it to `/Library/Media/Updated`, otherwise `/Library/Refresh` is posted; the answer is true exactly when the request succeeds |
| EmbyHttp.GetServerInfo | backend/app/utils/emby.py:164-170 | asks `/System/Info` and returns its answer, or nothing when the request fails |
| EmbyHttp.ItemParams | backend/app/utils/emby.py:195-203 | `Recursive` is always sent as `true` or `false`, and a non-empty type list is sent comma-joined |
| EmbyHttp.ItemParamsPresent | backend/app/utils/emby.py:195-203 | exactly the parameters that have a value are sent, `Recursive` always |
| EmbyHttp.Opt | backend/app/utils/emby.py:203 | a parameter is kept exactly when it has a value |
| EmbyHttp.GetItems | backend/app/utils/emby.py:172-210 | sends the item parameters to `/Items` and returns the answer's `Items`, or an empty list when the request fails or the answer is not an object |
| EmbyHttp.GetItem | backend/app/utils/emby.py:212-225 | asks `/Items/<id>` and returns its answer, or nothing when the request fails |
| EmbyServiceClient.OrDefault | backend/app/modules/emby/client.py:26-28 | `value or default` on an integer: zero falls back to the default, anything else is kept |
| EmbyServiceClient.NewServiceClient | backend/app/modules/emby/client.py:17-30 | a zero timeout, retry count or delay falls back to 30, 3 and 5; the counters start at zero |
| EmbyServiceClient.ServiceClientAlwaysAttempts | backend/app/modules/emby/client.py:27 | with a retry count that is not negative, every call makes at least one attempt, since zero means 3 |
| EmbyServiceClient.RefreshByPath | backend/app/modules/emby/client.py:54-78 | a path below no configured library gives false without any request; otherwise its normalised form is refreshed and the answer is that refresh's |
| EmbyServiceClient.RefreshByPathSendsNormalised | backend/app/modules/emby/client.py:65-74 | an accepted non-empty path is posted to `/Library/Media/Updated` with forward slashes only |
| EmbyServiceClient.BackslashesMatchLibraries | backend/app/modules/emby/client.py:65-69 | a Windows-style path matches a library written with forward slashes, and the other way round |
| EmbyServiceClient.RefreshAll | backend/app/modules/emby/client.py:80-90 | posts `/Library/Refresh` and answers true exactly when the request succeeds |
| EmbyServiceClient.TestConnection | backend/app/modules/emby/client.py:92-103 | true exactly when the server information is an object with a truthy `Version`; one request is counted |
| EmbyServiceClient.ConnectedMeansAnswered | backend/app/modules/emby/client.py:92-103 | a passing connection test means some attempt was answered with 200 and a JSON object |
| EmbyServiceClient.MapItems | backend/app/modules/emby/client.py:42-52 | a list whose every item has `Id` and `Name` is mapped item by item; anything else gives an empty list |
| EmbyServiceClient.LibraryDefaults | backend/app/modules/emby/client.py:42-48 | an item with only `Id` and `Name` maps to a library of type `unknown`, empty path and no children |
| EmbyServiceClient.GetLibraries | backend/app/modules/emby/client.py:32-52 | asks only for collection folders, non-recursively, and maps what comes back; a failed request gives an empty list |
| EmbyServiceClient.OneBadItemEmptiesLibraries | backend/app/modules/emby/client.py:42-52 | one folder without `Id` or `Name` empties the whole list |
| EmbyServiceClient.TypeFilter | backend/app/modules/emby/client.py:128 | an item type is asked for exactly when a non-empty one is given |
| EmbyServiceClient.GetLibraryItems | backend/app/modules/emby/client.py:105-148 | asks for the library's items recursively with the given sort and limit, and maps them; a failed request gives an empty list |
| EmbyServiceClient.LibraryItemsQuery | backend/app/modules/emby/client.py:126-133 | the query is always recursive, below the library and sorted, and names a type exactly when one is given |
| EmbyServiceClient.GetItemDetails | backend/app/modules/emby/client.py:150-185 | details exist exactly when the item was fetched and has `Id` and `Name`, and their item part is the item's mapping |
| EmbyService.NewService | backend/app/modules/emby/service.py:18-31 | the service is enabled exactly when a non-empty API key is configured, and starts not ready with no errors |
| EmbyService.ServerPaths | backend/app/modules/emby/service.py:86-89 | the server's library paths are collected with forward slashes only |
| EmbyService.Normalized | backend/app/modules/emby/service.py:91-92 | each configured library path is normalised in place |
| EmbyService.ProbeServer | backend/app/modules/emby/service.py:70-89 | the probe passes exactly when the connection test passes and a non-empty library list with usable paths comes back; a failed test is a connection error |
| EmbyService.Initialize | backend/app/modules/emby/service.py:55-105 | a disabled service becomes ready at once; an enabled one is ready exactly when initialisation succeeds, which clears the last error, and each failure counts one error and records it |
| EmbyService.LibraryPathsOnlyWarn | backend/app/modules/emby/service.py:91-94 | the configured library paths never change the outcome of initialisation |
| EmbyService.InitializeState | backend/app/modules/emby/service.py:61-105 | the state an enabled service is left in after initialisation, for success and for each failure |
| EmbyService.WarningsAreUncovered | backend/app/modules/emby/service.py:86-94 | a warning is given for exactly the normalised configured paths that no server library path begins |
| EmbyService.ReadyMeansLibraries | backend/app/modules/emby/service.py:70-83 | an enabled service is ready only if the server passed the connection test and listed at least one library |
| EmbyService.RefreshMedia | backend/app/modules/emby/service.py:107-131 | a disabled service answers true without a request; a non-empty path is refreshed by path, otherwise everything is; the service's own counters do not move |
| EmbyService.RefreshMediaOutsideLibraries | backend/app/modules/emby/service.py:117-125 | a path below no configured library is refused without reaching the server |
| EmbyService.Guarded | backend/app/modules/emby/service.py:139-149 | a service that is not ready returns the fallback unchanged; a ready service without a client counts an error and returns the fallback; otherwise the client's answer is returned |
| EmbyService.ServiceGetLibraries | backend/app/modules/emby/service.py:133-149 | nothing before the service is ready, the client's libraries after |
| EmbyService.ServiceGetLibraryItems | backend/app/modules/emby/service.py:151-187 | nothing before the service is ready, the client's library items after |
| EmbyService.ServiceGetItemDetails | backend/app/modules/emby/service.py:189-208 | nothing before the service is ready, the client's item details after |
| EmbyService.DisabledServiceGettersCountErrors | backend/app/modules/emby/service.py:65-149 | a service without an API key initialises as ready, and then each getter returns nothing and counts an error |
| EmbyService.NotReadyGettersSendNothing | backend/app/modules/emby/service.py:139-200 | a service that is not ready changes nothing when its getters are called |
| DriveActivity.In | backend/utils/gdrive.py:110-120 | `key in v` is key membership for an object, element membership for a list, and raises for null, booleans and numbers |
| DriveActivity.Relevant | backend/utils/gdrive.py:103-110 | an activity without a truthy primary action is irrelevant; one whose action is an object is relevant exactly when it has a `create`, `edit` or `move` key |
| DriveActivity.FirstDriveItem | backend/utils/gdrive.py:120 | the chosen target is the first that has a `driveItem`, every earlier one lacking it; none is chosen exactly when no target has one |
| DriveActivity.ItemId | backend/utils/gdrive.py:129 | the file id is the text after the last '/' of the item name, and holds no '/' |
| DriveActivity.ParseItem | backend/utils/gdrive.py:124-132 | the file part takes the id from the name and the title and MIME type as given, empty when missing; a drive item that is not an object raises |
| DriveActivity.ParseActivity | backend/utils/gdrive.py:112-133 | a missing primary action raises before the targets are read; otherwise no or empty targets give nothing; a parsed activity comes from the first drive-item target, keeps the timestamp, and takes the first key of the primary action as its type |
| DriveActivity.ParentOf | backend/utils/gdrive.py:37-45 | the next ancestor is the first parent, and an empty id ends the walk |
| DriveActivity.Ancestry | backend/utils/gdrive.py:36-45 | the walk starts with the file's own name and fails for an unknown id |
| DriveActivity.Reverse | backend/utils/gdrive.py:47 | the names are reversed element by element |
| DriveActivity.FilePath | backend/utils/gdrive.py:27-51 | an unknown file has no path |
| DriveActivity.AncestryOfChain | backend/utils/gdrive.py:39-45 | walking a chain of parents collects exactly the chain's names, child first |
| DriveActivity.FilePathOfChain | backend/utils/gdrive.py:27-47 | the path of a file is its ancestors' names from the top down and its own, joined with '/' |
| DriveActivity.ParseInt | backend/utils/gdrive.py:65-67 | `int()` reads a run of decimal digits as its value |
| DriveActivity.WindowStart | backend/utils/gdrive.py:63-67 | a filter ending in `h` or `d` starts that many hours or days before now; any other filter leaves the start unset, and the call raises |
| DriveActivity.WindowStartOfRendered | backend/utils/gdrive.py:64-67 | a written window `<n>h` or `<n>d` reads back as n hours or n days |
| DriveActivity.PagesRead | backend/utils/gdrive.py:78-96 | the loop reads pages up to and including the first without a next-page token |
| DriveActivity.Keep | backend/utils/gdrive.py:84-91 | an activity is kept exactly when it is relevant, parses into a target and its file path resolves to a non-empty string, and then carries that path; an irrelevant one is skipped |
| DriveActivity.KeepAll | backend/utils/gdrive.py:82-91 | the result holds exactly the kept activities, no more than there were, and fails exactly when one of them raises |
| DriveActivity.KeepAllSingle | backend/utils/gdrive.py:84-91 | one activity contributes its error, nothing, or exactly its own kept entry |
| DriveActivity.KeepAllAppend | backend/utils/gdrive.py:82-91 | the kept activities of `a + b` are those of `a` followed by those of `b`, and the first error in that order is raised: the result keeps the activities' order |
| DriveActivity.AndThenAssoc | backend/utils/gdrive.py:82-91 | running three parts of a loop in turn does not depend on how they are grouped |
| DriveActivity.Flatten | backend/utils/gdrive.py:78-82 | the activities looked at are exactly those on the pages |
| DriveActivity.GetActivities | backend/utils/gdrive.py:53-101 | an unreadable filter raises; otherwise the call fails exactly when an activity on a page read raises, and returns exactly what those pages keep |
| DriveActivity.KeepAllOfFlatten | backend/utils/gdrive.py:78-91 | keeping the activities of all pages is keeping each page's activities in turn |
| DriveActivity.GetActivitiesPageByPage | backend/utils/gdrive.py:53-101 | with a readable filter, the activities come back page after page and, within a page, in listing order |
| DriveHandler.FirstPrefix | backend/handlers/gdrive.py:102-103 | the chosen entry is the first whose Drive prefix starts the path, no earlier one matching |
| DriveHandler.MapToLocalPathAsWritten | backend/handlers/gdrive.py:100-105 | no mapping when no prefix matches; otherwise every occurrence of the first matching prefix is replaced by its local prefix |
| DriveHandler.MapAsWrittenRewritesInnerOccurrence | backend/handlers/gdrive.py:104 | `/a/x/a` under the mapping `/a` to `/b` becomes `/b/x/b`, not `/b/x/a` |
| DriveHandler.MapToLocalPath | backend/handlers/gdrive.py:100-105 | no mapping exactly when no prefix matches; otherwise the first matching prefix, and only it, is exchanged for its local prefix and the rest of the path is kept |
| DriveHandler.MapToLocalPathOfPrefixed | backend/handlers/gdrive.py:102-104 | a prefix followed by any rest maps to the local prefix followed by the same rest, when no earlier entry claims the path |
| DriveHandler.FirstPrefixIs | backend/handlers/gdrive.py:102-103 | the first matching entry is the one found |
| DriveHandler.MappingsAgreeOnSingleOccurrence | backend/handlers/gdrive.py:104 | the code as written and the prefix exchange agree whenever the prefix does not occur again later in the path |
| DriveHandler.ProcessAll | backend/handlers/gdrive.py:127-140 | under either mapping (`AsWritten` is the code's `str.replace`), the count is the number of created, edited or moved activities whose local path is non-empty; the call fails exactly when one of those links raises, and then with its error |
| DriveHandler.CheckActivities | backend/handlers/gdrive.py:107-149 | with `AsWritten`, `check_activities` as the code has it: a disabled monitor answers `disabled`; otherwise the answer reports how many activities were fetched and how many were processed through `str.replace` mapping, and every failure, in fetching or in linking, is a 500 |
| DriveHandler.ProcessedWithinActivities | backend/handlers/gdrive.py:127-146 | for the endpoint as written and for the corrected mapping alike: never more processed than fetched, and when all were processed every one is a create, edit or move |
| DriveHandler.EmptiedPathSkippedAsWritten | backend/handlers/gdrive.py:104-140 | an activity at `aa` under the entry `a` to `""` is skipped as written, because `str.replace` leaves an empty, falsy local path, while the corrected mapping links it at `a` |
| DriveClient.FirstLineWith | backend/app/modules/monitor/gdrive.py:36-37 | the chosen line is the first starting with the prefix, no earlier one doing so |
| DriveClient.LoadRcloneToken | backend/app/modules/monitor/gdrive.py:32-44 | an unreadable file gives false; otherwise loading succeeds exactly when the first `token = ` line's value decodes, and the credentials change only then, to that value |
| DriveClient.LoadRcloneTokenOfLines | backend/app/modules/monitor/gdrive.py:36-41 | a configuration whose first token line is `token = <t>` loads exactly when `t` decodes, whatever later lines say |
| DriveClient.FindFirst | backend/app/modules/monitor/gdrive.py:52-53 | the position of the first occurrence of the pattern, or -1 exactly when it does not occur |
| DriveClient.SecondPiece | backend/app/modules/monitor/gdrive.py:53 | `split(p)[1]` holds no occurrence of `p` |
| DriveClient.HandleCallback | backend/app/modules/monitor/gdrive.py:50-62 | a path containing `code=` is answered 200 and records a code without '&'; any other path gets 400 and no code |
| DriveClient.HandleCallbackOf | backend/app/modules/monitor/gdrive.py:52-53 | a callback of the shape `<pre>code=<c>&<more>` records exactly `c` |
| DriveClient.First | backend/app/modules/monitor/gdrive.py:175 | `[0]` of a non-empty list is its first element, and of an empty list raises |
| DriveClient.ChangeOf | backend/app/modules/monitor/gdrive.py:174-186 | no targets key gives no record; an empty target list raises; a record comes from a first target holding a `driveItem`, with the first action key or `unknown` and the timestamp or empty |
| DriveClient.ChangesOf | backend/app/modules/monitor/gdrive.py:173-186 | the records are exactly those the activities give, no more records than activities, and the call raises exactly when one activity does |
| DriveClient.ChangesOfSingle | backend/app/modules/monitor/gdrive.py:174-186 | one activity yields its error, nothing, or exactly its one record |
| DriveClient.ChangesOfAppend | backend/app/modules/monitor/gdrive.py:173-186 | the records of `a + b` are those of `a` followed by those of `b`, the first error raised: records come in activity order, at most one each |
| DriveClient.ActivitiesOf | backend/app/modules/monitor/gdrive.py:173 | no `activities` key gives an empty run; a list is taken as it is |
| DriveClient.GetChanges | backend/app/modules/monitor/gdrive.py:157-193 | before any check time is set the result is empty and nothing changes; otherwise success gives exactly the records of the answer and moves the check time to now, and any error is re-raised with the check time kept |
| DriveClient.EmptyTargetsFail | backend/app/modules/monitor/gdrive.py:175 | one activity with an empty target list fails the whole call and keeps the check time |
| DriveClient.ListFiles | backend/app/modules/monitor/gdrive.py:195-220 | an error is one some page request raised |
| DriveClient.ListFilesAnswered | backend/app/modules/monitor/gdrive.py:201-216 | when every request is answered, the listing is the files of the pages read, up to the first without a next-page token, in order |
| FileOps.OsBasename | backend/utils/file.py:37 | the base name holds no '/' and ends the path |
| FileOps.AppAction | backend/app/utils/file.py:44-55 | `DELETE` removes a tree or a file as the path is a directory or not; `MOVE` and `COPY` act only with a target, copying a tree for a directory; any other operation name does nothing |
| FileOps.ToolAction | backend/utils/file.py:30-41 | delete removes a tree or a file; without a target, copy and move do nothing; a directory is copied into the target under its own base name, a file to the target, and move moves to the target |
| FileOps.CopiedTreeKeepsName | backend/utils/file.py:37 | a copied directory lands at `<target>/<name>`, whose base name is the directory's own |
| FileOps.Outcome | backend/app/utils/file.py:43-58 | doing nothing never raises; any other action raises as the filesystem decides |
| FileOps.RunBatch | backend/app/utils/file.py:42-58 | the loop's two lists are the successes and the failures of the paths, in order |
| FileOps.BatchPartition | backend/app/utils/file.py:42-58 | every path lands on exactly one of the two lists, counted with repetition |
| FileOps.FailuresAreRaised | backend/utils/file.py:43-44 | every failure names a path whose action raised, with that error |
| FileOps.NothingToDoSucceeds | backend/app/utils/file.py:44-56 | when no path needs any action, every path is a success and none fails |
| FileOps.AppBatchOperation | backend/app/utils/file.py:36-67 | success and failed lists together are the input paths, each once per occurrence; an unknown operation name, or a move or copy without a target, reports every path a success |
| FileOps.ToolBatchOperation | backend/utils/file.py:22-51 | success and failure lists together are the input paths; each failure carries the error its action raised; a copy or move without a target reports every path a success |
| FileOps.ToolFailuresRaised | backend/utils/file.py:29-44 | each reported failure is a path whose chosen action raised that error |
| FileOps.ToolNothingToDo | backend/utils/file.py:35-42 | a copy or move without a target succeeds for every path |
| FileOps.ListDirectory | backend/app/utils/file.py:21-34 | a missing path and a non-directory are distinct errors; a directory lists one entry per name, each joined to the path |
| FileOps.ListedNamesRoundTrip | backend/app/utils/file.py:30-32 | each listed entry's base name is the name it was listed under |
| WebPath.ContainsDoubleSlash | frontend/graylink-web/src/utils/path.ts:13 | `includes('//')` holds exactly when two slashes are adjacent somewhere |
| WebPath.IsValidPath | frontend/graylink-web/src/utils/path.ts:6-18 | valid exactly when non-empty, '/'-led, free of `..` and `//`, and free of `<>:"\|?*` and control characters |
| WebPath.Collapse | frontend/graylink-web/src/utils/path.ts:31 | each run of slashes becomes one: the result has no doubled slash, keeps the first and last character, and leaves a path without doubled slashes alone |
| WebPath.NormalizePath | frontend/graylink-web/src/utils/path.ts:21-34 | the empty path becomes the root; a path holding a name becomes '/'-led, without a trailing or doubled slash; a run of slashes becomes the empty string, the root staying the root |
| WebPath.NormalFixpoint | frontend/graylink-web/src/utils/path.ts:21-34 | normalisation leaves a path alone exactly when it is the root or '/'-led without a trailing or doubled slash |
| WebPath.NormalizeIdempotent | frontend/graylink-web/src/utils/path.ts:21-34 | for a path holding a name, the root, or the empty path, normalising twice is normalising once |
| WebPath.SlashesNotIdempotent | frontend/graylink-web/src/utils/path.ts:28-31 | `//` normalises to the empty string, which normalises to `/`: normalisation is not idempotent there |
| WebPath.ValidIsNormal | frontend/graylink-web/src/utils/path.ts:6-34 | a valid path without a trailing slash is already normal |
| WebPath.GetParentPath | frontend/graylink-web/src/utils/path.ts:37-41 | the root for the empty path and the root; otherwise a normal path that, with a '/', begins the normalised path, the rest holding no '/' |
| WebPath.GetPathName | frontend/graylink-web/src/utils/path.ts:44-48 | `/` for the empty path and the root; otherwise a non-empty name without '/' that ends the normalised path |
| WebPath.JoinPath | frontend/graylink-web/src/utils/path.ts:51-53 | the joined parts normalise to a normal path or the empty string |
| WebPath.JoinTwo | frontend/graylink-web/src/utils/path.ts:51-53 | joining two parts is normalising them with a '/' between |
| WebPath.ParentNameRoundTrip | frontend/graylink-web/src/utils/path.ts:37-53 | joining a path's parent and name gives back the normalised path |
| WebPath.IsSubPath | frontend/graylink-web/src/utils/path.ts:56-64 | everything lies below the root; nothing else holds the root; otherwise the normalised child is the normalised parent, a '/', and more |
| WebPath.NotOwnSubPath | frontend/graylink-web/src/utils/path.ts:56-64 | no path other than the root lies below itself |
| WebPath.JoinedIsSubPath | frontend/graylink-web/src/utils/path.ts:51-64 | a name joined onto a normal path lies below it |
| WebPath.Segments | frontend/graylink-web/src/utils/path.ts:77-78 | `split('/').filter(Boolean)` yields no empty segment |
| WebPath.CommonPrefix | frontend/graylink-web/src/utils/path.ts:80-84 | the shared leading segments are equal, and the next ones, where both exist, differ |
| WebPath.GetRelativePath | frontend/graylink-web/src/utils/path.ts:67-91 | `.` for equal paths; below the root, the path without its leading '/'; below a parent, what follows the parent and its '/'; otherwise its '/'-separated pieces are one `..` per segment of `from` past the shared leading segments, then the segments of `to` past them (empty when there are none) |
| WebPath.Climb | frontend/graylink-web/src/utils/path.ts:77-90 | splitting the climb at '/' gives back the `..` pieces and the unshared segments of `to`, in order |
| WebPath.JoinRelativeRoundTrip | frontend/graylink-web/src/utils/path.ts:51-75 | for any `from`, joining it and the relative path to a normal `to` below it (other than `from`'s normal form) gives `to` back |
| WebPath.NamedThenNormal | frontend/graylink-web/src/utils/path.ts:21-34 | a path holding a name, then '/' and a rest, normalises to the path's normal form, '/' and the rest, whenever that has no doubled slash |
| WebPath.CollapseLeft | frontend/graylink-web/src/utils/path.ts:31 | collapsing a prefix first collapses the same runs of slashes |
| WebPath.CollapseRight | frontend/graylink-web/src/utils/path.ts:31 | collapsing a suffix first collapses the same runs of slashes |
| WebPath.SiblingRelative | frontend/graylink-web/src/utils/path.ts:77-90 | from `/a/b` to `/a/c` the relative path is `../c` |
| Durations.JsRem | frontend/graylink-web/src/utils/time.ts:48-49 | JavaScript `%` on an integer: for a non-negative dividend the usual remainder, for a negative one a remainder of the dividend's sign |
| Durations.ClockOf | frontend/graylink-web/src/utils/time.ts:47-49 | for a non-negative duration, hours, minutes under 60 and seconds under 60 that add back up to it |
| Durations.ClockParts | frontend/graylink-web/src/utils/time.ts:51-54 | the pushed parts are in hours, minutes, seconds order, each positive, save a lone zero-second part when nothing else was pushed |
| Durations.ClockPartsTotal | frontend/graylink-web/src/utils/time.ts:47-54 | the pushed parts of a non-negative duration add up to it |
| Durations.FormatDuration | frontend/graylink-web/src/utils/time.ts:46-57 | a negative duration renders only its JavaScript remainder in seconds |
| Durations.FormatDurationRoundTrip | frontend/graylink-web/src/utils/time.ts:46-57 | every non-negative duration reads back from its text as itself |
| Durations.FormatDurationExamples | frontend/graylink-web/src/utils/time.ts:46-57 | zero is `0秒` and a whole hour is `1小时` alone |
| Durations.ReadRender | frontend/graylink-web/src/utils/time.ts:56 | rendered non-negative amounts, joined, read back as their total |
| Durations.RelativeTime | frontend/graylink-web/src/utils/time.ts:64-79 | under a second is `刚刚`; otherwise the largest of days, hours, minutes and seconds that is at least one, counted by floor division |
| Durations.NestedUnits | frontend/graylink-web/src/utils/time.ts:69-72 | counting seconds, then minutes, hours and days of them, is dividing the milliseconds by each unit at once |
| Durations.RelativeTimeReadBack | frontend/graylink-web/src/utils/time.ts:64-79 | the relative text names one unit, and its count times the unit is at most the difference, one more exceeding it |
| Durations.FormatMillis | frontend/graylink-web/src/utils/format.ts:20-26 | under a second is the milliseconds as they are; under a minute the whole seconds; otherwise the whole minutes |
| Durations.FormatMillisReadBack | frontend/graylink-web/src/utils/format.ts:20-26 | the text of a non-negative duration names one unit, and its count is the duration in that unit rounded down |
| Decimal.NatToString | frontend/graylink-web/src/utils/time.ts:52-54 | a template `${n}` of a non-negative integer is its shortest decimal text: digits only, no leading zero |
| Decimal.ParseNatToString | frontend/graylink-web/src/utils/time.ts:52-54 | the decimal text of a number reads back as the number |
| Decimal.Padded | backend/app/modules/symlink/manager.py:283 | a `%m`, `%d`, `%H`, `%M`, `%S` or `%Y` field is exactly its width of digits |

## Left out

- Network, OAuth and credentials. The Google client calls, `authenticate` and the local, remote and device-code flows, token saving and credential loading are left out. The parsed answers of the Drive API enter the model as parameters.
- User authentication and security: password hashing and JWT handling sit outside the sync pipeline.
- Stub route handlers, app wiring, middleware, the database engine setup and the ORM base hold no logic of their own.
- File I/O of settings: `Settings.load_config`, `save_config`, `backup_config` and `ensure_directory`. Validation of the loaded values is modelled.
- Other file and database I/O:
  - `optimize_database`, because it is plain SQL;
  - `copy_with_symlinks`, `list_files` and `list_directories`, because they are directory walks;
  - `_get_backup_size` and `_load_symlinks`;
  - `get_file_info`, because it relies on `os.stat`.
- SQL `LIKE` wildcards and case folding. A prefix query is modelled as a textual prefix test.
- Directory walk order. The order of `os.walk` and `os.listdir` is a parameter.
- Floating point:
  - Cache access times, hot-key timing and the average access time are left out.
  - Hit, error and success rates are exact ratios (`Cache.Value`), without float rounding.
  - Session durations are natural numbers rather than floats.
  - Slow-query durations are opaque numbers.
  - `formatFileSize`, `formatFileSizeWithUnit` and the locale-dependent `formatTime` are left out.
- Date parsing. RFC 3339 timestamps and `datetime` values are integer seconds.
- Non-integer JavaScript numbers. The time helpers take integer inputs.
- Concurrency and timing:
  - asyncio tasks, queue timeouts, sleeps and task cancellation become sequential steps;
  - a timeout becomes an explicit choice in the input;
  - the cache cleanup task is one cleanup pass;
  - the frontend loading timers are left out.
- Cache eviction. The cachetools TTL and LRU internals are not modelled, and the cache is an unbounded map.
- Cache.Set: the `except` branch of `set` is not modelled, because nothing in the modelled operations can raise there.
- `@cached` decorators on the Emby and Drive methods: the undecorated bodies are modelled, and `Cache.CallCached` models the decorator on its own.
- SymlinkManager.VerifyLinks and SymlinkManager.VerifyEffect model the undecorated body of `verify`. Under `@cached` (manager.py:165), whose wrapper is a coroutine function, the plain `verify` becomes a coroutine. `rebuild` never awaits it, so no entry is checked or removed there (`SymlinkManager.Rebuild`). The `stats` property raises `TypeError` when it unpacks the coroutine. An awaited call would raise `TypeError` at `await func(...)` after the removals, so the counts reach no caller. The verify pass is used only by the corrected `SymlinkManager.RebuildVerifying`.
- Scanner.ScanWith and Scanner.Scan read the stored rows fresh on every scan. In the code `_get_existing_records` is `@cached` (scanner.py:122). `CacheManager.set` drops the per-call ttl, so the answer lives for the manager's default ttl, or indefinitely under `lru`, and a cached empty list is served too. A repeat scan over the same ids can therefore see a stale snapshot, report files `added` again and fail at the commit on the unique `path` column. Database.FilesByPath (`get_files_by_path`, database manager.py:87) and FileRecords.ParentPath (`get_parent_path`, models.py:85) are cached the same way and are modelled as fresh reads.
- ScannerFacts.MatchedRowOutcome and Scanner.Step compare modified times as integers. In the code the listed time is timezone-aware (scanner.py:73-75), while a `DateTime` column read back from SQLite is naive (models.py:23). For a record loaded from the table, the comparison at scanner.py:89 raises `TypeError`. The per-file `except` then skips the file, so it is never reported `modified` or updated. The model reports it `modified`.
- Database.Patch carries only the seven `FileRecord` columns. An unknown key makes `FileRecord(**record)` raise `TypeError` on insert (manager.py:174), while `setattr` accepts it on update (manager.py:169-170); neither case is modelled.
- FileSystem.RealPath follows links only at the last component of a path. A symlinked directory in the middle of a path is not resolved.
- DriveActivity.ParseInt accepts decimal digits only. Python's `int()` also accepts surrounding whitespace, a sign and `_` separators.
- test_emby_connection in `backend/utils/emby.py` is an HTTP probe with no logic beyond the call.
- The Drive webhook `handle_gdrive_change` only forwards to code that is modelled elsewhere.
- The code has no library-level refresh deduplication and no longest-prefix remapping of local paths to server paths, so neither appears in the model.
- Frontend stores, API modules, router, type declarations and UI components.
- Database.RunBatch: the flush is taken to issue its UPDATEs in row order and its INSERTs after them. SQLAlchemy orders pending updates by primary key, and the row order of the table follows the primary key. A row whose UPDATE changes nothing is treated as written.
- Scanner.ScanWith takes the commit's flush in the same order, with its DELETEs last, as SQLAlchemy issues them.
- Scanner.Ids: every listed entry carries an `id`. In the code `{f['id'] for f in files}` (scanner.py:64) runs outside the per-file `try`, so one entry without `id` fails the whole scan and rolls it back.
- Settings defaults: the settings library validates only the values an input supplies. `AppSettings` therefore checks a field only when it is in `given`. Unsupplied fields hold their declared defaults (`AppSettings.DefaultedOutside`). A default secret key stays empty. An empty key written to a file is regenerated on every load.
- ScannerFacts.FirstScanQuiet and ScannerFacts.ScanConfirmingIdempotent are proved only for a snapshot with one record per id and a listing with distinct ids whose entries all carry a modified time and pass the validators. A listed entry that fails validation is skipped by the scan, so no snapshot reflects it.
- DriveActivity.Ancestry: the walk up the parent chain carries a fuel bound. `DriveActivity.AncestryOfChain` shows that fuel of at least the chain's length gives the source's answer. A cycle of parents, on which the source would loop forever, yields `None`.

## Findings

| source | as written | input that shows it | evidently intended | confidence | as-written member | corrected member |
|---|---|---|---|---|---|---|
| backend/app/modules/monitor/scanner.py:89-95 | An unchanged record is left untouched, so its `last_checked` is never refreshed. The 30-day sweep then deletes records that are still in the Drive listing, and the next scan reports them as `added` again. | A record listed with the same modified time in every scan, checked more than 30 days after it was stored. | Each scan confirms every listed record, so the sweep removes only files that left the listing. | not executed | ScannerFacts.ScanForgetsConfirmedRecords | ScannerFacts.ScanConfirmingIdempotent |
| backend/app/modules/monitor/service.py:56-73 | `start` does not reset `retry_count`. After the loop gives up at `max_retries`, a restarted service stops again on its first failed scan, with no retry. | Any `max_retries`: failures until the loop stops, then `start`, then one more failure. | A fresh start retries again with the full budget. | not executed | MonitorService.RestartKeepsExhaustedCounter | MonitorService.RestartFreshRetriesAgain |
| backend/app/core/cache.py:298 | Hot keys are reported as the text after the first `:` of the stored key, which cuts namespaces that themselves contain `:`. | namespace `a:b` and key `k` give the stored key `a:b:k`, reported as `b:k`. | The reported key is the caller's key. | not executed | Cache.HotKeyNameAsWrittenMangles, Cache.GetStatsMangles | Cache.HotKeyNameRoundTrip, Cache.GetStatsAgreeWithoutColon |
| backend/app/modules/symlink/manager.py:222-223 | `rebuild` calls `self.verify()` without `await`. `verify` is wrapped by the coroutine-producing `cached`, so the verify pass never runs and `verify_first` has no effect. | One registered entry whose target exists but whose source is gone, with `verify_first=True`: `create` fails on the missing source, so `rebuild` returns false and the entry stays. | The orphan is removed by the verify pass, and the rebuild succeeds. | not executed | SymlinkManager.OrphanFailsRebuild | SymlinkManager.OrphanRemovedBeforeRebuild |
| backend/handlers/gdrive.py:104 | `str.replace` substitutes every occurrence of the matching Drive prefix, not just the leading one. | prefix `/a` mapped to `/b` turns `/a/x/a` into `/b/x/b`. | Only the leading prefix is replaced. | not executed | DriveHandler.MapAsWrittenRewritesInnerOccurrence | DriveHandler.MapToLocalPathOfPrefixed |

## Notes on the source

These are behaviours of the code that a reader might not expect. The model follows the code in each.

### The scanner

- **Unchanged records.** A record whose modified time is unchanged is left untouched, so its `last_checked` is never refreshed (the first finding).
- **Atomicity.** A scan is not all-or-nothing. An error for one file skips only that file, any other error rolls back and re-raises, and the 30-day sweep and its commit run afterwards in every case.
- **Stored paths.** The scanner stores `path = name`, while deletions are found with `path LIKE directory/%`. A record the scanner created is therefore seen as deleted only when its name happens to start with `directory/`.

### Symlinks

- **Backup names.** A backup is written to `<backup_dir>/<name>_<YYYYmmdd_HHMMSS>`, with `data/symlink_backups` as the default directory. Two backups of the same name in one second collide (`SymlinkManager.SameSecondBackupsCollide`).
- **Verify.** Verification splits the registered links into missing, invalid and valid, and removes the invalid ones as orphans. Whether a link resolves under the source root plays no part.
- **Remove.** Removing a link leaves its parent directories in place, even when they become empty.
- **Rebuild.** A rebuild does not clear the existing links. It re-creates only the entries whose target or source is missing. Its verify pass never runs (the fourth finding).
- **`verify_symlink`.** Its "target missing" answer cannot be reached, because `exists` follows links.
- **Dangling targets.**
  - A dangling link at the target makes `create_symlink` fail (`SymlinkUtil.DanglingTargetFails`).
  - `remove` of a registered dangling link leaves the link file in place (`SymlinkManager.RemoveLeavesDanglingLink`).

### The monitor and its events

- **Retry delay.** The delay between retries is linear, `retry_delay * retry_count`. A restart keeps the exhausted counter (the second finding).
- **Processing flag.** `events.py` never resets `_is_processing`, so at most one processing task is ever started.

### Storage and settings

- **Duplicate ids in one batch.** The batched upsert computes its map of existing ids once per batch, so two new records with the same id in one batch are both inserted (`Database.SameBatchDuplicatesBothInserted`).
- **Slash-only server URL.** A slash-only Emby `server_url` passes validation once, because emptiness is tested before the trailing `/` are stripped. The stored empty value is then rejected on reload (`AppSettings.SlashOnlyServerUrlNotReloadable`).
- **Cached `None`.** A function whose result is `None` is re-run on every call through `cached` (`Cache.CachedNoneRunsAgain`).

### File operations

- **Unreachable `except`.** Both `batch_operation`s catch every error per path, so their outer `except` cannot be reached. `backend/app/utils/file.py` compares the operation against upper-case names.

### Emby and Drive

- **`get_changes`.** It indexes the first target without a guard, so an activity with an empty target list raises (`DriveClient.EmptyTargetsFail`). Its time filter appends `Z` to the `isoformat()` of an aware time, which gives `…+00:00Z`, not a valid timestamp (`backend/app/modules/monitor/gdrive.py`, line 166). The query answer is a parameter of the model, so this has no effect on it.
- **`get_activities`.** It leaves its start time unbound for a time filter that is neither `Nh` nor `Nd`, so the call raises (`DriveActivity.WindowStart`).
- **OAuth callback.** An empty `code=` answers 200, but the waiting loop tests the code for truthiness and keeps waiting.

### The web frontend

- **`normalizePath`.** It is not idempotent: `//` becomes `''` and then `/` (`WebPath.SlashesNotIdempotent`).
- **Negative inputs.** JavaScript's `%` truncates toward zero (`Durations.JsRem`). `formatDuration` therefore renders only the JavaScript remainder of a negative input, in seconds: `0秒` for a multiple of 60, and otherwise one negative seconds part. The hour and minute parts are not positive and are dropped.

### Source files that do not load as shown

Several files would not import as shown. The model takes each function as written.
- `emby/client.py` and `emby/service.py` import `EmbyConfig`, which `core/config.py` does not define. It defines `EmbySettings`.
- `backend/handlers/gdrive.py` does not parse, because of a `try` without `except` at line 182. It also uses an undefined `logger`.
- `backend/utils/gdrive.py` calls `self._load_credentials()` (line 25) and `self._save_credentials()` (line 174), and neither method is defined.
- `backend/utils/config.py` imports configuration classes that its models module lacks.
- `session.py` imports `cache` from `app.core.cache`, which defines `default_cache`.
- `database/manager.py` imports the same undefined `cache` (line 13) and uses it in `get_stats` (line 128).
- `monitor/events.py` calls `create_symlink` and `remove_symlink` on the symlink manager (lines 147 and 177), which defines `create` and `remove`. It calls `refresh_by_paths` on the Emby service (line 187), which defines `refresh_media`. It also builds `EmbyService()` without the config its constructor requires (line 30).

=== FILE: app_paths.dfy ===
/** The backend's path helpers (`normalize_path`, `get_relative_path`):
    slash normalisation and the textual relative path below a base. */
module AppPaths {
  import opened Wrappers
  import opened Text

  /** `normalize_path`: every backslash becomes a forward slash. */
  function NormalizePath(path: string): (r: string)
    ensures |r| == |path| && '\\' !in r
    ensures forall i :: 0 <= i < |path| && path[i] != '\\' ==> r[i] == path[i]
    ensures forall i :: 0 <= i < |path| && path[i] == '\\' ==> r[i] == '/'
  {
    ReplaceChar(path, '\\', '/')
  }

  /** A path without backslashes is already normalised. */
  lemma {:induction false} NormalizeKeeps(path: string)
    requires '\\' !in path
    ensures NormalizePath(path) == path
  {
  }

  /** Normalising twice is normalising once. */
  lemma {:induction false} NormalizeIdempotent(path: string)
    ensures NormalizePath(NormalizePath(path)) == NormalizePath(path)
  {
    NormalizeKeeps(NormalizePath(path));
  }

  /** `get_relative_path`: the normalised full path minus the normalised
      base, with its leading slashes stripped; a full path that does not
      start with the base (as text) raises `ValueError`. The normalised full
      path is the normalised base, a run of slashes, then the result. */
  function RelativePath(base: string, full: string): (r: Result<string, string>)
    ensures r.Err? <==> !StartsWith(NormalizePath(full), NormalizePath(base))
    ensures r.Ok? ==> |r.value| == 0 || r.value[0] != '/'
    ensures r.Ok? ==> |base| + |r.value| <= |full|
    ensures r.Ok? ==> NormalizePath(full) == NormalizePath(base) + Slashes(|full| - |base| - |r.value|) + r.value
  {
    var b := NormalizePath(base);
    var f := NormalizePath(full);
    if !StartsWith(f, b) then Err("full_path must start with base_path")
    else
      Ok(Below(b, f))
  }

  /** What follows the prefix `b` of `f`, leading slashes stripped. */
  function Below(b: string, f: string): (r: string)
    requires StartsWith(f, b)
    ensures |r| == 0 || r[0] != '/'
    ensures |b| + |r| <= |f| && f == b + Slashes(|f| - |b| - |r|) + r
  {
    var rest := f[|b|..];
    LStripSlashes(rest);
    assert f == f[..|b|] + rest;
    LStrip(rest, '/')
  }

  /** A string is its leading slashes followed by what `lstrip('/')` keeps. */
  lemma {:induction false} LStripSlashes(s: string)
    ensures s == Slashes(|s| - |LStrip(s, '/')|) + LStrip(s, '/')
  {
    var r := LStrip(s, '/');
    var k := |s| - |r|;
    assert s[..k] == Slashes(k);
    assert s == s[..k] + s[k..];
  }

  /** `k` forward slashes. */
  function Slashes(k: nat): (s: string)
    ensures |s| == k && forall i :: 0 <= i < k ==> s[i] == '/'
  {
    seq(k, i => '/')
  }

  /** The prefix test is on text, not on path components: `/a/bc` lies
      "below" `/a/b`. */
  lemma PrefixIsTextual()
    ensures RelativePath("/a/b", "/a/bc") == Ok("c")
  {
    assert NormalizePath("/a/b") == "/a/b";
    assert NormalizePath("/a/bc") == "/a/bc";
    assert "/a/bc"[4..] == "c";
  }

  /** The same for every base: any text that continues the base accepts,
      whether or not a `/` separates the two, and the relative path is that
      continuation. */
  lemma {:induction false} ContinuationIsRelative(base: string, rest: string)
    requires '\\' !in base && '\\' !in rest
    requires |rest| > 0 && rest[0] != '/'
    ensures RelativePath(base, base + rest) == Ok(rest)
  {
    var full := base + rest;
    assert '\\' !in full by {
      forall i | 0 <= i < |full| ensures full[i] != '\\' {
        if i < |base| { assert full[i] == base[i]; } else { assert full[i] == rest[i - |base|]; }
      }
    }
    NormalizeKeeps(base);
    NormalizeKeeps(full);
    assert StartsWith(full, base) by { assert full[..|base|] == base; }
    assert full[|base|..] == rest;
    assert LStrip(rest, '/') == rest;
  }
}

=== FILE: cache.dfy ===
/** The application cache of `app/core/cache.py`: a namespaced key/value
    store with hit/miss accounting, per-key bookkeeping (access times, value
    sizes, hot keys, expired keys), the periodic cleanup pass, the
    per-namespace instance registry and the `cached` decorator.

    The backing `TTLCache`/`LRUCache` is modelled as an unbounded map: time
    based expiry and size based eviction belong to the cache library and are
    left out. Python's `None` is `None`; any other value is `Some(v)`. */
module Cache {
  import opened Wrappers
  import opened Text

  const Ttl := "ttl"
  const Lru := "lru"

  predicate KnownStrategy(strategy: string) {
    strategy == Ttl || strategy == Lru
  }

  datatype CacheError = UnsupportedStrategy(strategy: string)

  /** What the backing store holds under a full key: a `CacheValue` wrapper
      with its access count, or the bare value when access tracking is off. */
  datatype Stored<V> =
    | Wrapped(value: Option<V>, accessCount: nat)
    | Bare(value: Option<V>)

  /** One `CacheManager`. `timed` is the key set of `_access_times` (the
      float durations themselves are left out); `sizes` is `_value_sizes`. */
  datatype Manager<V> = Manager(
    namespace: string,
    strategy: string,
    ttl: int,
    maxsize: int,
    store: map<string, Stored<V>>,
    hits: nat,
    misses: nat,
    sets: nat,
    failed: nat,
    timed: set<string>,
    sizes: map<string, nat>,
    hot: set<string>,
    expired: set<string>)

  /** The bookkeeping only ever mentions keys the manager has seen: every
      timed, sized or hot key is stored. */
  predicate Tidy<V>(m: Manager<V>) {
    (forall k :: k in m.timed ==> k in m.store)
    && (forall k :: k in m.sizes ==> k in m.store)
    && (forall k :: k in m.hot ==> k in m.store)
  }

  /** `CacheManager.__init__`: only the two known strategies are accepted. */
  function NewManager<V>(strategy: string, ttl: int, maxsize: int, namespace: string): (r: Result<Manager<V>, CacheError>)
    ensures r.Err? <==> !KnownStrategy(strategy)
    ensures r.Err? ==> r.error == UnsupportedStrategy(strategy)
    ensures r.Ok? ==> r.value.namespace == namespace && r.value.strategy == strategy
    ensures r.Ok? ==> r.value.store == map[] && r.value.expired == {} && Tidy(r.value)
    ensures r.Ok? ==> r.value.hits == 0 && r.value.misses == 0 && r.value.sets == 0 && r.value.failed == 0
  {
    if !KnownStrategy(strategy) then Err(UnsupportedStrategy(strategy))
    else Ok(Manager(namespace, strategy, ttl, maxsize, map[], 0, 0, 0, 0, {}, map[], {}, {}))
  }

  /** `_get_full_key`. */
  function FullKey(namespace: string, key: string): string {
    namespace + ":" + key
  }

  /** Within one namespace, distinct keys never share a full key. */
  lemma {:induction false} FullKeyInjective(namespace: string, a: string, b: string)
    requires FullKey(namespace, a) == FullKey(namespace, b)
    ensures a == b
  {
    var n := |namespace| + 1;
    assert a == FullKey(namespace, a)[n..];
    assert b == FullKey(namespace, b)[n..];
  }

  /** `cached is not None` in `get`: a wrapper counts as a hit even when it
      wraps `None`; a bare `None` is a miss. */
  predicate Hit<V>(m: Manager<V>, key: string) {
    var fk := FullKey(m.namespace, key);
    fk in m.store && !(m.store[fk].Bare? && m.store[fk].value.None?)
  }

  /** `get(key)`. `fast` says whether the measured access time fell under
      one millisecond, which makes the key hot; the clock is outside the
      model. */
  function Get<V>(m: Manager<V>, key: string, fast: bool): (r: (Manager<V>, Option<V>))
    ensures r.0.hits + r.0.misses == m.hits + m.misses + 1
    ensures r.0.hits == m.hits + 1 <==> Hit(m, key)
    ensures !Hit(m, key) ==> r.1.None? && r.0 == m.(misses := m.misses + 1)
    ensures Hit(m, key) ==> r.1 == m.store[FullKey(m.namespace, key)].value
    ensures Hit(m, key) ==> FullKey(m.namespace, key) in r.0.timed
    ensures Hit(m, key) ==> (FullKey(m.namespace, key) in r.0.hot <==> fast || FullKey(m.namespace, key) in m.hot)
    ensures r.0.store.Keys == m.store.Keys && r.0.expired == m.expired && r.0.sizes == m.sizes
    ensures forall k :: k in m.store ==> r.0.store[k].value == m.store[k].value
    ensures r.0.namespace == m.namespace && r.0.sets == m.sets && r.0.failed == m.failed
    ensures Tidy(m) ==> Tidy(r.0)
  {
    var fk := FullKey(m.namespace, key);
    if !Hit(m, key) then (m.(misses := m.misses + 1), None)
    else
      var stored := match m.store[fk]
        case Wrapped(v, n) => Wrapped(v, n + 1)
        case Bare(v) => Bare(v);
      (m.(store := m.store[fk := stored], hits := m.hits + 1, timed := m.timed + {fk},
          hot := if fast then m.hot + {fk} else m.hot),
       m.store[fk].value)
  }

  /** `set(key, value, ttl, track_access)`: always reports success. `size`
      is what `_record_value_size` measures (the length of the value's JSON
      or `str` text), supplied by the caller. A per-call `ttl` goes through
      a one-entry temporary cache whose entry is then copied into the main
      cache, so the stored entry is the same either way. */
  function Set<V>(m: Manager<V>, key: string, value: Option<V>, ttl: Option<int>, track: bool, size: nat): (r: (Manager<V>, bool))
    ensures r.1
    ensures r.0.sets == m.sets + 1
    ensures FullKey(m.namespace, key) in r.0.store && r.0.store[FullKey(m.namespace, key)].value == value
    ensures r.0.store[FullKey(m.namespace, key)].Wrapped? == track
    ensures r.0.sizes == m.sizes[FullKey(m.namespace, key) := size]
    ensures forall k :: k != FullKey(m.namespace, key) ==> (k in r.0.store <==> k in m.store)
    ensures forall k :: k != FullKey(m.namespace, key) && k in m.store ==> r.0.store[k] == m.store[k]
    ensures r.0.namespace == m.namespace && r.0.hits == m.hits && r.0.misses == m.misses
    ensures r.0.timed == m.timed && r.0.hot == m.hot && r.0.expired == m.expired
    ensures Tidy(m) ==> Tidy(r.0)
  {
    var fk := FullKey(m.namespace, key);
    var entry := if track then Wrapped(value, 0) else Bare(value);
    (m.(store := m.store[fk := entry], sets := m.sets + 1, sizes := m.sizes[fk := size]), true)
  }

  /** A value set and read back is the value: for a tracked entry always, for
      an untracked one unless it is `None`, which reads back as a miss. */
  lemma {:induction false} GetAfterSet<V>(m: Manager<V>, key: string, value: Option<V>, ttl: Option<int>, track: bool, size: nat, fast: bool)
    ensures var after := Set(m, key, value, ttl, track, size).0;
      var got := Get(after, key, fast);
      got.1 == value && (got.0.hits == after.hits + 1 <==> track || value.Some?)
  {
  }

  /** Setting one key leaves what every other key reads unchanged. */
  lemma {:induction false} SetLeavesOtherKeys<V>(m: Manager<V>, key: string, other: string, value: Option<V>, ttl: Option<int>, track: bool, size: nat, fast: bool)
    requires other != key
    ensures Get(Set(m, key, value, ttl, track, size).0, other, fast).1 == Get(m, other, fast).1
  {
    if FullKey(m.namespace, other) == FullKey(m.namespace, key) {
      FullKeyInjective(m.namespace, other, key);
      assert false;
    }
  }

  /** `invalidate(key)`: a present key is dropped with all its bookkeeping
      and remembered as expired; an absent key changes nothing. Both report
      success. */
  function Invalidate<V>(m: Manager<V>, key: string): (r: (Manager<V>, bool))
    ensures r.1
    ensures FullKey(m.namespace, key) !in r.0.store
    ensures FullKey(m.namespace, key) !in m.store ==> r.0 == m
    ensures FullKey(m.namespace, key) in m.store ==>
      var fk := FullKey(m.namespace, key);
      r.0.store == m.store - {fk} && r.0.timed == m.timed - {fk} && r.0.sizes == m.sizes - {fk}
      && r.0.hot == m.hot - {fk} && r.0.expired == m.expired + {fk}
    ensures r.0.namespace == m.namespace && r.0.hits == m.hits && r.0.misses == m.misses
    ensures r.0.sets == m.sets && r.0.failed == m.failed
  {
    var fk := FullKey(m.namespace, key);
    if fk !in m.store then (m, true)
    else (m.(store := m.store - {fk}, timed := m.timed - {fk}, sizes := m.sizes - {fk},
             hot := m.hot - {fk}, expired := m.expired + {fk}), true)
  }

  /** After `invalidate(key)`, `get(key)` misses; invalidating twice is the
      same as once. */
  lemma {:induction false} InvalidateThenMiss<V>(m: Manager<V>, key: string, fast: bool)
    ensures var after := Invalidate(m, key).0;
      Get(after, key, fast).1.None? && Get(after, key, fast).0.misses == after.misses + 1
    ensures Invalidate(Invalidate(m, key).0, key).0 == Invalidate(m, key).0
  {
  }

  /** `clear()`: every stored key becomes expired and all the rest of the
      per-key state is emptied; the counters stay. */
  function Clear<V>(m: Manager<V>): (r: (Manager<V>, bool))
    ensures r.1
    ensures r.0.store == map[] && r.0.timed == {} && r.0.sizes == map[] && r.0.hot == {}
    ensures r.0.expired == m.expired + m.store.Keys
    ensures r.0.hits == m.hits && r.0.misses == m.misses && r.0.sets == m.sets && r.0.failed == m.failed
    ensures r.0.namespace == m.namespace && r.0.strategy == m.strategy
  {
    (m.(store := map[], timed := {}, sizes := map[], hot := {}, expired := m.expired + m.store.Keys), true)
  }

  /** After `clear()` every key misses, and no key that was stored is
      forgotten by the expired set. */
  lemma {:induction false} ClearThenMiss<V>(m: Manager<V>, key: string, fast: bool)
    ensures !Hit(Clear(m).0, key) && Get(Clear(m).0, key, fast).1.None?
    ensures FullKey(m.namespace, key) in m.store ==> FullKey(m.namespace, key) in Clear(m).0.expired
  {
  }

  /** One pass of `_cleanup_task` after its sleep: bookkeeping for keys no
      longer stored is dropped, and an expired key is kept only while it is
      stored or still timed. The seven-day cutoff it computes is never used. */
  function CleanupPass<V>(m: Manager<V>): (r: Manager<V>)
    ensures Tidy(r)
    ensures r.expired <= r.store.Keys
    ensures r.store == m.store && r.hits == m.hits && r.misses == m.misses && r.sets == m.sets
    ensures forall k :: k in m.store ==>
      (k in r.timed <==> k in m.timed) && (k in r.hot <==> k in m.hot) && (k in r.expired <==> k in m.expired)
    ensures forall k :: k in m.store && k in m.sizes ==> k in r.sizes && r.sizes[k] == m.sizes[k]
  {
    var timed := set k | k in m.timed && k in m.store;
    var sizes := map k | k in m.sizes && k in m.store :: m.sizes[k];
    var hot := set k | k in m.hot && k in m.store;
    var expired := set k | k in m.expired && (k in m.store || k in timed);
    m.(timed := timed, sizes := sizes, hot := hot, expired := expired)
  }

  /** The expired set never outlives a cleanup: a key that `invalidate` or
      `clear` marked expired is forgotten by the next pass, so the reported
      expired count only counts keys that are stored again. */
  lemma {:induction false} CleanupForgetsInvalidated<V>(m: Manager<V>, key: string)
    ensures FullKey(m.namespace, key) !in CleanupPass(Invalidate(m, key).0).expired
    ensures CleanupPass(Clear(m).0).expired == {}
  {
  }

  /** Cleanup is idempotent and never changes what any key reads. */
  lemma {:induction false} CleanupIdempotent<V>(m: Manager<V>, key: string, fast: bool)
    ensures CleanupPass(CleanupPass(m)) == CleanupPass(m)
    ensures Get(CleanupPass(m), key, fast).1 == Get(m, key, fast).1
  {
  }

  // ---- get_stats ----

  /** The text after the first ':' of a full key, as `key.split(":", 1)[1]`
      computes it; `None` where Python would raise `IndexError`. */
  function HotKeyNameAsWritten(fullKey: string): (r: Option<string>)
    ensures r.None? <==> ':' !in fullKey
    ensures r.Some? ==> |r.value| < |fullKey| && EndsWith(fullKey, r.value)
    decreases |fullKey|
  {
    if |fullKey| == 0 then None
    else if fullKey[0] == ':' then Some(fullKey[1..])
    else HotKeyNameAsWritten(fullKey[1..])
  }

  /** A namespace that itself contains ':' makes the reported hot key lose
      part of the namespace instead of the whole of it. */
  lemma HotKeyNameAsWrittenMangles()
    ensures HotKeyNameAsWritten(FullKey("a:b", "k")) == Some("b:k")
    ensures HotKeyName("a:b", FullKey("a:b", "k")) == "k"
  {
    var fk := FullKey("a:b", "k");
    assert fk == "a:b:k";
    assert fk[0] != ':' && fk[1..] == ":b:k";
    assert fk[1..][1..] == "b:k";
    HotKeyNameRoundTrip("a:b", "k");
  }

  /** The intended "remove the namespace prefix": the key a full key was
      built from, or the full key itself when it is not of this namespace. */
  function HotKeyName(namespace: string, fullKey: string): (r: string)
    ensures StartsWith(fullKey, namespace + ":") ==> FullKey(namespace, r) == fullKey
  {
    if StartsWith(fullKey, namespace + ":") then fullKey[|namespace| + 1..] else fullKey
  }

  /** Removing the prefix gives back exactly the key, for every namespace. */
  lemma {:induction false} HotKeyNameRoundTrip(namespace: string, key: string)
    ensures HotKeyName(namespace, FullKey(namespace, key)) == key
  {
    assert StartsWith(FullKey(namespace, key), namespace + ":") by {
      assert FullKey(namespace, key)[..|namespace| + 1] == namespace + ":";
    }
  }

  /** The code as written agrees with the intended name exactly when the
      namespace has no ':'. */
  lemma {:induction false} AsWrittenAgreesWithoutColon(namespace: string, key: string)
    requires ':' !in namespace
    ensures HotKeyNameAsWritten(FullKey(namespace, key)) == Some(HotKeyName(namespace, FullKey(namespace, key)))
    decreases |namespace|
  {
    HotKeyNameRoundTrip(namespace, key);
    if |namespace| == 0 {
      assert FullKey(namespace, key) == ":" + key;
    } else {
      assert FullKey(namespace, key)[1..] == FullKey(namespace[1..], key);
      AsWrittenAgreesWithoutColon(namespace[1..], key);
      HotKeyNameRoundTrip(namespace[1..], key);
    }
  }

  /** `order` lists every element of `s` exactly once: the order in which
      Python happens to iterate the set. */
  ghost predicate Enumerates(order: seq<string>, s: set<string>) {
    (forall k :: k in order <==> k in s)
    && (forall i, j :: 0 <= i < j < |order| ==> order[i] != order[j])
  }

  /** Which naming `get_stats` applies to a hot key: the code as written
      (`split(":", 1)[1]`) or the corrected prefix removal. */
  datatype Naming = AsWritten | Corrected

  /** The name reported for a hot key; `None` where the code raises. */
  function HotName(how: Naming, namespace: string, fullKey: string): Option<string> {
    match how
    case AsWritten => HotKeyNameAsWritten(fullKey)
    case Corrected => Some(HotKeyName(namespace, fullKey))
  }

  /** The names of a run of hot keys. The comprehension names every hot key
      before the list is cut to ten, so one key without a name makes the
      whole call raise. */
  function Names(how: Naming, namespace: string, keys: seq<string>): (r: Option<seq<string>>)
    ensures r.None? <==> exists i :: 0 <= i < |keys| && HotName(how, namespace, keys[i]).None?
    ensures r.Some? ==> |r.value| == |keys|
    ensures r.Some? ==> forall i :: 0 <= i < |keys| ==> Some(r.value[i]) == HotName(how, namespace, keys[i])
    decreases |keys|
  {
    if |keys| == 0 then Some([])
    else
      var rest := Names(how, namespace, keys[1..]);
      assert rest.None? ==> exists i :: 0 <= i < |keys| && HotName(how, namespace, keys[i]).None? by {
        if rest.None? {
          var j :| 0 <= j < |keys[1..]| && HotName(how, namespace, keys[1..][j]).None?;
          assert keys[j + 1] == keys[1..][j];
        }
      }
      match (HotName(how, namespace, keys[0]), rest)
      case (Some(n), Some(ns)) =>
        assert forall i :: 1 <= i < |keys| ==> keys[i] == keys[1..][i - 1];
        Some([n] + ns)
      case _ => None
  }

  /** Every hot key is a full key of the manager's own namespace. */
  predicate HotKeysNamespaced<V>(m: Manager<V>) {
    forall k :: k in m.hot ==> StartsWith(k, m.namespace + ":")
  }

  datatype Stats = Stats(
    namespace: string,
    strategy: string,
    size: nat,
    maxsize: int,
    hits: nat,
    misses: nat,
    hitRate: Ratio,
    sets: nat,
    failed: nat,
    errorRate: Ratio,
    hotKeys: seq<string>,
    expiredCount: nat)

  /** `get_stats()`, with the hot-key names given by `how`; `None` where
      the code raises `IndexError`. `hotOrder` is the order in which Python
      iterates the hot-key set. The two rates are kept as exact fractions;
      the source reports their float value. */
  function GetStats<V>(m: Manager<V>, hotOrder: seq<string>, how: Naming): (r: Option<Stats>)
    requires Enumerates(hotOrder, m.hot)
    ensures r.None? <==> exists k :: k in m.hot && HotName(how, m.namespace, k).None?
    ensures r.Some? ==> r.value.size == |m.store| && r.value.expiredCount == |m.expired|
    ensures r.Some? ==> r.value.hitRate == Ratio(r.value.hits, r.value.hits + r.value.misses) && 0.0 <= Value(r.value.hitRate) <= 1.0
    ensures r.Some? ==> r.value.errorRate == Ratio(r.value.failed, r.value.sets + r.value.hits + r.value.misses)
    ensures r.Some? ==> |r.value.hotKeys| == (if |m.hot| < 10 then |m.hot| else 10) && |r.value.hotKeys| <= |hotOrder|
    ensures r.Some? ==> forall i :: 0 <= i < |r.value.hotKeys| ==>
      hotOrder[i] in m.hot && Some(r.value.hotKeys[i]) == HotName(how, m.namespace, hotOrder[i])
  {
    assert |hotOrder| == |m.hot| by { EnumerationSize(hotOrder, m.hot); }
    var names := Names(how, m.namespace, hotOrder);
    assert names.None? ==> exists k :: k in m.hot && HotName(how, m.namespace, k).None?;
    assert (exists k :: k in m.hot && HotName(how, m.namespace, k).None?) ==> names.None? by {
      if k :| k in m.hot && HotName(how, m.namespace, k).None? {
        var i :| 0 <= i < |hotOrder| && hotOrder[i] == k;
      }
    }
    match names
    case None => None
    case Some(all) =>
      var shown := if |all| < 10 then all else all[..10];
      Some(Stats(m.namespace, m.strategy, |m.store|, m.maxsize, m.hits, m.misses,
                 Ratio(m.hits, m.hits + m.misses), m.sets, m.failed,
                 Ratio(m.failed, m.sets + m.hits + m.misses), shown, |m.expired|))
  }

  /** Hot keys are full keys: a new manager has none, `get` marks only the
      full key it looked up, and every other operation only drops hot keys. */
  lemma {:induction false} HotKeysStayNamespaced<V>(m: Manager<V>, key: string, fast: bool, value: Option<V>, ttl: Option<int>, track: bool, size: nat)
    requires HotKeysNamespaced(m)
    ensures HotKeysNamespaced(Get(m, key, fast).0)
    ensures HotKeysNamespaced(Set(m, key, value, ttl, track, size).0)
    ensures HotKeysNamespaced(Invalidate(m, key).0)
    ensures HotKeysNamespaced(Clear(m).0)
    ensures HotKeysNamespaced(CleanupPass(m))
  {
    var fk := FullKey(m.namespace, key);
    assert StartsWith(fk, m.namespace + ":") by {
      assert fk[..|m.namespace| + 1] == m.namespace + ":";
    }
  }

  /** Since every hot key holds a ':', the code as written never raises, and
      for a namespace without ':' it reports exactly the corrected names. */
  lemma {:induction false} GetStatsAgreeWithoutColon<V>(m: Manager<V>, hotOrder: seq<string>)
    requires Enumerates(hotOrder, m.hot) && HotKeysNamespaced(m)
    ensures GetStats(m, hotOrder, AsWritten).Some?
    ensures ':' !in m.namespace ==> GetStats(m, hotOrder, AsWritten) == GetStats(m, hotOrder, Corrected)
  {
    forall k | k in m.hot
      ensures HotName(AsWritten, m.namespace, k).Some?
      ensures ':' !in m.namespace ==> HotName(AsWritten, m.namespace, k) == HotName(Corrected, m.namespace, k)
    {
      var key := k[|m.namespace| + 1..];
      assert k == FullKey(m.namespace, key);
      assert k[|m.namespace|] == ':';
      if ':' !in m.namespace {
        AsWrittenAgreesWithoutColon(m.namespace, key);
      }
    }
    if ':' !in m.namespace {
      var w := Names(AsWritten, m.namespace, hotOrder);
      var c := Names(Corrected, m.namespace, hotOrder);
      assert w.Some? && c.Some? && w.value == c.value by {
        assert forall i :: 0 <= i < |hotOrder| ==> hotOrder[i] in m.hot;
      }
    }
  }

  /** A namespace holding ':' makes the reported name differ: for namespace
      `a:b` and the hot key `k`, the code lists `b:k`, the correction `k`. */
  lemma GetStatsMangles()
    ensures var m := Manager("a:b", Ttl, 300, 1000, map["a:b:k" := Bare(Some(0))], 1, 0, 0, 0,
                             {"a:b:k"}, map[], {"a:b:k"}, {});
      GetStats(m, ["a:b:k"], AsWritten).Some? && GetStats(m, ["a:b:k"], AsWritten).value.hotKeys == ["b:k"]
      && GetStats(m, ["a:b:k"], Corrected).Some? && GetStats(m, ["a:b:k"], Corrected).value.hotKeys == ["k"]
  {
    var m := Manager("a:b", Ttl, 300, 1000, map["a:b:k" := Bare(Some(0))], 1, 0, 0, 0,
                     {"a:b:k"}, map[], {"a:b:k"}, {});
    HotKeyNameAsWrittenMangles();
    assert FullKey("a:b", "k") == "a:b:k";
    assert Enumerates(["a:b:k"], m.hot);
  }

  /** A share `part / whole`, read as 0 when the whole is 0. */
  datatype Ratio = Ratio(part: nat, whole: nat)

  /** The float the source reports for a share: `part / whole if whole > 0
      else 0`, here as an exact real. */
  function Value(q: Ratio): (v: real)
    ensures q.whole == 0 ==> v == 0.0
    ensures q.part <= q.whole ==> 0.0 <= v <= 1.0
  {
    if q.whole > 0 then q.part as real / q.whole as real else 0.0
  }

  /** A share scaled back by its whole gives the part. */
  lemma {:induction false} ValueScales(q: Ratio)
    requires q.whole > 0
    ensures Value(q) * q.whole as real == q.part as real
  {
  }


  /** A duplicate-free listing of a set is as long as the set. */
  lemma {:induction false} EnumerationSize(order: seq<string>, s: set<string>)
    requires Enumerates(order, s)
    ensures |order| == |s|
    decreases |order|
  {
    if |order| > 0 {
      var rest := order[1..];
      assert Enumerates(rest, s - {order[0]}) by {
        forall k
          ensures k in rest <==> k in s - {order[0]}
        {
          if k in rest {
            var j :| 0 <= j < |rest| && rest[j] == k;
            assert order[j + 1] == k;
          }
          if k in s && k != order[0] {
            var j :| 0 <= j < |order| && order[j] == k;
            assert rest[j - 1] == k;
          }
        }
      }
      EnumerationSize(rest, s - {order[0]});
    }
  }

  // ---- instances ----

  /** `CacheManager.get_instance(namespace, **kwargs)`: the registry keeps
      one manager per namespace; the arguments only matter the first time. */
  function GetInstance<V>(registry: map<string, Manager<V>>, namespace: string, strategy: string, ttl: int, maxsize: int)
    : (r: Result<(map<string, Manager<V>>, Manager<V>), CacheError>)
    ensures namespace in registry ==> r == Ok((registry, registry[namespace]))
    ensures namespace !in registry ==> (r.Err? <==> !KnownStrategy(strategy))
    ensures r.Ok? ==> namespace in r.value.0 && r.value.0[namespace] == r.value.1
    ensures namespace !in registry && r.Ok? ==> r.value.1.namespace == namespace && r.value.1.strategy == strategy
    ensures r.Ok? ==>
      registry.Keys <= r.value.0.Keys && forall n :: n in registry ==> r.value.0[n] == registry[n]
  {
    if namespace in registry then Ok((registry, registry[namespace]))
    else
      match NewManager(strategy, ttl, maxsize, namespace)
      case Err(e) => Err(e)
      case Ok(m) => Ok((registry[namespace := m], m))
  }

  /** Asking twice for one namespace hands back the same manager, whatever
      the second call's arguments. */
  lemma {:induction false} GetInstanceTwice<V>(registry: map<string, Manager<V>>, namespace: string, s1: string, t1: int, z1: int, s2: string, t2: int, z2: int)
    requires GetInstance(registry, namespace, s1, t1, z1).Ok?
    ensures var first := GetInstance(registry, namespace, s1, t1, z1).value;
      GetInstance(first.0, namespace, s2, t2, z2) == Ok(first)
  {
  }

  /** The module-level default instance: built from the settings, or from the
      constructor defaults ("ttl", 300, 1000) when that raises. */
  function DefaultCache<V>(strategy: string, ttl: int, maxsize: int): (r: Manager<V>)
    ensures KnownStrategy(r.strategy) && r.namespace == "default"
    ensures KnownStrategy(strategy) ==> r.strategy == strategy && r.ttl == ttl && r.maxsize == maxsize
    ensures !KnownStrategy(strategy) ==> r.strategy == Ttl && r.ttl == 300 && r.maxsize == 1000
    ensures r.store == map[] && Tidy(r)
  {
    match NewManager(strategy, ttl, maxsize, "default")
    case Ok(m) => m
    case Err(_) => NewManager(Ttl, 300, 1000, "default").value
  }

  // ---- the cached decorator ----

  /** Where the wrapper's cache key comes from: the default text, a key
      builder's answer, or a key builder that raised. */
  datatype KeySource = DefaultKey | Built(key: string) | BuilderRaised

  /** The default key: prefix, function name and the `str` of the positional
      and keyword arguments, joined by ':'. */
  function DefaultCacheKey(prefix: string, funcName: string, argsText: string, kwargsText: string): string {
    prefix + ":" + funcName + ":" + argsText + ":" + kwargsText
  }

  datatype CachedCall<V> = CachedCall(manager: Manager<V>, result: Result<Option<V>, string>, called: bool)

  /** One call of a function wrapped by `cached(...)`. `outcome` is what the
      wrapped function returns (`Ok`) or raises (`Err`) when it runs. */
  function CallCached<V>(m: Manager<V>, key: KeySource, prefix: string, funcName: string, argsText: string,
                         kwargsText: string, ttl: Option<int>, track: bool, fast: bool, size: nat,
                         outcome: Result<Option<V>, string>): (r: CachedCall<V>)
    ensures key.BuilderRaised? ==> r == CachedCall(m, outcome, true)
    ensures !r.called ==> r.result.Ok? && r.result.value.Some?
    ensures r.called ==> r.result == outcome
    ensures !key.BuilderRaised? ==>
      var k := if key.Built? then key.key else DefaultCacheKey(prefix, funcName, argsText, kwargsText);
      var looked := Get(m, k, fast);
      (r.called <==> looked.1.None?)
      && (!r.called ==> r.result == Ok(looked.1) && r.manager == looked.0)
      && (r.called && outcome.Err? ==> r.manager == looked.0)
      && (r.called && outcome.Ok? ==> r.manager == Set(looked.0, k, outcome.value, ttl, track, size).0)
  {
    if key.BuilderRaised? then CachedCall(m, outcome, true)
    else
      var k := if key.Built? then key.key else DefaultCacheKey(prefix, funcName, argsText, kwargsText);
      var looked := Get(m, k, fast);
      if looked.1.Some? then CachedCall(looked.0, Ok(looked.1), false)
      else if outcome.Err? then CachedCall(looked.0, outcome, true)
      else CachedCall(Set(looked.0, k, outcome.value, ttl, track, size).0, outcome, true)
  }

  /** A call that produced a value makes the next call with the same key
      return that value without running the function, whatever it would
      have done this time. */
  lemma {:induction false} CachedTwice<V>(m: Manager<V>, key: KeySource, prefix: string, funcName: string, argsText: string,
                       kwargsText: string, ttl: Option<int>, track: bool, fast1: bool, fast2: bool, size: nat,
                       outcome1: Result<Option<V>, string>, outcome2: Result<Option<V>, string>, size2: nat)
    requires !key.BuilderRaised?
    requires var first := CallCached(m, key, prefix, funcName, argsText, kwargsText, ttl, track, fast1, size, outcome1);
      first.result.Ok? && first.result.value.Some?
    ensures var first := CallCached(m, key, prefix, funcName, argsText, kwargsText, ttl, track, fast1, size, outcome1);
      var second := CallCached(first.manager, key, prefix, funcName, argsText, kwargsText, ttl, track, fast2, size2, outcome2);
      !second.called && second.result == first.result
  {
    var k := if key.Built? then key.key else DefaultCacheKey(prefix, funcName, argsText, kwargsText);
    var looked := Get(m, k, fast1);
    if looked.1.None? {
      GetAfterSet(looked.0, k, outcome1.value, ttl, track, size, fast2);
    }
  }

  /** A function that returns `None` runs on every call, even though its
      result is stored each time and, with tracking on, counted as a hit. */
  lemma {:induction false} CachedNoneRunsAgain<V>(m: Manager<V>, key: KeySource, prefix: string, funcName: string, argsText: string,
                               kwargsText: string, ttl: Option<int>, track: bool, fast1: bool, fast2: bool, size: nat,
                               outcome2: Result<Option<V>, string>)
    requires !key.BuilderRaised?
    requires var first := CallCached(m, key, prefix, funcName, argsText, kwargsText, ttl, track, fast1, size, Ok(None));
      first.called
    ensures var first := CallCached(m, key, prefix, funcName, argsText, kwargsText, ttl, track, fast1, size, Ok(None));
      CallCached(first.manager, key, prefix, funcName, argsText, kwargsText, ttl, track, fast2, size, outcome2).called
  {
    var k := if key.Built? then key.key else DefaultCacheKey(prefix, funcName, argsText, kwargsText);
    var looked := Get(m, k, fast1);
    GetAfterSet(looked.0, k, None, ttl, track, size, fast2);
  }
}

=== FILE: config_store.dfy ===
/** The configuration store of `utils/config.py` (the older backend tree):
    a process-wide cached configuration, `save_config` with its path checks,
    and the path check of `utils/path.py` that it relies on.

    `os.path.normpath` is the parameter `normpath`; reading and writing the
    YAML file are outcomes given to the operations. */
module ConfigStore {
  import opened Wrappers
  import opened Text

  /** Characters a valid path may not contain. */
  const Forbidden := ['<', '>', '|', '*', '?']

  /** `is_valid_path` applied to an already normalised path: absolute, no
      `..` component, none of the forbidden characters. */
  predicate ValidNormalPath(n: string) {
    StartsWith(n, "/") && ".." !in Split(n, '/') && (forall ch :: ch in Forbidden ==> ch !in n)
  }

  /** `utils/path.py` `is_valid_path`. The exception branch cannot be taken
      for a string argument. */
  function IsValidPath(normpath: string -> string, path: string): (r: bool)
    ensures r ==> |normpath(path)| > 0 && normpath(path)[0] == '/'
    ensures r ==> forall i :: 0 <= i < |normpath(path)| ==> normpath(path)[i] !in Forbidden
  {
    ValidNormalPath(normpath(path))
  }

  /** For an absolute path written as its components, validity is exactly:
      no component is `..` and no forbidden character occurs. */
  lemma {:induction false} ValidComponents(parts: seq<string>)
    requires |parts| >= 1
    requires forall i :: 0 <= i < |parts| ==> '/' !in parts[i]
    ensures ValidNormalPath("/" + Join(parts, '/')) <==>
      (forall i :: 0 <= i < |parts| ==> parts[i] != "..")
      && (forall ch :: ch in Forbidden ==> ch !in "/" + Join(parts, '/'))
  {
    var n := "/" + Join(parts, '/');
    SplitJoin(parts, '/');
    assert n[1..] == Join(parts, '/');
    assert Split(n, '/') == [""] + parts;
    assert StartsWith(n, "/");
  }

  /** A `..` component anywhere makes the path invalid, even where
      normalisation would not have removed it. */
  lemma {:induction false} DotDotRejected(a: string, b: string)
    ensures !ValidNormalPath(a + "/../" + b)
  {
    var n := a + "/../" + b;
    if StartsWith(n, "/") {
      var front := a + "/..";
      assert n == front + ['/'] + b;
      SplitPrefixPieces(front, b);
      assert front == a + ['/'] + "..";
      SplitAppend(a, "..", '/');
      assert Split(front, '/')[|Split(front, '/')| - 1] == "..";
    }
  }

  /** The pieces of `x` before its last piece survive in the split of
      `x + "/" + y`, and the last piece of `x` is a prefix-piece there. */
  lemma {:induction false} SplitPrefixPieces(x: string, y: string)
    ensures var sx := Split(x, '/');
      var s := Split(x + ['/'] + y, '/');
      |s| > |sx| - 1 && s[..|sx|] == sx
    decreases |x|
  {
    if |x| == 0 {
      assert x + ['/'] + y == ['/'] + y;
      assert (['/'] + y)[1..] == y;
    } else {
      var s := x + ['/'] + y;
      assert s[0] == x[0];
      assert s[1..] == x[1..] + ['/'] + y;
      SplitPrefixPieces(x[1..], y);
    }
  }

  /** The parts of `SystemConfig` that saving checks. */
  datatype SystemConfig = SystemConfig(sourceDir: string, targetDir: string, pathMapping: seq<(string, string)>)

  /** Why saving or loading failed; every failure is answered with HTTP
      status 500. */
  datatype Reason = InvalidSource | InvalidTarget | InvalidMapping | WriteFailed | LoadFailed(message: string)

  datatype HttpError = HttpError(status: int, reason: Reason)

  /** The module-global `_config_instance`. */
  datatype Store = Store(instance: Option<SystemConfig>)

  /** Every mapping entry has a valid local and a valid server path. */
  predicate MappingValid(normpath: string -> string, mapping: seq<(string, string)>) {
    forall i :: 0 <= i < |mapping| ==> IsValidPath(normpath, mapping[i].0) && IsValidPath(normpath, mapping[i].1)
  }

  /** The first mapping entry with an invalid side, or `|mapping|`. */
  function FirstBadEntry(normpath: string -> string, mapping: seq<(string, string)>): (k: nat)
    ensures k <= |mapping|
    ensures k == |mapping| <==> MappingValid(normpath, mapping)
    ensures forall i :: 0 <= i < k ==> IsValidPath(normpath, mapping[i].0) && IsValidPath(normpath, mapping[i].1)
    decreases |mapping|
  {
    if |mapping| == 0 then 0
    else if !IsValidPath(normpath, mapping[0].0) || !IsValidPath(normpath, mapping[0].1) then 0
    else 1 + FirstBadEntry(normpath, mapping[1..])
  }

  /** `save_config(config)`: the source, then the target, then each mapping
      entry in order is checked; the file is written (`written` says whether
      that succeeded) and only then does the cached instance become
      `config`. */
  function SaveConfig(st: Store, config: SystemConfig, normpath: string -> string, written: bool)
    : (r: (Store, Result<(), HttpError>))
    ensures r.1.Ok? <==>
      IsValidPath(normpath, config.sourceDir) && IsValidPath(normpath, config.targetDir)
      && MappingValid(normpath, config.pathMapping) && written
    ensures r.1.Ok? ==> r.0.instance == Some(config)
    ensures r.1.Err? ==> r.0 == st && r.1.error.status == 500
    ensures !IsValidPath(normpath, config.sourceDir) ==> r.1 == Err(HttpError(500, InvalidSource))
    ensures IsValidPath(normpath, config.sourceDir) && !IsValidPath(normpath, config.targetDir) ==>
      r.1 == Err(HttpError(500, InvalidTarget))
  {
    if !IsValidPath(normpath, config.sourceDir) then (st, Err(HttpError(500, InvalidSource)))
    else if !IsValidPath(normpath, config.targetDir) then (st, Err(HttpError(500, InvalidTarget)))
    else if FirstBadEntry(normpath, config.pathMapping) < |config.pathMapping| then (st, Err(HttpError(500, InvalidMapping)))
    else if !written then (st, Err(HttpError(500, WriteFailed)))
    else (Store(Some(config)), Ok(()))
  }

  /** `get_config()`: the cached instance when there is one; otherwise the
      outcome of `load_config()`, which becomes the cached instance. */
  function GetConfig(st: Store, load: Result<SystemConfig, string>): (r: (Store, Result<SystemConfig, HttpError>))
    ensures st.instance.Some? ==> r == (st, Ok(st.instance.value))
    ensures st.instance.None? && load.Ok? ==> r == (Store(Some(load.value)), Ok(load.value))
    ensures st.instance.None? && load.Err? ==> r == (st, Err(HttpError(500, LoadFailed(load.error))))
  {
    match st.instance
    case Some(c) => (st, Ok(c))
    case None =>
      match load
      case Ok(c) => (Store(Some(c)), Ok(c))
      case Err(e) => (st, Err(HttpError(500, LoadFailed(e))))
  }

  /** `reload_config()`: forget the cached instance, then `get_config()`. */
  function ReloadConfig(st: Store, load: Result<SystemConfig, string>): (r: (Store, Result<SystemConfig, HttpError>))
    ensures load.Ok? ==> r == (Store(Some(load.value)), Ok(load.value))
    ensures load.Err? ==> r.0.instance.None? && r.1.Err?
  {
    GetConfig(Store(None), load)
  }

  /** The configuration is loaded at most once: after the first successful
      `get_config()`, later calls return the same instance whatever loading
      would now give. */
  lemma {:induction false} GetConfigLoadsOnce(st: Store, load1: Result<SystemConfig, string>, load2: Result<SystemConfig, string>)
    requires GetConfig(st, load1).1.Ok?
    ensures var first := GetConfig(st, load1);
      GetConfig(first.0, load2) == (first.0, first.1)
  {
  }

  /** A saved configuration is what `get_config()` returns next, without
      loading; a rejected one leaves `get_config()` as it was. */
  lemma {:induction false} SaveThenGet(st: Store, config: SystemConfig, normpath: string -> string, written: bool, load: Result<SystemConfig, string>)
    ensures var saved := SaveConfig(st, config, normpath, written);
      saved.1.Ok? ==> GetConfig(saved.0, load).1 == Ok(config)
    ensures var saved := SaveConfig(st, config, normpath, written);
      saved.1.Err? ==> GetConfig(saved.0, load) == GetConfig(st, load)
  {
  }
}

=== FILE: database.dfy ===
/** The database manager of the monitor's table (`DatabaseManager`): the
    batched upsert `update_file_records`, the prefix query
    `get_files_by_path` and the statistics of `get_database_stats`. The
    table is its rows in row order; the session's pending changes are the
    rows as they would be after the next flush. */
module Database {
  import opened Wrappers
  import opened Text
  import opened Seqs
  import opened FileRecords

  /** One input dictionary of `update_file_records`: for every column, the
      value given for it, or `None` when the dictionary has no such key. */
  datatype Patch = Patch(
    fileId: Option<string>,
    path: Option<string>,
    modifiedTime: Option<int>,
    size: Option<int>,
    isDirectory: Option<bool>,
    lastChecked: Option<int>,
    mimeType: Option<string>)

  /** Why an upsert raised: a dictionary without `file_id`, a value a
      validator refuses, a NOT NULL column left empty on insert, or a flush
      that breaks the unique constraint on `path`. */
  datatype DbError = MissingFileId | Invalid(column: string) | NotNull(column: string) | PathNotUnique

  datatype Counts = Counts(updated: nat, inserted: nat) {
    function Total(): nat { updated + inserted }
  }

  /** The validators accept every value the dictionary gives. */
  predicate PatchValid(p: Patch) {
    (p.path.None? || p.path.value != "") && (p.fileId.None? || p.fileId.value != "")
  }

  /** `setattr(existing_record, key, value)` for every key: the columns the
      dictionary names take its values (paths through the validator), every
      other column keeps its value. */
  function Apply(r: FileRecord, p: Patch): (u: Result<FileRecord, DbError>)
    ensures u.Ok? <==> PatchValid(p)
    ensures u.Ok? && p.path.None? ==> u.value.path == r.path
    ensures u.Ok? && p.path.Some? ==> u.value.path == ValidatePath(p.path.value).value
    ensures u.Ok? ==> u.value.fileId == p.fileId.GetOr(r.fileId)
    ensures u.Ok? ==> u.value.modifiedTime == p.modifiedTime.GetOr(r.modifiedTime)
    ensures u.Ok? ==> u.value.size == p.size.GetOr(r.size)
    ensures u.Ok? ==> u.value.isDirectory == p.isDirectory.GetOr(r.isDirectory)
    ensures u.Ok? ==> u.value.lastChecked == p.lastChecked.GetOr(r.lastChecked)
    ensures u.Ok? ==> u.value.mimeType == p.mimeType.GetOr(r.mimeType)
  {
    if p.path.Some? && p.path.value == "" then Err(Invalid("path"))
    else if p.fileId.Some? && p.fileId.value == "" then Err(Invalid("file_id"))
    else
      Ok(FileRecord(
        if p.path.Some? then ValidatePath(p.path.value).value else r.path,
        p.fileId.GetOr(r.fileId),
        p.modifiedTime.GetOr(r.modifiedTime),
        p.size.GetOr(r.size),
        p.isDirectory.GetOr(r.isDirectory),
        p.lastChecked.GetOr(r.lastChecked),
        p.mimeType.GetOr(r.mimeType)))
  }

  /** Applying the same dictionary twice is the same as applying it once. */
  lemma {:induction false} ApplyIdempotent(r: FileRecord, p: Patch)
    requires PatchValid(p)
    ensures Apply(Apply(r, p).value, p) == Apply(r, p)
  {
    if p.path.Some? {
      ValidatePathIdempotent(p.path.value);
    }
  }

  /** The column defaults of the table: size 0, not a directory, checked
      now, and no mime type (NULL, written ""). `path` and `modified_time`
      have no default. */
  function DefaultRow(fileId: string, now: int): FileRecord {
    FileRecord("", fileId, 0, 0, false, now, "")
  }

  /** `FileRecord(**record)` followed by its INSERT at flush. */
  function NewRow(p: Patch, now: int): (r: Result<FileRecord, DbError>)
    requires p.fileId.Some?
    ensures r.Ok? <==> PatchValid(p) && p.path.Some? && p.modifiedTime.Some?
    ensures r.Ok? ==> r == Apply(DefaultRow(p.fileId.value, now), p)
  {
    if !PatchValid(p) then Apply(DefaultRow(p.fileId.value, now), p)
    else if p.path.None? then Err(NotNull("path"))
    else if p.modifiedTime.None? then Err(NotNull("modified_time"))
    else Apply(DefaultRow(p.fileId.value, now), p)
  }

  /** The ids of the stored rows. */
  function RowIds(rows: Store): set<string> {
    set r | r in rows :: r.fileId
  }

  /** The ids the dictionaries name. */
  function PatchIds(patches: seq<Patch>): set<string> {
    set p | p in patches && p.fileId.Some? :: p.fileId.value
  }

  /** `existing_map[file_id]`: the dictionary built from the query result
      keeps, for a repeated id, the last row returned. */
  function LastMatch(rows: Store, id: string): (r: Option<nat>)
    ensures r.Some? <==> id in RowIds(rows)
    ensures r.Some? ==> r.value < |rows| && rows[r.value].fileId == id
    ensures r.Some? ==> forall j :: r.value < j < |rows| ==> rows[j].fileId != id
    decreases |rows|
  {
    if |rows| == 0 then None
    else if rows[|rows| - 1].fileId == id then Some(|rows| - 1)
    else
      var r := LastMatch(rows[..|rows| - 1], id);
      assert RowIds(rows) == RowIds(rows[..|rows| - 1]) + {rows[|rows| - 1].fileId} by {
        assert rows == rows[..|rows| - 1] + [rows[|rows| - 1]];
      }
      r
  }

  /** The patch is for a row that existed when its batch was queried. */
  predicate Known(snapshot: Store, p: Patch) {
    p.fileId.Some? && p.fileId.value in RowIds(snapshot)
  }

  /** The session inside the transaction: rows after the pending changes,
      and the two counters. */
  datatype Session = Session(rows: Store, counts: Counts)

  /** How many dictionaries of the batch name a row the batch's query found. */
  function KnownCount(snapshot: Store, batch: seq<Patch>): (n: nat)
    ensures n <= |batch|
    ensures n == 0 <==> forall i :: 0 <= i < |batch| ==> !Known(snapshot, batch[i])
    ensures n == |batch| <==> forall i :: 0 <= i < |batch| ==> Known(snapshot, batch[i])
    decreases |batch|
  {
    if |batch| == 0 then 0
    else
      var rest := KnownCount(snapshot, batch[1..]);
      assert forall i :: 1 <= i < |batch| ==> batch[i] == batch[1..][i - 1];
      (if Known(snapshot, batch[0]) then 1 else 0) + rest
  }

  /** Counting known dictionaries splits over consecutive parts of a batch. */
  lemma {:induction false} KnownCountAppend(snapshot: Store, a: seq<Patch>, b: seq<Patch>)
    ensures KnownCount(snapshot, a + b) == KnownCount(snapshot, a) + KnownCount(snapshot, b)
    decreases |a|
  {
    if |a| == 0 {
      assert a + b == b;
    } else {
      assert (a + b)[0] == a[0] && (a + b)[1..] == a[1..] + b;
      KnownCountAppend(snapshot, a[1..], b);
    }
  }

  /** A dictionary is known exactly when its id has an entry in the map the
      batch's query built. */
  lemma {:induction false} KnownIffLastMatch(snapshot: Store, p: Patch)
    ensures Known(snapshot, p) <==> p.fileId.Some? && LastMatch(snapshot, p.fileId.value).Some?
  {
  }

  /** One dictionary of a batch: a row the batch's query found is updated in
      place (and the flush's `before_update` listener stamps it); otherwise a
      new row is inserted, even when an earlier dictionary of the same batch
      inserted that id. */
  function AbsorbOne(snapshot: Store, s: Session, p: Patch, now: int): (r: Result<Session, DbError>)
    requires p.fileId.Some?
    requires |snapshot| <= |s.rows|
    requires forall i :: 0 <= i < |snapshot| ==> s.rows[i].fileId == snapshot[i].fileId
    ensures r.Ok? && Known(snapshot, p) ==> r.value.counts == s.counts.(updated := s.counts.updated + 1)
    ensures r.Ok? && Known(snapshot, p) ==> |r.value.rows| == |s.rows|
    ensures r.Ok? && !Known(snapshot, p) ==> r.value.counts == s.counts.(inserted := s.counts.inserted + 1)
    ensures r.Ok? && !Known(snapshot, p) ==> |r.value.rows| == |s.rows| + 1 && r.value.rows[..|s.rows|] == s.rows
    ensures r.Ok? ==> forall i :: 0 <= i < |s.rows| ==> r.value.rows[i].fileId == s.rows[i].fileId
    ensures r.Ok? ==> forall i :: 0 <= i < |s.rows| && s.rows[i].fileId != p.fileId.value ==> r.value.rows[i] == s.rows[i]
    ensures r.Ok? ==> p.fileId.value in RowIds(r.value.rows)
  {
    var id := p.fileId.value;
    match LastMatch(snapshot, id)
    case Some(j) =>
      (match Apply(s.rows[j], p)
       case Err(e) => Err(e)
       case Ok(u) =>
         var rows := s.rows[j := Touch(u, now)];
         assert rows[j] in rows;
         Ok(Session(rows, s.counts.(updated := s.counts.updated + 1))))
    case None =>
      (match NewRow(p, now)
       case Err(e) => Err(e)
       case Ok(row) =>
         var rows := s.rows + [row];
         assert rows[|s.rows|] in rows;
         Ok(Session(rows, s.counts.(inserted := s.counts.inserted + 1))))
  }

  /** The inner loop of one batch, against the rows its query saw. */
  function Absorb(snapshot: Store, s: Session, batch: seq<Patch>, now: int): (r: Result<Session, DbError>)
    requires forall k :: 0 <= k < |batch| ==> batch[k].fileId.Some?
    requires |snapshot| <= |s.rows|
    requires forall i :: 0 <= i < |snapshot| ==> s.rows[i].fileId == snapshot[i].fileId
    ensures r.Ok? ==> r.value.counts.updated == s.counts.updated + KnownCount(snapshot, batch)
    ensures r.Ok? ==> r.value.counts.inserted == s.counts.inserted + (|batch| - KnownCount(snapshot, batch))
    ensures r.Ok? ==> |r.value.rows| == |s.rows| + (|batch| - KnownCount(snapshot, batch))
    ensures r.Ok? ==> forall i :: 0 <= i < |s.rows| ==> r.value.rows[i].fileId == s.rows[i].fileId
    ensures r.Ok? ==> forall i :: 0 <= i < |s.rows| && s.rows[i].fileId !in PatchIds(batch) ==> r.value.rows[i] == s.rows[i]
    ensures r.Ok? ==> PatchIds(batch) <= RowIds(r.value.rows)
    decreases |batch|
  {
    if |batch| == 0 then Ok(s)
    else
      match AbsorbOne(snapshot, s, batch[0], now)
      case Err(e) => Err(e)
      case Ok(t) =>
        var r := Absorb(snapshot, t, batch[1..], now);
        PatchIdsCons(batch);
        if r.Ok? then
          IdsSurvive(t.rows, r.value.rows, {batch[0].fileId.value});
          r
        else r
  }

  /** One batch of the outer loop: the id list is built first (a missing
      `file_id` raises before anything happens), the rows are queried once,
      the dictionaries are applied, and the flush checks the unique
      constraint on `path` after each statement it issues. */
  function RunBatch(s: Session, batch: seq<Patch>, now: int): (r: Result<Session, DbError>)
    ensures (exists k :: 0 <= k < |batch| && batch[k].fileId.None?) ==> r == Err(MissingFileId)
    ensures r.Ok? ==> UniquePaths(r.value.rows)
    ensures r.Ok? ==> |s.rows| <= |r.value.rows|
    ensures r.Ok? ==> forall k :: 0 <= k <= |s.rows| ==> UniquePaths(r.value.rows[..k] + s.rows[k..])
    ensures (forall k :: 0 <= k < |batch| ==> batch[k].fileId.Some?) && Absorb(s.rows, s, batch, now).Ok? ==>
      (r.Ok? <==> FlushUnique(s.rows, Absorb(s.rows, s, batch, now).value.rows))
    ensures r.Ok? ==> r.value.counts.updated == s.counts.updated + KnownCount(s.rows, batch)
    ensures r.Ok? ==> r.value.counts.inserted == s.counts.inserted + (|batch| - KnownCount(s.rows, batch))
    ensures r.Ok? ==> |r.value.rows| == |s.rows| + (|batch| - KnownCount(s.rows, batch))
    ensures r.Ok? ==> forall i :: 0 <= i < |s.rows| ==> r.value.rows[i].fileId == s.rows[i].fileId
    ensures r.Ok? ==> forall i :: 0 <= i < |s.rows| && s.rows[i].fileId !in PatchIds(batch) ==> r.value.rows[i] == s.rows[i]
    ensures r.Ok? ==> PatchIds(batch) <= RowIds(r.value.rows)
  {
    if exists k :: 0 <= k < |batch| && batch[k].fileId.None? then Err(MissingFileId)
    else
      match Absorb(s.rows, s, batch, now)
      case Err(e) => Err(e)
      case Ok(t) => if FlushUnique(s.rows, t.rows) then Ok(t) else Err(PathNotUnique)
  }

  /** `records[i:i + batch_size]` for `i` in `range(0, len(records),
      batch_size)`: consecutive slices, all full but the last. */
  function Batches<T>(s: seq<T>, size: nat): (r: seq<seq<T>>)
    requires size >= 1
    ensures Flatten(r) == s
    ensures forall k :: 0 <= k < |r| ==> 1 <= |r[k]| <= size
    ensures forall k :: 0 <= k < |r| - 1 ==> |r[k]| == size
    decreases |s|
  {
    if |s| == 0 then []
    else if |s| <= size then [s]
    else [s[..size]] + Batches(s[size..], size)
  }

  function Flatten<T>(parts: seq<seq<T>>): seq<T>
    decreases |parts|
  {
    if |parts| == 0 then [] else parts[0] + Flatten(parts[1..])
  }

  /** The outer loop over the batches, stopping at the first raise. */
  function RunBatches(s: Session, batches: seq<seq<Patch>>, now: int): (r: Result<Session, DbError>)
    ensures r.Ok? ==> r.value.counts.Total() == s.counts.Total() + |Flatten(batches)|
    ensures r.Ok? ==> r.value.counts.inserted >= s.counts.inserted
    ensures r.Ok? ==> |r.value.rows| == |s.rows| + (r.value.counts.inserted - s.counts.inserted)
    ensures r.Ok? && |batches| > 0 ==> UniquePaths(r.value.rows)
    ensures r.Ok? && |batches| == 0 ==> r.value == s
    ensures (exists b, k :: 0 <= b < |batches| && 0 <= k < |batches[b]| && batches[b][k].fileId.None?) ==> r.Err?
    ensures r.Ok? ==> forall i :: 0 <= i < |s.rows| ==> r.value.rows[i].fileId == s.rows[i].fileId
    ensures r.Ok? ==> forall i :: 0 <= i < |s.rows| && s.rows[i].fileId !in PatchIds(Flatten(batches))
                        ==> r.value.rows[i] == s.rows[i]
    ensures r.Ok? ==> PatchIds(Flatten(batches)) <= RowIds(r.value.rows)
    decreases |batches|
  {
    if |batches| == 0 then Ok(s)
    else
      match RunBatch(s, batches[0], now)
      case Err(e) => Err(e)
      case Ok(t) =>
        var r := RunBatches(t, batches[1..], now);
        PatchIdsFlatten(batches);
        if r.Ok? then
          IdsSurvive(t.rows, r.value.rows, PatchIds(batches[0]));
          r
        else r
  }

  /** The ids of a list of dictionaries are the first one's and the rest's. */
  lemma {:induction false} PatchIdsCons(batch: seq<Patch>)
    requires |batch| > 0 && batch[0].fileId.Some?
    ensures PatchIds(batch) == {batch[0].fileId.value} + PatchIds(batch[1..])
  {
    assert batch == [batch[0]] + batch[1..];
  }

  /** The ids of a flattened list of batches are those of the first batch
      and those of the rest. */
  lemma {:induction false} PatchIdsFlatten(batches: seq<seq<Patch>>)
    requires |batches| > 0
    ensures PatchIds(Flatten(batches)) == PatchIds(batches[0]) + PatchIds(Flatten(batches[1..]))
  {
  }

  /** Ids held by rows whose ids a later table keeps in place are still
      held by that table. */
  lemma {:induction false} IdsSurvive(before: Store, after: Store, ids: set<string>)
    requires ids <= RowIds(before) && |before| <= |after|
    requires forall i :: 0 <= i < |before| ==> after[i].fileId == before[i].fileId
    ensures ids <= RowIds(after)
  {
    forall x | x in ids ensures x in RowIds(after) {
      var k :| k in before && k.fileId == x;
      var i :| 0 <= i < |before| && before[i] == k;
      assert after[i] in after;
    }
  }

  /** The upsert's outcome: the counts or the error, and the table after
      the commit or the rollback. */
  datatype Upserted = Upserted(result: Result<Counts, DbError>, rows: Store)

  /** `update_file_records`. The batch size comes from the validated
      settings, which require it to be at least 1. */
  function UpsertAll(rows: Store, records: seq<Patch>, batchSize: nat, now: int): (u: Upserted)
    requires batchSize >= 1
    ensures u.result.Err? ==> u.rows == rows
    ensures (exists k :: 0 <= k < |records| && records[k].fileId.None?) ==> u.result.Err?
    ensures u.result.Ok? ==> u.result.value.updated + u.result.value.inserted == |records|
    ensures u.result.Ok? ==> |u.rows| == |rows| + u.result.value.inserted
    ensures u.result.Ok? && UniquePaths(rows) ==> UniquePaths(u.rows)
    ensures u.result.Ok? ==> forall i :: 0 <= i < |rows| ==> u.rows[i].fileId == rows[i].fileId
    ensures u.result.Ok? ==> forall i :: 0 <= i < |rows| && rows[i].fileId !in PatchIds(records)
                               ==> u.rows[i] == rows[i]
    ensures u.result.Ok? ==> PatchIds(records) <= RowIds(u.rows)
  {
    var batches := Batches(records, batchSize);
    assert (exists k :: 0 <= k < |records| && records[k].fileId.None?) ==>
           exists b, k :: 0 <= b < |batches| && 0 <= k < |batches[b]| && batches[b][k].fileId.None? by {
      if exists k :: 0 <= k < |records| && records[k].fileId.None? {
        var k :| 0 <= k < |records| && records[k].fileId.None?;
        FlattenLocate(batches, k);
      }
    }
    match RunBatches(Session(rows, Counts(0, 0)), batches, now)
    case Err(e) => Upserted(Err(e), rows)
    case Ok(t) => Upserted(Ok(t.counts), t.rows)
  }

  lemma {:induction false} FlattenLocate<T>(parts: seq<seq<T>>, k: nat)
    requires k < |Flatten(parts)|
    ensures exists b, j :: 0 <= b < |parts| && 0 <= j < |parts[b]| && parts[b][j] == Flatten(parts)[k]
    decreases |parts|
  {
    if k >= |parts[0]| {
      FlattenLocate(parts[1..], k - |parts[0]|);
      var b, j :| 0 <= b < |parts[1..]| && 0 <= j < |parts[1..][b]| && parts[1..][b][j] == Flatten(parts[1..])[k - |parts[0]|];
      assert parts[b + 1][j] == Flatten(parts)[k];
    } else {
      assert parts[0][k] == Flatten(parts)[k];
    }
  }
  /** A stored row with only an id and a path. */
  function IdRow(path: string, id: string): FileRecord {
    FileRecord(path, id, 0, 0, false, 0, "")
  }

  /** A dictionary moving row `id` to `path`. */
  function MovePatch(id: string, path: string): Patch {
    Patch(Some(id), Some(path), None, None, None, None, None)
  }

  /** Two rows swapping their paths in one batch: the table after the batch
      would have unique paths, but the first UPDATE leaves both rows on the
      same path, so the flush raises. */
  lemma PathSwapRejected()
    ensures Absorb([IdRow("x", "a"), IdRow("y", "b")], Session([IdRow("x", "a"), IdRow("y", "b")], Counts(0, 0)),
                   [MovePatch("a", "y"), MovePatch("b", "x")], 0)
         == Ok(Session([IdRow("y", "a"), IdRow("x", "b")], Counts(2, 0)))
    ensures UniquePaths([IdRow("y", "a"), IdRow("x", "b")])
    ensures RunBatch(Session([IdRow("x", "a"), IdRow("y", "b")], Counts(0, 0)), [MovePatch("a", "y"), MovePatch("b", "x")], 0)
         == Err(PathNotUnique)
  {
    var before := [IdRow("x", "a"), IdRow("y", "b")];
    var after := [IdRow("y", "a"), IdRow("x", "b")];
    var batch := [MovePatch("a", "y"), MovePatch("b", "x")];
    PathSwapAbsorbs();
    SwappedUnique();
    assert !FlushUnique(before, after) by {
      assert !UniquePaths(after[..1] + before[1..]) by {
        assert (after[..1] + before[1..])[0].path == (after[..1] + before[1..])[1].path;
      }
    }
    MovesNameIds("a", "y", "b", "x");
  }

  /** Two dictionaries that each name an id leave no id missing. */
  lemma {:induction false} MovesNameIds(a: string, x: string, b: string, y: string)
    ensures var batch := [MovePatch(a, x), MovePatch(b, y)];
      !exists k :: 0 <= k < |batch| && batch[k].fileId.None?
  {
    var batch := [MovePatch(a, x), MovePatch(b, y)];
    forall k | 0 <= k < |batch| ensures batch[k].fileId.Some? {
      assert k == 0 || k == 1;
    }
  }

  /** After the swap the two paths differ again. */
  lemma SwappedUnique()
    ensures UniquePaths([IdRow("y", "a"), IdRow("x", "b")])
  {
    var after := [IdRow("y", "a"), IdRow("x", "b")];
    forall i, j | 0 <= i < |after| && 0 <= j < |after| && PathOf(after[i]) == PathOf(after[j]) ensures i == j {
    }
  }

  /** The swap itself is absorbed: both rows are updated in place. */
  lemma PathSwapAbsorbs()
    ensures Absorb([IdRow("x", "a"), IdRow("y", "b")], Session([IdRow("x", "a"), IdRow("y", "b")], Counts(0, 0)),
                   [MovePatch("a", "y"), MovePatch("b", "x")], 0)
         == Ok(Session([IdRow("y", "a"), IdRow("x", "b")], Counts(2, 0)))
  {
    var before := [IdRow("x", "a"), IdRow("y", "b")];
    var after := [IdRow("y", "a"), IdRow("x", "b")];
    var batch := [MovePatch("a", "y"), MovePatch("b", "x")];
    var mid := Session([IdRow("y", "a"), IdRow("y", "b")], Counts(1, 0));
    assert AbsorbOne(before, Session(before, Counts(0, 0)), batch[0], 0) == Ok(mid) by {
      ValidatePathKeeps("y");
      assert LastMatch(before, "a") == Some(0) by {
        assert LastMatch(before[..1], "a") == Some(0);
      }
      assert Apply(IdRow("x", "a"), batch[0]) == Ok(IdRow("y", "a"));
      assert before[0 := IdRow("y", "a")] == mid.rows;
    }
    assert AbsorbOne(before, mid, batch[1], 0) == Ok(Session(after, Counts(2, 0))) by {
      ValidatePathKeeps("x");
      assert LastMatch(before, "b") == Some(1);
      assert Apply(IdRow("y", "b"), batch[1]) == Ok(IdRow("x", "b"));
      assert mid.rows[1 := IdRow("x", "b")] == after;
    }
    assert batch[1..][1..] == [];
    assert Absorb(before, mid, batch[1..], 0) == Ok(Session(after, Counts(2, 0)));
  }

  /** A dictionary naming an id, a path and a modification time. */
  function ExamplePatch(path: string, t: int): Patch {
    Patch(Some("x"), Some(path), Some(t), None, None, None, None)
  }

  /** The rows the two example dictionaries insert into an empty table. */
  function ExampleRow(path: string, t: int): FileRecord {
    FileRecord(path, "x", t, 0, false, 0, "")
  }

  lemma {:induction false} ExampleRowsInserted(snapshot: Store, s: Session, path: string, t: int)
    requires path == "a" || path == "b"
    requires snapshot == [] && s.counts.updated == 0
    ensures AbsorbOne(snapshot, s, ExamplePatch(path, t), 0)
         == Ok(Session(s.rows + [ExampleRow(path, t)], s.counts.(inserted := s.counts.inserted + 1)))
  {
    ValidatePathKeeps(path);
    assert LastMatch(snapshot, "x") == None;
  }

  /** Two dictionaries for the same new id in one batch are both inserted,
      because the batch's query ran before either of them. */
  lemma SameBatchDuplicatesBothInserted()
    ensures UpsertAll([], [ExamplePatch("a", 1), ExamplePatch("b", 2)], 2, 0)
         == Upserted(Ok(Counts(0, 2)), [ExampleRow("a", 1), ExampleRow("b", 2)])
  {
    var records := [ExamplePatch("a", 1), ExamplePatch("b", 2)];
    assert Batches(records, 2) == [records];
    var s0 := Session([], Counts(0, 0));
    var s2 := Session([ExampleRow("a", 1), ExampleRow("b", 2)], Counts(0, 2));
    SameBatchRuns();
    assert RunBatches(s0, [records], 0) == Ok(s2);
  }

  lemma SameBatchRuns()
    ensures RunBatch(Session([], Counts(0, 0)), [ExamplePatch("a", 1), ExamplePatch("b", 2)], 0)
         == Ok(Session([ExampleRow("a", 1), ExampleRow("b", 2)], Counts(0, 2)))
  {
    var records := [ExamplePatch("a", 1), ExamplePatch("b", 2)];
    var rows := [ExampleRow("a", 1), ExampleRow("b", 2)];
    assert !exists k :: 0 <= k < |records| && records[k].fileId.None? by {
      forall k | 0 <= k < |records| ensures records[k].fileId.Some? {
        assert k == 0 || k == 1;
      }
    }
    assert UniquePaths(rows) by {
      forall i, j | 0 <= i < |rows| && 0 <= j < |rows| && PathOf(rows[i]) == PathOf(rows[j]) ensures i == j {
        assert rows[0].path == "a" && rows[1].path == "b";
      }
    }
    SameBatchAbsorbs();
  }

  lemma SameBatchAbsorbs()
    ensures Absorb([], Session([], Counts(0, 0)), [ExamplePatch("a", 1), ExamplePatch("b", 2)], 0)
         == Ok(Session([ExampleRow("a", 1), ExampleRow("b", 2)], Counts(0, 2)))
  {
    var records := [ExamplePatch("a", 1), ExamplePatch("b", 2)];
    var s0 := Session([], Counts(0, 0));
    var s1 := Session([ExampleRow("a", 1)], Counts(0, 1));
    var s2 := Session([ExampleRow("a", 1), ExampleRow("b", 2)], Counts(0, 2));
    ExampleRowsInserted([], s0, "a", 1);
    ExampleRowsInserted([], s1, "b", 2);
    assert records[1..] == [records[1]];
    assert s1.rows + [ExampleRow("b", 2)] == s2.rows;
    assert Absorb([], s2, records[1..][1..], 0) == Ok(s2);
    assert Absorb([], s1, records[1..], 0) == Ok(s2);
  }

  /** In batches of one, the second dictionary for the same id updates the
      row the first one inserted. */
  lemma SeparateBatchesUpdate()
    ensures UpsertAll([], [ExamplePatch("a", 1), ExamplePatch("b", 2)], 1, 0)
         == Upserted(Ok(Counts(1, 1)), [ExampleRow("b", 2)])
  {
    var records := [ExamplePatch("a", 1), ExamplePatch("b", 2)];
    assert Batches(records, 1) == [[records[0]], [records[1]]] by {
      assert records[..1] == [records[0]] && records[1..] == [records[1]];
      assert Batches(records[1..], 1) == [records[1..]];
    }
    var s0 := Session([], Counts(0, 0));
    var s1 := Session([ExampleRow("a", 1)], Counts(0, 1));
    var s2 := Session([ExampleRow("b", 2)], Counts(1, 1));
    FirstBatchInserts();
    SecondBatchUpdates();
    assert RunBatches(s1, [[records[1]]], 0) == Ok(s2);
  }

  lemma FirstBatchInserts()
    ensures RunBatch(Session([], Counts(0, 0)), [ExamplePatch("a", 1)], 0)
         == Ok(Session([ExampleRow("a", 1)], Counts(0, 1)))
  {
    var s0 := Session([], Counts(0, 0));
    var s1 := Session([ExampleRow("a", 1)], Counts(0, 1));
    ExampleRowsInserted([], s0, "a", 1);
    assert Absorb([], s0, [ExamplePatch("a", 1)], 0) == Ok(s1);
  }

  lemma SecondBatchUpdates()
    ensures RunBatch(Session([ExampleRow("a", 1)], Counts(0, 1)), [ExamplePatch("b", 2)], 0)
         == Ok(Session([ExampleRow("b", 2)], Counts(1, 1)))
  {
    var s1 := Session([ExampleRow("a", 1)], Counts(0, 1));
    var s2 := Session([ExampleRow("b", 2)], Counts(1, 1));
    SecondRecordUpdates();
    assert Absorb(s1.rows, s1, [ExamplePatch("b", 2)], 0) == Ok(s2);
  }

  lemma SecondRecordUpdates()
    ensures AbsorbOne([ExampleRow("a", 1)], Session([ExampleRow("a", 1)], Counts(0, 1)), ExamplePatch("b", 2), 0)
         == Ok(Session([ExampleRow("b", 2)], Counts(1, 1)))
  {
    assert LastMatch([ExampleRow("a", 1)], "x") == Some(0);
    ValidatePathKeeps("b");
    assert Apply(ExampleRow("a", 1), ExamplePatch("b", 2)) == Ok(ExampleRow("b", 2));
    assert Touch(ExampleRow("b", 2), 0) == ExampleRow("b", 2);
    assert [ExampleRow("a", 1)][0 := ExampleRow("b", 2)] == [ExampleRow("b", 2)];
  }

  /** Rows in ascending `path` order. */
  predicate SortedByPath(rows: Store) {
    forall i, j :: 0 <= i < j < |rows| ==> StrLe(rows[i].path, rows[j].path)
  }

  /** Places `x` before the first row it does not follow. */
  function InsertByPath(x: FileRecord, rows: Store): (r: Store)
    requires SortedByPath(rows)
    ensures SortedByPath(r)
    ensures multiset(r) == multiset(rows) + multiset{x}
    decreases |rows|
  {
    if |rows| == 0 then [x]
    else if StrLe(x.path, rows[0].path) then
      InsertFront(x, rows);
      [x] + rows
    else
      var tail := InsertByPath(x, rows[1..]);
      var r := [rows[0]] + tail;
      InsertBehind(x, rows, tail, r);
      r
  }

  /** A record no later than the first row can lead a sorted run. */
  lemma {:induction false} InsertFront(x: FileRecord, rows: Store)
    requires SortedByPath(rows) && |rows| > 0 && StrLe(x.path, rows[0].path)
    ensures SortedByPath([x] + rows)
  {
    forall j | 0 <= j < |rows| ensures StrLe(x.path, rows[j].path) {
      if j > 0 { StrLeTrans(x.path, rows[0].path, rows[j].path); }
    }
    var r := [x] + rows;
    forall i, j | 0 <= i < j < |r| ensures StrLe(r[i].path, r[j].path) {
      assert r[j] == rows[j - 1];
      if i > 0 { assert r[i] == rows[i - 1]; }
    }
  }

  /** A record later than the first row goes into the rest, behind it. */
  lemma {:induction false} InsertBehind(x: FileRecord, rows: Store, tail: Store, r: Store)
    requires SortedByPath(rows) && |rows| > 0 && !StrLe(x.path, rows[0].path)
    requires SortedByPath(tail) && multiset(tail) == multiset(rows[1..]) + multiset{x}
    requires r == [rows[0]] + tail
    ensures SortedByPath(r)
    ensures multiset(r) == multiset(rows) + multiset{x}
  {
    assert rows == [rows[0]] + rows[1..];
    forall j | 0 <= j < |tail| ensures StrLe(rows[0].path, tail[j].path) {
      assert tail[j] in multiset(tail);
      if tail[j] == x {
        StrLeTotal(x.path, rows[0].path);
      } else {
        assert tail[j] in multiset(rows[1..]);
        var k :| 0 <= k < |rows[1..]| && rows[1..][k] == tail[j];
        assert rows[k + 1] == tail[j];
      }
    }
    forall i, j | 0 <= i < j < |r| ensures StrLe(r[i].path, r[j].path) {
      assert r[j] == tail[j - 1];
      if i > 0 { assert r[i] == tail[i - 1]; }
    }
  }

  /** Insertion sort by path. */
  function SortByPath(rows: Store): (r: Store)
    ensures SortedByPath(r)
    ensures multiset(r) == multiset(rows)
    decreases |rows|
  {
    if |rows| == 0 then []
    else
      assert rows == [rows[0]] + rows[1..];
      InsertByPath(rows[0], SortByPath(rows[1..]))
  }

  /** `get_files_by_path`: the rows whose path starts with the argument,
      ordered by path. */
  function FilesByPath(rows: Store, prefix: string): (r: Store)
    ensures SortedByPath(r)
    ensures forall x :: x in r <==> x in rows && StartsWith(x.path, prefix)
    ensures multiset(r) == multiset(Filter(rows, (x: FileRecord) => StartsWith(x.path, prefix)))
  {
    var matching := Filter(rows, (x: FileRecord) => StartsWith(x.path, prefix));
    var r := SortByPath(matching);
    assert forall x :: x in r <==> x in matching by {
      forall x ensures x in r <==> x in matching {
        assert x in r <==> x in multiset(r);
        assert x in matching <==> x in multiset(matching);
      }
    }
    r
  }

  /** Rows sharing a path are the same row. */
  predicate PathsDetermineRows(rows: Store) {
    forall i, j :: 0 <= i < |rows| && 0 <= j < |rows| && rows[i].path == rows[j].path ==> rows[i] == rows[j]
  }

  /** The first rows of two path-sorted arrangements of the same rows are
      the least path, hence the same row. */
  lemma {:induction false} SortedHeadsAgree(a: Store, b: Store)
    requires SortedByPath(a) && SortedByPath(b) && PathsDetermineRows(a)
    requires multiset(a) == multiset(b) && |a| > 0
    ensures |b| > 0 && a[0] == b[0]
  {
    assert a[0] in multiset(b);
    var i :| 0 <= i < |b| && b[i] == a[0];
    assert b[0] in multiset(a);
    var j :| 0 <= j < |a| && a[j] == b[0];
    StrLeRefl(a[0].path);
    assert StrLe(a[0].path, b[0].path);
    assert StrLe(b[0].path, a[0].path);
    StrLeAntisymmetric(a[0].path, b[0].path);
  }

  /** Two path-sorted arrangements of the same rows, in which a path
      determines its row, are the same sequence. */
  lemma {:induction false} SortedPermutationUnique(a: Store, b: Store)
    requires SortedByPath(a) && SortedByPath(b) && PathsDetermineRows(a)
    requires multiset(a) == multiset(b)
    ensures a == b
    decreases |a|
  {
    assert |a| == |multiset(a)| == |b|;
    if |a| > 0 {
      SortedHeadsAgree(a, b);
      TailsPermuted(a, b);
      TailPathsDetermineRows(a);
      assert SortedByPath(a[1..]) && SortedByPath(b[1..]);
      SortedPermutationUnique(a[1..], b[1..]);
      assert a == [a[0]] + a[1..] && b == [b[0]] + b[1..];
    }
  }

  /** Dropping equal heads from two permutations leaves permutations. */
  lemma {:induction false} TailsPermuted(a: Store, b: Store)
    requires multiset(a) == multiset(b) && |a| > 0 && |b| > 0 && a[0] == b[0]
    ensures multiset(a[1..]) == multiset(b[1..])
  {
    assert a == [a[0]] + a[1..] && b == [b[0]] + b[1..];
    assert multiset(a[1..]) == multiset(a) - multiset{a[0]};
    assert multiset(b[1..]) == multiset(b) - multiset{b[0]};
  }

  /** A suffix keeps the property that a path determines its row. */
  lemma {:induction false} TailPathsDetermineRows(a: Store)
    requires PathsDetermineRows(a) && |a| > 0
    ensures PathsDetermineRows(a[1..])
  {
    forall i, j | 0 <= i < |a[1..]| && 0 <= j < |a[1..]| && a[1..][i].path == a[1..][j].path
      ensures a[1..][i] == a[1..][j]
    {
      assert a[1..][i] == a[i + 1] && a[1..][j] == a[j + 1];
    }
  }

  /** Rows drawn from a table with unique paths are told apart by their paths. */
  lemma {:induction false} SubsetPathsDetermineRows(rows: Store, a: Store)
    requires UniquePaths(rows) && forall x :: x in a ==> x in rows
    ensures PathsDetermineRows(a)
  {
    forall i, j | 0 <= i < |a| && 0 <= j < |a| && a[i].path == a[j].path ensures a[i] == a[j] {
      assert a[i] in rows && a[j] in rows;
      var i' :| 0 <= i' < |rows| && rows[i'] == a[i];
      var j' :| 0 <= j' < |rows| && rows[j'] == a[j];
      if i' != j' {
        InjectiveUniquePosition(rows, PathOf, i', j');
      }
    }
  }

  /** With the unique constraint on `path` in force, the query's answer does
      not depend on the order the rows are stored in. */
  lemma {:induction false} FilesByPathOrderIndependent(rows: Store, other: Store, prefix: string)
    requires UniquePaths(rows) && multiset(rows) == multiset(other)
    ensures FilesByPath(rows, prefix) == FilesByPath(other, prefix)
  {
    var keep := (x: FileRecord) => StartsWith(x.path, prefix);
    var a := FilesByPath(rows, prefix);
    var b := FilesByPath(other, prefix);
    assert multiset(a) == multiset(b) by {
      FilterMultiset(rows, keep);
      FilterMultiset(other, keep);
      assert multiset(Filter(rows, keep)) == multiset(Filter(other, keep));
    }
    SubsetPathsDetermineRows(rows, a);
    SortedPermutationUnique(a, b);
  }

  /** The `database` part of `get_database_stats`. */
  datatype TableStats = TableStats(totalRecords: nat, totalSize: int, directories: nat)

  /** SQL `SUM(size)`: NULL over no rows. */
  function SumOfSizes(rows: Store): (r: Option<int>)
    ensures r.None? <==> rows == []
    decreases |rows|
  {
    if |rows| == 0 then None
    else Some(rows[|rows| - 1].size + SumOfSizes(rows[..|rows| - 1]).GetOr(0))
  }

  /** `COUNT(id) FILTER (WHERE is_directory)`. */
  function CountDirectories(rows: Store): (n: nat)
    ensures n <= |rows|
    decreases |rows|
  {
    if |rows| == 0 then 0
    else CountDirectories(rows[..|rows| - 1]) + (if rows[|rows| - 1].isDirectory then 1 else 0)
  }

  /** The three aggregates, each NULL result read as 0 by `or 0`. */
  function StatsOf(rows: Store): (t: TableStats)
    ensures t.totalRecords == |rows|
    ensures t.directories <= t.totalRecords
    ensures rows == [] ==> t == TableStats(0, 0, 0)
  {
    TableStats(|rows|, SumOfSizes(rows).GetOr(0), CountDirectories(rows))
  }

  /** The aggregates grow row by row: one more record, its size, and one
      more directory when it is one. */
  lemma {:induction false} StatsOfAppend(rows: Store, x: FileRecord)
    ensures StatsOf(rows + [x]) == TableStats(StatsOf(rows).totalRecords + 1,
                                              StatsOf(rows).totalSize + x.size,
                                              StatsOf(rows).directories + (if x.isDirectory then 1 else 0))
  {
    assert (rows + [x])[..|rows|] == rows;
  }

  /** How many slow queries the statistics report. */
  const ReportedSlowQueries: nat := 5

  /** `slow_queries[-5:]`: the last five entries, or all when fewer. */
  function Recent<T>(log: seq<T>): (r: seq<T>)
    ensures |r| == if |log| < ReportedSlowQueries then |log| else ReportedSlowQueries
    ensures log == log[..|log| - |r|] + r
  {
    if |log| < ReportedSlowQueries then log else log[|log| - ReportedSlowQueries..]
  }

  /** Keeping only the recent entries before appending loses nothing the
      report shows. */
  lemma {:induction false} RecentAppend<T>(log: seq<T>, q: T)
    ensures Recent(log + [q]) == Recent(Recent(log) + [q])
  {
    var r := Recent(log);
    if |log| >= ReportedSlowQueries {
      assert (log + [q])[|log| + 1 - ReportedSlowQueries..] == (r + [q])[1..];
    }
  }
}

=== FILE: decimal.dfy ===
/** Decimal rendering of natural numbers, as Python's `str(n)`, JavaScript's
    template literals and `strftime`'s zero-padded fields produce it, with
    the parser that reads such text back. */
module Decimal {
  import opened Wrappers

  predicate IsDigit(ch: char) {
    '0' <= ch <= '9'
  }

  function DigitChar(d: nat): (ch: char)
    requires d < 10
    ensures IsDigit(ch) && DigitValue(ch) == d
  {
    ('0' as int + d) as char
  }

  function DigitValue(ch: char): nat
    requires IsDigit(ch)
  {
    ch as int - '0' as int
  }

  predicate AllDigits(s: string) {
    forall i :: 0 <= i < |s| ==> IsDigit(s[i])
  }

  /** Shortest decimal text of `n`, without leading zeros. */
  function NatToString(n: nat): (s: string)
    ensures |s| >= 1 && AllDigits(s)
    ensures |s| > 1 ==> s[0] != '0'
    decreases n
  {
    if n < 10 then [DigitChar(n)] else NatToString(n / 10) + [DigitChar(n % 10)]
  }

  /** Value of a digit string read most-significant first. */
  function DigitsValue(s: string): nat
    requires AllDigits(s)
    decreases |s|
  {
    if |s| == 0 then 0 else DigitsValue(s[..|s| - 1]) * 10 + DigitValue(s[|s| - 1])
  }

  /** Reads a non-empty all-digit string; anything else is `None`. */
  function ParseNat(s: string): (r: Option<nat>)
    ensures r.Some? <==> |s| >= 1 && AllDigits(s)
  {
    if |s| >= 1 && AllDigits(s) then Some(DigitsValue(s)) else None
  }

  /** Reading back the rendering of `n` gives `n`. */
  lemma {:induction false} ParseNatToString(n: nat)
    ensures ParseNat(NatToString(n)) == Some(n)
    decreases n
  {
    var s := NatToString(n);
    if n >= 10 {
      ParseNatToString(n / 10);
      assert s[..|s| - 1] == NatToString(n / 10);
      assert DigitValue(s[|s| - 1]) == n % 10;
      assert DigitsValue(s) == n / 10 * 10 + n % 10;
    }
  }

  /** Different numbers render differently. */
  lemma {:induction false} NatToStringInjective(a: nat, b: nat)
    requires NatToString(a) == NatToString(b)
    ensures a == b
  {
    ParseNatToString(a);
    ParseNatToString(b);
  }

  function Pow10(k: nat): (p: nat)
    ensures p >= 1
  {
    if k == 0 then 1 else 10 * Pow10(k - 1)
  }

  /** The last `width` decimal digits of `n`, zero-padded (`%02d`, `%04d`). */
  function Padded(n: nat, width: nat): (s: string)
    ensures |s| == width && AllDigits(s)
    decreases width
  {
    if width == 0 then "" else Padded(n / 10, width - 1) + [DigitChar(n % 10)]
  }

  /** A padded field reads back to the number when it fits the width. */
  lemma {:induction false} PaddedRoundTrip(n: nat, width: nat)
    requires n < Pow10(width)
    ensures DigitsValue(Padded(n, width)) == n
    decreases width
  {
    if width > 0 {
      var s := Padded(n, width);
      assert s[..|s| - 1] == Padded(n / 10, width - 1);
      PaddedRoundTrip(n / 10, width - 1);
      assert DigitValue(s[|s| - 1]) == n % 10;
    }
  }
}

=== FILE: drive_activity.dfy ===
/** The Drive Activity reader of `utils/gdrive.py` (the older backend tree):
    which activities matter, how one is parsed, how a file's full path is
    assembled from its ancestors, how the time filter is read, and how the
    pages of a query are gathered.

    The Drive services are oracles: the metadata service is a map from file
    id to `DriveFile`, and the activity query answers with a sequence of
    pages. Activities are decoded JSON objects. */
module DriveActivity {
  import opened Wrappers
  import opened Text
  import opened Decimal
  import opened JsonValues
  import opened Seqs

  /** Python `key in v` for a decoded value: a key of an object, an element
      of a list, a substring of a string; other kinds raise `TypeError`. */
  function In(key: string, v: Json): (r: Result<bool, string>)
    ensures r.Err? <==> v.Null? || v.Bool? || v.Num?
    ensures v.Obj? ==> r == Ok(Has(v.fields, key))
    ensures v.Arr? ==> r == Ok(Str(key) in v.items)
  {
    match v
    case Obj(fields) => Ok(Has(fields, key))
    case Arr(items) => Ok(Str(key) in items)
    case Str(s) => Ok(Contains(s, key))
    case _ => Err("argument is not iterable")
  }

  /** The actions the reader keeps. */
  const Kept := ["create", "edit", "move"]

  /** `_is_relevant_activity`: a missing or falsy primary action is
      irrelevant; otherwise the activity matters iff the action has one of
      the kept keys. */
  function Relevant(activity: Activity): (r: Result<bool, string>)
    ensures Get(activity, "primaryActionDetail").None? ==> r == Ok(false)
    ensures Get(activity, "primaryActionDetail").Some? && !Truthy(Get(activity, "primaryActionDetail").value) ==> r == Ok(false)
    ensures Get(activity, "primaryActionDetail").Some? && Get(activity, "primaryActionDetail").value.Obj? ==>
      var fields := Get(activity, "primaryActionDetail").value.fields;
      r == Ok(Has(fields, "create") || Has(fields, "edit") || Has(fields, "move"))
  {
    match Get(activity, "primaryActionDetail")
    case None => Ok(false)
    case Some(action) =>
      if !Truthy(action) then Ok(false)
      else
        match In("create", action)
        case Err(e) => Err(e)
        case Ok(c) =>
          if c then Ok(true)
          else
            var e := In("edit", action).value;
            if e then Ok(true) else Ok(In("move", action).value)
  }

  /** What `_parse_activity` extracts; the file path is filled in later. */
  datatype Parsed = Parsed(actionType: string, time: Json, id: string, title: Json, mimeType: Json)

  /** Position of the first target that has a `driveItem`, scanning in
      order; an error if a target of the wrong kind is met first. */
  function FirstDriveItem(targets: seq<Json>): (r: Result<Option<nat>, string>)
    ensures r.Ok? && r.value.Some? ==> r.value.value < |targets| && In("driveItem", targets[r.value.value]) == Ok(true)
    ensures r.Ok? && r.value.Some? ==> forall j :: 0 <= j < r.value.value ==> In("driveItem", targets[j]) == Ok(false)
    ensures r == Ok(None) <==> forall j :: 0 <= j < |targets| ==> In("driveItem", targets[j]) == Ok(false)
    decreases |targets|
  {
    if |targets| == 0 then Ok(None)
    else
      match In("driveItem", targets[0])
      case Err(e) => Err(e)
      case Ok(found) =>
        if found then Ok(Some(0))
        else
          match FirstDriveItem(targets[1..])
          case Err(e) => Err(e)
          case Ok(None) => Ok(None)
          case Ok(Some(k)) => Ok(Some(k + 1))
  }

  /** The file id in a Drive item name `items/<id>`: the last '/'-separated
      piece, i.e. the text after the last '/'. */
  function ItemId(name: string): (id: string)
    ensures '/' !in id
    ensures id == name[LastIndexOf(name, '/') + 1..]
    ensures EndsWith(name, id)
  {
    var parts := Split(name, '/');
    SplitLastPiece(name, '/');
    SplitPiecesLackSeparator(name, '/');
    parts[|parts| - 1]
  }

  /** The `file` part of a parsed activity, from the chosen `driveItem`. */
  function ParseItem(item: Json): (r: Result<(string, Json, Json), string>)
    ensures item.Obj? && GetOr(item.fields, "name", Str("")).Str? ==>
      r == Ok((ItemId(GetOr(item.fields, "name", Str("")).s), GetOr(item.fields, "title", Str("")),
               GetOr(item.fields, "mimeType", Str(""))))
    ensures !item.Obj? ==> r.Err?
  {
    match item
    case Obj(fields) =>
      var name := GetOr(fields, "name", Str(""));
      if !name.Str? then Err("name is not a string")
      else Ok((ItemId(name.s), GetOr(fields, "title", Str("")), GetOr(fields, "mimeType", Str(""))))
    case _ => Err("driveItem is not an object")
  }

  /** `_parse_activity`: the primary action is read first and its absence
      raises; then no (or empty) targets, or no target with a `driveItem`,
      give `None`; otherwise the first such target is used and the action
      type is the first key of the primary action. */
  function ParseActivity(activity: Activity): (r: Result<Option<Parsed>, string>)
    ensures !Has(activity, "primaryActionDetail") ==> r.Err?
    ensures Has(activity, "primaryActionDetail") && !Has(activity, "targets") ==> r == Ok(None)
    ensures Has(activity, "primaryActionDetail") && Get(activity, "targets") == Some(Arr([])) ==> r == Ok(None)
    ensures r.Ok? && r.value.Some? ==>
      var targets := GetOr(activity, "targets", Arr([]));
      targets.Arr? && FirstDriveItem(targets.items).Ok? && FirstDriveItem(targets.items).value.Some?
    ensures r.Ok? && r.value.Some? ==>
      '/' !in r.value.value.id && Has(activity, "timestamp") && Get(activity, "timestamp") == Some(r.value.value.time)
    ensures r.Ok? && r.value.Some? ==>
      var action := Get(activity, "primaryActionDetail");
      action.Some? && action.value.Obj? && |action.value.fields| > 0
      && r.value.value.actionType == action.value.fields[0].0
  {
    var targets := GetOr(activity, "targets", Arr([]));
    if Get(activity, "primaryActionDetail").None? then Err("KeyError: 'primaryActionDetail'")
    else if !Truthy(targets) then Ok(None)
    else
      match targets
      case Str(_) => Ok(None)
      case Obj(fields) =>
        // iterating a mapping visits its keys, and `'driveItem' in key` is a
        // substring test; a key that passes is then indexed like a mapping
        if exists i | 0 <= i < |fields| :: Contains(fields[i].0, "driveItem") then Err("string indices must be integers")
        else Ok(None)
      case Arr(items) =>
        (match FirstDriveItem(items)
         case Err(e) => Err(e)
         case Ok(None) => Ok(None)
         case Ok(Some(k)) =>
           var target := items[k];
           if !target.Obj? then Err("target is not a mapping")
           else
             var item := Get(target.fields, "driveItem").value;
             match Get(activity, "primaryActionDetail")
             case None => Err("primaryActionDetail missing")
             case Some(action) =>
               if !action.Obj? || |action.fields| == 0 then Err("no action key")
               else
                 match Get(activity, "timestamp")
                 case None => Err("timestamp missing")
                 case Some(time) =>
                   match ParseItem(item)
                   case Err(e) => Err(e)
                   case Ok(file) => Ok(Some(Parsed(action.fields[0].0, time, file.0, file.1, file.2))))
      case _ => Err("targets is not iterable")
  }

  // ---- file paths ----

  /** What the metadata service answers for one id: its name and, when the
      answer has one, its `parents` list. */
  datatype DriveFile = DriveFile(name: string, parents: Option<seq<string>>)

  /** `file.get('parents', [None])[0]`, read as "the next id to visit": none
      when the list is absent or its first id is empty, an error when the
      list is empty. */
  function ParentOf(f: DriveFile): (r: Result<Option<string>, string>)
    ensures r.Ok? && r.value.Some? ==> r.value.value != ""
  {
    match f.parents
    case None => Ok(None)
    case Some(ps) =>
      if |ps| == 0 then Err("list index out of range")
      else if ps[0] == "" then Ok(None)
      else Ok(Some(ps[0]))
  }

  /** The names from the file at `id` up through its ancestors, child first.
      Each step costs one unit of `fuel`. */
  function Ancestry(files: map<string, DriveFile>, id: string, fuel: nat): (r: Option<seq<string>>)
    ensures r.Some? ==> |r.value| >= 1 && id in files && r.value[0] == files[id].name
    decreases fuel
  {
    if id !in files || fuel == 0 then None
    else
      match ParentOf(files[id])
      case Err(_) => None
      case Ok(None) => Some([files[id].name])
      case Ok(Some(pid)) =>
        match Ancestry(files, pid, fuel - 1)
        case None => None
        case Some(up) => Some([files[id].name] + up)
  }

  function Reverse(s: seq<string>): (r: seq<string>)
    ensures |r| == |s|
    ensures forall i :: 0 <= i < |s| ==> r[i] == s[|s| - 1 - i]
  {
    if |s| == 0 then [] else Reverse(s[1..]) + [s[0]]
  }

  /** `get_file_path(file_id)`: the names from the topmost ancestor down to
      the file, joined with '/'; `None` when a lookup fails. Drive folders
      form a tree, so at most one visit per known id is needed. */
  function FilePath(files: map<string, DriveFile>, id: string): (r: Option<string>)
    ensures id !in files ==> r.None?
  {
    match Ancestry(files, id, |files|)
    case None => None
    case Some(names) => Some(Join(Reverse(names), '/'))
  }

  /** `ids` is a parent chain in `files`: each id's parent is the next one,
      and the last has none. */
  predicate Chain(files: map<string, DriveFile>, ids: seq<string>) {
    |ids| >= 1
    && (forall i :: 0 <= i < |ids| ==> ids[i] in files)
    && (forall i :: 0 <= i < |ids| - 1 ==> ParentOf(files[ids[i]]) == Ok(Some(ids[i + 1])))
    && ParentOf(files[ids[|ids| - 1]]) == Ok(None)
  }

  function NamesOf(files: map<string, DriveFile>, ids: seq<string>): (r: seq<string>)
    requires forall i :: 0 <= i < |ids| ==> ids[i] in files
    ensures |r| == |ids|
    ensures forall i :: 0 <= i < |ids| ==> r[i] == files[ids[i]].name
  {
    if |ids| == 0 then [] else [files[ids[0]].name] + NamesOf(files, ids[1..])
  }

  /** With enough fuel, walking a chain collects exactly its names. */
  lemma {:induction false} AncestryOfChain(files: map<string, DriveFile>, ids: seq<string>, fuel: nat)
    requires Chain(files, ids) && fuel >= |ids|
    ensures Ancestry(files, ids[0], fuel) == Some(NamesOf(files, ids))
    decreases |ids|
  {
    if |ids| > 1 {
      assert Chain(files, ids[1..]);
      AncestryOfChain(files, ids[1..], fuel - 1);
      assert ParentOf(files[ids[0]]) == Ok(Some(ids[1]));
      assert NamesOf(files, ids) == [files[ids[0]].name] + NamesOf(files, ids[1..]);
    } else {
      assert NamesOf(files, ids) == [files[ids[0]].name];
    }
  }

  /** The path of a file whose ancestors are `ids[1..]` (no id repeated) is
      the names from the top down, joined with '/'. */
  lemma {:induction false} FilePathOfChain(files: map<string, DriveFile>, ids: seq<string>)
    requires Chain(files, ids)
    requires forall i, j :: 0 <= i < j < |ids| ==> ids[i] != ids[j]
    ensures FilePath(files, ids[0]) == Some(Join(Reverse(NamesOf(files, ids)), '/'))
  {
    DistinctWithin(ids, files.Keys);
    AncestryOfChain(files, ids, |files|);
  }

  // ---- the time filter ----

  /** Python `int(t)` for an optionally signed run of decimal digits. */
  function ParseInt(t: string): (r: Option<int>)
    ensures ParseNat(t).Some? ==> r == Some(ParseNat(t).value as int)
  {
    if |t| > 0 && t[0] == '-' then (match ParseNat(t[1..]) case Some(n) => Some(-(n as int)) case None => None)
    else if |t| > 0 && t[0] == '+' then (match ParseNat(t[1..]) case Some(n) => Some(n as int) case None => None)
    else (match ParseNat(t) case Some(n) => Some(n as int) case None => None)
  }

  /** The start of the window `get_activities` asks about, in seconds:
      `Nh` is N hours before `now`, `Nd` is N days before; any other suffix
      leaves the start unset and the call raises. */
  function WindowStart(timeFilter: string, now: int): (r: Result<int, string>)
    ensures r.Ok? ==> EndsWith(timeFilter, "h") || EndsWith(timeFilter, "d")
    ensures r.Ok? && EndsWith(timeFilter, "h") ==>
      ParseInt(timeFilter[..|timeFilter| - 1]).Some? && r.value == now - 3600 * ParseInt(timeFilter[..|timeFilter| - 1]).value
    ensures r.Ok? && EndsWith(timeFilter, "d") ==>
      ParseInt(timeFilter[..|timeFilter| - 1]).Some? && r.value == now - 86400 * ParseInt(timeFilter[..|timeFilter| - 1]).value
  {
    if EndsWith(timeFilter, "h") then
      match ParseInt(timeFilter[..|timeFilter| - 1])
      case None => Err("invalid literal for int()")
      case Some(n) => Ok(now - 3600 * n)
    else if EndsWith(timeFilter, "d") then
      match ParseInt(timeFilter[..|timeFilter| - 1])
      case None => Err("invalid literal for int()")
      case Some(n) => Ok(now - 86400 * n)
    else Err("start_time is unset")
  }

  /** The written form of a window reads back as that many hours or days. */
  lemma {:induction false} WindowStartOfRendered(n: nat, now: int)
    ensures WindowStart(NatToString(n) + "h", now) == Ok(now - 3600 * n)
    ensures WindowStart(NatToString(n) + "d", now) == Ok(now - 86400 * n)
  {
    ParseNatToString(n);
    var s := NatToString(n);
    assert (s + "h")[..|s|] == s && EndsWith(s + "h", "h");
    assert (s + "d")[..|s|] == s && EndsWith(s + "d", "d");
    assert !EndsWith(s + "d", "h");
    assert s[0] != '-' && s[0] != '+';
  }

  // ---- get_activities ----

  /** A decoded activity object. */
  type Activity = seq<(string, Json)>

  /** One answer of a paged Drive query: its items and the token of the
      next page, if any. */
  datatype Page<T> = Page(items: seq<T>, nextToken: Option<string>)

  /** `if not page_token: break` does not break. */
  predicate HasNext<T>(p: Page<T>) {
    p.nextToken.Some? && p.nextToken.value != ""
  }

  /** The pages the loop reads: up to and including the first page without
      a next-page token (all of them when every page has one). */
  function PagesRead<T>(pages: seq<Page<T>>): (r: seq<Page<T>>)
    ensures |r| <= |pages| && r == pages[..|r|]
    ensures forall i :: 0 <= i < |r| - 1 ==> HasNext(r[i])
    ensures |r| < |pages| ==> |r| > 0 && !HasNext(r[|r| - 1])
    decreases |pages|
  {
    if |pages| == 0 then []
    else if !HasNext(pages[0]) then [pages[0]]
    else [pages[0]] + PagesRead(pages[1..])
  }

  datatype Found = Found(parsed: Parsed, path: string)

  /** What one activity contributes: nothing when irrelevant, unparsable
      into a target, or when its file path cannot be resolved or resolves
      to the empty string (a falsy path). */
  function Keep(files: map<string, DriveFile>, activity: Activity): (r: Result<Option<Found>, string>)
    ensures r.Ok? && r.value.Some? ==>
      Relevant(activity) == Ok(true) && ParseActivity(activity) == Ok(Some(r.value.value.parsed))
      && FilePath(files, r.value.value.parsed.id) == Some(r.value.value.path) && r.value.value.path != ""
    ensures (Relevant(activity) == Ok(true) && ParseActivity(activity).Ok? && ParseActivity(activity).value.Some?
             && FilePath(files, ParseActivity(activity).value.value.id) !in {None, Some("")})
            ==> r.Ok? && r.value.Some?
    ensures Relevant(activity) == Ok(false) ==> r == Ok(None)
  {
    match Relevant(activity)
    case Err(e) => Err(e)
    case Ok(relevant) =>
      if !relevant then Ok(None)
      else
        match ParseActivity(activity)
        case Err(e) => Err(e)
        case Ok(None) => Ok(None)
        case Ok(Some(p)) =>
          match FilePath(files, p.id)
          case None => Ok(None)
          case Some(path) => if path == "" then Ok(None) else Ok(Some(Found(p, path)))
  }

  /** The kept activities of a run of activities, in order. */
  function KeepAll(files: map<string, DriveFile>, activities: seq<Activity>): (r: Result<seq<Found>, string>)
    ensures r.Ok? ==> |r.value| <= |activities|
    ensures r.Ok? ==> forall f :: f in r.value ==> exists a :: a in activities && Keep(files, a) == Ok(Some(f))
    ensures r.Ok? ==> forall a :: a in activities && Keep(files, a).Ok? && Keep(files, a).value.Some? ==>
      Keep(files, a).value.value in r.value
    ensures r.Err? <==> exists a :: a in activities && Keep(files, a).Err?
    decreases |activities|
  {
    if |activities| == 0 then Ok([])
    else
      match Keep(files, activities[0])
      case Err(e) => Err(e)
      case Ok(head) =>
        match KeepAll(files, activities[1..])
        case Err(e) => Err(e)
        case Ok(rest) =>
          KeepAllCons(a => Keep(files, a), activities, head, rest);
          Ok(if head.Some? then [head.value] + rest else rest)
  }

  /** What a run keeps is what its first element keeps, if anything, and
      what the rest keeps. */
  lemma {:induction false} KeepAllCons<A, F>(keep: A -> Result<Option<F>, string>, xs: seq<A>, head: Option<F>, rest: seq<F>)
    requires |xs| > 0 && keep(xs[0]) == Ok(head)
    requires forall f :: f in rest ==> exists a :: a in xs[1..] && keep(a) == Ok(Some(f))
    requires forall a :: a in xs[1..] && keep(a).Ok? && keep(a).value.Some? ==> keep(a).value.value in rest
    requires forall a :: a in xs[1..] ==> keep(a).Ok?
    ensures var r := if head.Some? then [head.value] + rest else rest;
      (forall f :: f in r ==> exists a :: a in xs && keep(a) == Ok(Some(f)))
      && (forall a :: a in xs && keep(a).Ok? && keep(a).value.Some? ==> keep(a).value.value in r)
      && (forall a :: a in xs ==> keep(a).Ok?)
  {
    forall a | a in xs ensures a == xs[0] || a in xs[1..] {
      var i :| 0 <= i < |xs| && xs[i] == a;
      if i > 0 { assert xs[1..][i - 1] == a; }
    }
    assert forall a :: a in xs[1..] ==> a in xs;
  }

  /** Two runs one after the other: the first error wins, otherwise the
      kept items are concatenated. */
  function AndThen<T>(x: Result<seq<T>, string>, y: Result<seq<T>, string>): Result<seq<T>, string> {
    if x.Err? then x else if y.Err? then y else Ok(x.value + y.value)
  }

  /** What a single element contributes to a run: its error, nothing, or
      one item. */
  function AsRun<T>(x: Result<Option<T>, string>): Result<seq<T>, string> {
    match x
    case Err(e) => Err(e)
    case Ok(None) => Ok([])
    case Ok(Some(v)) => Ok([v])
  }

  /** Running three parts in turn does not depend on how they are grouped. */
  lemma {:induction false} AndThenAssoc<T>(x: Result<seq<T>, string>, y: Result<seq<T>, string>, z: Result<seq<T>, string>)
    ensures AndThen(x, AndThen(y, z)) == AndThen(AndThen(x, y), z)
  {
    if x.Ok? && y.Ok? && z.Ok? {
      assert x.value + (y.value + z.value) == x.value + y.value + z.value;
    }
  }

  /** An empty successful run is neutral on either side. */
  lemma {:induction false} AndThenEmpty<T>(x: Result<seq<T>, string>)
    ensures AndThen(x, Ok([])) == x && AndThen(Ok([]), x) == x
  {
    if x.Ok? {
      assert x.value + [] == x.value && [] + x.value == x.value;
    }
  }

  /** One step of `KeepAll`: the first activity's contribution, then the rest. */
  lemma {:induction false} KeepAllUnfold(files: map<string, DriveFile>, xs: seq<Activity>)
    requires |xs| > 0
    ensures KeepAll(files, xs) == AndThen(AsRun(Keep(files, xs[0])), KeepAll(files, xs[1..]))
  {
    if KeepAll(files, xs[1..]).Ok? {
      assert [] + KeepAll(files, xs[1..]).value == KeepAll(files, xs[1..]).value;
    }
  }

  /** A single activity keeps at most itself. */
  lemma {:induction false} KeepAllSingle(files: map<string, DriveFile>, a: Activity)
    ensures KeepAll(files, [a]) == AsRun(Keep(files, a))
  {
    KeepAllUnfold(files, [a]);
    assert [a][1..] == [];
    AndThenEmpty(AsRun(Keep(files, a)));
  }

  /** Keeping distributes over concatenation: the kept activities of `a + b`
      are those of `a` followed by those of `b`, and the first error met
      in that order is the one raised. With `KeepAllSingle` this fixes the
      result to be the activities' own order, one entry per kept activity. */
  lemma {:induction false} KeepAllAppend(files: map<string, DriveFile>, a: seq<Activity>, b: seq<Activity>)
    ensures KeepAll(files, a + b) == AndThen(KeepAll(files, a), KeepAll(files, b))
    decreases |a|
  {
    if |a| == 0 {
      assert a + b == b;
      AndThenEmpty(KeepAll(files, b));
    } else {
      assert (a + b)[0] == a[0] && (a + b)[1..] == a[1..] + b;
      KeepAllUnfold(files, a + b);
      KeepAllUnfold(files, a);
      KeepAllAppend(files, a[1..], b);
      AndThenAssoc(AsRun(Keep(files, a[0])), KeepAll(files, a[1..]), KeepAll(files, b));
    }
  }

  /** The items of the pages, page after page. */
  function Flatten<T(==,!new)>(pages: seq<Page<T>>): (r: seq<T>)
    ensures forall a :: a in r <==> exists i :: 0 <= i < |pages| && a in pages[i].items
  {
    if |pages| == 0 then []
    else
      var rest := Flatten(pages[1..]);
      assert forall i :: 1 <= i < |pages| ==> pages[i] == pages[1..][i - 1];
      pages[0].items + rest
  }

  /** The kept activities page by page: each page's activities in turn. */
  function KeepPages(files: map<string, DriveFile>, pages: seq<Page<Activity>>): Result<seq<Found>, string>
    decreases |pages|
  {
    if |pages| == 0 then Ok([]) else AndThen(KeepAll(files, pages[0].items), KeepPages(files, pages[1..]))
  }

  /** Keeping the flattened pages is keeping each page in turn. */
  lemma {:induction false} KeepAllOfFlatten(files: map<string, DriveFile>, pages: seq<Page<Activity>>)
    ensures KeepAll(files, Flatten(pages)) == KeepPages(files, pages)
    decreases |pages|
  {
    if |pages| > 0 {
      KeepAllAppend(files, pages[0].items, Flatten(pages[1..]));
      KeepAllOfFlatten(files, pages[1..]);
    }
  }

  /** `get_activities(folder_id, time_filter)`: the window start is computed
      first (an unreadable filter raises); then every activity on the pages
      read is kept or dropped in order. Any error inside the query loop is
      re-raised. */
  function GetActivities(timeFilter: string, now: int, pages: seq<Page<Activity>>, files: map<string, DriveFile>)
    : (r: Result<seq<Found>, string>)
    ensures WindowStart(timeFilter, now).Err? ==> r == Err(WindowStart(timeFilter, now).error)
    ensures WindowStart(timeFilter, now).Ok? ==>
      (r.Err? <==> exists a :: a in Flatten(PagesRead(pages)) && Keep(files, a).Err?)
    ensures r.Ok? ==> |r.value| <= |Flatten(PagesRead(pages))|
    ensures r.Ok? ==> forall f :: f in r.value ==>
      exists i, a :: 0 <= i < |PagesRead(pages)| && a in PagesRead(pages)[i].items
        && Keep(files, a) == Ok(Some(f))
    ensures r.Ok? ==> forall i, a ::
      (0 <= i < |PagesRead(pages)| && a in PagesRead(pages)[i].items
       && Keep(files, a).Ok? && Keep(files, a).value.Some?) ==> Keep(files, a).value.value in r.value
  {
    match WindowStart(timeFilter, now)
    case Err(e) => Err(e)
    case Ok(_) => KeepAll(files, Flatten(PagesRead(pages)))
  }

  /** With a readable filter, `get_activities` returns the kept activities of
      the pages read, page after page and, within a page, in the order the
      API listed them. */
  lemma {:induction false} GetActivitiesPageByPage(timeFilter: string, now: int, pages: seq<Page<Activity>>, files: map<string, DriveFile>)
    requires WindowStart(timeFilter, now).Ok?
    ensures GetActivities(timeFilter, now, pages, files) == KeepPages(files, PagesRead(pages))
  {
    KeepAllOfFlatten(files, PagesRead(pages));
  }
}

=== FILE: drive_client.dfy ===
/** The Drive client of the monitor module (`app/modules/monitor/gdrive.py`):
    reading a token out of an rclone configuration, pulling the
    authorisation code out of the OAuth callback path, turning an activity
    query into change records, and gathering the pages of a file listing.

    The Drive services are oracles: a query answers with a decoded response
    object or raises, and a listing answers page by page. Decoding a token
    into credentials is the parameter `decode`. */
module DriveClient {
  import opened Wrappers
  import opened Text
  import opened JsonValues
  import opened DriveActivity

  // ---- load_rclone_token ----

  const TokenPrefix := "token = "

  /** Position of the first line that starts with `prefix`, or `|lines|`. */
  function FirstLineWith(lines: seq<string>, prefix: string): (k: nat)
    ensures k <= |lines|
    ensures k < |lines| ==> StartsWith(lines[k], prefix)
    ensures forall j :: 0 <= j < k ==> !StartsWith(lines[j], prefix)
    decreases |lines|
  {
    if |lines| == 0 then 0
    else if StartsWith(lines[0], prefix) then 0
    else 1 + FirstLineWith(lines[1..], prefix)
  }

  /** `load_rclone_token(path)`: `content` is the file's text, `None` when it
      cannot be read. Only the first `token = ` line is tried: the text after
      its first '=' is stripped and decoded into credentials; the answer is
      whether that worked, and the credentials change only when it did. */
  function LoadRcloneToken<C>(content: Option<string>, decode: string -> Option<C>, creds: Option<C>)
    : (r: (bool, Option<C>))
    ensures content.None? ==> r == (false, creds)
    ensures !r.0 ==> r.1 == creds
    ensures content.Some? ==>
      var lines := Split(content.value, '\n');
      var k := FirstLineWith(lines, TokenPrefix);
      (r.0 <==> k < |lines| && decode(StripSpace(lines[k][7..])).Some?)
      && (r.0 ==> r.1 == decode(StripSpace(lines[k][7..])))
  {
    match content
    case None => (false, creds)
    case Some(text) =>
      var lines := Split(text, '\n');
      var k := FirstLineWith(lines, TokenPrefix);
      if k == |lines| then (false, creds)
      else
        match decode(StripSpace(lines[k][7..]))
        case None => (false, creds)
        case Some(c) => (true, Some(c))
  }

  lemma {:induction false} StripLeadingBlank(t: string)
    requires |t| == 0 || (!IsSpace(t[0]) && !IsSpace(t[|t| - 1]))
    ensures StripSpace(" " + t) == t
  {
    assert (" " + t)[1..] == t;
  }

  /** A configuration whose first token line is `token = <t>` loads exactly
      when `t` decodes, whatever the later lines say. */
  lemma {:induction false} LoadRcloneTokenOfLines<C>(before: seq<string>, t: string, after: seq<string>,
                                                     decode: string -> Option<C>, creds: Option<C>)
    requires forall i :: 0 <= i < |before| ==> '\n' !in before[i] && !StartsWith(before[i], TokenPrefix)
    requires forall i :: 0 <= i < |after| ==> '\n' !in after[i]
    requires '\n' !in t
    requires |t| == 0 || (!IsSpace(t[0]) && !IsSpace(t[|t| - 1]))
    ensures var content := Join(before + [TokenPrefix + t] + after, '\n');
      LoadRcloneToken(Some(content), decode, creds) ==
        (if decode(t).Some? then (true, decode(t)) else (false, creds))
  {
    var lines := before + [TokenPrefix + t] + after;
    forall i | 0 <= i < |lines|
      ensures '\n' !in lines[i]
    {
      if i < |before| {
        assert lines[i] == before[i];
      } else if i == |before| {
        assert lines[i] == TokenPrefix + t;
        assert forall j :: 0 <= j < |TokenPrefix| ==> lines[i][j] == TokenPrefix[j];
      } else {
        assert lines[i] == after[i - |before| - 1];
      }
    }
    SplitJoin(lines, '\n');
    FirstLineIs(lines, |before|);
    assert lines[|before|] == TokenPrefix + t;
    assert (TokenPrefix + t)[7..] == " " + t;
    StripLeadingBlank(t);
  }

  lemma {:induction false} FirstLineIs(lines: seq<string>, k: nat)
    requires k < |lines| && StartsWith(lines[k], TokenPrefix)
    requires forall j :: 0 <= j < k ==> !StartsWith(lines[j], TokenPrefix)
    ensures FirstLineWith(lines, TokenPrefix) == k
  {
  }

  // ---- the OAuth callback ----

  /** Position of the first occurrence of a non-empty `p` in `s`, or -1. */
  function FindFirst(s: string, p: string): (k: int)
    requires |p| > 0
    ensures -1 <= k <= |s|
    ensures k >= 0 ==> StartsWith(s[k..], p)
    ensures k >= 0 ==> forall j :: 0 <= j < k ==> !StartsWith(s[j..], p)
    ensures k == -1 ==> forall j :: 0 <= j <= |s| ==> !StartsWith(s[j..], p)
    ensures k == -1 <==> !Contains(s, p)
    decreases |s|
  {
    if StartsWith(s, p) then 0
    else if |s| == 0 then -1
    else
      var k := FindFirst(s[1..], p);
      assert forall j :: 1 <= j <= |s| ==> s[1..][j - 1..] == s[j..];
      if k < 0 then -1 else k + 1
  }

  /** Python `s.split(p)[1]` when `p` occurs in `s`: the text between the
      first occurrence and the next (or the end). */
  function SecondPiece(s: string, p: string): (r: string)
    requires |p| > 0 && Contains(s, p)
    ensures !Contains(r, p)
  {
    var i := FindFirst(s, p);
    var rest := s[i + |p|..];
    var j := FindFirst(rest, p);
    if j < 0 then rest
    else
      BeforeFirstLacks(rest, p, j);
      rest[..j]
  }

  /** The text before the first occurrence of `p` does not hold `p`. */
  lemma {:induction false} BeforeFirstLacks(s: string, p: string, j: int)
    requires |p| > 0 && j == FindFirst(s, p) && j >= 0
    ensures !Contains(s[..j], p)
  {
    var piece := s[..j];
    forall m | 0 <= m <= |piece| ensures !StartsWith(piece[m..], p) {
      StartsWithinPrefix(s, j, m, p);
    }
    assert FindFirst(piece, p) == -1;
  }

  /** An occurrence inside a prefix is an occurrence in the whole text. */
  lemma {:induction false} StartsWithinPrefix(s: string, j: nat, m: nat, p: string)
    requires m <= j <= |s|
    ensures StartsWith(s[..j][m..], p) ==> StartsWith(s[m..], p)
  {
    if StartsWith(s[..j][m..], p) {
      assert s[m..][..|p|] == s[..j][m..][..|p|];
    }
  }

  /** What the callback handler answers: its status and, on success, the
      authorisation code it records. */
  datatype Callback = Callback(status: int, code: Option<string>)

  /** `AuthHandler.do_GET`: a path holding `code=` yields the text after the
      first `code=`, up to the next `code=` and then up to the first '&',
      with status 200; any other path gets 400 and no code. */
  function HandleCallback(path: string): (r: Callback)
    ensures r.status == 200 <==> Contains(path, "code=")
    ensures r.status == 200 || r.status == 400
    ensures r.code.Some? <==> r.status == 200
    ensures r.code.Some? ==> '&' !in r.code.value
  {
    if Contains(path, "code=") then
      var code := Split(SecondPiece(path, "code="), '&')[0];
      SplitPiecesLackSeparator(SecondPiece(path, "code="), '&');
      Callback(200, Some(code))
    else Callback(400, None)
  }

  /** The first piece of a split is the text before the first separator. */
  lemma {:induction false} SplitHead(a: string, b: string, c: char)
    requires c !in a
    ensures Split(a + [c] + b, c)[0] == a
    decreases |a|
  {
    if |a| == 0 {
      assert a + [c] + b == [c] + b;
    } else {
      var s := a + [c] + b;
      assert s[0] == a[0] && s[1..] == a[1..] + [c] + b;
      SplitHead(a[1..], b, c);
      assert [a[0]] + a[1..] == a;
    }
  }

  /** No occurrence of `code=` can start inside a prefix free of '='. */
  lemma {:induction false} NoCodeBefore(pre: string, rest: string)
    requires '=' !in pre
    ensures forall j :: 0 <= j < |pre| ==> !StartsWith((pre + "code=" + rest)[j..], "code=")
  {
    var s := pre + "code=" + rest;
    forall j | 0 <= j < |pre|
      ensures !StartsWith(s[j..], "code=")
    {
      var ch := s[j + 4];
      if j + 4 < |pre| {
        assert ch == pre[j + 4];
      } else {
        assert ch == "code="[j + 4 - |pre|];
      }
      assert s[j..][..5][4] == ch != '=';
    }
  }

  /** Nor can one start inside a code free of '=' and '&' that is followed
      by '&' or by nothing. */
  lemma {:induction false} NoCodeWithin(c: string, tail: string)
    requires '=' !in c && '&' !in c
    requires tail == "" || tail[0] == '&'
    ensures forall j :: 0 <= j <= |c| ==> !StartsWith((c + tail)[j..], "code=")
  {
    var rest := c + tail;
    forall j | 0 <= j <= |c|
      ensures !StartsWith(rest[j..], "code=")
    {
      if j + 5 <= |rest| {
        if j + 4 < |c| {
          assert rest[j..][..5][4] == c[j + 4] != '=';
        } else {
          assert rest[j..][..5][|c| - j] == rest[|c|] == '&';
        }
      }
    }
  }

  lemma {:induction false} FindFirstIs(s: string, p: string, k: nat)
    requires |p| > 0 && k <= |s| && StartsWith(s[k..], p)
    requires forall j :: 0 <= j < k ==> !StartsWith(s[j..], p)
    ensures FindFirst(s, p) == k
  {
  }

  /** The second piece of `<pre>code=<c><tail>` starts with `<c>` and then
      has `<tail>`'s first character, if any. */
  lemma {:induction false} SecondPieceOf(pre: string, c: string, tail: string)
    requires '=' !in pre && '=' !in c && '&' !in c
    requires tail == "" || tail[0] == '&'
    ensures Contains(pre + "code=" + c + tail, "code=")
    ensures var piece := SecondPiece(pre + "code=" + c + tail, "code=");
      |piece| >= |c| && piece[..|c|] == c && (|piece| > |c| ==> piece[|c|] == '&')
      && (tail != "" ==> |piece| > |c|)
  {
    var rest := c + tail;
    var path := pre + "code=" + rest;
    assert pre + "code=" + c + tail == path;
    FirstCodeAt(pre, rest);
    NoCodeWithin(c, tail);
    SecondPieceAfter(path, |pre|, rest);
    PieceLeadsWith(rest, c, tail);
  }

  /** The second piece is the text after the first `code=`, up to the next. */
  lemma {:induction false} SecondPieceAfter(path: string, i: int, rest: string)
    requires Contains(path, "code=") && i == FindFirst(path, "code=") && 0 <= i
    requires i + 5 <= |path| && path[i + 5..] == rest
    ensures var k := FindFirst(rest, "code=");
      SecondPiece(path, "code=") == (if k < 0 then rest else rest[..k])
  {
  }

  /** Cutting `<c><tail>` at a `code=` that does not start within `<c>`
      keeps `<c>` and `<tail>`'s first character. */
  lemma {:induction false} PieceLeadsWith(rest: string, c: string, tail: string)
    requires rest == c + tail && (tail == "" || tail[0] == '&')
    requires var k := FindFirst(rest, "code="); k < 0 || k > |c|
    ensures var k := FindFirst(rest, "code=");
      var piece := if k < 0 then rest else rest[..k];
      |piece| >= |c| && piece[..|c|] == c && (|piece| > |c| ==> piece[|c|] == '&')
      && (tail != "" ==> |piece| > |c|)
  {
    var k := FindFirst(rest, "code=");
    var piece := if k < 0 then rest else rest[..k];
    assert rest[..|c|] == c;
    assert piece[..|c|] == rest[..|c|];
  }

  /** The first `code=` of `<pre>code=<rest>` is the one after `<pre>`. */
  lemma {:induction false} FirstCodeAt(pre: string, rest: string)
    requires '=' !in pre
    ensures var path := pre + "code=" + rest;
      FindFirst(path, "code=") == |pre| && path[|pre| + 5..] == rest
  {
    var path := pre + "code=" + rest;
    assert path[|pre|..][..5] == "code=";
    NoCodeBefore(pre, rest);
    FindFirstIs(path, "code=", |pre|);
  }

  /** A callback of the usual shape `<pre>code=<c>&<more>` records `c`, as
      long as `<pre>` and `<c>` hold no '=' and `<c>` no '&'. */
  lemma {:induction false} HandleCallbackOf(pre: string, c: string, more: string)
    requires '=' !in pre && '=' !in c && '&' !in c
    ensures HandleCallback(pre + "code=" + c + "&" + more) == Callback(200, Some(c))
  {
    var path := pre + "code=" + c + "&" + more;
    SecondPieceOf(pre, c, "&" + more);
    assert path == pre + "code=" + c + ("&" + more);
    var piece := SecondPiece(path, "code=");
    CodeBeforeAmpersand(piece, c);
  }

  /** A piece that is `c` followed by '&' splits at '&' into `c` first. */
  lemma {:induction false} CodeBeforeAmpersand(piece: string, c: string)
    requires '&' !in c && |piece| > |c| && piece[..|c|] == c && piece[|c|] == '&'
    ensures Split(piece, '&')[0] == c
  {
    assert piece == c + "&" + piece[|c| + 1..];
    SplitHead(c, piece[|c| + 1..], '&');
  }

  // ---- get_changes ----

  /** One record of `get_changes`. */
  datatype Change = Change(fileId: Json, title: Json, time: Json, action: string)

  /** `v[0]` for a decoded value: the first element of a list, the first
      character of a string; an error for empty ones, for mappings (no key
      `0` exists in decoded JSON) and for scalars. */
  function First(v: Json): (r: Result<Json, string>)
    ensures v.Arr? && |v.items| > 0 ==> r == Ok(v.items[0])
    ensures v.Arr? && |v.items| == 0 ==> r.Err?
  {
    match v
    case Arr(items) => if |items| == 0 then Err("list index out of range") else Ok(items[0])
    case Str(s) => if |s| == 0 then Err("string index out of range") else Ok(Str([s[0]]))
    case Obj(_) => Err("KeyError: 0")
    case _ => Err("object is not subscriptable")
  }

  /** The record one activity yields, if any: its first target (a lone empty
      mapping when it has none) must have a `driveItem`; the action is the
      first key of the primary action, or `unknown`. */
  function ChangeOf(activity: Json): (r: Result<Option<Change>, string>)
    ensures !activity.Obj? ==> r.Err?
    ensures activity.Obj? && !Has(activity.fields, "targets") ==> r == Ok(None)
    ensures activity.Obj? && GetOr(activity.fields, "targets", Arr([Obj([])])) == Arr([]) ==> r.Err?
    ensures r.Ok? && r.value.Some? ==>
      var targets := GetOr(activity.fields, "targets", Arr([Obj([])]));
      var action := GetOr(activity.fields, "primaryActionDetail", Obj([]));
      First(targets).Ok? && First(targets).value.Obj? && Has(First(targets).value.fields, "driveItem")
      && action.Obj? && r.value.value.action == (if |action.fields| == 0 then "unknown" else action.fields[0].0)
      && r.value.value.time == GetOr(activity.fields, "timestamp", Str(""))
  {
    match activity
    case Obj(fields) =>
      (match First(GetOr(fields, "targets", Arr([Obj([])])))
       case Err(e) => Err(e)
       case Ok(target) =>
         match In("driveItem", target)
         case Err(e) => Err(e)
         case Ok(found) =>
           if !found then Ok(None)
           else if !target.Obj? then Err("indices must be integers")
           else
             match Get(target.fields, "driveItem").value
             case Obj(item) =>
               (var action := GetOr(fields, "primaryActionDetail", Obj([]));
                if !action.Obj? then Err("object has no attribute 'keys'")
                else
                  Ok(Some(Change(GetOr(item, "name", Str("")), GetOr(item, "title", Str("")),
                                 GetOr(fields, "timestamp", Str("")),
                                 if |action.fields| == 0 then "unknown" else action.fields[0].0))))
             case _ => Err("object has no attribute 'get'"))
    case _ => Err("object has no attribute 'get'")
  }

  /** The records of a run of activities, in order; the first error ends it. */
  function ChangesOf(activities: seq<Json>): (r: Result<seq<Change>, string>)
    ensures r.Ok? ==> |r.value| <= |activities|
    ensures r.Ok? ==> forall c :: c in r.value <==> exists a :: a in activities && ChangeOf(a) == Ok(Some(c))
    ensures r.Err? <==> exists a :: a in activities && ChangeOf(a).Err?
    decreases |activities|
  {
    if |activities| == 0 then Ok([])
    else
      assert forall a :: a in activities <==> a == activities[0] || a in activities[1..];
      match ChangeOf(activities[0])
      case Err(e) => Err(e)
      case Ok(head) =>
        match ChangesOf(activities[1..])
        case Err(e) => Err(e)
        case Ok(rest) => Ok(if head.Some? then [head.value] + rest else rest)
  }

  /** One step of `ChangesOf`: the first activity's record, then the rest. */
  lemma {:induction false} ChangesOfUnfold(xs: seq<Json>)
    requires |xs| > 0
    ensures ChangesOf(xs) == AndThen(AsRun(ChangeOf(xs[0])), ChangesOf(xs[1..]))
  {
    if ChangesOf(xs[1..]).Ok? {
      assert [] + ChangesOf(xs[1..]).value == ChangesOf(xs[1..]).value;
    }
  }

  /** A single activity yields at most one record. */
  lemma {:induction false} ChangesOfSingle(a: Json)
    ensures ChangesOf([a]) == AsRun(ChangeOf(a))
  {
    ChangesOfUnfold([a]);
    assert [a][1..] == [];
    AndThenEmpty(AsRun(ChangeOf(a)));
  }

  /** The records of `a + b` are those of `a` followed by those of `b`, and
      the first error in that order is the one raised; so the records come
      in the activities' order, one per recorded activity. */
  lemma {:induction false} ChangesOfAppend(a: seq<Json>, b: seq<Json>)
    ensures ChangesOf(a + b) == AndThen(ChangesOf(a), ChangesOf(b))
    decreases |a|
  {
    if |a| == 0 {
      assert a + b == b;
      AndThenEmpty(ChangesOf(b));
    } else {
      assert (a + b)[0] == a[0] && (a + b)[1..] == a[1..] + b;
      ChangesOfUnfold(a + b);
      ChangesOfUnfold(a);
      ChangesOfAppend(a[1..], b);
      AndThenAssoc(AsRun(ChangeOf(a[0])), ChangesOf(a[1..]), ChangesOf(b));
    }
  }

  /** The activities a response lists: `response.get('activities', [])`
      iterated; an empty string or mapping iterates to nothing, a non-empty
      one yields keys or characters that are then used as mappings. */
  function ActivitiesOf(response: seq<(string, Json)>): (r: Result<seq<Json>, string>)
    ensures !Has(response, "activities") ==> r == Ok([])
    ensures Get(response, "activities").Some? && Get(response, "activities").value.Arr? ==>
      r == Ok(Get(response, "activities").value.items)
  {
    match GetOr(response, "activities", Arr([]))
    case Arr(items) => Ok(items)
    case Str(s) => if s == "" then Ok([]) else Err("object has no attribute 'get'")
    case Obj(f) => if f == [] then Ok([]) else Err("object has no attribute 'get'")
    case _ => Err("object is not iterable")
  }

  /** The client's own state: the time of the last successful check. */
  datatype ClientState = ClientState(lastCheck: Option<int>)

  /** `get_changes()`: nothing is asked before the first check time is set;
      otherwise the activity query (`response`, an answer or an error) is
      turned into records, and only a fully successful call moves the check
      time to `now`. Errors are re-raised. */
  function GetChanges(st: ClientState, response: Result<seq<(string, Json)>, string>, now: int)
    : (r: (ClientState, Result<seq<Change>, string>))
    ensures st.lastCheck.None? ==> r == (st, Ok([]))
    ensures r.1.Err? ==> r.0 == st
    ensures st.lastCheck.Some? && r.1.Ok? ==> r.0.lastCheck == Some(now)
    ensures st.lastCheck.Some? && response.Err? ==> r == (st, Err(response.error))
    ensures st.lastCheck.Some? && response.Ok? ==>
      (r.1.Ok? <==> ActivitiesOf(response.value).Ok? && ChangesOf(ActivitiesOf(response.value).value).Ok?)
    ensures r.1.Ok? && st.lastCheck.Some? ==>
      r.1.value == ChangesOf(ActivitiesOf(response.value).value).value
  {
    if st.lastCheck.None? then (st, Ok([]))
    else
      match response
      case Err(e) => (st, Err(e))
      case Ok(resp) =>
        match ActivitiesOf(resp)
        case Err(e) => (st, Err(e))
        case Ok(activities) =>
          match ChangesOf(activities)
          case Err(e) => (st, Err(e))
          case Ok(changes) => (ClientState(Some(now)), Ok(changes))
  }

  /** An activity with an empty target list makes the whole call fail, and
      the check time stays where it was. */
  lemma {:induction false} EmptyTargetsFail(st: ClientState, before: seq<Json>, activity: seq<(string, Json)>, after: seq<Json>, now: int)
    requires st.lastCheck.Some?
    requires Get(activity, "targets") == Some(Arr([]))
    ensures var r := GetChanges(st, Ok([("activities", Arr(before + [Obj(activity)] + after))]), now);
      r.1.Err? && r.0 == st
  {
    var items := before + [Obj(activity)] + after;
    var response := [("activities", Arr(items))];
    assert Has(response, "activities") by { assert response[0].0 == "activities"; }
    assert GetOr(response, "activities", Arr([])) == Arr(items);
    assert Obj(activity) in items;
    assert ChangeOf(Obj(activity)).Err?;
  }

  // ---- list_files ----

  /** `list_files(folder_id)`: the pages are asked for in turn, their files
      appended, until a page has no next-page token; a failing request is
      re-raised. */
  function ListFiles(pages: seq<Result<Page<Json>, string>>): (r: Result<seq<Json>, string>)
    ensures r.Err? ==> exists i :: 0 <= i < |pages| && pages[i] == Err(r.error)
    decreases |pages|
  {
    if |pages| == 0 then Ok([])
    else
      match pages[0]
      case Err(e) => Err(e)
      case Ok(p) =>
        if !HasNext(p) then Ok(p.items)
        else
          match ListFiles(pages[1..])
          case Err(e) =>
            assert forall i :: 0 <= i < |pages| - 1 ==> pages[1..][i] == pages[i + 1];
            Err(e)
          case Ok(rest) => Ok(p.items + rest)
  }

  function Answered(ps: seq<Page<Json>>): (r: seq<Result<Page<Json>, string>>)
    ensures |r| == |ps|
    ensures forall i :: 0 <= i < |ps| ==> r[i] == Ok(ps[i])
  {
    seq(|ps|, i requires 0 <= i < |ps| => Ok(ps[i]))
  }

  /** When every request is answered, the listing is the files of the pages
      read, page after page. */
  lemma {:induction false} ListFilesAnswered(ps: seq<Page<Json>>)
    ensures ListFiles(Answered(ps)) == Ok(Flatten(PagesRead(ps)))
    decreases |ps|
  {
    if |ps| > 0 && HasNext(ps[0]) {
      assert Answered(ps)[1..] == Answered(ps[1..]);
      ListFilesAnswered(ps[1..]);
      assert PagesRead(ps) == [ps[0]] + PagesRead(ps[1..]);
      assert Flatten([ps[0]] + PagesRead(ps[1..])) == ps[0].items + Flatten(PagesRead(ps[1..])) by {
        assert ([ps[0]] + PagesRead(ps[1..]))[1..] == PagesRead(ps[1..]);
      }
    } else if |ps| > 0 {
      assert PagesRead(ps) == [ps[0]];
      assert [ps[0]][1..] == [];
      assert Flatten([ps[0]]) == ps[0].items + Flatten([ps[0]][1..]);
      assert Flatten([ps[0]]) == ps[0].items;
      assert Answered(ps)[0] == Ok(ps[0]);
    }
  }
}

=== FILE: drive_handler.dfy ===
/** The Drive activity endpoint of `handlers/gdrive.py` (the older backend
    tree): Drive paths are mapped to local paths through the configured
    prefix table, and a link is created for every created, edited or moved
    file whose path maps.

    `create_symlink` is an oracle saying, for a local path, whether creating
    its link raises. */
module DriveHandler {
  import opened Wrappers
  import opened Text
  import opened Seqs
  import opened JsonValues
  import opened DriveActivity

  /** Position of the first mapping entry whose Drive prefix starts
      `drivePath`, or `|mapping|` when none does. */
  function FirstPrefix(drivePath: string, mapping: seq<(string, string)>): (k: nat)
    ensures k <= |mapping|
    ensures k < |mapping| ==> StartsWith(drivePath, mapping[k].0)
    ensures forall j :: 0 <= j < k ==> !StartsWith(drivePath, mapping[j].0)
    decreases |mapping|
  {
    if |mapping| == 0 then 0
    else if StartsWith(drivePath, mapping[0].0) then 0
    else 1 + FirstPrefix(drivePath, mapping[1..])
  }

  /** `map_to_local_path` as written: the first entry, in mapping order,
      whose Drive prefix starts the path wins, and `str.replace` then
      substitutes the local prefix for EVERY occurrence of the Drive prefix.
      No matching prefix gives `None`. */
  function MapToLocalPathAsWritten(drivePath: string, mapping: seq<(string, string)>): (r: Option<string>)
    ensures r.None? <==> forall j :: 0 <= j < |mapping| ==> !StartsWith(drivePath, mapping[j].0)
    ensures r.Some? ==>
      var k := FirstPrefix(drivePath, mapping);
      k < |mapping| && r.value == ReplaceAll(drivePath, mapping[k].0, mapping[k].1)
  {
    var k := FirstPrefix(drivePath, mapping);
    if k == |mapping| then None else Some(ReplaceAll(drivePath, mapping[k].0, mapping[k].1))
  }

  /** A second occurrence of the prefix inside the path is rewritten too. */
  lemma MapAsWrittenRewritesInnerOccurrence()
    ensures MapToLocalPathAsWritten("/a/x/a", [("/a", "/b")]) == Some("/b/x/b")
  {
    var s := "/a/x/a";
    assert StartsWith(s, "/a");
    assert s[2..] == "/x/a";
    assert "/x/a"[..2][1] == 'x';
    assert !StartsWith("/x/a", "/a");
    assert "/x/a"[1..] == "x/a";
    assert "x/a"[..2][0] == 'x';
    assert !StartsWith("x/a", "/a");
    assert "x/a"[1..] == "/a";
    assert StartsWith("/a", "/a");
    assert "/a"[2..] == "";
    assert ReplaceAll("", "/a", "/b") == "";
    assert ReplaceAll("/a", "/a", "/b") == "/b";
    assert ReplaceAll("x/a", "/a", "/b") == "x/b";
    assert ReplaceAll("/x/a", "/a", "/b") == "/x/b";
    assert ReplaceAll(s, "/a", "/b") == "/b/x/b";
    assert FirstPrefix(s, [("/a", "/b")]) == 0;
  }

  /** The mapping the prefix table evidently means: the matched leading
      prefix, and only it, is exchanged for the local prefix. */
  function MapToLocalPath(drivePath: string, mapping: seq<(string, string)>): (r: Option<string>)
    ensures r.None? <==> forall j :: 0 <= j < |mapping| ==> !StartsWith(drivePath, mapping[j].0)
    ensures r.Some? ==>
      var k := FirstPrefix(drivePath, mapping);
      k < |mapping| && StartsWith(r.value, mapping[k].1)
      && r.value[|mapping[k].1|..] == drivePath[|mapping[k].0|..]
  {
    var k := FirstPrefix(drivePath, mapping);
    if k == |mapping| then None else Some(mapping[k].1 + drivePath[|mapping[k].0|..])
  }

  /** Mapping a Drive path built from a configured prefix gives back the
      local prefix followed by the same remainder, whatever the remainder
      holds, provided no earlier entry claims the path. */
  lemma {:induction false} MapToLocalPathOfPrefixed(mapping: seq<(string, string)>, k: nat, rest: string)
    requires k < |mapping|
    requires forall j :: 0 <= j < k ==> !StartsWith(mapping[k].0 + rest, mapping[j].0)
    ensures MapToLocalPath(mapping[k].0 + rest, mapping) == Some(mapping[k].1 + rest)
  {
    var p := mapping[k].0 + rest;
    assert StartsWith(p, mapping[k].0);
    assert FirstPrefix(p, mapping) == k by {
      FirstPrefixIs(p, mapping, k);
    }
    assert p[|mapping[k].0|..] == rest;
  }

  lemma {:induction false} FirstPrefixIs(drivePath: string, mapping: seq<(string, string)>, k: nat)
    requires k < |mapping| && StartsWith(drivePath, mapping[k].0)
    requires forall j :: 0 <= j < k ==> !StartsWith(drivePath, mapping[j].0)
    ensures FirstPrefix(drivePath, mapping) == k
    decreases k
  {
    if k > 0 {
      FirstPrefixIs(drivePath, mapping[1..], k - 1);
    }
  }

  /** The two mappings agree whenever the Drive prefix does not occur again
      after the leading one. */
  lemma {:induction false} MappingsAgreeOnSingleOccurrence(drivePath: string, mapping: seq<(string, string)>)
    requires var k := FirstPrefix(drivePath, mapping);
      k < |mapping| && |mapping[k].0| > 0 && !Contains(drivePath[|mapping[k].0|..], mapping[k].0)
    ensures MapToLocalPathAsWritten(drivePath, mapping) == MapToLocalPath(drivePath, mapping)
  {
    var k := FirstPrefix(drivePath, mapping);
    var pre := mapping[k].0;
    ReplaceAllAbsent(drivePath[|pre|..], pre, mapping[k].1);
  }

  /** The Drive monitor settings the endpoint reads. */
  datatype DriveConfig = DriveConfig(enabled: bool, checkInterval: string, pathMapping: seq<(string, string)>)

  /** The answer of `check_activities`. */
  datatype Response = Disabled | Success(activities: nat, processed: nat)

  /** Which `map_to_local_path` the endpoint runs: the code as written
      (`str.replace`) or the corrected prefix exchange. */
  datatype Mapper = AsWritten | Corrected

  function LocalPath(how: Mapper, drivePath: string, mapping: seq<(string, string)>): Option<string> {
    match how
    case AsWritten => MapToLocalPathAsWritten(drivePath, mapping)
    case Corrected => MapToLocalPath(drivePath, mapping)
  }

  /** Counted by the loop: a kept action type whose path maps to a
      non-empty (truthy) local path. */
  predicate Counted(how: Mapper, mapping: seq<(string, string)>, f: Found) {
    f.parsed.actionType in Kept
    && LocalPath(how, f.path, mapping).Some? && LocalPath(how, f.path, mapping).value != ""
  }

  function CountedBy(how: Mapper, mapping: seq<(string, string)>): Found -> bool {
    f => Counted(how, mapping, f)
  }

  /** The processing loop: links are created in order; the first that raises
      ends the call with that error. */
  function ProcessAll(how: Mapper, activities: seq<Found>, mapping: seq<(string, string)>, linkFails: string -> bool)
    : (r: Result<nat, string>)
    ensures r.Ok? ==> r.value == |Filter(activities, CountedBy(how, mapping))|
    ensures r.Err? <==>
      exists f :: f in activities && Counted(how, mapping, f) && linkFails(LocalPath(how, f.path, mapping).value)
    decreases |activities|
  {
    if |activities| == 0 then Ok(0)
    else
      var f := activities[0];
      assert forall g :: g in activities[1..] ==> g in activities;
      if Counted(how, mapping, f) then
        if linkFails(LocalPath(how, f.path, mapping).value) then Err("create_symlink failed")
        else
          match ProcessAll(how, activities[1..], mapping, linkFails)
          case Err(e) => Err(e)
          case Ok(n) => Ok(n + 1)
      else ProcessAll(how, activities[1..], mapping, linkFails)
  }

  /** The loop as written skips an activity that the corrected mapping
      would link: `str.replace` empties `aa` under the entry `a` to `""`,
      and an empty local path is falsy. */
  lemma {:induction false} EmptiedPathSkippedAsWritten(f: Found)
    requires f.parsed.actionType in Kept && f.path == "aa"
    ensures !Counted(AsWritten, [("a", "")], f)
    ensures Counted(Corrected, [("a", "")], f) && LocalPath(Corrected, f.path, [("a", "")]) == Some("a")
  {
    assert StartsWith("aa", "a");
    assert "aa"[1..] == "a" && "a"[1..] == "";
    assert StartsWith("a", "a");
    assert ReplaceAll("a", "a", "") == "";
    assert ReplaceAll("aa", "a", "") == "";
  }

  /** `check_activities`: a disabled monitor answers without querying;
      otherwise the activities of the configured window are fetched and
      processed. Every failure is answered with HTTP 500. With `AsWritten`
      this is the endpoint as the code has it; `Corrected` runs the same
      loop over the corrected mapping. */
  function CheckActivities(how: Mapper, config: DriveConfig, now: int, pages: seq<Page<Activity>>, files: map<string, DriveFile>,
                           linkFails: string -> bool): (r: Result<Response, int>)
    ensures !config.enabled ==> r == Ok(Disabled)
    ensures r.Err? ==> r.error == 500
    ensures config.enabled && r.Ok? ==>
      var fetched := GetActivities(config.checkInterval, now, pages, files);
      fetched.Ok? && r.value.Success? && r.value.activities == |fetched.value|
      && r.value.processed == |Filter(fetched.value, CountedBy(how, config.pathMapping))|
    ensures config.enabled ==>
      (r.Err? <==>
        GetActivities(config.checkInterval, now, pages, files).Err?
        || exists f :: f in GetActivities(config.checkInterval, now, pages, files).value
                      && Counted(how, config.pathMapping, f) && linkFails(LocalPath(how, f.path, config.pathMapping).value))
  {
    if !config.enabled then Ok(Disabled)
    else
      match GetActivities(config.checkInterval, now, pages, files)
      case Err(_) => Err(500)
      case Ok(activities) =>
        match ProcessAll(how, activities, config.pathMapping, linkFails)
        case Err(_) => Err(500)
        case Ok(n) => Ok(Success(|activities|, n))
  }

  /** Never more processed than fetched, and every processed activity is a
      created, edited or moved file, whichever mapping the loop uses. */
  lemma {:induction false} ProcessedWithinActivities(how: Mapper, config: DriveConfig, now: int, pages: seq<Page<Activity>>, files: map<string, DriveFile>,
                                  linkFails: string -> bool)
    requires CheckActivities(how, config, now, pages, files, linkFails).Ok?
    requires CheckActivities(how, config, now, pages, files, linkFails).value.Success?
    ensures var r := CheckActivities(how, config, now, pages, files, linkFails).value;
      r.processed <= r.activities
    ensures var r := CheckActivities(how, config, now, pages, files, linkFails).value;
      r.processed == r.activities ==>
        forall f :: f in GetActivities(config.checkInterval, now, pages, files).value ==> f.parsed.actionType in Kept
  {
    var fetched := GetActivities(config.checkInterval, now, pages, files).value;
    if |Filter(fetched, CountedBy(how, config.pathMapping))| == |fetched| {
      FilterFull(fetched, CountedBy(how, config.pathMapping));
    }
  }
}

=== FILE: durations.dfy ===
/** The web client's integer duration texts: `formatDuration` and
    `getRelativeTime` of `src/utils/time.ts` and `formatDuration` of
    `src/utils/format.ts`. Each renders a whole number followed by a unit
    word; a reader that takes such text apart again is the partner the
    renderings are checked against. */
module Durations {
  import opened Wrappers
  import opened Text
  import opened Decimal

  /** JavaScript `a % b` for a positive `b`: the remainder takes the sign of
      `a`, unlike Dafny's `%`. */
  function JsRem(a: int, b: int): (r: int)
    requires b > 0
    ensures a >= 0 ==> 0 <= r < b && r == a % b
    ensures a < 0 ==> -b < r <= 0
  {
    if a >= 0 then a % b else -((-a) % b)
  }

  /** `${n}` for an integer `n`. */
  function IntText(n: int): string {
    if n < 0 then "-" + NatToString(-n) else NatToString(n)
  }

  // ---------------------------------------------------------------------
  // Unit tables and the reader
  // ---------------------------------------------------------------------

  /** A unit word and how many base units it stands for. */
  type UnitTable = seq<(string, nat)>

  /** Unit words that a reader can tell apart by their first character, none
      of which starts with a digit. */
  predicate Distinct(units: UnitTable) {
    (forall i :: 0 <= i < |units| ==> |units[i].0| > 0 && !IsDigit(units[i].0[0]))
    && forall i, j :: 0 <= i < j < |units| ==> units[i].0[0] != units[j].0[0]
  }

  /** The `time.ts` duration units, counted in seconds. */
  const ClockUnits: UnitTable := [("小时", 3600), ("分钟", 60), ("秒", 1)]

  /** The `format.ts` duration units, counted in milliseconds. */
  const MsUnits: UnitTable := [("ms", 1), ("秒", 1000), ("分钟", 60000)]

  /** The `getRelativeTime` units, counted in milliseconds. */
  const AgoUnits: UnitTable := [("天前", 86400000), ("小时前", 3600000), ("分钟前", 60000), ("秒前", 1000)]

  lemma TablesDistinct()
    ensures Distinct(ClockUnits) && Distinct(MsUnits) && Distinct(AgoUnits)
  {
    LeadsDistinct(ClockUnits, ['小', '分', '秒']);
    LeadsDistinct(MsUnits, ['m', '秒', '分']);
    LeadsDistinct(AgoUnits, ['天', '小', '分', '秒']);
  }

  /** A table whose names start with the given distinct non-digit
      characters is readable. */
  lemma {:induction false} LeadsDistinct(units: UnitTable, leads: seq<char>)
    requires |leads| == |units|
    requires forall i :: 0 <= i < |units| ==> |units[i].0| > 0 && units[i].0[0] == leads[i]
    requires forall i :: 0 <= i < |leads| ==> !IsDigit(leads[i])
    requires forall i, j :: 0 <= i < j < |leads| ==> leads[i] != leads[j]
    ensures Distinct(units)
  {
  }

  /** How many digits lead `t`. */
  function LeadingDigits(t: string): (k: nat)
    ensures k <= |t| && AllDigits(t[..k])
    decreases |t|
  {
    if |t| == 0 || !IsDigit(t[0]) then 0
    else
      var k := 1 + LeadingDigits(t[1..]);
      assert t[..k] == [t[0]] + t[1..][..k - 1];
      k
  }

  /** The digits in front of a non-digit are exactly the leading ones. */
  lemma {:induction false} LeadingDigitsOf(ds: string, rest: string)
    requires AllDigits(ds) && (rest == "" || !IsDigit(rest[0]))
    ensures LeadingDigits(ds + rest) == |ds|
    decreases |ds|
  {
    if |ds| > 0 {
      assert (ds + rest)[1..] == ds[1..] + rest;
      LeadingDigitsOf(ds[1..], rest);
    } else {
      assert ds + rest == rest;
    }
  }

  /** Position of the first unit word that starts `t`, or `|units|`. */
  function FirstUnit(t: string, units: UnitTable): (i: nat)
    ensures i <= |units|
    ensures i < |units| ==> StartsWith(t, units[i].0)
    decreases |units|
  {
    if |units| == 0 then 0
    else if StartsWith(t, units[0].0) then 0
    else 1 + FirstUnit(t, units[1..])
  }

  /** Reads one amount off the front of `t`: its digits, the value of the
      unit word after them, and the text that follows. */
  function ReadAmount(t: string, units: UnitTable): (r: Option<(nat, nat, string)>)
    requires Distinct(units)
    ensures r.Some? ==> |r.value.2| < |t|
  {
    var k := LeadingDigits(t);
    if k == 0 then None
    else
      var i := FirstUnit(t[k..], units);
      if i == |units| then None
      else Some((DigitsValue(t[..k]), units[i].1, t[k..][|units[i].0|..]))
  }

  /** Reads a whole run of amounts and adds up their values. */
  function ReadTotal(t: string, units: UnitTable): (r: Option<nat>)
    requires Distinct(units)
    ensures t == "" ==> r == Some(0)
    decreases |t|
  {
    if t == "" then Some(0)
    else
      var a := ReadAmount(t, units);
      if a.None? then None
      else
        var more := ReadTotal(a.value.2, units);
        if more.None? then None else Some(a.value.0 * a.value.1 + more.value)
  }

  /** `t` reads back as the total `v`. */
  predicate ReadsTo(t: string, units: UnitTable, v: int)
    requires Distinct(units)
  {
    ReadTotal(t, units) == Some(v)
  }

  /** Reading a run is reading its first amount and then the rest. */
  lemma {:induction false} ReadTotalStep(t: string, units: UnitTable, n: nat, scale: nat, rest: string, m: nat, v: int)
    requires Distinct(units) && t != ""
    requires ReadAmount(t, units) == Some((n, scale, rest)) && ReadsTo(rest, units, m)
    requires v == n * scale + m
    ensures ReadsTo(t, units, v)
  {
  }

  /** One amount of `units[i]` in front of `rest` reads back as itself. */
  lemma {:induction false} ReadRendered(ds: string, n: nat, units: UnitTable, i: nat, rest: string)
    requires Distinct(units) && i < |units|
    requires |ds| > 0 && AllDigits(ds) && DigitsValue(ds) == n
    ensures ReadAmount(ds + units[i].0 + rest, units) == Some((n, units[i].1, rest))
  {
    var u := units[i].0;
    var t := ds + u + rest;
    assert LeadingDigits(t) == |ds| by {
      assert t == ds + (u + rest);
      LeadingDigitsOf(ds, u + rest);
    }
    assert t[..|ds|] == ds;
    assert t[|ds|..] == u + rest;
    assert FirstUnit(u + rest, units) == i by {
      FirstUnitIs(u + rest, units, i);
    }
    assert (u + rest)[|u|..] == rest;
  }

  lemma {:induction false} FirstUnitIs(t: string, units: UnitTable, i: nat)
    requires Distinct(units) && i < |units| && StartsWith(t, units[i].0)
    ensures FirstUnit(t, units) == i
    decreases i
  {
    assert t[0] == units[i].0[0];
    if i > 0 {
      assert !StartsWith(t, units[0].0) by {
        assert units[0].0[0] != units[i].0[0];
      }
      assert Distinct(units[1..]) by {
        forall a, b | 0 <= a < b < |units| - 1
          ensures units[1..][a].0[0] != units[1..][b].0[0]
        {
          assert units[1..][a] == units[a + 1] && units[1..][b] == units[b + 1];
        }
      }
      FirstUnitIs(t, units[1..], i - 1);
    }
  }

  // ---------------------------------------------------------------------
  // Amounts and their rendering
  // ---------------------------------------------------------------------

  /** A count of the unit at position `unit` of a table. */
  datatype Amount = Amount(count: int, unit: nat)

  predicate Fits(amounts: seq<Amount>, units: UnitTable) {
    forall k :: 0 <= k < |amounts| ==> amounts[k].unit < |units|
  }

  /** The amounts rendered and joined with nothing between them. */
  function Render(amounts: seq<Amount>, units: UnitTable): string
    requires Fits(amounts, units)
    decreases |amounts|
  {
    if |amounts| == 0 then ""
    else IntText(amounts[0].count) + units[amounts[0].unit].0 + Render(amounts[1..], units)
  }

  /** What the amounts add up to in base units. */
  function Total(amounts: seq<Amount>, units: UnitTable): int
    requires Fits(amounts, units)
    decreases |amounts|
  {
    if |amounts| == 0 then 0
    else amounts[0].count * units[amounts[0].unit].1 + Total(amounts[1..], units)
  }

  /** Rendered non-negative amounts read back as their total. */
  lemma {:induction false} ReadRender(amounts: seq<Amount>, units: UnitTable)
    requires Distinct(units) && Fits(amounts, units)
    requires forall k :: 0 <= k < |amounts| ==> amounts[k].count >= 0
    ensures ReadsTo(Render(amounts, units), units, Total(amounts, units))
    decreases |amounts|
  {
    if |amounts| > 0 {
      ReadRender(amounts[1..], units);
      ReadRenderStep(amounts, units, Render(amounts, units), Total(amounts, units));
    } else {
      assert Render(amounts, units) == "";
      assert Total(amounts, units) == 0;
    }
  }

  /** The step of `ReadRender`: the first amount in front of the rest. */
  lemma {:induction false} ReadRenderStep(amounts: seq<Amount>, units: UnitTable, t: string, v: int)
    requires Distinct(units) && Fits(amounts, units) && |amounts| > 0 && amounts[0].count >= 0
    requires ReadsTo(Render(amounts[1..], units), units, Total(amounts[1..], units))
    requires t == Render(amounts, units) && v == Total(amounts, units)
    ensures ReadsTo(t, units, v)
  {
    var n, i := amounts[0].count, amounts[0].unit;
    var rest, m := Render(amounts[1..], units), Total(amounts[1..], units);
    ParseNatToString(n);
    ReadCons(t, IntText(n), n, units, i, rest, m, v);
  }

  /** An amount in front of a readable run adds its value to the run's. */
  lemma {:induction false} ReadCons(t: string, ds: string, n: nat, units: UnitTable, i: nat, rest: string, m: nat, v: int)
    requires Distinct(units) && i < |units|
    requires |ds| > 0 && AllDigits(ds) && DigitsValue(ds) == n
    requires ReadsTo(rest, units, m)
    requires t == ds + units[i].0 + rest && v == n * units[i].1 + m
    ensures ReadsTo(t, units, v)
  {
    ReadRendered(ds, n, units, i, rest);
    ReadTotalStep(t, units, n, units[i].1, rest, m, v);
  }

  // ---------------------------------------------------------------------
  // time.ts: formatDuration(seconds)
  // ---------------------------------------------------------------------

  /** The hour, minute and second counts `formatDuration` computes, with
      JavaScript's floor division and truncating remainder. */
  datatype Clock = Clock(hours: int, minutes: int, secs: int)

  function ClockOf(seconds: int): (c: Clock)
    ensures seconds >= 0 ==>
      c.hours >= 0 && 0 <= c.minutes < 60 && 0 <= c.secs < 60
      && c.hours * 3600 + c.minutes * 60 + c.secs == seconds
    ensures seconds < 0 ==> c.hours < 0 && c.minutes <= 0 && c.secs <= 0
  {
    var c := Clock(seconds / 3600, JsRem(seconds, 3600) / 60, JsRem(seconds, 60));
    assert seconds >= 0 ==> c.secs == seconds % 3600 % 60 by {
      if seconds >= 0 {
        assert seconds == 60 * (60 * (seconds / 3600) + seconds % 3600 / 60) + seconds % 3600 % 60;
      }
    }
    c
  }

  /** The parts `formatDuration` pushes: hours and minutes when positive,
      seconds when positive or when nothing else was pushed. */
  function ClockParts(seconds: int): (ps: seq<Amount>)
    ensures Fits(ps, ClockUnits) && |ps| >= 1
    ensures forall k :: 0 <= k < |ps| - 1 ==> ps[k].unit < ps[k + 1].unit
    ensures forall k :: 0 <= k < |ps| ==> ps[k].count > 0 || (ps[k].unit == 2 && |ps| == 1)
  {
    var c := ClockOf(seconds);
    var hs := Pushed(c.hours, 0, c.hours > 0);
    var ms := Pushed(c.minutes, 1, c.minutes > 0);
    hs + ms + Pushed(c.secs, 2, c.secs > 0 || |hs + ms| == 0)
  }

  /** The pushed parts of a non-negative duration add up to it. */
  lemma {:induction false} ClockPartsTotal(seconds: int)
    requires seconds >= 0
    ensures Total(ClockParts(seconds), ClockUnits) == seconds
  {
    var c := ClockOf(seconds);
    var hs := Pushed(c.hours, 0, c.hours > 0);
    var ms := Pushed(c.minutes, 1, c.minutes > 0);
    var ss := Pushed(c.secs, 2, c.secs > 0 || |hs + ms| == 0);
    PushedTotal(c.hours, 0, c.hours > 0, 3600);
    PushedTotal(c.minutes, 1, c.minutes > 0, 60);
    PushedTotal(c.secs, 2, c.secs > 0 || |hs + ms| == 0, 1);
    ThreeTotals(ClockParts(seconds), hs, ms, ss);
  }

  lemma {:induction false} ThreeTotals(all: seq<Amount>, hs: seq<Amount>, ms: seq<Amount>, ss: seq<Amount>)
    requires Fits(hs, ClockUnits) && Fits(ms, ClockUnits) && Fits(ss, ClockUnits)
    requires all == hs + ms + ss
    ensures Fits(all, ClockUnits)
    ensures Total(all, ClockUnits) == Total(hs, ClockUnits) + Total(ms, ClockUnits) + Total(ss, ClockUnits)
  {
    TotalAppend(hs, ms + ss);
    TotalAppend(ms, ss);
    assert hs + ms + ss == hs + (ms + ss);
  }

  /** `parts.push(...)` under a condition. */
  function Pushed(count: int, unit: nat, push: bool): seq<Amount> {
    if push then [Amount(count, unit)] else []
  }

  /** A part left out for a zero count adds nothing either way. */
  lemma {:induction false} PushedTotal(count: int, unit: nat, push: bool, scale: nat)
    requires unit < |ClockUnits| && scale == ClockUnits[unit].1
    requires count >= 0 && (push || count == 0)
    ensures Fits(Pushed(count, unit, push), ClockUnits)
    ensures Total(Pushed(count, unit, push), ClockUnits) == count * scale
  {
    if push {
      assert [Amount(count, unit)][1..] == [];
    }
  }

  lemma {:induction false} TotalAppend(a: seq<Amount>, b: seq<Amount>)
    requires Fits(a, ClockUnits) && Fits(b, ClockUnits)
    ensures Fits(a + b, ClockUnits) && Total(a + b, ClockUnits) == Total(a, ClockUnits) + Total(b, ClockUnits)
    decreases |a|
  {
    if |a| > 0 {
      assert (a + b)[0] == a[0];
      assert (a + b)[1..] == a[1..] + b;
      TotalAppend(a[1..], b);
    } else {
      assert a + b == b;
    }
  }

  /** `formatDuration(seconds)`. */
  function FormatDuration(seconds: int): (r: string)
    ensures seconds < 0 ==> r == IntText(JsRem(seconds, 60)) + "秒"
  {
    var ps := ClockParts(seconds);
    assert seconds < 0 ==> Render(ps, ClockUnits) == IntText(JsRem(seconds, 60)) + "秒" by {
      if seconds < 0 {
        var c := ClockOf(seconds);
        assert ps == [Amount(c.secs, 2)];
        assert Render(ps, ClockUnits) == IntText(c.secs) + "秒" + Render([], ClockUnits);
      }
    }
    Render(ps, ClockUnits)
  }

  /** Every non-negative duration reads back from its text. */
  lemma {:induction false} FormatDurationRoundTrip(seconds: int)
    requires seconds >= 0
    ensures ReadTotal(FormatDuration(seconds), ClockUnits) == Some(seconds)
  {
    var ps := ClockParts(seconds);
    ClockPartsTotal(seconds);
    TablesDistinct();
    assert forall k :: 0 <= k < |ps| ==> ps[k].count >= 0 by {
      var c := ClockOf(seconds);
      assert c.secs >= 0;
    }
    ReadRender(ps, ClockUnits);
  }

  /** Zero is `0秒`, a whole hour is the hour alone. */
  lemma FormatDurationExamples()
    ensures FormatDuration(0) == "0秒"
    ensures FormatDuration(3600) == "1小时"
  {
    assert ClockParts(0) == [Amount(0, 2)];
    assert ClockParts(3600) == [Amount(1, 0)];
  }

  // ---------------------------------------------------------------------
  // time.ts: getRelativeTime(diff)
  // ---------------------------------------------------------------------

  /** `getRelativeTime` for a difference of `diff` milliseconds between now
      and the given time: whole seconds, minutes, hours and days by floor
      division, the largest positive one is named, and anything under a
      second (or in the future) is `刚刚`. */
  function RelativeTime(diff: int): (r: string)
    ensures diff < 1000 ==> r == "刚刚"
    ensures diff >= 86400000 ==> r == NatToString(diff / 86400000) + "天前"
    ensures 3600000 <= diff < 86400000 ==> r == NatToString(diff / 3600000) + "小时前"
    ensures 60000 <= diff < 3600000 ==> r == NatToString(diff / 60000) + "分钟前"
    ensures 1000 <= diff < 60000 ==> r == NatToString(diff / 1000) + "秒前"
  {
    var seconds := diff / 1000;
    var minutes := seconds / 60;
    var hours := minutes / 60;
    var days := hours / 24;
    NestedUnits(diff);
    if days > 0 then IntText(days) + "天前"
    else if hours > 0 then IntText(hours) + "小时前"
    else if minutes > 0 then IntText(minutes) + "分钟前"
    else if seconds > 0 then IntText(seconds) + "秒前"
    else "刚刚"
  }

  /** Counting seconds, then minutes, hours and days of them by floor
      division is dividing the milliseconds by each unit at once. */
  lemma {:induction false} NestedUnits(diff: int)
    ensures diff / 1000 / 60 == diff / 60000
    ensures diff / 60000 / 60 == diff / 3600000
    ensures diff / 3600000 / 24 == diff / 86400000
  {
  }

  /** Whatever the relative text names, its count times its unit is at most
      the difference, and one more would exceed it. */
  lemma {:induction false} RelativeTimeReadBack(diff: int)
    requires diff >= 1000
    ensures var a := ReadAmount(RelativeTime(diff), AgoUnits);
      a.Some? && a.value.2 == ""
      && a.value.0 * a.value.1 <= diff < (a.value.0 + 1) * a.value.1
  {
    TablesDistinct();
    var u, n := RelativeUnit(diff);
    ReadsBackAmount(RelativeTime(diff), AgoUnits, u, n, diff);
  }

  /** A rendered count of one unit reads back as that count and unit. */
  lemma {:induction false} ReadsBackAmount(t: string, units: UnitTable, u: nat, n: nat, x: int)
    requires Distinct(units) && u < |units| && t == NatToString(n) + units[u].0
    requires n * units[u].1 <= x < (n + 1) * units[u].1
    ensures var a := ReadAmount(t, units);
      a.Some? && a.value.2 == ""
      && a.value.0 * a.value.1 <= x < (a.value.0 + 1) * a.value.1
  {
    ParseNatToString(n);
    ReadRendered(NatToString(n), n, units, u, "");
    assert t == NatToString(n) + units[u].0 + "";
  }

  /** The unit the relative text picks, and the count of it. */
  lemma {:induction false} RelativeUnit(diff: int) returns (u: nat, n: nat)
    requires diff >= 1000
    ensures u < |AgoUnits| && RelativeTime(diff) == NatToString(n) + AgoUnits[u].0
    ensures n * AgoUnits[u].1 <= diff < (n + 1) * AgoUnits[u].1
  {
    if diff >= 86400000 {
      u, n := 0, diff / 86400000;
    } else if diff >= 3600000 {
      u, n := 1, diff / 3600000;
    } else if diff >= 60000 {
      u, n := 2, diff / 60000;
    } else {
      u, n := 3, diff / 1000;
    }
  }

  // ---------------------------------------------------------------------
  // format.ts: formatDuration(ms)
  // ---------------------------------------------------------------------

  /** `formatDuration(ms)` of `format.ts`: milliseconds below a second,
      whole seconds below a minute, whole minutes beyond; there is no hour
      unit. */
  function FormatMillis(ms: int): (r: string)
    ensures ms < 1000 ==> r == IntText(ms) + "ms"
    ensures 1000 <= ms < 60000 ==> r == NatToString(ms / 1000) + "秒"
    ensures ms >= 60000 ==> r == NatToString(ms / 60000) + "分钟"
  {
    if ms < 1000 then IntText(ms) + "ms"
    else
      var seconds := ms / 1000;
      if seconds < 60 then IntText(seconds) + "秒"
      else IntText(seconds / 60) + "分钟"
  }

  /** The text of a non-negative duration names exactly one unit, and its
      count is the duration in that unit rounded down. */
  lemma {:induction false} FormatMillisReadBack(ms: int)
    requires ms >= 0
    ensures var a := ReadAmount(FormatMillis(ms), MsUnits);
      a.Some? && a.value.2 == ""
      && a.value.0 * a.value.1 <= ms < (a.value.0 + 1) * a.value.1
  {
    TablesDistinct();
    var u, n := MillisUnit(ms);
    ReadsBackAmount(FormatMillis(ms), MsUnits, u, n, ms);
  }

  /** The unit the duration text picks, and the count of it. */
  lemma {:induction false} MillisUnit(ms: int) returns (u: nat, n: nat)
    requires ms >= 0
    ensures u < |MsUnits| && FormatMillis(ms) == NatToString(n) + MsUnits[u].0
    ensures n * MsUnits[u].1 <= ms < (n + 1) * MsUnits[u].1
  {
    if ms < 1000 {
      u, n := 0, ms;
    } else if ms < 60000 {
      u, n := 1, ms / 1000;
    } else {
      u, n := 2, ms / 60000;
    }
  }
}

=== FILE: emby_client.dfy ===
/** The Emby service client (`EmbyServiceClient`): the constructor's
    defaults, the path-checked refresh, the connection test and the
    mappings of items to libraries and library items. Every exception in
    these calls is caught and becomes an empty or false result. */
module EmbyServiceClient {
  import opened Wrappers
  import opened Text
  import opened JsonValues
  import opened AppPaths
  import opened EmbyHttp

  /** The Emby settings the client and the service read. */
  datatype EmbyConfig = EmbyConfig(
    serverUrl: string,
    apiKey: Option<string>,
    timeout: int,
    maxRetries: int,
    retryDelay: int,
    libraryPaths: seq<string>)

  /** `value or default` for an integer setting: zero is falsy. */
  function OrDefault(value: int, default: int): (r: int)
    ensures value != 0 ==> r == value
    ensures value == 0 ==> r == default
  {
    if value == 0 then default else value
  }

  /** The constructor: unset (zero) timeout, retry count and delay fall
      back to 30, 3 and 5. */
  function NewServiceClient(config: EmbyConfig): (c: Client)
    ensures c.timeout == OrDefault(config.timeout, DefaultTimeout)
    ensures c.maxRetries == OrDefault(config.maxRetries, DefaultMaxRetries)
    ensures c.retryDelay == OrDefault(config.retryDelay, DefaultRetryDelay)
    ensures c.requestCount == 0 && c.failedRequests == 0
  {
    NewClient(config.serverUrl, config.apiKey, OrDefault(config.timeout, DefaultTimeout),
              OrDefault(config.maxRetries, DefaultMaxRetries), OrDefault(config.retryDelay, DefaultRetryDelay))
  }

  /** A client built from settings whose retry count is zero or positive
      makes at least one attempt on every call: zero means the default 3. */
  lemma {:induction false} ServiceClientAlwaysAttempts(config: EmbyConfig, verb: string, endpoint: string, outcome: nat -> Attempt)
    requires config.maxRetries >= 0
    ensures MakeRequest(NewServiceClient(config), verb, endpoint, [], None, outcome).attempts > 0
  {
  }

  /** The normalised path lies below one of the configured library paths
      (normalised too), as text. */
  predicate UnderLibrary(libraryPaths: seq<string>, path: string) {
    exists i :: 0 <= i < |libraryPaths| && StartsWith(path, NormalizePath(libraryPaths[i]))
  }

  /** The client after a refresh, its result and the request sent, if any. */
  datatype Refresh = Refresh(client: Client, ok: bool, sent: Option<Request>)

  /** `refresh_by_path`: a path outside every configured library gives
      false without any request; otherwise the normalised path is refreshed. */
  function RefreshByPath(c: Client, libraryPaths: seq<string>, path: string, outcome: nat -> Attempt): (r: Refresh)
    ensures !UnderLibrary(libraryPaths, NormalizePath(path)) ==> r == Refresh(c, false, None)
    ensures UnderLibrary(libraryPaths, NormalizePath(path)) ==>
              r.sent.Some? && r.client.requestCount == c.requestCount + 1 &&
              r == Refresh(RefreshLibrary(c, Some(NormalizePath(path)), outcome).0.client,
                           RefreshLibrary(c, Some(NormalizePath(path)), outcome).1,
                           Some(RefreshLibrary(c, Some(NormalizePath(path)), outcome).0.sent))
  {
    var p := NormalizePath(path);
    if !UnderLibrary(libraryPaths, p) then Refresh(c, false, None)
    else
      var (call, ok) := RefreshLibrary(c, Some(p), outcome);
      Refresh(call.client, ok, Some(call.sent))
  }

  /** A refresh that is sent carries the path with forward slashes only,
      to the media-updated endpoint (or, for an empty path, which only an
      empty library path lets through, to the whole-library refresh). */
  lemma {:induction false} RefreshByPathSendsNormalised(c: Client, libraryPaths: seq<string>, path: string, outcome: nat -> Attempt)
    requires UnderLibrary(libraryPaths, NormalizePath(path)) && path != ""
    ensures var r := RefreshByPath(c, libraryPaths, path, outcome);
            r.sent.Some? && r.sent.value.url == Url(c, "/Library/Media/Updated") &&
            r.sent.value.json == Some(Obj([("Path", Str(NormalizePath(path)))])) &&
            '\\' !in NormalizePath(path)
  {
  }

  /** A Windows-style path is matched against a library configured with
      forward slashes, and the other way round. */
  lemma BackslashesMatchLibraries()
    ensures UnderLibrary(["/media"], NormalizePath("\\media\\film.mkv"))
    ensures UnderLibrary(["\\media"], NormalizePath("/media/film.mkv"))
  {
    assert NormalizePath("\\media\\film.mkv") == "/media/film.mkv";
    assert NormalizePath("\\media") == "/media";
    assert NormalizePath("/media") == "/media";
    assert NormalizePath("/media/film.mkv") == "/media/film.mkv";
    assert StartsWith("/media/film.mkv", "/media");
    assert ["/media"][0] == "/media";
    assert ["\\media"][0] == "\\media";
  }

  /** `refresh_all`: the whole-library refresh. */
  function RefreshAll(c: Client, outcome: nat -> Attempt): (r: Refresh)
    ensures r.sent == Some(Request("POST", Url(c, "/Library/Refresh"), c.apiKey, [], None))
    ensures r.ok <==> RefreshLibrary(c, None, outcome).0.result.Ok?
  {
    var (call, ok) := RefreshLibrary(c, None, outcome);
    Refresh(call.client, ok, Some(call.sent))
  }

  /** The server information holds a truthy `Version`. */
  predicate HasVersion(info: Option<Json>) {
    info.Some? && info.value.Obj? && Has(info.value.fields, "Version") && Truthy(Get(info.value.fields, "Version").value)
  }

  /** `test_connection`: the server information is an object with a truthy
      `Version`; anything else, a failed request included, is false. */
  function TestConnection(c: Client, outcome: nat -> Attempt): (r: (Client, bool))
    ensures r.1 <==> HasVersion(GetServerInfo(c, outcome).1)
    ensures r.0.requestCount == c.requestCount + 1
  {
    var (call, info) := GetServerInfo(c, outcome);
    (call.client, HasVersion(info))
  }

  /** A connection test passes only when some attempt was answered with
      status 200 and a JSON object. */
  lemma {:induction false} ConnectedMeansAnswered(c: Client, outcome: nat -> Attempt)
    requires TestConnection(c, outcome).1
    ensures c.maxRetries > 0
    ensures exists j :: 0 <= j < c.maxRetries && outcome(j).Answered? && outcome(j).status == 200 &&
                        outcome(j).body.Some? && outcome(j).body.value.Obj?
  {
    var call := MakeRequest(c, "GET", "/System/Info", [], None, outcome);
    assert call.result.Ok? && call.result.value.Some?;
    MakeRequestFirstSuccess(c, "GET", "/System/Info", [], None, outcome);
    var j := call.attempts - 1;
    assert outcome(j).Answered?;
  }

  /** An item the mapping can read: an object with `Id` and `Name`. */
  predicate Mappable(item: Json) {
    item.Obj? && Has(item.fields, "Id") && Has(item.fields, "Name")
  }

  predicate AllMappable(items: seq<Json>) {
    forall i :: 0 <= i < |items| ==> Mappable(items[i])
  }

  /** The list comprehension over the items: one mapped entry per item, or
      nothing at all when the items are not a list or any item lacks `Id`
      or `Name` (the exception is caught and an empty list returned). */
  function MapItems<T>(items: Json, f: Json -> T): (r: seq<T>)
    ensures items.Arr? && AllMappable(items.items) ==>
              |r| == |items.items| && forall i :: 0 <= i < |r| ==> r[i] == f(items.items[i])
    ensures !(items.Arr? && AllMappable(items.items)) ==> r == []
  {
    if items.Arr? && AllMappable(items.items) then seq(|items.items|, i requires 0 <= i < |items.items| => f(items.items[i]))
    else []
  }

  datatype Library = Library(id: Json, name: Json, kind: Json, path: Json, itemCount: Json)

  /** One library of `get_libraries`, with the defaults `unknown`, `''`
      and 0 for a missing type, path and item count. */
  function ToLibrary(item: Json): Library {
    var fs := if item.Obj? then item.fields else [];
    Library(GetOr(fs, "Id", Null), GetOr(fs, "Name", Null), GetOr(fs, "CollectionType", Str("unknown")),
            GetOr(fs, "Path", Str("")), GetOr(fs, "ChildCount", Num(0)))
  }

  /** An item with nothing but `Id` and `Name` maps to a library with every
      default. */
  lemma {:induction false} LibraryDefaults(id: Json, name: Json)
    ensures ToLibrary(Obj([("Id", id), ("Name", name)])) == Library(id, name, Str("unknown"), Str(""), Num(0))
  {
    var fs := [("Id", id), ("Name", name)];
    assert !Has(fs, "CollectionType") && !Has(fs, "Path") && !Has(fs, "ChildCount");
    GetUnique(fs, 0);
    GetUnique(fs, 1);
  }

  /** `get_libraries`: the collection folders, mapped. */
  function GetLibraries(c: Client, outcome: nat -> Attempt): (r: (Call, seq<Library>))
    ensures r.0.sent.params == ItemParams(None, Some(["CollectionFolder"]), false, None, None, None)
    ensures r.0.result.Err? ==> r.1 == []
    ensures r.1 == MapItems(GetItems(c, None, Some(["CollectionFolder"]), false, None, None, None, outcome).1, ToLibrary)
  {
    var (call, items) := GetItems(c, None, Some(["CollectionFolder"]), false, None, None, None, outcome);
    (call, MapItems(items, ToLibrary))
  }

  /** One item in a list without `Id` or `Name` empties the whole list. */
  lemma {:induction false} OneBadItemEmptiesLibraries(c: Client, outcome: nat -> Attempt, k: int)
    requires var items := GetItems(c, None, Some(["CollectionFolder"]), false, None, None, None, outcome).1;
             items.Arr? && 0 <= k < |items.items| && !Mappable(items.items[k])
    ensures GetLibraries(c, outcome).1 == []
  {
  }

  datatype LibraryItem = LibraryItem(
    id: Json, name: Json, kind: Json, path: Json, created: Json, modified: Json,
    size: Json, played: Json, lastPlayed: Json)

  /** One item of `get_library_items`: absent optional fields read as
      `null`, the type as `unknown`, the path as `''`, the play count as 0. */
  function ToLibraryItem(item: Json): LibraryItem {
    var fs := if item.Obj? then item.fields else [];
    LibraryItem(GetOr(fs, "Id", Null), GetOr(fs, "Name", Null), GetOr(fs, "Type", Str("unknown")),
                GetOr(fs, "Path", Str("")), GetOr(fs, "DateCreated", Null), GetOr(fs, "DateModified", Null),
                GetOr(fs, "Size", Null), GetOr(fs, "PlayCount", Num(0)), GetOr(fs, "LastPlayedDate", Null))
  }

  /** The item types asked for: the one given, if non-empty. */
  function TypeFilter(itemType: Option<string>): (r: Option<seq<string>>)
    ensures r.Some? <==> itemType.Some? && itemType.value != ""
  {
    if itemType.Some? && itemType.value != "" then Some([itemType.value]) else None
  }

  /** `get_library_items`: the items below a library, recursively, sorted
      as asked (by creation date, newest first, by default). */
  function GetLibraryItems(c: Client, libraryId: string, itemType: Option<string>, sortBy: string, sortOrder: string,
                           limit: Option<int>, outcome: nat -> Attempt): (r: (Call, seq<LibraryItem>))
    ensures r.0.sent.params == ItemParams(Some(libraryId), TypeFilter(itemType), true, Some(sortBy), Some(sortOrder), limit)
    ensures r.0.result.Err? ==> r.1 == []
    ensures r.1 == MapItems(GetItems(c, Some(libraryId), TypeFilter(itemType), true, Some(sortBy), Some(sortOrder), limit, outcome).1,
                            ToLibraryItem)
  {
    var (call, items) := GetItems(c, Some(libraryId), TypeFilter(itemType), true, Some(sortBy), Some(sortOrder), limit, outcome);
    (call, MapItems(items, ToLibraryItem))
  }

  /** The query of `get_library_items` always asks for a recursive listing
      below the library, and names an item type only when one is given. */
  lemma {:induction false} LibraryItemsQuery(c: Client, libraryId: string, itemType: Option<string>, sortBy: string, sortOrder: string,
                          limit: Option<int>, outcome: nat -> Attempt)
    ensures var ps := GetLibraryItems(c, libraryId, itemType, sortBy, sortOrder, limit, outcome).0.sent.params;
            Param("Recursive", Text("true")) in ps && HasParam(ps, "ParentId") && HasParam(ps, "SortBy") &&
            (HasParam(ps, "IncludeItemTypes") <==> itemType.Some? && itemType.value != "")
  {
    ItemParamsPresent(Some(libraryId), TypeFilter(itemType), true, Some(sortBy), Some(sortOrder), limit, "ParentId");
    ItemParamsPresent(Some(libraryId), TypeFilter(itemType), true, Some(sortBy), Some(sortOrder), limit, "SortBy");
    ItemParamsPresent(Some(libraryId), TypeFilter(itemType), true, Some(sortBy), Some(sortOrder), limit, "IncludeItemTypes");
  }

  datatype ItemDetails = ItemDetails(
    item: LibraryItem, overview: Json, genres: Json, tags: Json, rating: Json,
    year: Json, duration: Json, mediaInfo: Json)

  /** `get_item_details`: nothing for a failed request or a falsy answer,
      nothing when the answer has no `Id` or `Name` (the exception is
      caught); otherwise the fields of a library item plus the details,
      with empty lists for missing genres, tags and media sources. */
  function GetItemDetails(c: Client, itemId: string, outcome: nat -> Attempt): (r: (Call, Option<ItemDetails>))
    ensures r.1.Some? <==> GetItem(c, itemId, outcome).1.Some? && Mappable(GetItem(c, itemId, outcome).1.value)
    ensures r.1.Some? ==> r.1.value.item == ToLibraryItem(GetItem(c, itemId, outcome).1.value)
  {
    var (call, item) := GetItem(c, itemId, outcome);
    if item.None? || !Truthy(item.value) || !Mappable(item.value) then (call, None)
    else
      var fs := item.value.fields;
      (call, Some(ItemDetails(ToLibraryItem(item.value), GetOr(fs, "Overview", Null), GetOr(fs, "Genres", Arr([])),
                              GetOr(fs, "Tags", Arr([])), GetOr(fs, "CommunityRating", Null),
                              GetOr(fs, "ProductionYear", Null), GetOr(fs, "RunTimeTicks", Null),
                              GetOr(fs, "MediaSources", Arr([])))))
  }
}

=== FILE: emby_http.dfy ===
/** The basic Emby HTTP client (`EmbyClient` of the backend's utilities):
    URL building, the retry loop of `_make_request` with its request
    counters, and the calls built on it. What each attempt at the HTTP
    request gets back is an input, indexed by the attempt number; the
    sleep between attempts is not modelled. */
module EmbyHttp {
  import opened Wrappers
  import opened Text
  import opened JsonValues
  import opened AppPaths

  const DefaultTimeout: int := 30
  const DefaultMaxRetries: int := 3
  const DefaultRetryDelay: int := 5

  /** What went wrong in the last attempt of a failed call. */
  datatype Failure =
    | TimedOutAt(attempt: nat, of: int)
    | StatusError(status: int, detail: Option<Json>)
    | NotJson
    | Raised(message: string)

  datatype Client = Client(
    serverUrl: string,
    apiKey: Option<string>,
    timeout: int,
    maxRetries: int,
    retryDelay: int,
    requestCount: nat,
    failedRequests: nat,
    lastError: Option<Failure>)

  /** The constructor: the server URL loses its trailing slashes and the
      counters start at zero. */
  function NewClient(serverUrl: string, apiKey: Option<string>, timeout: int, maxRetries: int, retryDelay: int): (c: Client)
    ensures StartsWith(serverUrl, c.serverUrl) && !EndsWith(c.serverUrl, "/")
    ensures forall i :: |c.serverUrl| <= i < |serverUrl| ==> serverUrl[i] == '/'
    ensures c.requestCount == 0 && c.failedRequests == 0 && c.lastError == None
  {
    Client(RStrip(serverUrl, '/'), apiKey, timeout, maxRetries, retryDelay, 0, 0, None)
  }

  /** The address of an endpoint: the server URL, one slash, the endpoint
      without its leading slashes. */
  function Url(c: Client, endpoint: string): (u: string)
  {
    c.serverUrl + "/" + LStrip(endpoint, '/')
  }

  /** Between the server part and the endpoint there is exactly one slash
      whatever slashes the two parts had. */
  lemma {:induction false} UrlJoinsWithOneSlash(serverUrl: string, apiKey: Option<string>, endpoint: string)
    ensures var c := NewClient(serverUrl, apiKey, DefaultTimeout, DefaultMaxRetries, DefaultRetryDelay);
            var u := Url(c, endpoint);
            var k := |c.serverUrl|;
            |u| > k && u[..k] == c.serverUrl && u[k] == '/' &&
            (k == 0 || u[k - 1] != '/') && (|u| == k + 1 || u[k + 1] != '/') &&
            endpoint == Slashes(|endpoint| - (|u| - k - 1)) + u[k + 1..]
  {
    var c := NewClient(serverUrl, apiKey, DefaultTimeout, DefaultMaxRetries, DefaultRetryDelay);
    var rest := LStrip(endpoint, '/');
    LStripSlashes(endpoint);
    var u := Url(c, endpoint);
    assert u[|c.serverUrl| + 1..] == rest;
  }

  /** What one attempt got back: an HTTP status with the body if it parsed
      as JSON, a timeout, or any other exception. */
  datatype Attempt = Answered(status: int, body: Option<Json>) | TimedOut | Errored(message: string)

  /** The detail a non-2xx answer adds to its error: the body's `error`
      field, when the body is an object that has one. */
  function Detail(body: Option<Json>): (d: Option<Json>)
    ensures d.Some? ==> body.Some? && body.value.Obj? && Has(body.value.fields, "error")
  {
    if body.Some? && body.value.Obj? then Get(body.value.fields, "error") else None
  }

  /** The verdict on attempt number `k` (from 0) of `maxRetries`: 204 gives
      no value, 200 gives the parsed body (a body that does not parse
      raises), and every other status raises and is retried like any other
      error. */
  function Judge(a: Attempt, k: nat, maxRetries: int): (r: Result<Option<Json>, Failure>)
    ensures r.Ok? <==> a.Answered? && (a.status == 204 || (a.status == 200 && a.body.Some?))
  {
    match a
    case Answered(status, body) =>
      if status == 204 then Ok(None)
      else if status == 200 then (if body.Some? then Ok(body) else Err(NotJson))
      else Err(StatusError(status, Detail(body)))
    case TimedOut => Err(TimedOutAt(k + 1, maxRetries))
    case Errored(m) => Err(Raised(m))
  }

  /** The attempts from number `k` on: the first that succeeds ends the
      loop; a failure of the last one is the call's failure. Returns the
      verdict and the number of attempts made so far. */
  function Attempts(maxRetries: int, outcome: nat -> Attempt, k: nat): (r: (Result<Option<Json>, Failure>, nat))
    requires k < maxRetries
    ensures k < r.1 <= maxRetries
    ensures r.0.Err? ==> r.1 == maxRetries
    ensures r.0 == Judge(outcome(r.1 - 1), r.1 - 1, maxRetries)
    ensures forall j :: k <= j < r.1 - 1 ==> Judge(outcome(j), j, maxRetries).Err?
    ensures r.0.Err? <==> forall j :: k <= j < maxRetries ==> Judge(outcome(j), j, maxRetries).Err?
    decreases maxRetries - k
  {
    var v := Judge(outcome(k), k, maxRetries);
    if v.Ok? || k == maxRetries - 1 then (v, k + 1)
    else Attempts(maxRetries, outcome, k + 1)
  }

  /** What a call sent: method, address, query parameters and JSON body,
      with the API key as the `X-Emby-Token` header. */
  datatype Request = Request(verb: string, url: string, token: Option<string>, params: seq<Param>, json: Option<Json>)

  datatype ParamValue = Text(text: string) | Number(number: int)

  datatype Param = Param(key: string, value: ParamValue)

  datatype Call = Call(client: Client, result: Result<Option<Json>, Failure>, attempts: nat, sent: Request)

  /** `_make_request`: the request counter goes up once per call, however
      many attempts it makes; at most `max_retries` attempts are made, and
      with none allowed the call returns nothing. Only a call whose last
      attempt fails counts as failed and records its error. */
  function MakeRequest(c: Client, verb: string, endpoint: string, params: seq<Param>, json: Option<Json>,
                       outcome: nat -> Attempt): (r: Call)
    ensures r.client.requestCount == c.requestCount + 1
    ensures r.client.failedRequests == c.failedRequests + (if r.result.Err? then 1 else 0)
    ensures r.result.Err? ==> r.client.lastError == Some(r.result.error) && r.attempts == c.maxRetries
    ensures r.result.Ok? ==> r.client.lastError == c.lastError
    ensures c.maxRetries <= 0 ==> r.result == Ok(None) && r.attempts == 0
    ensures c.maxRetries > 0 ==> 0 < r.attempts <= c.maxRetries
    ensures r.client.serverUrl == c.serverUrl && r.client.apiKey == c.apiKey && r.client.maxRetries == c.maxRetries
    ensures r.sent == Request(verb, Url(c, endpoint), c.apiKey, params, json)
    ensures c.maxRetries > 0 ==> (r.result, r.attempts) == Attempts(c.maxRetries, outcome, 0)
  {
    var sent := Request(verb, Url(c, endpoint), c.apiKey, params, json);
    var counted := c.(requestCount := c.requestCount + 1);
    if c.maxRetries <= 0 then Call(counted, Ok(None), 0, sent)
    else
      var (v, n) := Attempts(c.maxRetries, outcome, 0);
      match v
      case Ok(_) => Call(counted, v, n, sent)
      case Err(f) => Call(counted.(failedRequests := c.failedRequests + 1, lastError := Some(f)), v, n, sent)
  }

  /** A call succeeds exactly when one of its `max_retries` attempts does. */
  lemma {:induction false} MakeRequestSucceedsIff(c: Client, verb: string, endpoint: string, params: seq<Param>, json: Option<Json>,
                               outcome: nat -> Attempt)
    requires c.maxRetries > 0
    ensures MakeRequest(c, verb, endpoint, params, json, outcome).result.Ok? <==>
              exists j :: 0 <= j < c.maxRetries && Judge(outcome(j), j, c.maxRetries).Ok?
  {
    AttemptsSucceedIff(c.maxRetries, outcome);
  }

  /** A successful call carries the value of its first successful attempt,
      every earlier one having failed. */
  lemma {:induction false} MakeRequestFirstSuccess(c: Client, verb: string, endpoint: string, params: seq<Param>, json: Option<Json>,
                                outcome: nat -> Attempt)
    requires c.maxRetries > 0
    requires MakeRequest(c, verb, endpoint, params, json, outcome).result.Ok?
    ensures var r := MakeRequest(c, verb, endpoint, params, json, outcome);
            r.result == Judge(outcome(r.attempts - 1), r.attempts - 1, c.maxRetries) &&
            forall j :: 0 <= j < r.attempts - 1 ==> Judge(outcome(j), j, c.maxRetries).Err?
  {
  }

  lemma {:induction false} AttemptsSucceedIff(maxRetries: int, outcome: nat -> Attempt)
    requires maxRetries > 0
    ensures Attempts(maxRetries, outcome, 0).0.Ok? <==> exists j :: 0 <= j < maxRetries && Judge(outcome(j), j, maxRetries).Ok?
  {
    var (v, n) := Attempts(maxRetries, outcome, 0);
    if v.Ok? {
      assert Judge(outcome(n - 1), n - 1, maxRetries).Ok?;
    }
  }

  /** Failures never outnumber requests. */
  predicate Sane(c: Client) {
    c.failedRequests <= c.requestCount
  }

  /** The `stats` counters (the success rate, a float, is left out). */
  datatype Stats = Stats(totalRequests: nat, failedRequests: nat, lastError: Option<Failure>)

  function ClientStats(c: Client): (s: Stats)
    ensures Sane(c) ==> s.failedRequests <= s.totalRequests
  {
    Stats(c.requestCount, c.failedRequests, c.lastError)
  }

  /** Any run of calls from a new client keeps the counters sane; each
      element of `outcomes` is what one call's attempts get back. */
  function RunCalls(c: Client, outcomes: seq<nat -> Attempt>): (r: Client)
    ensures r.requestCount == c.requestCount + |outcomes|
    decreases |outcomes|
  {
    if |outcomes| == 0 then c
    else RunCalls(MakeRequest(c, "GET", "/", [], None, outcomes[0]).client, outcomes[1..])
  }

  lemma {:induction false} RunCallsSane(c: Client, outcomes: seq<nat -> Attempt>)
    requires Sane(c)
    ensures Sane(RunCalls(c, outcomes))
    ensures RunCalls(c, outcomes).failedRequests <= c.failedRequests + |outcomes|
    decreases |outcomes|
  {
    if |outcomes| > 0 {
      RunCallsSane(MakeRequest(c, "GET", "/", [], None, outcomes[0]).client, outcomes[1..]);
    }
  }

  /** `refresh_library`: a non-empty path posts `{"Path": path}` to
      `/Library/Media/Updated`, anything else posts to `/Library/Refresh`;
      a failed request gives false. */
  function RefreshLibrary(c: Client, path: Option<string>, outcome: nat -> Attempt): (r: (Call, bool))
    ensures r.1 <==> r.0.result.Ok?
    ensures path.Some? && path.value != "" ==>
              r.0.sent == Request("POST", Url(c, "/Library/Media/Updated"), c.apiKey, [], Some(Obj([("Path", Str(path.value))])))
    ensures path.None? || path.value == "" ==>
              r.0.sent == Request("POST", Url(c, "/Library/Refresh"), c.apiKey, [], None)
    ensures r.0.client.requestCount == c.requestCount + 1
  {
    var call := if path.Some? && path.value != "" then
                  MakeRequest(c, "POST", "/Library/Media/Updated", [], Some(Obj([("Path", Str(path.value))])), outcome)
                else MakeRequest(c, "POST", "/Library/Refresh", [], None, outcome);
    (call, call.result.Ok?)
  }

  /** `get_server_info`: the decoded answer of `/System/Info`, or nothing
      when the request fails. */
  function GetServerInfo(c: Client, outcome: nat -> Attempt): (r: (Call, Option<Json>))
    ensures r.0.sent.url == Url(c, "/System/Info")
    ensures r.0.result.Err? ==> r.1 == None
    ensures r.0.result.Ok? ==> r.1 == r.0.result.value
  {
    var call := MakeRequest(c, "GET", "/System/Info", [], None, outcome);
    (call, if call.result.Ok? then call.result.value else None)
  }

  /** `params` is present with key `key`. */
  predicate HasParam(params: seq<Param>, key: string) {
    exists i :: 0 <= i < |params| && params[i].key == key
  }

  /** The query of `get_items`: the parameters in their fixed order with
      every unset one dropped; the item types joined by commas (an empty
      list counts as unset) and `Recursive` always sent as `true` or
      `false`. */
  function ItemParams(parentId: Option<string>, types: Option<seq<string>>, recursive: bool,
                      sortBy: Option<string>, sortOrder: Option<string>, limit: Option<int>): (ps: seq<Param>)
    ensures Param("Recursive", Text(if recursive then "true" else "false")) in ps
    ensures types.Some? && types.value != [] ==> Param("IncludeItemTypes", Text(Join(types.value, ','))) in ps
  {
    var a := Opt("ParentId", Lift(parentId));
    var b := Opt("IncludeItemTypes", if types.Some? && types.value != [] then Some(Text(Join(types.value, ','))) else None);
    var c := [Param("Recursive", Text(if recursive then "true" else "false"))];
    var d := Opt("SortBy", Lift(sortBy));
    var e := Opt("SortOrder", Lift(sortOrder));
    var f := Opt("Limit", if limit.Some? then Some(Number(limit.value)) else None);
    assert c[0] in a + b + c + d + e + f;
    assert b != [] ==> b[0] in a + b + c + d + e + f;
    a + b + c + d + e + f
  }

  /** Exactly the parameters given a value are sent, `Recursive` always. */
  lemma {:induction false} ItemParamsPresent(parentId: Option<string>, types: Option<seq<string>>, recursive: bool,
                          sortBy: Option<string>, sortOrder: Option<string>, limit: Option<int>, k: string)
    ensures HasParam(ItemParams(parentId, types, recursive, sortBy, sortOrder, limit), k) <==>
              (k == "ParentId" && parentId.Some?) ||
              (k == "IncludeItemTypes" && types.Some? && types.value != []) ||
              k == "Recursive" ||
              (k == "SortBy" && sortBy.Some?) ||
              (k == "SortOrder" && sortOrder.Some?) ||
              (k == "Limit" && limit.Some?)
  {
    var a := Opt("ParentId", Lift(parentId));
    var b := Opt("IncludeItemTypes", if types.Some? && types.value != [] then Some(Text(Join(types.value, ','))) else None);
    var c := [Param("Recursive", Text(if recursive then "true" else "false"))];
    var d := Opt("SortBy", Lift(sortBy));
    var e := Opt("SortOrder", Lift(sortOrder));
    var f := Opt("Limit", if limit.Some? then Some(Number(limit.value)) else None);
    HasParamInSix(a, b, c, d, e, f, k, ItemParams(parentId, types, recursive, sortBy, sortOrder, limit));
    HasParamSingle(c[0], k);
  }

  /** A key is among six parameter lists put together when it is in one of
      them. */
  lemma {:induction false} HasParamInSix(a: seq<Param>, b: seq<Param>, c: seq<Param>, d: seq<Param>, e: seq<Param>, f: seq<Param>,
                      k: string, all: seq<Param>)
    requires all == a + b + c + d + e + f
    ensures HasParam(all, k) <==>
      HasParam(a, k) || HasParam(b, k) || HasParam(c, k) || HasParam(d, k) || HasParam(e, k) || HasParam(f, k)
  {
    HasParamAppend(a, b, k);
    HasParamAppend(a + b, c, k);
    HasParamAppend(a + b + c, d, k);
    HasParamAppend(a + b + c + d, e, k);
    HasParamAppend(a + b + c + d + e, f, k);
  }

  lemma {:induction false} HasParamSingle(p: Param, k: string)
    ensures HasParam([p], k) <==> k == p.key
  {
    if k == p.key {
      assert [p][0].key == k;
    }
  }

  function Lift(v: Option<string>): (r: Option<ParamValue>)
    ensures r.Some? <==> v.Some?
  {
    if v.Some? then Some(Text(v.value)) else None
  }

  /** The parameter `key` when it has a value, nothing otherwise. */
  function Opt(key: string, v: Option<ParamValue>): (ps: seq<Param>)
    ensures forall k :: HasParam(ps, k) <==> k == key && v.Some?
    ensures v.Some? ==> ps == [Param(key, v.value)]
  {
    if v.Some? then
      var ps := [Param(key, v.value)];
      assert ps[0].key == key;
      ps
    else []
  }

  lemma {:induction false} HasParamAppend(a: seq<Param>, b: seq<Param>, k: string)
    ensures HasParam(a + b, k) <==> HasParam(a, k) || HasParam(b, k)
  {
    if HasParam(a + b, k) {
      var i :| 0 <= i < |a + b| && (a + b)[i].key == k;
      if i >= |a| {
        assert b[i - |a|] == (a + b)[i];
      }
    }
    if HasParam(b, k) {
      var i :| 0 <= i < |b| && b[i].key == k;
      assert (a + b)[|a| + i] == b[i];
    }
    if HasParam(a, k) {
      var i :| 0 <= i < |a| && a[i].key == k;
      assert (a + b)[i] == a[i];
    }
  }

  /** `get_items`: the `Items` field of the decoded answer (an empty list
      when absent); an answer that is not an object, or a failed request,
      gives an empty list. */
  function GetItems(c: Client, parentId: Option<string>, types: Option<seq<string>>, recursive: bool,
                    sortBy: Option<string>, sortOrder: Option<string>, limit: Option<int>,
                    outcome: nat -> Attempt): (r: (Call, Json))
    ensures r.0.sent == Request("GET", Url(c, "/Items"), c.apiKey, ItemParams(parentId, types, recursive, sortBy, sortOrder, limit), None)
    ensures !(r.0.result.Ok? && r.0.result.value.Some? && r.0.result.value.value.Obj?) ==> r.1 == Arr([])
    ensures r.0.result.Ok? && r.0.result.value.Some? && r.0.result.value.value.Obj? ==>
              r.1 == GetOr(r.0.result.value.value.fields, "Items", Arr([]))
  {
    var call := MakeRequest(c, "GET", "/Items", ItemParams(parentId, types, recursive, sortBy, sortOrder, limit), None, outcome);
    if call.result.Ok? && call.result.value.Some? && call.result.value.value.Obj? then
      (call, GetOr(call.result.value.value.fields, "Items", Arr([])))
    else (call, Arr([]))
  }

  /** `get_item`: the decoded answer of `/Items/<id>`, or nothing. */
  function GetItem(c: Client, itemId: string, outcome: nat -> Attempt): (r: (Call, Option<Json>))
    ensures r.0.sent.url == Url(c, "/Items/" + itemId)
    ensures r.0.result.Err? ==> r.1 == None
    ensures r.0.result.Ok? ==> r.1 == r.0.result.value
  {
    var call := MakeRequest(c, "GET", "/Items/" + itemId, [], None, outcome);
    (call, if call.result.Ok? then call.result.value else None)
  }
}

=== FILE: emby_service.dfy ===
/** The Emby service (`EmbyService`): enabled exactly when an API key is
    configured, made ready by `initialize`, and guarding its getters on
    readiness. The client calls catch their own errors, so the service's
    error counter moves only in `initialize` and when a getter finds no
    client. */
module EmbyService {
  import opened Wrappers
  import opened Text
  import opened Seqs
  import opened JsonValues
  import opened AppPaths
  import opened EmbyHttp
  import opened EmbyServiceClient

  /** Why the service is not ready: the two failures `initialize` names,
      or an exception it caught. */
  datatype ServiceError = ConnectionFailed | NoLibraries | Crashed(message: string)

  datatype Service = Service(
    libraryPaths: seq<string>,
    client: Option<Client>,
    ready: bool,
    checked: bool,
    errorCount: nat,
    lastError: Option<ServiceError>)

  /** The constructor: a client is built only for a non-empty API key. */
  function NewService(config: EmbyConfig): (s: Service)
    ensures Enabled(s) <==> config.apiKey.Some? && config.apiKey.value != ""
    ensures !s.ready && !s.checked && s.errorCount == 0 && s.lastError == None
    ensures s.libraryPaths == config.libraryPaths
  {
    var client := if config.apiKey.Some? && config.apiKey.value != "" then Some(NewServiceClient(config)) else None;
    Service(config.libraryPaths, client, false, false, 0, None)
  }

  predicate Enabled(s: Service) {
    s.client.Some?
  }

  /** The libraries' paths the configured ones are checked against: the
      truthy ones, normalised. */
  function ServerPaths(libraries: seq<Library>): (r: seq<string>)
    ensures forall i :: 0 <= i < |r| ==> '\\' !in r[i]
    decreases |libraries|
  {
    if |libraries| == 0 then []
    else
      var p := libraries[0].path;
      var rest := ServerPaths(libraries[1..]);
      if p.Str? && p.s != "" then [NormalizePath(p.s)] + rest else rest
  }

  /** A truthy library path that is not a string: `replace` on it raises. */
  predicate BadPath(l: Library) {
    Truthy(l.path) && !l.path.Str?
  }

  predicate Covered(serverPaths: seq<string>, path: string) {
    exists i :: 0 <= i < |serverPaths| && StartsWith(path, serverPaths[i])
  }

  function Uncovered(serverPaths: seq<string>): string -> bool {
    (p: string) => !Covered(serverPaths, p)
  }

  /** The configured library paths, normalised. */
  function Normalized(paths: seq<string>): (r: seq<string>)
    ensures |r| == |paths| && forall i :: 0 <= i < |r| ==> r[i] == NormalizePath(paths[i])
  {
    seq(|paths|, i requires 0 <= i < |paths| => NormalizePath(paths[i]))
  }

  datatype Init = Init(s: Service, ok: bool, warnings: seq<string>)

  /** What `initialize` learns from the server: the client afterwards, the
      error if any, and the libraries listed. */
  datatype Probe = Probe(client: Client, error: Option<ServiceError>, libraries: seq<Library>)

  /** The connection test, then the library list; either failing, or a
      library path that is truthy but not a string, is an error. */
  function ProbeServer(c: Client, conn: nat -> Attempt, libs: nat -> Attempt): (p: Probe)
    ensures p.error.None? <==> TestConnection(c, conn).1 && p.libraries != [] &&
                               forall i :: 0 <= i < |p.libraries| ==> !BadPath(p.libraries[i])
    ensures !TestConnection(c, conn).1 ==> p.error == Some(ConnectionFailed)
    ensures TestConnection(c, conn).1 ==> p.libraries == GetLibraries(TestConnection(c, conn).0, libs).1
  {
    var (c1, connected) := TestConnection(c, conn);
    if !connected then Probe(c1, Some(ConnectionFailed), [])
    else
      var (call, libraries) := GetLibraries(c1, libs);
      if libraries == [] then Probe(call.client, Some(NoLibraries), [])
      else if exists i :: 0 <= i < |libraries| && BadPath(libraries[i]) then
        Probe(call.client, Some(Crashed("'path' has no replace")), libraries)
      else Probe(call.client, None, libraries)
  }

  /** `initialize`. A disabled service becomes ready at once. Otherwise the
      connection test and the library list must both succeed; then the
      configured library paths not found below any server library are
      only warned about. A failure counts an error, records it and leaves
      the service not ready. `conn` and `libs` are what the attempts of the
      two requests get back. */
  function Initialize(s: Service, conn: nat -> Attempt, libs: nat -> Attempt): (r: Init)
    ensures r.s.checked && r.s.libraryPaths == s.libraryPaths
    ensures !Enabled(s) ==> r == Init(s.(ready := true, checked := true), true, [])
    ensures r.ok <==> r.s.ready
    ensures Enabled(r.s) == Enabled(s)
    ensures r.ok ==> r.s.errorCount == s.errorCount
    ensures r.ok && Enabled(s) ==> r.s.lastError == None
    ensures !r.ok ==> r.s.errorCount == s.errorCount + 1 && r.s.lastError.Some?
    ensures Enabled(s) && !TestConnection(s.client.value, conn).1 ==> !r.ok && r.s.lastError == Some(ConnectionFailed)
  {
    var checked := s.(checked := true);
    if s.client.None? then Init(checked.(ready := true), true, [])
    else
      var p := ProbeServer(s.client.value, conn, libs);
      if p.error.Some? then
        Init(checked.(client := Some(p.client), errorCount := s.errorCount + 1, lastError := p.error, ready := false), false, [])
      else
        var warnings := Filter(Normalized(s.libraryPaths), Uncovered(ServerPaths(p.libraries)));
        Init(checked.(client := Some(p.client), ready := true, lastError := None), true, warnings)
  }

  /** The configured library paths never decide the outcome: only the
      warnings depend on them. */
  lemma {:induction false} LibraryPathsOnlyWarn(s: Service, paths: seq<string>, conn: nat -> Attempt, libs: nat -> Attempt)
    ensures Initialize(s.(libraryPaths := paths), conn, libs).ok == Initialize(s, conn, libs).ok
    ensures Initialize(s.(libraryPaths := paths), conn, libs).s == Initialize(s, conn, libs).s.(libraryPaths := paths)
  {
    if s.client.Some? {
      InitializeState(s, conn, libs);
      InitializeState(s.(libraryPaths := paths), conn, libs);
    }
  }

  /** The state `initialize` leaves an enabled service in, spelled out. */
  lemma {:induction false} InitializeState(s: Service, conn: nat -> Attempt, libs: nat -> Attempt)
    requires Enabled(s)
    ensures var p := ProbeServer(s.client.value, conn, libs);
            Initialize(s, conn, libs).ok == p.error.None? &&
            Initialize(s, conn, libs).s ==
              if p.error.Some? then
                s.(checked := true, client := Some(p.client), errorCount := s.errorCount + 1, lastError := p.error, ready := false)
              else s.(checked := true, client := Some(p.client), ready := true, lastError := None)
  {
  }

  /** The warnings are exactly the configured paths, normalised, that no
      server library covers. */
  lemma {:induction false} WarningsAreUncovered(s: Service, conn: nat -> Attempt, libs: nat -> Attempt, p: string)
    requires Enabled(s) && Initialize(s, conn, libs).ok
    ensures var libraries := GetLibraries(TestConnection(s.client.value, conn).0, libs).1;
            p in Initialize(s, conn, libs).warnings <==>
              p in Normalized(s.libraryPaths) && !Covered(ServerPaths(libraries), p)
  {
    var libraries := GetLibraries(TestConnection(s.client.value, conn).0, libs).1;
    assert Initialize(s, conn, libs).warnings == Filter(Normalized(s.libraryPaths), Uncovered(ServerPaths(libraries)));
  }

  /** An enabled service is ready after `initialize` only if the server
      answered the connection test and listed at least one library. */
  lemma {:induction false} ReadyMeansLibraries(s: Service, conn: nat -> Attempt, libs: nat -> Attempt)
    requires Enabled(s) && Initialize(s, conn, libs).ok
    ensures TestConnection(s.client.value, conn).1
    ensures GetLibraries(TestConnection(s.client.value, conn).0, libs).1 != []
  {
  }

  datatype Refreshed = Refreshed(s: Service, ok: bool, sent: Option<Request>)

  /** `refresh_media`: a disabled service succeeds without a request; a
      non-empty path is refreshed through the library check, anything else
      refreshes everything. The service's own counters do not move. */
  function RefreshMedia(s: Service, path: Option<string>, outcome: nat -> Attempt): (r: Refreshed)
    ensures !Enabled(s) ==> r == Refreshed(s, true, None)
    ensures Enabled(s) && path.Some? && path.value != "" ==>
              var f := RefreshByPath(s.client.value, s.libraryPaths, path.value, outcome);
              r == Refreshed(s.(client := Some(f.client)), f.ok, f.sent)
    ensures Enabled(s) && (path.None? || path.value == "") ==>
              var f := RefreshAll(s.client.value, outcome);
              r == Refreshed(s.(client := Some(f.client)), f.ok, f.sent)
    ensures r.s.errorCount == s.errorCount && r.s.ready == s.ready && r.s.lastError == s.lastError
  {
    if s.client.None? then Refreshed(s, true, None)
    else
      var f := if path.Some? && path.value != "" then RefreshByPath(s.client.value, s.libraryPaths, path.value, outcome)
               else RefreshAll(s.client.value, outcome);
      Refreshed(s.(client := Some(f.client)), f.ok, f.sent)
  }

  /** A refresh through the service reaches the server only for a path
      below a configured library, or for a refresh of everything. */
  lemma {:induction false} RefreshMediaOutsideLibraries(s: Service, path: string, outcome: nat -> Attempt)
    requires Enabled(s) && path != "" && !UnderLibrary(s.libraryPaths, NormalizePath(path))
    ensures RefreshMedia(s, Some(path), outcome) == Refreshed(s, false, None)
  {
  }

  /** A readiness-guarded getter: not ready, the fallback without any
      request; ready without a client (a disabled service after
      `initialize`), the attribute error is caught, counted and the
      fallback returned; otherwise the client call. */
  function Guarded<T>(s: Service, fallback: T, call: Client -> (Client, T)): (r: (Service, T))
    ensures !s.ready ==> r == (s, fallback)
    ensures s.ready && !Enabled(s) ==>
              r.1 == fallback && r.0.errorCount == s.errorCount + 1 && r.0.lastError.Some? && r.0.ready
    ensures s.ready && Enabled(s) ==> r == (s.(client := Some(call(s.client.value).0)), call(s.client.value).1)
  {
    if !s.ready then (s, fallback)
    else if s.client.None? then
      (s.(errorCount := s.errorCount + 1, lastError := Some(Crashed("'NoneType' object has no attribute"))), fallback)
    else
      var (c, v) := call(s.client.value);
      (s.(client := Some(c)), v)
  }

  function LibrariesCall(outcome: nat -> Attempt): Client -> (Client, seq<Library>) {
    (c: Client) => (GetLibraries(c, outcome).0.client, GetLibraries(c, outcome).1)
  }

  function ServiceGetLibraries(s: Service, outcome: nat -> Attempt): (r: (Service, seq<Library>))
    ensures !s.ready ==> r == (s, [])
    ensures s.ready && Enabled(s) ==> r.1 == GetLibraries(s.client.value, outcome).1
  {
    Guarded(s, [], LibrariesCall(outcome))
  }

  function LibraryItemsCall(libraryId: string, itemType: Option<string>, sortBy: string, sortOrder: string,
                            limit: Option<int>, outcome: nat -> Attempt): Client -> (Client, seq<LibraryItem>) {
    (c: Client) => (GetLibraryItems(c, libraryId, itemType, sortBy, sortOrder, limit, outcome).0.client,
                    GetLibraryItems(c, libraryId, itemType, sortBy, sortOrder, limit, outcome).1)
  }

  function ServiceGetLibraryItems(s: Service, libraryId: string, itemType: Option<string>, sortBy: string,
                                  sortOrder: string, limit: Option<int>, outcome: nat -> Attempt): (r: (Service, seq<LibraryItem>))
    ensures !s.ready ==> r == (s, [])
    ensures s.ready && Enabled(s) ==>
              r.1 == GetLibraryItems(s.client.value, libraryId, itemType, sortBy, sortOrder, limit, outcome).1
  {
    Guarded(s, [], LibraryItemsCall(libraryId, itemType, sortBy, sortOrder, limit, outcome))
  }

  function DetailsCall(itemId: string, outcome: nat -> Attempt): Client -> (Client, Option<ItemDetails>) {
    (c: Client) => (GetItemDetails(c, itemId, outcome).0.client, GetItemDetails(c, itemId, outcome).1)
  }

  function ServiceGetItemDetails(s: Service, itemId: string, outcome: nat -> Attempt): (r: (Service, Option<ItemDetails>))
    ensures !s.ready ==> r == (s, None)
    ensures s.ready && Enabled(s) ==> r.1 == GetItemDetails(s.client.value, itemId, outcome).1
  {
    Guarded(s, None, DetailsCall(itemId, outcome))
  }

  /** A service without an API key is ready after `initialize`, yet each
      of its getters then finds no client: it returns nothing and counts
      an error. */
  lemma {:induction false} DisabledServiceGettersCountErrors(config: EmbyConfig, conn: nat -> Attempt, libs: nat -> Attempt, outcome: nat -> Attempt)
    requires config.apiKey.None? || config.apiKey.value == ""
    ensures var s := Initialize(NewService(config), conn, libs).s;
            s.ready && Initialize(NewService(config), conn, libs).ok &&
            ServiceGetLibraries(s, outcome).1 == [] && ServiceGetLibraries(s, outcome).0.errorCount == 1
  {
  }

  /** A service that is not ready sends no request from its getters: the
      client's request counter stays where it was. */
  lemma {:induction false} NotReadyGettersSendNothing(s: Service, itemId: string, outcome: nat -> Attempt)
    requires !s.ready
    ensures ServiceGetLibraries(s, outcome).0 == s
    ensures ServiceGetItemDetails(s, itemId, outcome).0 == s
  {
  }
}

=== FILE: events.dfy ===
/** The change handler of the monitor (`FileChangeHandler`): changes are
    queued, cut into batches of at most `batch_size` events grouped by type,
    each group is handed to its handler with failures isolated per group,
    and the paths the handlers report are flushed to the media-server
    refresh once per batch. The asynchronous task becomes a step function
    over the handler's state; the symlink calls and the refresh are
    outcomes given as inputs. */
module Events {
  import opened Wrappers

  /** The `file` dictionary of an event: its `name` and `path` keys. */
  datatype FileInfo = FileInfo(name: Option<string>, path: Option<string>)

  /** A queued change: its `type` and `file` keys, when present. */
  datatype Event = Event(kind: Option<string>, file: Option<FileInfo>)

  /** The events of one type in a batch, in arrival order. */
  datatype Group = Group(kind: string, files: seq<FileInfo>)

  /** The `defaultdict(list)` a batch is collected into: its groups in the
      order their types first arrived. */
  type Batch = seq<Group>

  /** What a symlink call did: returned something truthy, returned something
      falsy, or raised. */
  datatype LinkOutcome = Linked | NotLinked | Raised(message: string)

  /** What the media-server refresh did. */
  datatype RefreshOutcome = Refreshed | RefreshFailed(message: string)

  /** The counters and the changed-path accumulator the handlers update. */
  datatype Tally = Tally(processed: nat, failed: nat, changedPaths: seq<string>, lastError: Option<string>)

  /** The handler's state. `refreshes` records the path lists the refresh
      was called with, in call order. */
  datatype Handler = Handler(
    queue: seq<Event>,
    processing: bool,
    tasksStarted: nat,
    total: nat,
    tally: Tally,
    refreshes: seq<seq<string>>)

  /** A freshly constructed handler. */
  const Initial: Handler := Handler([], false, 0, 0, Tally(0, 0, [], None), [])

  /** `handle_changes`: counts and enqueues every change in order, and
      starts the processing task only when it is not already running. */
  function HandleChanges(h: Handler, changes: seq<Event>): (r: Handler)
    ensures r.total == h.total + |changes|
    ensures r.queue == h.queue + changes
    ensures r.processing
    ensures r.tasksStarted == h.tasksStarted + (if h.processing then 0 else 1)
    ensures r.tally == h.tally && r.refreshes == h.refreshes
  {
    var queued := h.(total := h.total + |changes|, queue := h.queue + changes);
    if h.processing then queued
    else queued.(processing := true, tasksStarted := h.tasksStarted + 1)
  }

  function HandleAll(h: Handler, calls: seq<seq<Event>>): Handler
    decreases |calls|
  {
    if |calls| == 0 then h else HandleAll(HandleChanges(h, calls[0]), calls[1..])
  }

  /** Nothing ever clears `_is_processing`, so however many times changes
      arrive, at most one processing task is ever started. */
  lemma {:induction false} OneProcessingTask(h: Handler, calls: seq<seq<Event>>)
    ensures HandleAll(h, calls).tasksStarted <= h.tasksStarted + 1
    ensures h.processing ==> HandleAll(h, calls).tasksStarted == h.tasksStarted
    decreases |calls|
  {
    if |calls| > 0 {
      OneProcessingTask(HandleChanges(h, calls[0]), calls[1..]);
    }
  }

  /** An event the collector can read: it has both `type` and `file`. */
  predicate WellFormed(e: Event) {
    e.kind.Some? && e.file.Some?
  }

  /** No two groups of the batch have the same type. */
  predicate DistinctKinds(b: Batch) {
    forall i, j :: 0 <= i < j < |b| ==> b[i].kind != b[j].kind
  }

  /** `batch[type].append(file)`. */
  function AddTo(b: Batch, kind: string, f: FileInfo): (r: Batch)
    requires DistinctKinds(b)
    ensures DistinctKinds(r)
    ensures |r| == |b| || |r| == |b| + 1
    ensures |r| == |b| <==> exists i :: 0 <= i < |b| && b[i].kind == kind
    ensures forall i :: 0 <= i < |b| ==> r[i].kind == b[i].kind
    ensures |r| == |b| + 1 ==> r[|b|] == Group(kind, [f])
    ensures forall i :: 0 <= i < |b| ==> r[i].files == b[i].files + (if b[i].kind == kind then [f] else [])
    decreases |b|
  {
    if |b| == 0 then [Group(kind, [f])]
    else if b[0].kind == kind then [b[0].(files := b[0].files + [f])] + b[1..]
    else
      var tail := AddTo(b[1..], kind, f);
      var r := [b[0]] + tail;
      AddToSkipsKinds(b, kind, tail, r);
      AddToSkipsFiles(b, kind, f, tail, r);
      r
  }

  /** Past a group of another type, the kinds of `AddTo` are those of the
      rest of the batch behind the first group. */
  lemma {:induction false} AddToSkipsKinds(b: Batch, kind: string, tail: Batch, r: Batch)
    requires DistinctKinds(b) && |b| > 0 && b[0].kind != kind && r == [b[0]] + tail
    requires DistinctKinds(tail) && (|tail| == |b| - 1 || |tail| == |b|)
    requires |tail| == |b| - 1 <==> exists i :: 0 <= i < |b| - 1 && b[1..][i].kind == kind
    requires forall i :: 0 <= i < |b| - 1 ==> tail[i].kind == b[1..][i].kind
    requires |tail| == |b| ==> tail[|b| - 1].kind == kind
    ensures DistinctKinds(r)
    ensures |r| == |b| <==> exists i :: 0 <= i < |b| && b[i].kind == kind
  {
    if exists i :: 0 <= i < |b| && b[i].kind == kind {
      var i :| 0 <= i < |b| && b[i].kind == kind;
      assert b[1..][i - 1].kind == kind;
    }
    forall i, j | 0 <= i < j < |r| ensures r[i].kind != r[j].kind {
      if i > 0 {
        assert r[i] == tail[i - 1] && r[j] == tail[j - 1];
      } else if j - 1 < |b| - 1 {
        assert r[j].kind == b[j].kind;
      }
    }
  }

  /** Past a group of another type, `AddTo` leaves the first group as it
      was and appends where the rest of the batch does. */
  lemma {:induction false} AddToSkipsFiles(b: Batch, kind: string, f: FileInfo, tail: Batch, r: Batch)
    requires |b| > 0 && b[0].kind != kind && r == [b[0]] + tail
    requires |tail| == |b| - 1 || |tail| == |b|
    requires forall i :: 0 <= i < |b| - 1 ==> tail[i].kind == b[1..][i].kind
    requires |tail| == |b| ==> tail[|b| - 1] == Group(kind, [f])
    requires forall i :: 0 <= i < |b| - 1 ==>
      tail[i].files == b[1..][i].files + (if b[1..][i].kind == kind then [f] else [])
    ensures forall i :: 0 <= i < |b| ==> r[i].kind == b[i].kind
    ensures |r| == |b| + 1 ==> r[|b|] == Group(kind, [f])
    ensures forall i :: 0 <= i < |b| ==> r[i].files == b[i].files + (if b[i].kind == kind then [f] else [])
  {
    forall i | 0 < i < |b| ensures r[i] == tail[i - 1] && b[1..][i - 1] == b[i] {
    }
  }

  /** The batch the collector's loop builds from the events it took. */
  function GroupAll(events: seq<Event>): (b: Batch)
    requires forall i :: 0 <= i < |events| ==> WellFormed(events[i])
    ensures DistinctKinds(b)
    decreases |events|
  {
    if |events| == 0 then []
    else
      var last := events[|events| - 1];
      assert WellFormed(last);
      AddTo(GroupAll(events[..|events| - 1]), last.kind.value, last.file.value)
  }

  /** The files of the events of one type, in arrival order: the reference
      the groups are checked against. */
  function FilesOfKind(events: seq<Event>, kind: string): seq<FileInfo>
    requires forall i :: 0 <= i < |events| ==> WellFormed(events[i])
    decreases |events|
  {
    if |events| == 0 then []
    else
      var last := events[|events| - 1];
      assert WellFormed(last);
      FilesOfKind(events[..|events| - 1], kind) + (if last.kind.value == kind then [last.file.value] else [])
  }

  /** Grouping keeps one group per type, and each group holds exactly the
      files of that type's events in arrival order. */
  lemma {:induction false} GroupAllIsGrouping(events: seq<Event>)
    requires forall i :: 0 <= i < |events| ==> WellFormed(events[i])
    ensures forall i, j :: 0 <= i < j < |GroupAll(events)| ==> GroupAll(events)[i].kind != GroupAll(events)[j].kind
    ensures forall i :: 0 <= i < |GroupAll(events)| ==>
              GroupAll(events)[i].files == FilesOfKind(events, GroupAll(events)[i].kind)
    ensures forall k :: FilesOfKind(events, k) != [] ==> exists i :: 0 <= i < |GroupAll(events)| && GroupAll(events)[i].kind == k
    decreases |events|
  {
    if |events| > 0 {
      var init := events[..|events| - 1];
      var last := events[|events| - 1];
      GroupAllIsGrouping(init);
      assert WellFormed(last);
      FilesOfKindLast(events);
      GroupStep(GroupAll(init), last.kind.value, last.file.value, GroupAll(events),
                k => FilesOfKind(init, k), k => FilesOfKind(events, k));
    }
  }

  /** The files of the events of one type gain the last event's file
      exactly when it has that type. */
  lemma {:induction false} FilesOfKindLast(events: seq<Event>)
    requires |events| > 0 && forall i :: 0 <= i < |events| ==> WellFormed(events[i])
    ensures var last := events[|events| - 1];
      forall k :: FilesOfKind(events, k)
               == FilesOfKind(events[..|events| - 1], k) + (if last.kind.value == k then [last.file.value] else [])
  {
  }

  /** Adding one file keeps the batch a grouping of the files by type. */
  lemma {:induction false} GroupStep(b: Batch, kind: string, f: FileInfo, r: Batch,
                  before: string -> seq<FileInfo>, after: string -> seq<FileInfo>)
    requires DistinctKinds(b) && r == AddTo(b, kind, f)
    requires forall i :: 0 <= i < |b| ==> b[i].files == before(b[i].kind)
    requires forall k :: before(k) != [] ==> exists i :: 0 <= i < |b| && b[i].kind == k
    requires forall k :: after(k) == before(k) + (if kind == k then [f] else [])
    ensures forall i :: 0 <= i < |r| ==> r[i].files == after(r[i].kind)
    ensures forall k :: after(k) != [] ==> exists i :: 0 <= i < |r| && r[i].kind == k
  {
    forall i | 0 <= i < |r| ensures r[i].files == after(r[i].kind) {
      if i == |b| {
        assert !exists j :: 0 <= j < |b| && b[j].kind == kind;
        assert before(kind) == [];
      }
    }
    forall k | after(k) != [] ensures exists i :: 0 <= i < |r| && r[i].kind == k {
      if before(k) != [] {
        var i :| 0 <= i < |b| && b[i].kind == k;
        assert r[i].kind == k;
      } else {
        AddToHasKind(b, k, f);
      }
    }
  }

  /** After `AddTo`, the batch has a group of that type. */
  lemma {:induction false} AddToHasKind(b: Batch, kind: string, f: FileInfo)
    requires DistinctKinds(b)
    ensures exists i :: 0 <= i < |AddTo(b, kind, f)| && AddTo(b, kind, f)[i].kind == kind
  {
    var r := AddTo(b, kind, f);
    if |r| == |b| + 1 {
      assert r[|b|].kind == kind;
    } else {
      var i :| 0 <= i < |b| && b[i].kind == kind;
      assert r[i].kind == kind;
    }
  }

  /** The number of files in a batch. */
  function Size(b: Batch): nat
    decreases |b|
  {
    if |b| == 0 then 0 else |b[0].files| + Size(b[1..])
  }

  /** Appending to a batch adds one file. */
  lemma {:induction false} SizeAddTo(b: Batch, kind: string, f: FileInfo)
    requires DistinctKinds(b)
    ensures Size(AddTo(b, kind, f)) == Size(b) + 1
    decreases |b|
  {
    if |b| > 0 && b[0].kind != kind {
      SizeAddTo(b[1..], kind, f);
    }
  }

  lemma {:induction false} SizeGroupAll(events: seq<Event>)
    requires forall i :: 0 <= i < |events| ==> WellFormed(events[i])
    ensures Size(GroupAll(events)) == |events|
    decreases |events|
  {
    if |events| > 0 {
      var last := events[|events| - 1];
      SizeGroupAll(events[..|events| - 1]);
      SizeAddTo(GroupAll(events[..|events| - 1]), last.kind.value, last.file.value);
    }
  }

  /** How many leading events the collector takes: it stops after `budget`
      events, at the end of the queue, or at an event it cannot read. */
  function TakeCount(queue: seq<Event>, budget: nat): (n: nat)
    ensures n <= budget && n <= |queue|
    ensures forall i :: 0 <= i < n ==> WellFormed(queue[i])
    ensures n < budget && n < |queue| ==> !WellFormed(queue[n])
    decreases budget
  {
    if budget == 0 || |queue| == 0 || !WellFormed(queue[0]) then 0
    else 1 + TakeCount(queue[1..], budget - 1)
  }

  datatype Collected = Collected(batch: Batch, rest: seq<Event>)

  /** `_collect_batch`. `arrivals` is how many `get`s succeed before one
      times out, a choice the model leaves open. An event without `type` or
      `file` raises after it was dequeued; the outer handler swallows the
      error and returns what was collected, so that event is lost. */
  function Collect(queue: seq<Event>, batchSize: nat, arrivals: nat): (r: Collected)
    ensures Size(r.batch) <= batchSize && Size(r.batch) <= |queue|
    ensures forall i :: 0 <= i < Size(r.batch) ==> WellFormed(queue[i])
    ensures r.batch == GroupAll(queue[..Size(r.batch)])
    ensures r.rest == queue[Size(r.batch)..]
         || (Size(r.batch) < |queue| && !WellFormed(queue[Size(r.batch)]) && r.rest == queue[Size(r.batch) + 1..])
    ensures Size(r.batch) < batchSize && Size(r.batch) < arrivals && Size(r.batch) < |queue|
            ==> !WellFormed(queue[Size(r.batch)]) && r.rest == queue[Size(r.batch) + 1..]
  {
    var budget := if batchSize < arrivals then batchSize else arrivals;
    var n := TakeCount(queue, budget);
    var dropped := if n < budget && n < |queue| then 1 else 0;
    SizeGroupAll(queue[..n]);
    var r := Collected(GroupAll(queue[..n]), queue[n + dropped..]);
    CollectedFacts(queue, batchSize, arrivals, budget, n, dropped, r);
    r
  }

  /** What the collector returns once it has taken `n` readable events
      and possibly dropped one unreadable event after them. */
  lemma {:induction false} CollectedFacts(queue: seq<Event>, batchSize: nat, arrivals: nat, budget: nat, n: nat, dropped: nat,
                       r: Collected)
    requires budget == (if batchSize < arrivals then batchSize else arrivals)
    requires n <= budget && n <= |queue|
    requires forall i :: 0 <= i < n ==> WellFormed(queue[i])
    requires n < budget && n < |queue| ==> !WellFormed(queue[n])
    requires dropped == (if n < budget && n < |queue| then 1 else 0)
    requires Size(r.batch) == n && r.rest == queue[n + dropped..]
    ensures Size(r.batch) <= batchSize && Size(r.batch) <= |queue|
    ensures forall i :: 0 <= i < Size(r.batch) ==> WellFormed(queue[i])
    ensures r.rest == queue[Size(r.batch)..]
         || (Size(r.batch) < |queue| && !WellFormed(queue[Size(r.batch)]) && r.rest == queue[Size(r.batch) + 1..])
    ensures Size(r.batch) < batchSize && Size(r.batch) < arrivals && Size(r.batch) < |queue|
            ==> !WellFormed(queue[Size(r.batch)]) && r.rest == queue[Size(r.batch) + 1..]
  {
  }

  /** The results of running one group's handler: the counters, and
      whether an exception escaped the handler. */
  datatype Handled = Handled(tally: Tally, escaped: bool)

  /** `_handle_batch_add` (key `name`, symlink creation) and
      `_handle_batch_delete` (key `path`, symlink removal): a truthy result
      records the path and counts the file processed, a falsy one does
      nothing, an exception counts it failed. A file without the key raises
      again inside the except clause, which escapes the handler. */
  function LinkFiles(t: Tally, files: seq<FileInfo>, useName: bool, call: string -> LinkOutcome): (r: Handled)
    ensures r.tally.processed - t.processed <= |files| && r.tally.processed >= t.processed
    ensures r.tally.failed == t.failed + FailedCalls(files, useName, call) && r.tally.lastError == t.lastError
    ensures r.escaped <==> !Keyed(files, useName)
    decreases |files|
  {
    if |files| == 0 then Handled(t, false)
    else
      match Key(files[0], useName)
      case None => Handled(t, true)
      case Some(p) => LinkFiles(LinkStep(t, call(p), p), files[1..], useName, call)
  }

  /** The key a handler reads from a file: `name`, or `path`. */
  function Key(f: FileInfo, useName: bool): Option<string> {
    if useName then f.name else f.path
  }

  /** Every file has the key its handler reads. */
  predicate Keyed(files: seq<FileInfo>, useName: bool) {
    forall i :: 0 <= i < |files| ==> Key(files[i], useName).Some?
  }

  /** How many symlink calls raise, up to the first file without the key. */
  function FailedCalls(files: seq<FileInfo>, useName: bool, call: string -> LinkOutcome): nat
    decreases |files|
  {
    if |files| == 0 then 0
    else
      match Key(files[0], useName)
      case None => 0
      case Some(p) => (if call(p).Raised? then 1 else 0) + FailedCalls(files[1..], useName, call)
  }

  /** The names of files that all have one, in order. */
  function Names(files: seq<FileInfo>): (r: seq<string>)
    requires Keyed(files, true)
    ensures |r| == |files|
    ensures forall i :: 0 <= i < |files| ==> Some(r[i]) == files[i].name
    decreases |files|
  {
    if |files| == 0 then [] else [files[0].name.value] + Names(files[1..])
  }

  /** The counters after one symlink call on path `p`. */
  function LinkStep(t: Tally, outcome: LinkOutcome, p: string): Tally {
    match outcome
    case Linked => t.(changedPaths := t.changedPaths + [p], processed := t.processed + 1)
    case NotLinked => t
    case Raised(_) => t.(failed := t.failed + 1)
  }

  /** `_handle_batch_modify`: every file is recorded and counted processed,
      with no symlink call. */
  function ModifyFiles(t: Tally, files: seq<FileInfo>): (r: Handled)
    ensures r.tally.processed - t.processed <= |files| && r.tally.processed >= t.processed
    ensures r.tally.failed == t.failed && r.tally.lastError == t.lastError
    ensures r.escaped <==> !Keyed(files, true)
    ensures Keyed(files, true) ==>
              r.tally.processed == t.processed + |files| && r.tally.changedPaths == t.changedPaths + Names(files)
    decreases |files|
  {
    if |files| == 0 then Handled(t, false)
    else
      match files[0].name
      case None => Handled(t, true)
      case Some(name) =>
        ModifyFiles(t.(changedPaths := t.changedPaths + [name], processed := t.processed + 1), files[1..])
  }

  /** A group whose handler raises past its own except clause: a file
      lacks the key the handler reads (`name` when adding or modifying,
      `path` when deleting). */
  predicate Escapes(g: Group) {
    ((g.kind == "added" || g.kind == "modified") && !Keyed(g.files, true))
    || (g.kind == "deleted" && !Keyed(g.files, false))
  }

  /** One group of `_process_events`: the handler of its type (none for an
      unknown type), and when an exception escapes it, the whole group is
      added to `failed_events` and the error is recorded. */
  function RunGroup(t: Tally, g: Group, create: string -> LinkOutcome, remove: string -> LinkOutcome): (r: Tally)
    ensures r.processed - t.processed <= |g.files| && r.processed >= t.processed
    ensures g.kind == "added" ==>
              r.failed == t.failed + FailedCalls(g.files, true, create) + (if Escapes(g) then |g.files| else 0)
    ensures g.kind == "deleted" ==>
              r.failed == t.failed + FailedCalls(g.files, false, remove) + (if Escapes(g) then |g.files| else 0)
    ensures g.kind == "modified" ==> r.failed == t.failed + (if Escapes(g) then |g.files| else 0)
    ensures Escapes(g) ==> r.lastError == Some(if g.kind == "deleted" then "KeyError: 'path'" else "KeyError: 'name'")
    ensures !Escapes(g) ==> r.lastError == t.lastError
    ensures g.kind != "added" && g.kind != "modified" && g.kind != "deleted" ==> r == t
  {
    var h :=
      if g.kind == "added" then LinkFiles(t, g.files, true, create)
      else if g.kind == "modified" then ModifyFiles(t, g.files)
      else if g.kind == "deleted" then LinkFiles(t, g.files, false, remove)
      else Handled(t, false);
    if h.escaped then
      h.tally.(failed := h.tally.failed + |g.files|,
               lastError := Some(if g.kind == "deleted" then "KeyError: 'path'" else "KeyError: 'name'"))
    else h.tally
  }

  /** Adds the effects `d` of later work to the counters `t`: counts add up,
      paths are appended, and a recorded error replaces the earlier one. */
  function Combine(t: Tally, d: Tally): Tally {
    Tally(t.processed + d.processed, t.failed + d.failed, t.changedPaths + d.changedPaths,
          if d.lastError.Some? then d.lastError else t.lastError)
  }

  const Zero: Tally := Tally(0, 0, [], None)

  lemma {:induction false} LinkFilesFrom(t: Tally, files: seq<FileInfo>, useName: bool, call: string -> LinkOutcome)
    ensures LinkFiles(t, files, useName, call)
         == Handled(Combine(t, LinkFiles(Zero, files, useName, call).tally), LinkFiles(Zero, files, useName, call).escaped)
    decreases |files|
  {
    if |files| > 0 && Key(files[0], useName).Some? {
      var p := Key(files[0], useName).value;
      var a := LinkStep(Zero, call(p), p);
      var rest := LinkFiles(Zero, files[1..], useName, call);
      LinkFilesStep(t, files, useName, call);
      LinkFilesStep(Zero, files, useName, call);
      LinkFilesFrom(LinkStep(t, call(p), p), files[1..], useName, call);
      LinkFilesFrom(a, files[1..], useName, call);
      assert LinkStep(t, call(p), p) == Combine(t, a);
      CombineAssociative(t, a, rest.tally);
    }
  }

  /** A handler that finds the key of the first file carries on with the
      rest after one call. */
  lemma {:induction false} LinkFilesStep(t: Tally, files: seq<FileInfo>, useName: bool, call: string -> LinkOutcome)
    requires |files| > 0 && Key(files[0], useName).Some?
    ensures var p := Key(files[0], useName).value;
      LinkFiles(t, files, useName, call) == LinkFiles(LinkStep(t, call(p), p), files[1..], useName, call)
  {
  }

  /** Adding effects in two steps is adding their sum. */
  lemma {:induction false} CombineAssociative(t: Tally, a: Tally, b: Tally)
    ensures Combine(Combine(t, a), b) == Combine(t, Combine(a, b))
  {
    assert (t.changedPaths + a.changedPaths) + b.changedPaths == t.changedPaths + (a.changedPaths + b.changedPaths);
  }

  lemma {:induction false} ModifyFilesFrom(t: Tally, files: seq<FileInfo>)
    ensures ModifyFiles(t, files) == Handled(Combine(t, ModifyFiles(Zero, files).tally), ModifyFiles(Zero, files).escaped)
    decreases |files|
  {
    if |files| > 0 && files[0].name.Some? {
      var name := files[0].name.value;
      var a := LinkStep(Zero, Linked, name);
      var rest := ModifyFiles(Zero, files[1..]);
      ModifyFilesStep(t, files);
      ModifyFilesStep(Zero, files);
      ModifyFilesFrom(LinkStep(t, Linked, name), files[1..]);
      ModifyFilesFrom(a, files[1..]);
      assert LinkStep(t, Linked, name) == Combine(t, a);
      CombineAssociative(t, a, rest.tally);
    }
  }

  /** The modify handler records a named first file as a successful link
      would, and carries on with the rest. */
  lemma {:induction false} ModifyFilesStep(t: Tally, files: seq<FileInfo>)
    requires |files| > 0 && files[0].name.Some?
    ensures ModifyFiles(t, files) == ModifyFiles(LinkStep(t, Linked, files[0].name.value), files[1..])
  {
  }

  /** A group's effect does not depend on what came before it: running it
      after any counters equals running it from zero and adding the result.
      In particular a group runs in full whether or not earlier groups
      failed. */
  lemma {:induction false} GroupIsolated(t: Tally, g: Group, create: string -> LinkOutcome, remove: string -> LinkOutcome)
    ensures RunGroup(t, g, create, remove) == Combine(t, RunGroup(Zero, g, create, remove))
  {
    LinkFilesFrom(t, g.files, true, create);
    LinkFilesFrom(t, g.files, false, remove);
    ModifyFilesFrom(t, g.files);
  }

  /** The groups of a batch in order. */
  function RunGroups(t: Tally, b: Batch, create: string -> LinkOutcome, remove: string -> LinkOutcome): (r: Tally)
    ensures r.processed - t.processed <= Size(b) && r.processed >= t.processed
    decreases |b|
  {
    if |b| == 0 then t else RunGroups(RunGroup(t, b[0], create, remove), b[1..], create, remove)
  }

  /** `_refresh_emby` followed by clearing the accumulator: the refresh is
      called once with the accumulated paths and only when there are some;
      its failure is recorded and goes no further. */
  function Flush(h: Handler, refresh: RefreshOutcome): (r: Handler)
    ensures r.tally.changedPaths == []
    ensures h.tally.changedPaths == [] ==> r == h
    ensures h.tally.changedPaths != [] ==> r.refreshes == h.refreshes + [h.tally.changedPaths]
    ensures h.tally.changedPaths != [] && refresh.RefreshFailed? ==> r.tally.lastError == Some(refresh.message)
    ensures h.tally.changedPaths != [] && refresh.Refreshed? ==> r.tally.lastError == h.tally.lastError
    ensures r.tally.processed == h.tally.processed && r.tally.failed == h.tally.failed
    ensures r.queue == h.queue && r.total == h.total
  {
    if h.tally.changedPaths == [] then h
    else
      var error := if refresh.RefreshFailed? then Some(refresh.message) else h.tally.lastError;
      h.(refreshes := h.refreshes + [h.tally.changedPaths],
         tally := h.tally.(changedPaths := [], lastError := error))
  }

  /** One iteration of `_process_events`: collect a batch; an empty one is
      skipped, otherwise every group is run and the accumulator flushed. */
  function ProcessStep(h: Handler, batchSize: nat, arrivals: nat,
                       create: string -> LinkOutcome, remove: string -> LinkOutcome,
                       refresh: RefreshOutcome): (r: Handler)
    ensures r.tally.processed - h.tally.processed <= |h.queue| - |r.queue|
    ensures r.tally.processed >= h.tally.processed
    ensures |r.queue| <= |h.queue| && r.total == h.total
    ensures h.tally.changedPaths == [] ==> r.tally.changedPaths == []
    ensures |h.refreshes| <= |r.refreshes| <= |h.refreshes| + 1
    ensures r.processing == h.processing && r.tasksStarted == h.tasksStarted
  {
    var c := Collect(h.queue, batchSize, arrivals);
    var taken := h.(queue := c.rest);
    if c.batch == [] then taken
    else Flush(taken.(tally := RunGroups(h.tally, c.batch, create, remove)), refresh)
  }

  /** The paths of the files whose symlink call returned something
      truthy, in order, up to the first file without the key. */
  function LinkedPaths(files: seq<FileInfo>, useName: bool, call: string -> LinkOutcome): seq<string>
    decreases |files|
  {
    if |files| == 0 then []
    else
      var key := if useName then files[0].name else files[0].path;
      match key
      case None => []
      case Some(p) => (if call(p) == Linked then [p] else []) + LinkedPaths(files[1..], useName, call)
  }

  /** A link handler records exactly the paths whose call succeeded and
      counts exactly those files processed. */
  lemma {:induction false} LinkFilesRecordsLinked(t: Tally, files: seq<FileInfo>, useName: bool, call: string -> LinkOutcome)
    ensures LinkFiles(t, files, useName, call).tally.changedPaths == t.changedPaths + LinkedPaths(files, useName, call)
    ensures LinkFiles(t, files, useName, call).tally.processed == t.processed + |LinkedPaths(files, useName, call)|
    decreases |files|
  {
    if |files| > 0 && Key(files[0], useName).Some? {
      var p := Key(files[0], useName).value;
      var here := if call(p) == Linked then [p] else [];
      var t1 := LinkStep(t, call(p), p);
      var later := LinkedPaths(files[1..], useName, call);
      LinkFilesStep(t, files, useName, call);
      LinkFilesRecordsLinked(t1, files[1..], useName, call);
      assert LinkedPaths(files, useName, call) == here + later;
      assert t1.changedPaths == t.changedPaths + here && t1.processed == t.processed + |here|;
      assert t.changedPaths + (here + later) == (t.changedPaths + here) + later;
    }
  }

  /** A modified group whose second file lacks `name`: the first file is
      counted processed, and the escaping error then counts the whole group
      failed, so two events add three to the counters. */
  lemma {:induction false} GroupFailureCountsEarlierFiles(create: string -> LinkOutcome, remove: string -> LinkOutcome)
    ensures RunGroup(Zero, Group("modified", [FileInfo(Some("a"), None), FileInfo(None, None)]), create, remove)
         == Tally(1, 2, ["a"], Some("KeyError: 'name'"))
  {
    var files := [FileInfo(Some("a"), None), FileInfo(None, None)];
    assert files[1..] == [FileInfo(None, None)];
    assert ModifyFiles(Zero, files) == Handled(Tally(1, 0, ["a"], None), true);
  }

  /** Every processed event was once enqueued and is no longer queued (so
      `success_rate` never exceeds 1); between batches the accumulator is
      empty; and the refresh was only ever called with a non-empty list. */
  predicate Consistent(h: Handler) {
    && h.tally.processed + |h.queue| <= h.total
    && h.tally.changedPaths == []
    && forall i :: 0 <= i < |h.refreshes| ==> h.refreshes[i] != []
  }

  /** The operations the handler sees: a call of `handle_changes`, or one
      iteration of the processing loop with its open choices and the
      collaborators' outcomes. */
  datatype Op =
    | Enqueue(changes: seq<Event>)
    | Iterate(batchSize: nat, arrivals: nat, create: string -> LinkOutcome,
              remove: string -> LinkOutcome, refresh: RefreshOutcome)

  function Apply(h: Handler, op: Op): Handler {
    match op
    case Enqueue(changes) => HandleChanges(h, changes)
    case Iterate(batchSize, arrivals, create, remove, refresh) =>
      ProcessStep(h, batchSize, arrivals, create, remove, refresh)
  }

  function Run(h: Handler, ops: seq<Op>): Handler
    decreases |ops|
  {
    if |ops| == 0 then h else Run(Apply(h, ops[0]), ops[1..])
  }

  lemma {:induction false} ApplyConsistent(h: Handler, op: Op)
    requires Consistent(h)
    ensures Consistent(Apply(h, op))
  {
  }

  /** From a fresh handler, every reachable state is consistent. */
  lemma {:induction false} RunConsistent(h: Handler, ops: seq<Op>)
    requires Consistent(h)
    ensures Consistent(Run(h, ops))
    decreases |ops|
  {
    if |ops| > 0 {
      ApplyConsistent(h, ops[0]);
      RunConsistent(Apply(h, ops[0]), ops[1..]);
    }
  }

  /** Every state reachable from a freshly constructed handler is
      consistent. */
  lemma {:induction false} ReachableConsistent(ops: seq<Op>)
    ensures Consistent(Run(Initial, ops))
  {
    RunConsistent(Initial, ops);
  }
}

=== FILE: file_ops.dfy ===
/** The batch file operations of the two backend trees (`app/utils/file.py`
    and `utils/file.py`) and the directory-listing guards.

    Each path is handled on its own: an action is chosen for it (remove,
    move, copy, or nothing), and whether carrying it out raises is an oracle
    `fails`, asked with the path's position and the action. Whether a path
    is a directory is the oracle `isDir`, asked with the position. Doing
    nothing never raises. */
module FileOps {
  import opened Wrappers
  import opened Text
  import opened FileSystem

  /** What one path of a batch turns into. */
  datatype Action =
    | RemoveTree(path: string)
    | RemoveFile(path: string)
    | MoveTo(path: string, target: string)
    | CopyTree(path: string, target: string)
    | CopyFile(path: string, target: string)
    | NoAction

  /** A target path is used only when it is given and non-empty. */
  predicate HasTarget(target: Option<string>) {
    target.Some? && target.value != ""
  }

  /** `os.path.basename`: the text after the last '/'. */
  function OsBasename(p: string): (r: string)
    ensures '/' !in r && EndsWith(p, r)
  {
    p[LastIndexOf(p, '/') + 1..]
  }

  /** `app/utils/file.py`: the action for one path. The operation is a free
      string compared with the upper-case names. */
  function AppAction(operation: string, path: string, target: Option<string>, isDir: bool): (a: Action)
    ensures a.NoAction? <==>
      !(operation == "DELETE" || ((operation == "MOVE" || operation == "COPY") && HasTarget(target)))
    ensures operation == "DELETE" ==> (a.RemoveTree? <==> isDir) && (a.RemoveTree? || a.RemoveFile?) && a.path == path
    ensures !a.NoAction? && operation != "DELETE" ==>
      (a.MoveTo? || a.CopyTree? || a.CopyFile?) && a.path == path && a.target == target.value
    ensures operation == "COPY" && HasTarget(target) ==> (a.CopyTree? <==> isDir)
  {
    if operation == "DELETE" then (if isDir then RemoveTree(path) else RemoveFile(path))
    else if operation == "MOVE" && HasTarget(target) then MoveTo(path, target.value)
    else if operation == "COPY" && HasTarget(target) then
      (if isDir then CopyTree(path, target.value) else CopyFile(path, target.value))
    else NoAction
  }

  /** The operations `utils/file.py` accepts. */
  datatype FileOperation = Copy | Move | Delete

  /** `utils/file.py`: the action for one path. A directory is copied INTO
      the target, under its own base name. */
  function ToolAction(operation: FileOperation, path: string, target: Option<string>, isDir: bool): (a: Action)
    ensures a.NoAction? <==> operation != Delete && !HasTarget(target)
    ensures operation == Delete ==> (a.RemoveTree? <==> isDir) && (a.RemoveTree? || a.RemoveFile?) && a.path == path
    ensures operation == Copy && HasTarget(target) && isDir ==>
      a.CopyTree? && a.path == path && EndsWith(a.target, OsBasename(path))
    ensures operation == Copy && HasTarget(target) && !isDir ==> a == CopyFile(path, target.value)
    ensures operation == Move && HasTarget(target) ==> a == MoveTo(path, target.value)
  {
    match operation
    case Delete => if isDir then RemoveTree(path) else RemoveFile(path)
    case Copy =>
      if !HasTarget(target) then NoAction
      else if isDir then CopyTree(path, JoinPath(target.value, OsBasename(path)))
      else CopyFile(path, target.value)
    case Move => if HasTarget(target) then MoveTo(path, target.value) else NoAction
  }

  /** A directory copied by `utils/file.py` lands at `<target>/<name>`, and
      the base name of that place is the directory's own. */
  lemma {:induction false} CopiedTreeKeepsName(target: string, path: string, isDir: bool)
    requires target != "" && !EndsWith(target, "/") && isDir
    requires OsBasename(path) != "" && !StartsWith(OsBasename(path), "/")
    ensures var a := ToolAction(Copy, path, Some(target), isDir);
      a.target == target + "/" + OsBasename(path) && OsBasename(a.target) == OsBasename(path)
  {
    var name := OsBasename(path);
    LastIndexAfterSlash(target, name);
  }

  /** In `a + "/" + b` with no '/' in `b`, the last '/' is the one added. */
  lemma {:induction false} LastIndexAfterSlash(a: string, b: string)
    requires '/' !in b
    ensures LastIndexOf(a + "/" + b, '/') == |a|
    decreases |b|
  {
    var s := a + "/" + b;
    if |b| == 0 {
      assert s[|s| - 1] == '/';
    } else {
      assert s[|s| - 1] == b[|b| - 1] != '/';
      assert s[..|s| - 1] == a + "/" + b[..|b| - 1];
      LastIndexAfterSlash(a, b[..|b| - 1]);
    }
  }

  /** A path that could not be handled, with the error's text. */
  datatype Failure = Failure(path: string, error: string)

  /** Whether carrying out the action for position `i` raises: doing
      nothing never does. */
  function Outcome(a: Action, i: nat, fails: (nat, Action) -> Option<string>): (r: Option<string>)
    ensures a.NoAction? ==> r.None?
    ensures !a.NoAction? ==> r == fails(i, a)
  {
    if a.NoAction? then None else fails(i, a)
  }

  /** The paths among the first `n` whose action went through, in order. */
  function Succeeded(paths: seq<string>, plan: nat -> Action, fails: (nat, Action) -> Option<string>, n: nat)
    : (r: seq<string>)
    requires n <= |paths|
    ensures |r| <= n
  {
    if n == 0 then []
    else Succeeded(paths, plan, fails, n - 1)
         + (if Outcome(plan(n - 1), n - 1, fails).None? then [paths[n - 1]] else [])
  }

  /** The paths among the first `n` whose action raised, with the errors,
      in order. */
  function Failed(paths: seq<string>, plan: nat -> Action, fails: (nat, Action) -> Option<string>, n: nat)
    : (r: seq<Failure>)
    requires n <= |paths|
    ensures |r| <= n
  {
    if n == 0 then []
    else Failed(paths, plan, fails, n - 1)
         + (match Outcome(plan(n - 1), n - 1, fails)
            case Some(e) => [Failure(paths[n - 1], e)]
            case None => [])
  }

  function FailedPaths(failed: seq<Failure>): (r: seq<string>)
    ensures |r| == |failed|
    ensures forall i :: 0 <= i < |failed| ==> r[i] == failed[i].path
  {
    seq(|failed|, i requires 0 <= i < |failed| => failed[i].path)
  }

  /** The shared loop of both `batch_operation`s: each path in turn, its
      action tried, and the path recorded as a success or a failure. */
  method RunBatch(paths: seq<string>, plan: nat -> Action, fails: (nat, Action) -> Option<string>)
    returns (success: seq<string>, failed: seq<Failure>)
    ensures success == Succeeded(paths, plan, fails, |paths|)
    ensures failed == Failed(paths, plan, fails, |paths|)
  {
    success, failed := [], [];
    var i := 0;
    while i < |paths|
      invariant 0 <= i <= |paths|
      invariant success == Succeeded(paths, plan, fails, i)
      invariant failed == Failed(paths, plan, fails, i)
    {
      match Outcome(plan(i), i, fails) {
        case None =>
          success := success + [paths[i]];
        case Some(e) =>
          failed := failed + [Failure(paths[i], e)];
      }
      i := i + 1;
    }
  }

  /** Every one of the first `n` paths is either a success or a failure,
      never both and never neither: the two lists together are exactly the
      paths, counted with repetition. */
  lemma {:induction false} BatchPartition(paths: seq<string>, plan: nat -> Action,
                                          fails: (nat, Action) -> Option<string>, n: nat)
    requires n <= |paths|
    ensures |Succeeded(paths, plan, fails, n)| + |Failed(paths, plan, fails, n)| == n
    ensures multiset(Succeeded(paths, plan, fails, n)) + multiset(FailedPaths(Failed(paths, plan, fails, n)))
            == multiset(paths[..n])
  {
    if n > 0 {
      BatchPartition(paths, plan, fails, n - 1);
      var s := Succeeded(paths, plan, fails, n);
      var s0 := Succeeded(paths, plan, fails, n - 1);
      var f := Failed(paths, plan, fails, n);
      var f0 := Failed(paths, plan, fails, n - 1);
      BatchStep(paths, plan, fails, n, s, s0, FailedPaths(f), FailedPaths(f0));
      PartitionStep(s0, FailedPaths(f0), s, FailedPaths(f), paths, n);
    }
  }

  /** Path `n - 1` lands on exactly one of the two lists. */
  lemma {:induction false} BatchStep(paths: seq<string>, plan: nat -> Action, fails: (nat, Action) -> Option<string>, n: nat,
                  s: seq<string>, s0: seq<string>, f: seq<string>, f0: seq<string>)
    requires 0 < n <= |paths|
    requires s == Succeeded(paths, plan, fails, n) && s0 == Succeeded(paths, plan, fails, n - 1)
    requires f == FailedPaths(Failed(paths, plan, fails, n)) && f0 == FailedPaths(Failed(paths, plan, fails, n - 1))
    ensures (s == s0 + [paths[n - 1]] && f == f0) || (s == s0 && f == f0 + [paths[n - 1]])
  {
    match Outcome(plan(n - 1), n - 1, fails)
    case None =>
      assert Failed(paths, plan, fails, n) == Failed(paths, plan, fails, n - 1);
    case Some(e) =>
      var g := Failed(paths, plan, fails, n);
      var g0 := Failed(paths, plan, fails, n - 1);
      assert g == g0 + [Failure(paths[n - 1], e)];
      assert FailedPaths(g) == FailedPaths(g0) + [paths[n - 1]];
  }

  /** Element `n - 1`, put on exactly one of the two sides, keeps them a
      partition of the first `n` elements. */
  lemma {:induction false} PartitionStep<T>(left0: seq<T>, right0: seq<T>, left: seq<T>, right: seq<T>, all: seq<T>, n: nat)
    requires 0 < n <= |all|
    requires |left0| + |right0| == n - 1 && multiset(left0) + multiset(right0) == multiset(all[..n - 1])
    requires (left == left0 + [all[n - 1]] && right == right0) || (left == left0 && right == right0 + [all[n - 1]])
    ensures |left| + |right| == n
    ensures multiset(left) + multiset(right) == multiset(all[..n])
  {
    assert all[..n] == all[..n - 1] + [all[n - 1]];
  }

  /** A failure names a path whose action raised, with that error. */
  lemma {:induction false} FailuresAreRaised(paths: seq<string>, plan: nat -> Action,
                                             fails: (nat, Action) -> Option<string>, n: nat)
    requires n <= |paths|
    ensures forall f :: f in Failed(paths, plan, fails, n) ==>
      exists i :: 0 <= i < n && paths[i] == f.path && !plan(i).NoAction? && fails(i, plan(i)) == Some(f.error)
  {
    if n > 0 {
      FailuresAreRaised(paths, plan, fails, n - 1);
    }
  }

  /** When no path needs any action, every path is reported a success. */
  lemma {:induction false} NothingToDoSucceeds(paths: seq<string>, plan: nat -> Action,
                                               fails: (nat, Action) -> Option<string>, n: nat)
    requires n <= |paths|
    requires forall i :: 0 <= i < n ==> plan(i).NoAction?
    ensures Succeeded(paths, plan, fails, n) == paths[..n]
    ensures Failed(paths, plan, fails, n) == []
  {
    if n > 0 {
      NothingToDoSucceeds(paths, plan, fails, n - 1);
      assert paths[..n] == paths[..n - 1] + [paths[n - 1]];
    }
  }

  function AppPlan(operation: string, paths: seq<string>, target: Option<string>, isDir: nat -> bool): nat -> Action {
    (i: nat) => if i < |paths| then AppAction(operation, paths[i], target, isDir(i)) else NoAction
  }

  function ToolPlan(operation: FileOperation, paths: seq<string>, target: Option<string>, isDir: nat -> bool)
    : nat -> Action
  {
    (i: nat) => if i < |paths| then ToolAction(operation, paths[i], target, isDir(i)) else NoAction
  }

  /** `app/utils/file.py` `batch_operation`: the success and failed path
      lists. Its outer handler cannot be reached. */
  method AppBatchOperation(operation: string, paths: seq<string>, target: Option<string>,
                           isDir: nat -> bool, fails: (nat, Action) -> Option<string>)
    returns (success: seq<string>, failed: seq<string>)
    ensures |success| + |failed| == |paths|
    ensures multiset(success) + multiset(failed) == multiset(paths)
    ensures success == Succeeded(paths, AppPlan(operation, paths, target, isDir), fails, |paths|)
    ensures failed == FailedPaths(Failed(paths, AppPlan(operation, paths, target, isDir), fails, |paths|))
    ensures !(operation == "DELETE" || ((operation == "MOVE" || operation == "COPY") && HasTarget(target))) ==>
      success == paths && failed == []
  {
    var plan := AppPlan(operation, paths, target, isDir);
    var failures;
    success, failures := RunBatch(paths, plan, fails);
    failed := FailedPaths(failures);
    BatchPartition(paths, plan, fails, |paths|);
    assert paths[..|paths|] == paths;
    if !(operation == "DELETE" || ((operation == "MOVE" || operation == "COPY") && HasTarget(target))) {
      assert forall i :: 0 <= i < |paths| ==> plan(i) == AppAction(operation, paths[i], target, isDir(i));
      NothingToDoSucceeds(paths, plan, fails, |paths|);
    }
  }

  /** `utils/file.py` `batch_operation`: the success list and the failures
      with their error texts. Its outer handler cannot be reached. */
  method ToolBatchOperation(operation: FileOperation, paths: seq<string>, target: Option<string>,
                            isDir: nat -> bool, fails: (nat, Action) -> Option<string>)
    returns (success: seq<string>, failed: seq<Failure>)
    ensures |success| + |failed| == |paths|
    ensures multiset(success) + multiset(FailedPaths(failed)) == multiset(paths)
    ensures forall f :: f in failed ==>
      exists i :: (0 <= i < |paths| && paths[i] == f.path
                   && fails(i, ToolAction(operation, paths[i], target, isDir(i))) == Some(f.error))
    ensures operation != Delete && !HasTarget(target) ==> success == paths && failed == []
  {
    var plan := ToolPlan(operation, paths, target, isDir);
    success, failed := RunBatch(paths, plan, fails);
    BatchPartition(paths, plan, fails, |paths|);
    assert paths[..|paths|] == paths;
    ToolFailuresRaised(operation, paths, target, isDir, fails, failed);
    if operation != Delete && !HasTarget(target) {
      ToolNothingToDo(operation, paths, target, isDir, fails);
    }
  }

  lemma {:induction false} ToolFailuresRaised(operation: FileOperation, paths: seq<string>, target: Option<string>,
                           isDir: nat -> bool, fails: (nat, Action) -> Option<string>, failed: seq<Failure>)
    requires failed == Failed(paths, ToolPlan(operation, paths, target, isDir), fails, |paths|)
    ensures forall f :: f in failed ==>
      exists i :: (0 <= i < |paths| && paths[i] == f.path
                   && fails(i, ToolAction(operation, paths[i], target, isDir(i))) == Some(f.error))
  {
    var plan := ToolPlan(operation, paths, target, isDir);
    FailuresAreRaised(paths, plan, fails, |paths|);
    forall f | f in failed
      ensures exists i :: (0 <= i < |paths| && paths[i] == f.path
                           && fails(i, ToolAction(operation, paths[i], target, isDir(i))) == Some(f.error))
    {
      var i :| 0 <= i < |paths| && paths[i] == f.path && !plan(i).NoAction? && fails(i, plan(i)) == Some(f.error);
      assert plan(i) == ToolAction(operation, paths[i], target, isDir(i));
    }
  }

  lemma {:induction false} ToolNothingToDo(operation: FileOperation, paths: seq<string>, target: Option<string>,
                        isDir: nat -> bool, fails: (nat, Action) -> Option<string>)
    requires operation != Delete && !HasTarget(target)
    ensures var plan := ToolPlan(operation, paths, target, isDir);
      Succeeded(paths, plan, fails, |paths|) == paths && Failed(paths, plan, fails, |paths|) == []
  {
    var plan := ToolPlan(operation, paths, target, isDir);
    assert forall i :: 0 <= i < |paths| ==> plan(i) == ToolAction(operation, paths[i], target, isDir(i));
    NothingToDoSucceeds(paths, plan, fails, |paths|);
    assert paths[..|paths|] == paths;
  }

  /** Why a directory cannot be listed. */
  datatype ListError = PathMissing(path: string) | NotADirectory(path: string)

  /** `list_directory(path)`: the guards, then one entry per name the
      directory holds, at `os.path.join(path, name)`. File details are left
      to the filesystem. */
  function ListDirectory(path: string, present: bool, isDir: bool, names: seq<string>): (r: Result<seq<string>, ListError>)
    ensures !present ==> r == Err(PathMissing(path))
    ensures present && !isDir ==> r == Err(NotADirectory(path))
    ensures r.Ok? <==> present && isDir
    ensures r.Ok? ==> |r.value| == |names|
    ensures r.Ok? && path != "" && !EndsWith(path, "/") ==>
      forall i :: 0 <= i < |names| && '/' !in names[i] ==> r.value[i] == path + "/" + names[i]
  {
    if !present then Err(PathMissing(path))
    else if !isDir then Err(NotADirectory(path))
    else Ok(seq(|names|, i requires 0 <= i < |names| => JoinPath(path, names[i])))
  }

  /** Each listed entry's base name is the name it was listed under. */
  lemma {:induction false} ListedNamesRoundTrip(path: string, names: seq<string>, i: nat)
    requires path != "" && !EndsWith(path, "/")
    requires i < |names| && names[i] != "" && '/' !in names[i]
    ensures OsBasename(ListDirectory(path, true, true, names).value[i]) == names[i]
  {
    LastIndexAfterSlash(path, names[i]);
  }
}

=== FILE: file_record.dfy ===
/** The stored snapshot of one remote file (`FileRecord` in the monitor
    module): its attribute validators and the derived properties computed
    from its path. Timestamps are integer seconds. */
module FileRecords {
  import opened Wrappers
  import opened Text
  import opened Seqs

  datatype FileRecord = FileRecord(
    path: string,
    fileId: string,
    modifiedTime: int,
    size: int,
    isDirectory: bool,
    lastChecked: int,
    mimeType: string)

  /** The table's rows in row order. */
  type Store = seq<FileRecord>

  function PathOf(r: FileRecord): string { r.path }
  function IdOf(r: FileRecord): string { r.fileId }

  /** The table's unique constraint on `path`. */
  predicate UniquePaths(s: Store) { Injective(s, PathOf) }

  /** The table at each point of a flush that turns `before` into `after`:
      the changed rows are written one UPDATE at a time in row order, then
      the new rows are INSERTed, and the unique constraint on `path` must
      hold after every statement. Once the first `k` rows are written the
      table is `after[..k] + before[k..]`; the INSERTs only add rows, and
      rows about to be DELETEd are still present, so the final table covers
      both. */
  predicate FlushUnique(before: Store, after: Store)
    requires |before| <= |after|
  {
    (forall k :: 0 <= k <= |before| ==> UniquePaths(after[..k] + before[k..]))
    && UniquePaths(after)
  }

  /** A flush that moves no existing row to another path passes the
      per-statement check exactly when the final table is unique. */
  lemma {:induction false} SamePathsFlushUnique(before: Store, after: Store)
    requires |before| <= |after| && UniquePaths(before)
    requires forall i :: 0 <= i < |before| ==> after[i].path == before[i].path
    ensures FlushUnique(before, after) <==> UniquePaths(after)
  {
    forall k | 0 <= k <= |before| ensures UniquePaths(after[..k] + before[k..]) {
      var mid := after[..k] + before[k..];
      forall i, j | 0 <= i < j < |mid| ensures PathOf(mid[i]) != PathOf(mid[j]) {
        assert PathOf(mid[i]) == PathOf(before[i]) && PathOf(mid[j]) == PathOf(before[j]);
      }
    }
  }

  /** At most one record per remote id, the invariant the snapshot is meant
      to keep (the table itself does not enforce it: `file_id` is indexed
      but not unique). */
  predicate UniqueIds(s: Store) { Injective(s, IdOf) }

  /** The `path` validator: an empty path is refused, and every backslash
      becomes a forward slash. */
  function ValidatePath(path: string): (r: Result<string, string>)
    ensures r.Ok? <==> path != ""
    ensures r.Ok? ==> |r.value| == |path| && '\\' !in r.value
    ensures r.Ok? ==> forall i :: 0 <= i < |path| && path[i] != '\\' ==> r.value[i] == path[i]
    ensures r.Ok? ==> forall i :: 0 <= i < |path| && path[i] == '\\' ==> r.value[i] == '/'
  {
    if path == "" then Err("path must not be empty") else Ok(ReplaceChar(path, '\\', '/'))
  }

  /** Validating an already validated path changes nothing. */
  lemma {:induction false} ValidatePathIdempotent(path: string)
    requires path != ""
    ensures ValidatePath(ValidatePath(path).value) == ValidatePath(path)
  {
    var once := ValidatePath(path).value;
    assert ReplaceChar(once, '\\', '/') == once;
  }

  /** A non-empty path without backslashes passes the validator as is. */
  lemma {:induction false} ValidatePathKeeps(path: string)
    requires path != "" && '\\' !in path
    ensures ValidatePath(path) == Ok(path)
  {
    assert ReplaceChar(path, '\\', '/') == path;
  }

  /** The `file_id` validator: only the empty id is refused. */
  function ValidateFileId(fileId: string): (r: Result<string, string>)
    ensures r.Ok? <==> fileId != ""
    ensures r.Ok? ==> r.value == fileId
  {
    if fileId == "" then Err("file id must not be empty") else Ok(fileId)
  }

  /** The lower-cased text after the last `.` of the whole path, or "" when
      the path has no `.` at all. */
  function Extension(path: string): string {
    if '.' in path then
      var parts := Split(path, '.');
      Lower(parts[|parts| - 1])
    else ""
  }

  /** The extension is the lower-cased text following the last dot. */
  lemma {:induction false} ExtensionAfterLastDot(path: string)
    requires '.' in path
    ensures Extension(path) == Lower(path[LastIndexOf(path, '.') + 1..])
  {
    var parts := Split(path, '.');
    var last := parts[|parts| - 1];
    ExtensionOfLastPiece(path);
    assert last == path[LastIndexOf(path, '.') + 1..] by {
      SplitLastPiece(path, '.');
    }
  }

  lemma {:induction false} ExtensionOfLastPiece(path: string)
    requires '.' in path
    ensures var parts := Split(path, '.'); Extension(path) == Lower(parts[|parts| - 1])
  {
  }

  datatype FileType = Directory | Unknown | Video | Audio | Image | Document | Archive | Other {
    /** The string the property reports. */
    function Name(): string {
      match this
      case Directory => "directory"
      case Unknown => "unknown"
      case Video => "video"
      case Audio => "audio"
      case Image => "image"
      case Document => "document"
      case Archive => "archive"
      case Other => "other"
    }
  }

  const VideoExtensions: seq<string> := ["mp4", "mkv", "avi", "mov"]
  const AudioExtensions: seq<string> := ["mp3", "wav", "flac"]
  const ImageExtensions: seq<string> := ["jpg", "jpeg", "png", "gif"]
  const DocumentExtensions: seq<string> := ["pdf", "doc", "docx", "txt"]
  const ArchiveExtensions: seq<string> := ["zip", "rar", "7z"]

  /** Classification of an extension by the first table that lists it. */
  function TypeOfExtension(ext: string): (t: FileType)
    ensures t != Directory
    ensures t == Unknown <==> ext == ""
    ensures t == Other <==> ext != "" && ext !in VideoExtensions + AudioExtensions + ImageExtensions
                                             + DocumentExtensions + ArchiveExtensions
  {
    if ext == "" then Unknown
    else if ext in VideoExtensions then Video
    else if ext in AudioExtensions then Audio
    else if ext in ImageExtensions then Image
    else if ext in DocumentExtensions then Document
    else if ext in ArchiveExtensions then Archive
    else Other
  }

  /** The `file_type` property. */
  function TypeOf(r: FileRecord): (t: FileType)
    ensures r.isDirectory ==> t == Directory
    ensures !r.isDirectory ==> t == TypeOfExtension(Extension(r.path))
  {
    if r.isDirectory then Directory else TypeOfExtension(Extension(r.path))
  }

  /** The `is_media_file` property: the extension is a video, audio or image
      one; directories are not special-cased. */
  predicate IsMediaFile(r: FileRecord) {
    var ext := Extension(r.path);
    ext in VideoExtensions || ext in AudioExtensions || ext in ImageExtensions
  }

  /** For files, being media and having a media file type coincide. */
  lemma {:induction false} MediaIffMediaType(r: FileRecord)
    requires !r.isDirectory
    ensures IsMediaFile(r) <==> TypeOf(r) in {Video, Audio, Image}
  {
  }

  /** `get_parent_path`: no parent without a `/`, otherwise every segment but
      the last, joined again with `/`. */
  function ParentPath(path: string): (r: Option<string>)
    ensures r.None? <==> '/' !in path
  {
    if '/' !in path then None
    else
      var parts := Split(path, '/');
      Some(Join(parts[..|parts| - 1], '/'))
  }

  /** The parent is exactly the text before the last `/`. */
  lemma {:induction false} ParentPathBeforeLastSlash(path: string)
    requires '/' in path
    ensures ParentPath(path) == Some(path[..LastIndexOf(path, '/')])
  {
    var k := LastIndexOf(path, '/');
    SplitAroundLast(path, '/');
    var parts := Split(path, '/');
    assert parts[..|parts| - 1] == Split(path[..k], '/');
    JoinSplit(path[..k], '/');
  }

  /** The `before_update` listener: any flushed update stamps the record
      with the current time. */
  function Touch(r: FileRecord, now: int): (t: FileRecord)
    ensures t.lastChecked == now
    ensures t.(lastChecked := r.lastChecked) == r
  {
    r.(lastChecked := now)
  }
}

=== FILE: fs.dfy ===
/** An abstract POSIX filesystem for the symlink layer: every path maps to
    a regular file, a directory or a symbolic link. `exists` and `realpath`
    follow links as the operating system does; `islink` and removal look at
    the entry itself. Paths are taken as absolute and canonical, and only
    the last component of a path is resolved through links. */
module FileSystem {
  import opened Wrappers
  import opened Text

  /** A regular file carries an abstract content value, so a copy can be
      told apart from other files. */
  datatype Node = File(content: nat) | Dir | Link(target: string)

  type Fs = map<string, Node>

  /** Symbolic links the kernel follows before it gives up with `ELOOP`. */
  const MaxHops: nat := 40

  /** The OS errors the modelled calls can raise. */
  datatype OsError = NotFound(path: string) | IsADirectory(path: string) | FileExists(path: string)

  predicate IsLink(fs: Fs, p: string) {
    p in fs && fs[p].Link?
  }

  /** Follows links from `p` for at most `hops` hops; `None` when the chain
      is longer (a loop included). The path reached is never a link. */
  function Resolve(fs: Fs, p: string, hops: nat): (r: Option<string>)
    ensures r.Some? ==> !IsLink(fs, r.value)
    ensures !IsLink(fs, p) ==> r == Some(p)
    decreases hops
  {
    if !IsLink(fs, p) then Some(p)
    else if hops == 0 then None
    else Resolve(fs, fs[p].target, hops - 1)
  }

  /** `os.path.exists`: the path resolves to an entry that is present. */
  predicate Exists(fs: Fs, p: string) {
    var r := Resolve(fs, p, MaxHops);
    r.Some? && r.value in fs
  }

  /** `os.path.realpath`: the end of the link chain, or the path itself when
      the chain does not end. */
  function RealPath(fs: Fs, p: string): (r: string)
    ensures !IsLink(fs, p) ==> r == p
  {
    match Resolve(fs, p, MaxHops)
    case Some(q) => q
    case None => p
  }

  /** A present entry that is not a link exists and is its own real path. */
  lemma {:induction false} PlainExists(fs: Fs, p: string)
    requires p in fs && !fs[p].Link?
    ensures Exists(fs, p) && RealPath(fs, p) == p
  {
  }

  /** A path that exists resolves to something that exists in its own
      right: the real path of an existing path is never missing. */
  lemma {:induction false} RealPathOfExisting(fs: Fs, p: string)
    requires Exists(fs, p)
    ensures RealPath(fs, p) in fs && !IsLink(fs, RealPath(fs, p)) && Exists(fs, RealPath(fs, p))
  {
    var q := RealPath(fs, p);
    PlainExists(fs, q);
  }

  /** Adding an entry at a path that was absent does not change where a
      resolving chain ends, because the chain never passed through it. */
  lemma {:induction false} ResolveAddAbsent(fs: Fs, p: string, hops: nat, x: string, n: Node)
    requires x !in fs && Resolve(fs, p, hops).Some? && Resolve(fs, p, hops).value in fs
    ensures Resolve(fs[x := n], p, hops) == Resolve(fs, p, hops)
    decreases hops
  {
    if IsLink(fs, p) {
      ResolveAddAbsent(fs, fs[p].target, hops - 1, x, n);
    }
  }

  /** Removing an entry that a resolving chain does not pass through or end
      at leaves the chain alone. */
  lemma {:induction false} ResolveRemoveOther(fs: Fs, p: string, hops: nat, x: string)
    requires Resolve(fs, p, hops).Some? && Resolve(fs, p, hops).value in fs
    requires !Reaches(fs, p, hops, x)
    ensures Resolve(fs - {x}, p, hops) == Resolve(fs, p, hops)
    decreases hops
  {
    if IsLink(fs, p) {
      ResolveRemoveOther(fs, fs[p].target, hops - 1, x);
    }
  }

  /** `x` is one of the paths visited while resolving `p`. */
  predicate Reaches(fs: Fs, p: string, hops: nat, x: string)
    decreases hops
  {
    p == x || (IsLink(fs, p) && hops > 0 && Reaches(fs, fs[p].target, hops - 1, x))
  }

  /** `os.remove`: a missing path and a directory raise; a file or a link
      (the link itself, not what it points to) is removed. */
  function Remove(fs: Fs, p: string): (r: Result<Fs, OsError>)
    ensures r.Ok? <==> p in fs && !fs[p].Dir?
    ensures r.Ok? ==> r.value == fs - {p}
  {
    if p !in fs then Err(NotFound(p))
    else if fs[p].Dir? then Err(IsADirectory(p))
    else Ok(fs - {p})
  }

  /** `os.symlink(source, target)`: fails when anything, even a dangling
      link, is already at the target. */
  function Symlink(fs: Fs, source: string, target: string): (r: Result<Fs, OsError>)
    ensures r.Ok? <==> target !in fs
    ensures r.Ok? ==> r.value == fs[target := Link(source)]
  {
    if target in fs then Err(FileExists(target)) else Ok(fs[target := Link(source)])
  }

  /** `os.makedirs(d, exist_ok=True)` for a directory that does not exist:
      an entry already at `d` (a dangling link) makes it raise. Parent
      directories are not modelled. */
  function MakeDirs(fs: Fs, d: string): (r: Result<Fs, OsError>)
    ensures r.Ok? <==> d !in fs
    ensures r.Ok? ==> r.value == fs[d := Dir]
  {
    if d in fs then Err(FileExists(d)) else Ok(fs[d := Dir])
  }

  /** `os.path.dirname`: everything up to the last slash, with trailing
      slashes dropped unless it is all slashes. */
  function Dirname(p: string): (r: string)
    ensures |r| <= |p| && p[..|r|] == r
    ensures '/' !in p ==> r == ""
  {
    var head := p[..LastIndexOf(p, '/') + 1];
    if exists i :: 0 <= i < |head| && head[i] != '/' then RStrip(head, '/') else head
  }

  /** `Path(p).name`: the last component, trailing slashes ignored. */
  function Basename(p: string): (r: string)
    ensures '/' !in r
  {
    var trimmed := RStrip(p, '/');
    trimmed[LastIndexOf(trimmed, '/') + 1..]
  }

  /** `os.path.join(a, b)` for two parts. */
  function JoinPath(a: string, b: string): (r: string)
    ensures StartsWith(b, "/") ==> r == b
    ensures !StartsWith(b, "/") ==> EndsWith(r, b)
  {
    if StartsWith(b, "/") then b
    else if a == "" || EndsWith(a, "/") then a + b
    else a + "/" + b
  }
}

=== FILE: json.dfy ===
/** JSON values as Python's `json` decoding hands them over: objects keep
    their fields in order, and a key given twice takes its last value. */
module JsonValues {
  import opened Wrappers

  datatype Json =
    | Null
    | Bool(b: bool)
    | Num(n: int)
    | Str(s: string)
    | Arr(items: seq<Json>)
    | Obj(fields: seq<(string, Json)>)

  /** Position of the last field named `key`, or -1. */
  function LastIndex(fields: seq<(string, Json)>, key: string): (i: int)
    ensures -1 <= i < |fields|
    ensures i >= 0 ==> fields[i].0 == key
    ensures forall j :: i < j < |fields| ==> fields[j].0 != key
    decreases |fields|
  {
    if |fields| == 0 then -1
    else if fields[|fields| - 1].0 == key then |fields| - 1
    else LastIndex(fields[..|fields| - 1], key)
  }

  /** `key in d` for a decoded object. */
  predicate Has(fields: seq<(string, Json)>, key: string) {
    exists i :: 0 <= i < |fields| && fields[i].0 == key
  }

  /** `d.get(key)`. */
  function Get(fields: seq<(string, Json)>, key: string): (r: Option<Json>)
    ensures r.None? <==> !Has(fields, key)
  {
    var i := LastIndex(fields, key);
    if i < 0 then None else Some(fields[i].1)
  }

  /** `d.get(key, default)`: the default only when the key is absent, not
      when it holds `null`. */
  function GetOr(fields: seq<(string, Json)>, key: string, default: Json): (r: Json)
    ensures !Has(fields, key) ==> r == default
    ensures Has(fields, key) ==> Some(r) == Get(fields, key)
  {
    match Get(fields, key)
    case None => default
    case Some(v) => v
  }

  /** The value of a field written once is that field's value. */
  lemma {:induction false} GetUnique(fields: seq<(string, Json)>, i: int)
    requires 0 <= i < |fields|
    requires forall j :: 0 <= j < |fields| && j != i ==> fields[j].0 != fields[i].0
    ensures Get(fields, fields[i].0) == Some(fields[i].1)
  {
  }

  /** Python truthiness of a decoded value. */
  predicate Truthy(v: Json) {
    match v
    case Null => false
    case Bool(b) => b
    case Num(n) => n != 0
    case Str(s) => s != ""
    case Arr(items) => items != []
    case Obj(fields) => fields != []
  }
}

=== FILE: monitor_service.dfy ===
/** The monitor service's life cycle (`MonitorService`): `start`, `stop`,
    and the scan loop with its retry counter and linear backoff. Each
    iteration's scan outcome is an input; sleeping becomes the delay the
    step returns. */
module MonitorService {
  import opened Wrappers

  datatype Monitor = Monitor(
    running: bool,
    hasTask: bool,
    retryCount: nat,
    totalScans: nat,
    failedScans: nat,
    lastError: Option<string>,
    maxRetries: int,
    retryDelay: int)

  /** The constructor: stopped, counters at zero, the given retry policy
      (3 retries, 5 seconds by default). */
  function NewMonitor(maxRetries: int, retryDelay: int): (m: Monitor)
    ensures !m.running && m.retryCount == 0 && m.totalScans == 0 && m.failedScans == 0
  {
    Monitor(false, false, 0, 0, 0, None, maxRetries, retryDelay)
  }

  /** The drive client's part in `start`: none configured, or the outcome
      of its authentication. */
  datatype Auth = NoDrive | AuthOk | AuthFailed(message: string)

  /** `start`, as written: a running service is left alone; a failed
      authentication propagates and leaves the service stopped; otherwise
      the service runs. The retry counter is not touched. */
  function Start(m: Monitor, auth: Auth): (r: Result<Monitor, string>)
    ensures m.running ==> r == Ok(m)
    ensures !m.running && auth.AuthFailed? ==> r == Err(auth.message)
    ensures !m.running && !auth.AuthFailed? ==> r == Ok(m.(running := true, hasTask := true))
    ensures r.Ok? ==> r.value.running
  {
    if m.running then Ok(m)
    else if auth.AuthFailed? then Err(auth.message)
    else Ok(m.(running := true, hasTask := true))
  }

  /** `start` with the retry counter reset, so a restarted loop gets the
      full retry budget again. */
  function StartFresh(m: Monitor, auth: Auth): (r: Result<Monitor, string>)
    ensures m.running ==> r == Ok(m)
    ensures !m.running && auth.AuthFailed? ==> r == Err(auth.message)
    ensures !m.running && !auth.AuthFailed? ==> r == Ok(m.(running := true, hasTask := true, retryCount := 0))
    ensures r.Ok? ==> r.value.running
  {
    match Start(m, auth)
    case Err(e) => Err(e)
    case Ok(s) => if m.running then Ok(s) else Ok(s.(retryCount := 0))
  }

  /** `stop`: a stopped service is left alone; otherwise it stops and its
      task is cancelled. */
  function Stop(m: Monitor): (r: Monitor)
    ensures !r.running
    ensures !m.running ==> r == m
    ensures m.running ==> r == m.(running := false, hasTask := false)
  {
    if !m.running then m else m.(running := false, hasTask := false)
  }

  /** What one iteration's scan did: it returned this many changes, and
      the event callback (called only for a non-empty result) raised or
      not; or the scan raised. */
  datatype ScanOutcome = Scanned(changes: nat, callbackRaised: bool) | ScanFailed(message: string)

  /** The state after an iteration and how long the loop then sleeps: the
      scan interval after a success, the backoff after a retried failure,
      and no sleep once the loop has stopped. */
  datatype Tick = Tick(m: Monitor, delay: int)

  /** One iteration of `_monitor_loop`. A success (whatever the callback
      did) resets the retry counter and the error. A failure is counted; it
      is retried after `retry_delay * retry_count` seconds while the counter
      is below `max_retries`, and otherwise stops the service. */
  function Iterate(m: Monitor, outcome: ScanOutcome, scanInterval: int): (t: Tick)
    requires m.running
    ensures t.m.totalScans == m.totalScans + 1
    ensures outcome.Scanned? ==> t == Tick(m.(totalScans := m.totalScans + 1, retryCount := 0, lastError := None), scanInterval)
    ensures outcome.ScanFailed? ==> t.m.failedScans == m.failedScans + 1 && t.m.lastError == Some(outcome.message)
    ensures outcome.ScanFailed? && m.retryCount < m.maxRetries ==>
              t.m.running && t.m.retryCount == m.retryCount + 1 && t.delay == m.retryDelay * t.m.retryCount
    ensures outcome.ScanFailed? && m.retryCount >= m.maxRetries ==>
              !t.m.running && t.m.retryCount == m.retryCount && t.delay == 0
    ensures t.m.maxRetries == m.maxRetries && t.m.retryDelay == m.retryDelay
  {
    var counted := m.(totalScans := m.totalScans + 1);
    match outcome
    case Scanned(_, _) => Tick(counted.(retryCount := 0, lastError := None), scanInterval)
    case ScanFailed(msg) =>
      var failed := counted.(failedScans := m.failedScans + 1, lastError := Some(msg));
      if m.retryCount < m.maxRetries then
        Tick(failed.(retryCount := m.retryCount + 1), m.retryDelay * (m.retryCount + 1))
      else Tick(Stop(failed), 0)
  }

  /** The loop over a sequence of scan outcomes, ending when the service
      stops; `delays` lists the sleeps in order. */
  datatype Trace = Trace(m: Monitor, delays: seq<int>, used: nat)

  function Loop(m: Monitor, outcomes: seq<ScanOutcome>, scanInterval: int): (t: Trace)
    ensures t.used <= |outcomes|
    ensures t.m.maxRetries == m.maxRetries && t.m.retryDelay == m.retryDelay
    ensures t.used < |outcomes| ==> !t.m.running
    decreases |outcomes|
  {
    if |outcomes| == 0 || !m.running then Trace(m, [], 0)
    else
      var tick := Iterate(m, outcomes[0], scanInterval);
      var rest := Loop(tick.m, outcomes[1..], scanInterval);
      Trace(rest.m, (if tick.m.running then [tick.delay] else []) + rest.delays, rest.used + 1)
  }

  /** `n` scans in a row that raise. */
  function Failures(n: nat): (s: seq<ScanOutcome>)
    ensures |s| == n && forall i :: 0 <= i < n ==> s[i] == ScanFailed("scan failed")
  {
    seq(n, i => ScanFailed("scan failed"))
  }

  /** The backoff delays `retry_delay * 1`, ..., `retry_delay * n` of the
      retries after a counter value `from`. */
  function Backoff(retryDelay: int, from: nat, n: nat): (s: seq<int>)
    ensures |s| == n && forall i :: 0 <= i < n ==> s[i] == retryDelay * (from + i + 1)
  {
    seq(n, i => retryDelay * (from + i + 1))
  }

  /** The `k` failures that bring the counter from its value up to
      `max_retries` are retried with linearly growing delays, and the next
      failure, which finds the counter at the limit, stops the service. */
  lemma {:induction false} FailuresBackOffThenStop(m: Monitor, k: nat, scanInterval: int)
    requires m.running && m.retryCount + k == m.maxRetries
    ensures Loop(m, Failures(k + 1), scanInterval).delays == Backoff(m.retryDelay, m.retryCount, k)
    ensures Loop(m, Failures(k + 1), scanInterval).m.retryCount == m.maxRetries
    ensures Loop(m, Failures(k + 1), scanInterval).used == k + 1
    ensures !Loop(m, Failures(k + 1), scanInterval).m.running
    ensures Loop(m, Failures(k + 1), scanInterval).m.failedScans == m.failedScans + k + 1
    decreases k
  {
    var outcomes := Failures(k + 1);
    var tick := Iterate(m, outcomes[0], scanInterval);
    assert outcomes[1..] == Failures(k);
    if k == 0 {
      assert Loop(tick.m, outcomes[1..], scanInterval) == Trace(tick.m, [], 0);
    } else {
      assert tick.m.running && tick.m.retryCount == m.retryCount + 1;
      assert outcomes[1..] == Failures((k - 1) + 1);
      FailuresBackOffThenStop(tick.m, k - 1, scanInterval);
      assert [tick.delay] + Backoff(m.retryDelay, m.retryCount + 1, k - 1) == Backoff(m.retryDelay, m.retryCount, k);
    }
  }

  /** Every counter stays within its bounds in every reachable state. */
  predicate Bounded(m: Monitor) {
    m.failedScans <= m.totalScans && (m.retryCount == 0 || m.retryCount <= m.maxRetries)
  }

  lemma {:induction false} LoopBounded(m: Monitor, outcomes: seq<ScanOutcome>, scanInterval: int)
    requires Bounded(m)
    ensures Bounded(Loop(m, outcomes, scanInterval).m)
    decreases |outcomes|
  {
    if |outcomes| > 0 && m.running {
      var tick := Iterate(m, outcomes[0], scanInterval);
      assert Bounded(tick.m);
      LoopBounded(tick.m, outcomes[1..], scanInterval);
    }
  }

  /** The service after `max_retries + 1` failures stopped it and it was
      started again. */
  function Restarted(maxRetries: nat, start: (Monitor, Auth) -> Result<Monitor, string>): Result<Monitor, string> {
    var m := Start(NewMonitor(maxRetries, 5), NoDrive).value;
    start(Loop(m, Failures(maxRetries + 1), 300).m, NoDrive)
  }

  /** As written, a service restarted after exhausting its retries keeps the
      exhausted counter, so the first failure after the restart stops it
      again without any retry. */
  lemma {:induction false} RestartKeepsExhaustedCounter(maxRetries: nat)
    ensures Restarted(maxRetries, Start).Ok?
    ensures Loop(Restarted(maxRetries, Start).value, Failures(1), 300).used == 1
    ensures !Loop(Restarted(maxRetries, Start).value, Failures(1), 300).m.running
    ensures Loop(Restarted(maxRetries, Start).value, Failures(1), 300).delays == []
  {
    var m := Start(NewMonitor(maxRetries, 5), NoDrive).value;
    FailuresBackOffThenStop(m, maxRetries, 300);
    var r := Restarted(maxRetries, Start).value;
    assert r.retryCount == maxRetries && r.running;
    var outcomes := Failures(1);
    assert outcomes[1..] == [];
  }

  /** With the counter reset on start, a restarted service again retries
      `max_retries` times, with the full backoff, before it stops. */
  lemma {:induction false} RestartFreshRetriesAgain(maxRetries: nat)
    ensures Restarted(maxRetries, StartFresh).Ok?
    ensures Loop(Restarted(maxRetries, StartFresh).value, Failures(maxRetries + 1), 300).delays
         == Backoff(5, 0, maxRetries)
  {
    var m := Start(NewMonitor(maxRetries, 5), NoDrive).value;
    FailuresBackOffThenStop(m, maxRetries, 300);
    var r := Restarted(maxRetries, StartFresh).value;
    assert r.running && r.retryCount == 0 && r.maxRetries == maxRetries && r.retryDelay == 5;
    FailuresBackOffThenStop(r, maxRetries, 300);
  }
}

=== FILE: scanner.dfy ===
/** Change detection of the monitor (`FileScanner.scan_directory`): a fresh
    remote listing is compared with the stored snapshot, producing an ordered
    change list and the next snapshot. The store is the table's rows in row
    order, and every database query becomes a filter or a first-match search
    over it. */
module Scanner {
  import opened Wrappers
  import opened Text
  import opened Seqs
  import opened FileRecords

  const FolderMimeType: string := "application/vnd.google-apps.folder"

  /** Records whose `last_checked` is older than 30 days are swept. */
  const RetentionSeconds: int := 30 * 86400

  const UniquenessViolation: string := "UNIQUE constraint failed: file_records.path"

  /** The `size` field of a listed entry: absent, a number, or text that
      Python's `int()` rejects. */
  datatype SizeField = NoSize | SizeOf(n: int) | BadSize

  /** One entry of the remote listing. `modifiedTime` is `None` when the
      field is absent or is not a date-time in the format of section 5.6 of
      RFC 3339. */
  datatype RemoteEntry = RemoteEntry(
    id: string,
    name: Option<string>,
    mimeType: Option<string>,
    modifiedTime: Option<int>,
    size: SizeField)

  datatype Change = Added(entry: RemoteEntry) | Modified(entry: RemoteEntry) | Deleted(record: FileRecord)

  datatype Outcome = Outcome(changes: Result<seq<Change>, string>, store: Store)

  /** `{f['id'] for f in files}` */
  function Ids(entries: seq<RemoteEntry>): (r: set<string>)
    ensures forall i :: 0 <= i < |entries| ==> entries[i].id in r
    decreases |entries|
  {
    if |entries| == 0 then {} else {entries[0].id} + Ids(entries[1..])
  }

  /** Every id in the set comes from a listed entry. */
  lemma {:induction false} IdsListed(entries: seq<RemoteEntry>, x: string)
    requires x in Ids(entries)
    ensures exists i :: 0 <= i < |entries| && entries[i].id == x
    decreases |entries|
  {
    if entries[0].id != x {
      IdsListed(entries[1..], x);
      var i :| 0 <= i < |entries[1..]| && entries[1..][i].id == x;
      assert entries[i + 1].id == x;
    }
  }

  predicate DistinctIds(entries: seq<RemoteEntry>) {
    forall i, j :: 0 <= i < j < |entries| ==> entries[i].id != entries[j].id
  }

  /** `int(file.get('size', 0))` */
  function SizeValue(f: SizeField): (r: Result<int, string>)
    ensures r.Err? <==> f.BadSize?
    ensures f.NoSize? ==> r == Ok(0)
    ensures f.SizeOf? ==> r == Ok(f.n)
  {
    match f
    case NoSize => Ok(0)
    case SizeOf(n) => Ok(n)
    case BadSize => Err("invalid literal for int()")
  }

  /** Every field an update reads is present and acceptable. */
  predicate UpdateReadable(e: RemoteEntry) {
    e.name.Some? && e.name.value != "" && e.mimeType.Some? && !e.size.BadSize?
  }

  /** Every field a new record reads is present and passes the validators. */
  predicate Creatable(e: RemoteEntry) {
    e.id != "" && UpdateReadable(e)
  }

  /** `_create_file_record`: the record to add, or the error that makes the
      scan loop skip the entry. */
  function NewRecord(e: RemoteEntry, t: int, now: int): (r: Result<FileRecord, string>)
    ensures r.Ok? <==> Creatable(e)
    ensures r.Ok? ==> r.value.path == ValidatePath(e.name.value).value && r.value.fileId == e.id
    ensures r.Ok? ==> r.value.modifiedTime == t && r.value.lastChecked == now
    ensures r.Ok? ==> r.value.size == (if e.size.SizeOf? then e.size.n else 0)
    ensures r.Ok? ==> r.value.mimeType == e.mimeType.value
    ensures r.Ok? ==> (r.value.isDirectory <==> e.mimeType.value == FolderMimeType)
  {
    if e.name.None? then Err("KeyError: 'name'")
    else match SizeValue(e.size)
      case Err(msg) => Err(msg)
      case Ok(size) =>
        if e.mimeType.None? then Err("KeyError: 'mimeType'")
        else match ValidateFileId(e.id)
          case Err(msg) => Err(msg)
          case Ok(id) =>
            match ValidatePath(e.name.value)
            case Err(msg) => Err(msg)
            case Ok(path) =>
              Ok(FileRecord(path, id, t, size, e.mimeType.value == FolderMimeType, now, e.mimeType.value))
  }

  /** `_update_file_record`: modified_time, size, path and mime_type are
      assigned in that order, so an assignment that raises leaves the later
      ones undone while the earlier ones stay on the record; the flush then
      stamps `last_checked`. */
  function UpdateRecord(r: FileRecord, e: RemoteEntry, t: int, now: int): (u: FileRecord)
    ensures u.modifiedTime == t && u.lastChecked == now
    ensures u.fileId == r.fileId && u.isDirectory == r.isDirectory
    ensures e.size.BadSize? ==> u == r.(modifiedTime := t, lastChecked := now)
    ensures UpdateReadable(e) ==>
      u == r.(modifiedTime := t, size := SizeValue(e.size).value,
              path := ValidatePath(e.name.value).value, mimeType := e.mimeType.value,
              lastChecked := now)
  {
    var timed := r.(modifiedTime := t);
    var written :=
      (match SizeValue(e.size)
       case Err(_) => timed
       case Ok(size) => AssignNameAndType(timed.(size := size), e));
    Touch(written, now)
  }

  /** The path and mime-type assignments of an update, stopping at the
      first one that raises. */
  function AssignNameAndType(r: FileRecord, e: RemoteEntry): (u: FileRecord)
    ensures u.fileId == r.fileId && u.isDirectory == r.isDirectory && u.size == r.size
    ensures u.modifiedTime == r.modifiedTime && u.lastChecked == r.lastChecked
  {
    if e.name.None? || e.name.value == "" then r
    else
      var moved := r.(path := ValidatePath(e.name.value).value);
      if e.mimeType.None? then moved else moved.(mimeType := e.mimeType.value)
  }

  /** `next(r for r in existing_records if r.file_id == id)` over the first
      `n` rows, the ones that existed before the scan. */
  function FirstMatch(rows: Store, n: nat, id: string): (r: Option<nat>)
    requires n <= |rows|
    ensures r.Some? ==> r.value < n && rows[r.value].fileId == id
    ensures r.Some? ==> forall j :: 0 <= j < r.value ==> rows[j].fileId != id
    ensures r.None? ==> forall j :: 0 <= j < n ==> rows[j].fileId != id
    decreases n
  {
    if n == 0 then None
    else match FirstMatch(rows, n - 1, id)
      case Some(i) => Some(i)
      case None => if rows[n - 1].fileId == id then Some(n - 1) else None
  }

  /** The scan loop's state: rows (existing ones first, then the ones added
      so far) and the changes emitted so far. */
  datatype Pass = Pass(rows: Store, changes: seq<Change>)

  /** One iteration of the scan loop. `confirm` selects the corrected
      behaviour that also stamps records confirmed as unchanged. */
  function Step(p: Pass, n0: nat, e: RemoteEntry, now: int, confirm: bool): (q: Pass)
    requires n0 <= |p.rows|
    ensures |p.rows| <= |q.rows|
  {
    match e.modifiedTime
    case None => p
    case Some(t) =>
      match FirstMatch(p.rows, n0, e.id)
      case None =>
        var changes := p.changes + [Added(e)];
        (match NewRecord(e, t, now)
         case Ok(rec) => Pass(p.rows + [rec], changes)
         case Err(_) => Pass(p.rows, changes))
      case Some(i) =>
        if p.rows[i].modifiedTime < t then
          Pass(p.rows[i := UpdateRecord(p.rows[i], e, t, now)], p.changes + [Modified(e)])
        else if confirm then Pass(p.rows[i := Touch(p.rows[i], now)], p.changes)
        else p
  }

  function Fold(p: Pass, n0: nat, entries: seq<RemoteEntry>, now: int, confirm: bool): (q: Pass)
    requires n0 <= |p.rows|
    ensures |p.rows| <= |q.rows|
    ensures (forall c :: c in p.changes ==> !c.Deleted?) ==> forall c :: c in q.changes ==> !c.Deleted?
    decreases |entries|
  {
    if |entries| == 0 then p
    else Fold(Step(p, n0, entries[0], now, confirm), n0, entries[1..], now, confirm)
  }

  /** A row `_find_deleted_files` selects: under `directory/` and no longer
      listed. */
  predicate Gone(r: FileRecord, directory: string, ids: set<string>) {
    StartsWith(r.path, directory + "/") && r.fileId !in ids
  }

  function DeletedChanges(rows: Store, directory: string, ids: set<string>): (r: seq<Change>)
    ensures forall c :: c in r <==> c.Deleted? && c.record in rows && Gone(c.record, directory, ids)
    ensures (forall k :: 0 <= k < |rows| ==> !Gone(rows[k], directory, ids)) ==> r == []
    decreases |rows|
  {
    if |rows| == 0 then []
    else (if Gone(rows[0], directory, ids) then [Deleted(rows[0])] else [])
         + DeletedChanges(rows[1..], directory, ids)
  }

  function Remaining(rows: Store, directory: string, ids: set<string>): (r: Store)
    ensures forall x :: x in r <==> x in rows && !Gone(x, directory, ids)
    ensures UniquePaths(rows) ==> UniquePaths(r)
  {
    var keep := (x: FileRecord) => !Gone(x, directory, ids);
    assert UniquePaths(rows) ==> UniquePaths(Filter(rows, keep)) by {
      if UniquePaths(rows) { FilterInjective(rows, keep, PathOf); }
    }
    Filter(rows, keep)
  }

  /** `_cleanup_expired_records`: drop every record last checked before the
      cutoff `now - 30 days`. */
  function Sweep(rows: Store, now: int): (r: Store)
    ensures forall x :: x in r <==> x in rows && x.lastChecked >= now - RetentionSeconds
    ensures UniquePaths(rows) ==> UniquePaths(r)
  {
    var keep := (x: FileRecord) => x.lastChecked >= now - RetentionSeconds;
    assert UniquePaths(rows) ==> UniquePaths(Filter(rows, keep)) by {
      if UniquePaths(rows) { FilterInjective(rows, keep, PathOf); }
    }
    Filter(rows, keep)
  }

  /** `scan_directory` with the listing's outcome as input. A failed listing
      rolls the scan back, and so does a path collision at the commit's
      flush, where the unique constraint on `path` is checked after each
      UPDATE in row order, after the INSERTs and before the DELETEs. The
      sweep runs and commits afterwards in every case. */
  function ScanWith(store: Store, directory: string, listing: Result<seq<RemoteEntry>, string>,
                    now: int, confirm: bool): (r: Outcome)
    ensures forall k :: 0 <= k < |r.store| ==> r.store[k].lastChecked >= now - RetentionSeconds
    ensures listing.Err? ==> r == Outcome(Err(listing.error), Sweep(store, now))
    ensures r.changes.Err? ==> r.store == Sweep(store, now)
    ensures listing.Ok? ==>
      var p := Fold(Pass(store, []), |store|, listing.value, now, confirm);
      (r.changes.Ok? <==> FlushUnique(store, p.rows))
    ensures r.changes.Ok? ==> UniquePaths(r.store)
    ensures r.changes.Ok? ==> forall i, j :: 0 <= i < j < |r.changes.value| && r.changes.value[i].Deleted?
                                ==> r.changes.value[j].Deleted?
  {
    match listing
    case Err(msg) => Outcome(Err(msg), Sweep(store, now))
    case Ok(entries) =>
      var ids := Ids(entries);
      var p := Fold(Pass(store, []), |store|, entries, now, confirm);
      if !FlushUnique(store, p.rows) then Outcome(Err(UniquenessViolation), Sweep(store, now))
      else
        var deleted := DeletedChanges(p.rows, directory, ids);
        assert forall c :: c in p.changes ==> !c.Deleted?;
        var changes := p.changes + deleted;
        assert forall i :: |p.changes| <= i < |changes| ==> changes[i] == deleted[i - |p.changes|];
        Outcome(Ok(changes), Sweep(Remaining(p.rows, directory, ids), now))
  }

  /** The scan as written: records confirmed unchanged are left untouched. */
  function Scan(store: Store, directory: string, listing: Result<seq<RemoteEntry>, string>, now: int): (r: Outcome)
    ensures forall k :: 0 <= k < |r.store| ==> r.store[k].lastChecked >= now - RetentionSeconds
    ensures r.changes.Err? ==> r.store == Sweep(store, now)
    ensures listing.Ok? ==>
      (r.changes.Ok? <==> FlushUnique(store, Fold(Pass(store, []), |store|, listing.value, now, false).rows))
    ensures r.changes.Ok? ==> UniquePaths(r.store)
  {
    ScanWith(store, directory, listing, now, false)
  }

  /** The corrected scan: a record confirmed unchanged has its
      `last_checked` stamped, as the field's meaning requires. */
  function ScanConfirming(store: Store, directory: string, listing: Result<seq<RemoteEntry>, string>, now: int): (r: Outcome)
    ensures forall k :: 0 <= k < |r.store| ==> r.store[k].lastChecked >= now - RetentionSeconds
    ensures r.changes.Err? ==> r.store == Sweep(store, now)
    ensures listing.Ok? ==>
      (r.changes.Ok? <==> FlushUnique(store, Fold(Pass(store, []), |store|, listing.value, now, true).rows))
    ensures r.changes.Ok? ==> UniquePaths(r.store)
  {
    ScanWith(store, directory, listing, now, true)
  }
}

=== FILE: scanner_facts.dfy ===
/** What a scan does, stated entry by entry against the snapshot taken
    before the scan, and the consequences: each listed id is classified once,
    in listing order, and repeating a scan over an unchanged listing is
    silent for the corrected scan but not for the scan as written. */
module ScannerFacts {
  import opened Wrappers
  import opened Text
  import opened Seqs
  import opened FileRecords
  import opened Scanner

  /** First listed entry carrying `id`. */
  function FindEntry(entries: seq<RemoteEntry>, id: string): (r: Option<RemoteEntry>)
    ensures r.Some? ==> r.value in entries && r.value.id == id
    ensures r.None? <==> id !in Ids(entries)
    decreases |entries|
  {
    if |entries| == 0 then None
    else if entries[0].id == id then Some(entries[0])
    else FindEntry(entries[1..], id)
  }

  /** The change one entry causes, judged against the snapshot alone. */
  function Classify(store: Store, e: RemoteEntry): (r: seq<Change>)
    ensures |r| <= 1
  {
    match e.modifiedTime
    case None => []
    case Some(t) =>
      match FirstMatch(store, |store|, e.id)
      case None => [Added(e)]
      case Some(i) => if store[i].modifiedTime < t then [Modified(e)] else []
  }

  /** The added and modified changes of a whole listing, in listing order. */
  function Diff(store: Store, entries: seq<RemoteEntry>): seq<Change>
    decreases |entries|
  {
    if |entries| == 0 then [] else Classify(store, entries[0]) + Diff(store, entries[1..])
  }

  /** The record one entry adds, if any. */
  function NewRowOf(store: Store, e: RemoteEntry, now: int): seq<FileRecord> {
    match e.modifiedTime
    case None => []
    case Some(t) =>
      if FirstMatch(store, |store|, e.id).Some? then []
      else match NewRecord(e, t, now)
        case Ok(rec) => [rec]
        case Err(_) => []
  }

  function NewRows(store: Store, entries: seq<RemoteEntry>, now: int): seq<FileRecord>
    decreases |entries|
  {
    if |entries| == 0 then [] else NewRowOf(store, entries[0], now) + NewRows(store, entries[1..], now)
  }

  /** Row `j` of the snapshot after entry `e` was processed, when `e` carries
      the row's id. Only the first row with that id is ever looked at. */
  function RowAfter(store: Store, j: nat, e: RemoteEntry, now: int, confirm: bool): FileRecord
    requires j < |store|
  {
    if FirstMatch(store, |store|, e.id) != Some(j) then store[j]
    else match e.modifiedTime
      case None => store[j]
      case Some(t) =>
        if store[j].modifiedTime < t then UpdateRecord(store[j], e, t, now)
        else if confirm then Touch(store[j], now)
        else store[j]
  }

  function ExpectedRow(store: Store, j: nat, entries: seq<RemoteEntry>, now: int, confirm: bool): FileRecord
    requires j < |store|
  {
    match FindEntry(entries, store[j].fileId)
    case None => store[j]
    case Some(e) => RowAfter(store, j, e, now, confirm)
  }

  /** The rows the scan loop leaves: every existing row in place, possibly
      updated, followed by the new records in listing order. */
  function ExpectedRows(store: Store, entries: seq<RemoteEntry>, now: int, confirm: bool): (r: Store)
    ensures |r| == |store| + |NewRows(store, entries, now)|
  {
    seq(|store|, j requires 0 <= j < |store| => ExpectedRow(store, j, entries, now, confirm))
      + NewRows(store, entries, now)
  }

  lemma {:induction false} FirstMatchSameIds(a: Store, b: Store, n: nat, id: string)
    requires n <= |a| && n <= |b|
    requires forall j :: 0 <= j < n ==> a[j].fileId == b[j].fileId
    ensures FirstMatch(a, n, id) == FirstMatch(b, n, id)
    decreases n
  {
    if n > 0 {
      FirstMatchSameIds(a, b, n - 1, id);
    }
  }

  lemma {:induction false} FirstMatchOfUnique(s: Store, i: nat)
    requires UniqueIds(s) && i < |s|
    ensures FirstMatch(s, |s|, s[i].fileId) == Some(i)
  {
    var r := FirstMatch(s, |s|, s[i].fileId);
    if r.Some? {
      InjectiveUniquePosition(s, IdOf, r.value, i);
    }
  }

  lemma {:induction false} FindEntryOfDistinct(entries: seq<RemoteEntry>, k: nat)
    requires DistinctIds(entries) && k < |entries|
    ensures FindEntry(entries, entries[k].id) == Some(entries[k])
    decreases k
  {
    if k > 0 {
      assert entries[0].id != entries[k].id;
      assert entries[1..][k - 1] == entries[k];
      assert DistinctIds(entries[1..]) by {
        forall i, j | 0 <= i < j < |entries[1..]| ensures entries[1..][i].id != entries[1..][j].id {
          assert entries[1..][i] == entries[i + 1] && entries[1..][j] == entries[j + 1];
        }
      }
      FindEntryOfDistinct(entries[1..], k - 1);
    }
  }

  lemma {:induction false} DistinctTail(entries: seq<RemoteEntry>)
    requires DistinctIds(entries) && |entries| > 0
    ensures DistinctIds(entries[1..]) && entries[0].id !in Ids(entries[1..])
  {
    assert DistinctIds(entries[1..]) by {
      forall i, j | 0 <= i < j < |entries[1..]| ensures entries[1..][i].id != entries[1..][j].id {
        assert entries[1..][i] == entries[i + 1] && entries[1..][j] == entries[j + 1];
      }
    }
    forall k | 0 <= k < |entries[1..]| ensures entries[1..][k].id != entries[0].id {
      assert entries[1..][k] == entries[k + 1];
    }
    if entries[0].id in Ids(entries[1..]) {
      IdsListed(entries[1..], entries[0].id);
    }
  }

  /** One loop iteration against the snapshot: the rows holding the entry's
      id are the only existing rows that can change. */
  lemma {:induction false} StepAgainstSnapshot(p: Pass, store: Store, e: RemoteEntry, now: int, confirm: bool)
    requires |store| <= |p.rows|
    requires forall j :: 0 <= j < |store| ==> p.rows[j].fileId == store[j].fileId
    requires forall j :: 0 <= j < |store| && store[j].fileId == e.id ==> p.rows[j] == store[j]
    ensures var q := Step(p, |store|, e, now, confirm);
      && q.changes == p.changes + Classify(store, e)
      && |store| <= |q.rows|
      && q.rows[|store|..] == p.rows[|store|..] + NewRowOf(store, e, now)
      && forall j :: 0 <= j < |store| ==>
           q.rows[j] == (if store[j].fileId == e.id then RowAfter(store, j, e, now, confirm) else p.rows[j])
  {
    FirstMatchSameIds(p.rows, store, |store|, e.id);
    match e.modifiedTime
    case None =>
    case Some(t) =>
      match FirstMatch(store, |store|, e.id)
      case None =>
      case Some(i) =>
        assert p.rows[i] == store[i];
        var q := Step(p, |store|, e, now, confirm);
        assert q.rows[|store|..] == p.rows[|store|..];
  }

  /** How the expected row of `j` unfolds over the first entry. */
  lemma {:induction false} ExpectedRowUnfold(store: Store, j: nat, entries: seq<RemoteEntry>, now: int, confirm: bool)
    requires j < |store| && |entries| > 0
    ensures store[j].fileId in Ids(entries) <==> store[j].fileId == entries[0].id || store[j].fileId in Ids(entries[1..])
    ensures store[j].fileId == entries[0].id ==>
      ExpectedRow(store, j, entries, now, confirm) == RowAfter(store, j, entries[0], now, confirm)
    ensures store[j].fileId != entries[0].id ==>
      ExpectedRow(store, j, entries, now, confirm) == ExpectedRow(store, j, entries[1..], now, confirm)
  {
  }

  /** After the first entry, the rows of the snapshot still agree with it
      where the rest of the listing will look. */
  lemma {:induction false} StepKeepsSnapshot(p: Pass, store: Store, entries: seq<RemoteEntry>, now: int, confirm: bool, q: Pass)
    requires |store| <= |p.rows| && |entries| > 0
    requires forall j :: 0 <= j < |store| ==> p.rows[j].fileId == store[j].fileId
    requires forall j :: 0 <= j < |store| && store[j].fileId in Ids(entries) ==> p.rows[j] == store[j]
    requires DistinctIds(entries)
    requires |store| <= |q.rows|
    requires forall j :: 0 <= j < |store| ==>
           q.rows[j] == (if store[j].fileId == entries[0].id then RowAfter(store, j, entries[0], now, confirm)
                         else p.rows[j])
    ensures DistinctIds(entries[1..])
    ensures forall j :: 0 <= j < |store| ==> q.rows[j].fileId == store[j].fileId
    ensures forall j :: 0 <= j < |store| && store[j].fileId in Ids(entries[1..]) ==> q.rows[j] == store[j]
  {
    DistinctTail(entries);
    StepKeepsIds(p, store, entries[0], now, confirm, q);
    StepKeepsLater(p, store, entries, now, confirm, q);
  }

  lemma {:induction false} StepKeepsIds(p: Pass, store: Store, e: RemoteEntry, now: int, confirm: bool, q: Pass)
    requires |store| <= |p.rows| && |store| <= |q.rows|
    requires forall j :: 0 <= j < |store| ==> p.rows[j].fileId == store[j].fileId
    requires forall j :: 0 <= j < |store| ==>
           q.rows[j] == (if store[j].fileId == e.id then RowAfter(store, j, e, now, confirm) else p.rows[j])
    ensures forall j :: 0 <= j < |store| ==> q.rows[j].fileId == store[j].fileId
  {
    forall j | 0 <= j < |store| ensures q.rows[j].fileId == store[j].fileId {
      if store[j].fileId == e.id {
        RowAfterKeepsId(store, j, e, now, confirm);
      }
    }
  }

  lemma {:induction false} RowAfterKeepsId(store: Store, j: nat, e: RemoteEntry, now: int, confirm: bool)
    requires j < |store|
    ensures RowAfter(store, j, e, now, confirm).fileId == store[j].fileId
  {
  }

  lemma {:induction false} StepKeepsLater(p: Pass, store: Store, entries: seq<RemoteEntry>, now: int, confirm: bool, q: Pass)
    requires |store| <= |p.rows| && |store| <= |q.rows| && |entries| > 0
    requires forall j :: 0 <= j < |store| && store[j].fileId in Ids(entries) ==> p.rows[j] == store[j]
    requires entries[0].id !in Ids(entries[1..])
    requires forall j :: 0 <= j < |store| ==>
           q.rows[j] == (if store[j].fileId == entries[0].id then RowAfter(store, j, entries[0], now, confirm)
                         else p.rows[j])
    ensures forall j :: 0 <= j < |store| && store[j].fileId in Ids(entries[1..]) ==> q.rows[j] == store[j]
  {
    assert Ids(entries) == {entries[0].id} + Ids(entries[1..]);
  }

  /** One turn of the loop over a listing with distinct ids: the state it
      leaves still meets what the rest of the listing needs. */
  lemma {:induction false} Advance(p: Pass, store: Store, entries: seq<RemoteEntry>, now: int, confirm: bool) returns (q: Pass)
    requires |store| <= |p.rows| && |entries| > 0
    requires forall j :: 0 <= j < |store| ==> p.rows[j].fileId == store[j].fileId
    requires forall j :: 0 <= j < |store| && store[j].fileId in Ids(entries) ==> p.rows[j] == store[j]
    requires DistinctIds(entries)
    ensures |store| <= |q.rows|
    ensures Fold(p, |store|, entries, now, confirm) == Fold(q, |store|, entries[1..], now, confirm)
    ensures q.changes == p.changes + Classify(store, entries[0])
    ensures q.rows[|store|..] == p.rows[|store|..] + NewRowOf(store, entries[0], now)
    ensures forall j :: 0 <= j < |store| ==>
           q.rows[j] == (if store[j].fileId == entries[0].id then RowAfter(store, j, entries[0], now, confirm)
                         else p.rows[j])
    ensures DistinctIds(entries[1..])
    ensures forall j :: 0 <= j < |store| ==> q.rows[j].fileId == store[j].fileId
    ensures forall j :: 0 <= j < |store| && store[j].fileId in Ids(entries[1..]) ==> q.rows[j] == store[j]
  {
    StepAgainstSnapshot(p, store, entries[0], now, confirm);
    q := Step(p, |store|, entries[0], now, confirm);
    StepKeepsSnapshot(p, store, entries, now, confirm, q);
  }

  /** Appending `x` and then `rest` appends `x + rest`. */
  lemma {:induction false} AppendsInTurn<T>(a: seq<T>, x: seq<T>, rest: seq<T>, ax: seq<T>, whole: seq<T>, all: seq<T>)
    requires ax == a + x && whole == x + rest && all == ax + rest
    ensures all == a + whole
  {
  }

  /** The scan loop over a whole listing with distinct ids, against the
      snapshot taken before it. */
  lemma {:induction false} FoldAgainstSnapshot(p: Pass, store: Store, entries: seq<RemoteEntry>, now: int, confirm: bool)
    requires |store| <= |p.rows|
    requires forall j :: 0 <= j < |store| ==> p.rows[j].fileId == store[j].fileId
    requires forall j :: 0 <= j < |store| && store[j].fileId in Ids(entries) ==> p.rows[j] == store[j]
    requires DistinctIds(entries)
    ensures var f := Fold(p, |store|, entries, now, confirm);
      && f.changes == p.changes + Diff(store, entries)
      && |store| <= |f.rows|
      && f.rows[|store|..] == p.rows[|store|..] + NewRows(store, entries, now)
      && forall j :: 0 <= j < |store| ==>
           f.rows[j] == (if store[j].fileId in Ids(entries) then ExpectedRow(store, j, entries, now, confirm)
                         else p.rows[j])
  {
    FoldAppends(p, store, entries, now, confirm);
    FoldExistingRows(p, store, entries, now, confirm);
  }

  lemma {:induction false} FoldAppends(p: Pass, store: Store, entries: seq<RemoteEntry>, now: int, confirm: bool)
    requires |store| <= |p.rows|
    requires forall j :: 0 <= j < |store| ==> p.rows[j].fileId == store[j].fileId
    requires forall j :: 0 <= j < |store| && store[j].fileId in Ids(entries) ==> p.rows[j] == store[j]
    requires DistinctIds(entries)
    ensures var f := Fold(p, |store|, entries, now, confirm);
      && f.changes == p.changes + Diff(store, entries)
      && |store| <= |f.rows|
      && f.rows[|store|..] == p.rows[|store|..] + NewRows(store, entries, now)
  {
    FoldChanges(p, store, entries, now, confirm);
    FoldNewRows(p, store, entries, now, confirm);
  }

  /** The loop reports the classification of each entry, in order. */
  lemma {:induction false} FoldChanges(p: Pass, store: Store, entries: seq<RemoteEntry>,
                                       now: int, confirm: bool)
    requires |store| <= |p.rows|
    requires forall j :: 0 <= j < |store| ==> p.rows[j].fileId == store[j].fileId
    requires forall j :: 0 <= j < |store| && store[j].fileId in Ids(entries) ==> p.rows[j] == store[j]
    requires DistinctIds(entries)
    ensures Fold(p, |store|, entries, now, confirm).changes == p.changes + Diff(store, entries)
    decreases |entries|
  {
    if |entries| > 0 {
      var e := entries[0];
      var rest := entries[1..];
      var q := Advance(p, store, entries, now, confirm);
      FoldChanges(q, store, rest, now, confirm);
      var f := Fold(q, |store|, rest, now, confirm);
      assert Diff(store, entries) == Classify(store, e) + Diff(store, rest);
      AppendsInTurn(p.changes, Classify(store, e), Diff(store, rest), q.changes, Diff(store, entries), f.changes);
    }
  }

  /** The loop appends the new rows, in order, after the snapshot's. */
  lemma {:induction false} FoldNewRows(p: Pass, store: Store, entries: seq<RemoteEntry>,
                                       now: int, confirm: bool)
    requires |store| <= |p.rows|
    requires forall j :: 0 <= j < |store| ==> p.rows[j].fileId == store[j].fileId
    requires forall j :: 0 <= j < |store| && store[j].fileId in Ids(entries) ==> p.rows[j] == store[j]
    requires DistinctIds(entries)
    ensures var f := Fold(p, |store|, entries, now, confirm);
      |store| <= |f.rows| && f.rows[|store|..] == p.rows[|store|..] + NewRows(store, entries, now)
    decreases |entries|
  {
    if |entries| > 0 {
      var e := entries[0];
      var rest := entries[1..];
      var q := Advance(p, store, entries, now, confirm);
      FoldNewRows(q, store, rest, now, confirm);
      var f := Fold(q, |store|, rest, now, confirm);
      assert NewRows(store, entries, now) == NewRowOf(store, e, now) + NewRows(store, rest, now);
      AppendsInTurn(p.rows[|store|..], NewRowOf(store, e, now), NewRows(store, rest, now),
                    q.rows[|store|..], NewRows(store, entries, now), f.rows[|store|..]);
    }
  }

  /** What the loop does to the rows of the snapshot. */
  lemma {:induction false} FoldExistingRows(p: Pass, store: Store, entries: seq<RemoteEntry>,
                                            now: int, confirm: bool)
    requires |store| <= |p.rows|
    requires forall j :: 0 <= j < |store| ==> p.rows[j].fileId == store[j].fileId
    requires forall j :: 0 <= j < |store| && store[j].fileId in Ids(entries) ==> p.rows[j] == store[j]
    requires DistinctIds(entries)
    ensures var f := Fold(p, |store|, entries, now, confirm);
      && |store| <= |f.rows|
      && forall j :: 0 <= j < |store| ==>
           f.rows[j] == (if store[j].fileId in Ids(entries) then ExpectedRow(store, j, entries, now, confirm)
                         else p.rows[j])
    decreases |entries|
  {
    if |entries| > 0 {
      var e := entries[0];
      var rest := entries[1..];
      var q := Advance(p, store, entries, now, confirm);
      FoldExistingRows(q, store, rest, now, confirm);
      var f := Fold(q, |store|, rest, now, confirm);
      forall j | 0 <= j < |store|
        ensures f.rows[j] == (if store[j].fileId in Ids(entries) then ExpectedRow(store, j, entries, now, confirm)
                              else p.rows[j])
      {
        ExpectedRowUnfold(store, j, entries, now, confirm);
      }
    }
  }

  /** The scan loop over a listing with distinct ids produces the
      classification of each entry against the snapshot and the expected
      rows. */
  lemma {:induction false} FoldIsExpected(store: Store, entries: seq<RemoteEntry>, now: int, confirm: bool)
    requires DistinctIds(entries)
    ensures Fold(Pass(store, []), |store|, entries, now, confirm)
            == Pass(ExpectedRows(store, entries, now, confirm), Diff(store, entries))
  {
    var p := Pass(store, []);
    var f := Fold(p, |store|, entries, now, confirm);
    var rows := ExpectedRows(store, entries, now, confirm);
    assert f.changes == Diff(store, entries) && |f.rows| == |rows| && f.rows[|store|..] == rows[|store|..] by {
      FoldAgainstSnapshot(p, store, entries, now, confirm);
    }
    assert forall j :: 0 <= j < |store| ==> f.rows[j] == rows[j] by {
      FoldAgainstSnapshot(p, store, entries, now, confirm);
      forall j | 0 <= j < |store| ensures f.rows[j] == rows[j] {
        if store[j].fileId !in Ids(entries) {
          assert FindEntry(entries, store[j].fileId).None?;
        }
      }
    }
    assert f.rows == rows by {
      forall j | 0 <= j < |rows| ensures f.rows[j] == rows[j] {
        if j >= |store| {
          assert f.rows[j] == f.rows[|store|..][j - |store|];
          assert rows[j] == rows[|store|..][j - |store|];
        }
      }
    }
  }

  /** The whole scan over a listing with distinct ids, stated against the
      snapshot: unless a statement of the flush collides on `path`, the
      changes are the entry-by-entry classification followed by the
      deletions, and the store is the expected rows minus the deleted and
      expired ones. */
  lemma {:induction false} ScanAgainstSnapshot(store: Store, directory: string, entries: seq<RemoteEntry>, now: int, confirm: bool)
    requires DistinctIds(entries)
    ensures var rows := ExpectedRows(store, entries, now, confirm);
      var ids := Ids(entries);
      ScanWith(store, directory, Ok(entries), now, confirm) ==
        if FlushUnique(store, rows) then
          Outcome(Ok(Diff(store, entries) + DeletedChanges(rows, directory, ids)),
                  Sweep(Remaining(rows, directory, ids), now))
        else Outcome(Err(UniquenessViolation), Sweep(store, now))
  {
    FoldIsExpected(store, entries, now, confirm);
  }

  /** A listed id with no stored record is reported added exactly once. */
  lemma {:induction false} DiffAddsUnmatched(store: Store, entries: seq<RemoteEntry>, k: nat)
    requires DistinctIds(entries) && k < |entries|
    requires entries[k].modifiedTime.Some?
    requires forall j :: 0 <= j < |store| ==> store[j].fileId != entries[k].id
    ensures multiset(Diff(store, entries))[Added(entries[k])] == 1
    decreases k
  {
    DistinctTail(entries);
    var e := entries[0];
    if k == 0 {
      assert FirstMatch(store, |store|, e.id).None?;
      assert Diff(store, entries) == [Added(e)] + Diff(store, entries[1..]);
      DiffMentionsOnlyListed(store, entries[1..], Added(e));
    } else {
      assert entries[1..][k - 1] == entries[k];
      DiffAddsUnmatched(store, entries[1..], k - 1);
      assert Diff(store, entries) == Classify(store, e) + Diff(store, entries[1..]);
      assert e != entries[k] by { assert e.id != entries[k].id; }
    }
  }

  lemma {:induction false} DiffMentionsOnlyListed(store: Store, entries: seq<RemoteEntry>, c: Change)
    requires c.Added? || c.Modified?
    requires c.entry.id !in Ids(entries)
    ensures c !in Diff(store, entries)
    decreases |entries|
  {
    if |entries| > 0 {
      DiffMentionsOnlyListed(store, entries[1..], c);
    }
  }

  /** A matched record is reported modified, and rewritten, exactly when the
      listed time is strictly later; otherwise the scan as written leaves it
      untouched. */
  lemma {:induction false} MatchedRowOutcome(store: Store, entries: seq<RemoteEntry>, k: nat, i: nat, now: int)
    requires DistinctIds(entries) && k < |entries| && UniqueIds(store)
    requires i < |store| && store[i].fileId == entries[k].id && entries[k].modifiedTime.Some?
    ensures var t := entries[k].modifiedTime.value;
      && (Modified(entries[k]) in Diff(store, entries) <==> store[i].modifiedTime < t)
      && ExpectedRow(store, i, entries, now, false) ==
           (if store[i].modifiedTime < t then UpdateRecord(store[i], entries[k], t, now) else store[i])
      && Added(entries[k]) !in Diff(store, entries)
  {
    FirstMatchOfUnique(store, i);
    FindEntryOfDistinct(entries, k);
    DiffEntryPosition(store, entries, k);
  }

  /** The change `Diff` emits for the entry at position `k`, and no other
      change about that entry. */
  lemma {:induction false} DiffEntryPosition(store: Store, entries: seq<RemoteEntry>, k: nat)
    requires DistinctIds(entries) && k < |entries|
    ensures forall c :: (c == Added(entries[k]) || c == Modified(entries[k])) ==>
              (c in Diff(store, entries) <==> c in Classify(store, entries[k]))
    decreases k
  {
    DistinctTail(entries);
    var e := entries[0];
    if k == 0 {
      DiffMentionsOnlyListed(store, entries[1..], Added(e));
      DiffMentionsOnlyListed(store, entries[1..], Modified(e));
    } else {
      assert entries[1..][k - 1] == entries[k];
      DiffEntryPosition(store, entries[1..], k - 1);
      assert e.id != entries[k].id;
    }
  }

  /** The snapshot agrees with the listing: one record per id, each listed
      time already recorded, and nothing under the directory unlisted. */
  predicate Quiet(store: Store, directory: string, entries: seq<RemoteEntry>) {
    && UniquePaths(store) && UniqueIds(store)
    && CoversDated(store, entries)
    && (forall k :: 0 <= k < |store| ==> !Gone(store[k], directory, Ids(entries)))
  }

  /** Every listed entry that carries a time has a row at least as new. */
  predicate CoversDated(store: Store, entries: seq<RemoteEntry>) {
    forall e :: e in entries && e.modifiedTime.Some? ==>
      exists i :: 0 <= i < |store| && store[i].fileId == e.id && store[i].modifiedTime >= e.modifiedTime.value
  }

  /** Over a quiet snapshot every expected row keeps its path, id and
      time, and no record is added. */
  lemma {:induction false} QuietRows(store: Store, directory: string, entries: seq<RemoteEntry>, now: int, confirm: bool)
    requires Quiet(store, directory, entries) && DistinctIds(entries)
    ensures Diff(store, entries) == [] && NewRows(store, entries, now) == []
    ensures forall j :: 0 <= j < |store| ==>
      var r := ExpectedRow(store, j, entries, now, confirm);
      r.path == store[j].path && r.fileId == store[j].fileId && r.modifiedTime == store[j].modifiedTime
  {
    QuietDiff(store, directory, entries, now);
    forall j | 0 <= j < |store|
      ensures var r := ExpectedRow(store, j, entries, now, confirm);
        r.path == store[j].path && r.fileId == store[j].fileId && r.modifiedTime == store[j].modifiedTime
    {
      FirstMatchOfUnique(store, j);
      var found := FindEntry(entries, store[j].fileId);
      if found.Some? && found.value.modifiedTime.Some? {
        var e := found.value;
        var i :| 0 <= i < |store| && store[i].fileId == e.id && store[i].modifiedTime >= e.modifiedTime.value;
        InjectiveUniquePosition(store, IdOf, i, j);
      }
    }
  }

  /** In a quiet snapshot the corrected scan stamps the record of every
      listed entry that carries a time. */
  lemma {:induction false} QuietConfirmedRow(store: Store, directory: string, entries: seq<RemoteEntry>, now: int, k: nat, i: nat)
    requires Quiet(store, directory, entries) && DistinctIds(entries)
    requires k < |entries| && entries[k].modifiedTime.Some?
    requires i < |store| && store[i].fileId == entries[k].id && store[i].modifiedTime >= entries[k].modifiedTime.value
    ensures var r := ExpectedRow(store, i, entries, now, true);
      r.lastChecked == now && r.fileId == entries[k].id && r.modifiedTime >= entries[k].modifiedTime.value
  {
    FirstMatchOfUnique(store, i);
    FindEntryOfDistinct(entries, k);
  }

  lemma {:induction false} QuietDiff(store: Store, directory: string, entries: seq<RemoteEntry>, now: int)
    requires UniqueIds(store)
    requires forall e :: e in entries && e.modifiedTime.Some? ==>
          exists i :: 0 <= i < |store| && store[i].fileId == e.id && store[i].modifiedTime >= e.modifiedTime.value
    ensures Diff(store, entries) == [] && NewRows(store, entries, now) == []
    decreases |entries|
  {
    if |entries| > 0 {
      var e := entries[0];
      if e.modifiedTime.Some? {
        var i :| 0 <= i < |store| && store[i].fileId == e.id && store[i].modifiedTime >= e.modifiedTime.value;
        FirstMatchOfUnique(store, i);
      }
      QuietDiff(store, directory, entries[1..], now);
    }
  }

  lemma {:induction false} ExpectedRowsKeepKeys(store: Store, rows: Store)
    requires |rows| == |store|
    requires forall j :: 0 <= j < |store| ==> rows[j].path == store[j].path && rows[j].fileId == store[j].fileId
    requires UniquePaths(store) && UniqueIds(store)
    ensures UniquePaths(rows) && UniqueIds(rows)
  {
    forall i, j | 0 <= i < j < |rows| ensures PathOf(rows[i]) != PathOf(rows[j]) && IdOf(rows[i]) != IdOf(rows[j]) {
      assert PathOf(store[i]) != PathOf(store[j]);
      assert IdOf(store[i]) != IdOf(store[j]);
    }
  }

  /** Scanning a quiet snapshot reports nothing, whichever variant runs. */
  lemma {:induction false} QuietScanIsSilent(store: Store, directory: string, entries: seq<RemoteEntry>, now: int, confirm: bool)
    requires Quiet(store, directory, entries) && DistinctIds(entries)
    ensures ScanWith(store, directory, Ok(entries), now, confirm).changes == Ok([])
  {
    QuietRows(store, directory, entries, now, confirm);
    ScanAgainstSnapshot(store, directory, entries, now, confirm);
    var rows := ExpectedRows(store, entries, now, confirm);
    ExpectedRowsKeepKeys(store, rows);
    SamePathsFlushUnique(store, rows);
    NothingGone(store, rows, directory, Ids(entries));
  }

  lemma {:induction false} NothingGone(store: Store, rows: Store, directory: string, ids: set<string>)
    requires |rows| == |store|
    requires forall j :: 0 <= j < |store| ==> rows[j].path == store[j].path && rows[j].fileId == store[j].fileId
    requires forall k :: 0 <= k < |store| ==> !Gone(store[k], directory, ids)
    ensures DeletedChanges(rows, directory, ids) == []
  {
    forall k | 0 <= k < |rows| ensures !Gone(rows[k], directory, ids) {
      assert !Gone(store[k], directory, ids);
    }
  }

  /** The corrected scan keeps a quiet snapshot quiet, at any later time. */
  lemma {:induction false} ConfirmingStaysQuiet(store: Store, directory: string, entries: seq<RemoteEntry>, now: int)
    requires Quiet(store, directory, entries) && DistinctIds(entries)
    ensures Quiet(ScanConfirming(store, directory, Ok(entries), now).store, directory, entries)
  {
    var rows := ExpectedRows(store, entries, now, true);
    var ids := Ids(entries);
    assert FlushUnique(store, rows) by {
      QuietRows(store, directory, entries, now, true);
      ExpectedRowsKeepKeys(store, rows);
      SamePathsFlushUnique(store, rows);
    }
    ScanAgainstSnapshot(store, directory, entries, now, true);
    QuietSurvivesConfirming(store, directory, entries, now);
  }

  lemma {:induction false} QuietSurvivesConfirming(store: Store, directory: string, entries: seq<RemoteEntry>, now: int)
    requires Quiet(store, directory, entries) && DistinctIds(entries)
    ensures var ids := Ids(entries);
      Quiet(Sweep(Remaining(ExpectedRows(store, entries, now, true), directory, ids), now), directory, entries)
  {
    var rows := ExpectedRows(store, entries, now, true);
    var ids := Ids(entries);
    var kept := Remaining(rows, directory, ids);
    var result := Sweep(kept, now);
    assert UniquePaths(rows) && UniqueIds(rows) && |rows| == |store| by {
      QuietRows(store, directory, entries, now, true);
      ExpectedRowsKeepKeys(store, rows);
    }
    assert UniquePaths(result) && UniqueIds(result) by {
      FilterInjective(rows, (x: FileRecord) => !Gone(x, directory, ids), PathOf);
      FilterInjective(rows, (x: FileRecord) => !Gone(x, directory, ids), IdOf);
      FilterInjective(kept, (x: FileRecord) => x.lastChecked >= now - RetentionSeconds, PathOf);
      FilterInjective(kept, (x: FileRecord) => x.lastChecked >= now - RetentionSeconds, IdOf);
    }
    ConfirmedEntriesSurvive(store, directory, entries, now);
    assert forall k :: 0 <= k < |result| ==> !Gone(result[k], directory, ids) by {
      forall k | 0 <= k < |result| ensures !Gone(result[k], directory, ids) {
        assert result[k] in kept;
      }
    }
    assert Quiet(result, directory, entries);
  }

  /** After a confirming scan of a quiet snapshot, every dated entry still
      has a row at least as new as itself once the sweep has run. */
  lemma {:induction false} ConfirmedEntriesSurvive(store: Store, directory: string, entries: seq<RemoteEntry>, now: int)
    requires Quiet(store, directory, entries) && DistinctIds(entries)
    ensures CoversDated(Sweep(Remaining(ExpectedRows(store, entries, now, true), directory, Ids(entries)), now), entries)
  {
    var rows := ExpectedRows(store, entries, now, true);
    var kept := Remaining(rows, directory, Ids(entries));
    var result := Sweep(kept, now);
    forall e | e in entries && e.modifiedTime.Some?
      ensures exists i :: 0 <= i < |result| && result[i].fileId == e.id && result[i].modifiedTime >= e.modifiedTime.value
    {
      var k :| 0 <= k < |entries| && entries[k] == e;
      var i :| 0 <= i < |store| && store[i].fileId == e.id && store[i].modifiedTime >= e.modifiedTime.value;
      QuietConfirmedRow(store, directory, entries, now, k, i);
      var r := rows[i];
      assert r == ExpectedRow(store, i, entries, now, true);
      assert e.id in Ids(entries);
      assert r in kept;
      assert r in result;
      var j :| 0 <= j < |result| && result[j] == r;
      assert result[j].fileId == e.id && result[j].modifiedTime >= e.modifiedTime.value;
    }
  }

  predicate AllCreatable(entries: seq<RemoteEntry>) {
    forall e :: e in entries ==> e.modifiedTime.Some? && Creatable(e)
  }

  /** A successful corrected scan leaves the snapshot quiet for the listing
      it has just seen. */
  lemma {:induction false} FirstScanQuiet(store: Store, directory: string, entries: seq<RemoteEntry>, now: int)
    requires UniqueIds(store) && DistinctIds(entries) && AllCreatable(entries)
    requires ScanConfirming(store, directory, Ok(entries), now).changes.Ok?
    ensures Quiet(ScanConfirming(store, directory, Ok(entries), now).store, directory, entries)
  {
    ScanAgainstSnapshot(store, directory, entries, now, true);
    var rows := ExpectedRows(store, entries, now, true);
    assert UniquePaths(rows);
    RowsUniqueIds(store, entries, now);
    forall e | e in entries && e.modifiedTime.Some?
      ensures exists x :: x in rows && x.fileId == e.id && x.modifiedTime >= e.modifiedTime.value && x.lastChecked == now
    {
      var r := ListedRow(store, entries, e, now);
    }
    SweptQuiet(rows, directory, entries, now, ScanConfirming(store, directory, Ok(entries), now).store);
  }

  /** Rows with distinct paths and ids that hold a fresh row for every dated
      entry leave a quiet store once the unlisted ones are dropped and the
      old ones swept. */
  lemma {:induction false} SweptQuiet(rows: Store, directory: string, entries: seq<RemoteEntry>, now: int, result: Store)
    requires UniquePaths(rows) && UniqueIds(rows)
    requires forall e :: e in entries && e.modifiedTime.Some? ==>
      exists x :: x in rows && x.fileId == e.id && x.modifiedTime >= e.modifiedTime.value && x.lastChecked == now
    requires result == Sweep(Remaining(rows, directory, Ids(entries)), now)
    ensures Quiet(result, directory, entries)
  {
    var ids := Ids(entries);
    var kept := Remaining(rows, directory, ids);
    FilterInjective(rows, (x: FileRecord) => !Gone(x, directory, ids), PathOf);
    FilterInjective(rows, (x: FileRecord) => !Gone(x, directory, ids), IdOf);
    FilterInjective(kept, (x: FileRecord) => x.lastChecked >= now - RetentionSeconds, PathOf);
    FilterInjective(kept, (x: FileRecord) => x.lastChecked >= now - RetentionSeconds, IdOf);
    forall e | e in entries && e.modifiedTime.Some?
      ensures exists i :: 0 <= i < |result| && result[i].fileId == e.id && result[i].modifiedTime >= e.modifiedTime.value
    {
      var r :| r in rows && r.fileId == e.id && r.modifiedTime >= e.modifiedTime.value && r.lastChecked == now;
      assert r in kept;
      assert r in result;
    }
    forall k | 0 <= k < |result| ensures !Gone(result[k], directory, ids) {
      assert result[k] in kept;
    }
  }

  /** After a corrected scan every creatable listed entry has a row carrying
      its id and time, stamped with the scan time. */
  lemma {:induction false} ListedRow(store: Store, entries: seq<RemoteEntry>, e: RemoteEntry, now: int) returns (r: FileRecord)
    requires UniqueIds(store) && DistinctIds(entries) && AllCreatable(entries) && e in entries
    ensures r in ExpectedRows(store, entries, now, true)
    ensures r.fileId == e.id && r.modifiedTime >= e.modifiedTime.value && r.lastChecked == now
  {
    var rows := ExpectedRows(store, entries, now, true);
    var k :| 0 <= k < |entries| && entries[k] == e;
    FindEntryOfDistinct(entries, k);
    match FirstMatch(store, |store|, e.id)
    case Some(i) =>
      r := rows[i];
      ExistingRowStamped(store, entries, k, i, now);
    case None =>
      r := NewRecord(e, e.modifiedTime.value, now).value;
      NewRowListed(store, entries, k, now);
      assert rows[|store|..] == NewRows(store, entries, now);
  }

  lemma {:induction false} ExistingRowStamped(store: Store, entries: seq<RemoteEntry>, k: nat, i: nat, now: int)
    requires k < |entries| && AllCreatable(entries) && i < |store|
    requires FirstMatch(store, |store|, entries[k].id) == Some(i)
    requires FindEntry(entries, entries[k].id) == Some(entries[k])
    ensures var r := ExpectedRow(store, i, entries, now, true);
      r.fileId == entries[k].id && r.modifiedTime >= entries[k].modifiedTime.value && r.lastChecked == now
  {
    assert entries[k] in entries;
  }

  lemma {:induction false} NewRowListed(store: Store, entries: seq<RemoteEntry>, k: nat, now: int)
    requires k < |entries| && AllCreatable(entries)
    requires FirstMatch(store, |store|, entries[k].id).None?
    ensures NewRecord(entries[k], entries[k].modifiedTime.value, now).value in NewRows(store, entries, now)
    decreases k
  {
    assert entries[0] in entries;
    if k > 0 {
      assert entries[1..][k - 1] == entries[k];
      assert AllCreatable(entries[1..]) by {
        forall e | e in entries[1..] ensures e.modifiedTime.Some? && Creatable(e) {
          assert e in entries;
        }
      }
      NewRowListed(store, entries[1..], k - 1, now);
    }
  }

  /** New rows carry distinct listed ids that no stored row has. */
  lemma {:induction false} NewRowsIds(store: Store, entries: seq<RemoteEntry>, now: int)
    requires DistinctIds(entries)
    ensures forall r :: r in NewRows(store, entries, now) ==>
      r.fileId in Ids(entries) && forall j :: 0 <= j < |store| ==> store[j].fileId != r.fileId
    ensures Injective(NewRows(store, entries, now), IdOf)
    decreases |entries|
  {
    if |entries| > 0 {
      DistinctTail(entries);
      NewRowsIds(store, entries[1..], now);
      var head := NewRowOf(store, entries[0], now);
      var tail := NewRows(store, entries[1..], now);
      var all := head + tail;
      assert all == NewRows(store, entries, now);
      forall i, j | 0 <= i < j < |all| ensures IdOf(all[i]) != IdOf(all[j]) {
        if i < |head| {
          assert all[j] == tail[j - |head|];
          assert all[j] in tail;
        } else {
          assert all[i] == tail[i - |head|] && all[j] == tail[j - |head|];
        }
      }
    }
  }

  /** A confirming scan never changes the id of an existing row. */
  lemma {:induction false} ExpectedRowKeepsId(store: Store, j: nat, entries: seq<RemoteEntry>, now: int)
    requires j < |store|
    ensures ExpectedRow(store, j, entries, now, true).fileId == store[j].fileId
  {
    var found := FindEntry(entries, store[j].fileId);
    if found.Some? {
      var e := found.value;
      if FirstMatch(store, |store|, e.id) == Some(j) && e.modifiedTime.Some? {
        var t := e.modifiedTime.value;
        if store[j].modifiedTime < t {
          assert UpdateRecord(store[j], e, t, now).fileId == store[j].fileId;
        }
      }
    }
  }

  lemma {:induction false} RowsUniqueIds(store: Store, entries: seq<RemoteEntry>, now: int)
    requires UniqueIds(store) && DistinctIds(entries)
    ensures UniqueIds(ExpectedRows(store, entries, now, true))
  {
    var rows := ExpectedRows(store, entries, now, true);
    var added := NewRows(store, entries, now);
    NewRowsIds(store, entries, now);
    forall j | 0 <= j < |store| ensures rows[j].fileId == store[j].fileId {
      ExpectedRowKeepsId(store, j, entries, now);
    }
    forall i, j | 0 <= i < j < |rows| ensures IdOf(rows[i]) != IdOf(rows[j]) {
      if j < |store| {
        assert IdOf(store[i]) != IdOf(store[j]);
      } else if i < |store| {
        assert rows[j] == added[j - |store|];
        assert rows[j] in added;
      } else {
        assert rows[i] == added[i - |store|] && rows[j] == added[j - |store|];
      }
    }
  }

  /** The corrected scan is idempotent: once it has seen a listing, every
      later scan of the same listing, at any time, reports nothing. */
  lemma {:induction false} ScanConfirmingIdempotent(store: Store, directory: string, entries: seq<RemoteEntry>,
                                 now: int, later: seq<int>)
    requires UniqueIds(store) && DistinctIds(entries) && AllCreatable(entries)
    requires ScanConfirming(store, directory, Ok(entries), now).changes.Ok?
    ensures forall n :: 1 <= n <= |later| ==>
      RepeatConfirming(ScanConfirming(store, directory, Ok(entries), now).store, directory, entries, later[..n]).changes
        == Ok([])
  {
    var s1 := ScanConfirming(store, directory, Ok(entries), now).store;
    FirstScanQuiet(store, directory, entries, now);
    forall n | 1 <= n <= |later|
      ensures RepeatConfirming(s1, directory, entries, later[..n]).changes == Ok([])
    {
      RepeatStaysQuiet(s1, directory, entries, later[..n]);
    }
  }

  /** Corrected scans of one listing at the given times, in order; the
      outcome of the last one. */
  function RepeatConfirming(store: Store, directory: string, entries: seq<RemoteEntry>, times: seq<int>): Outcome
    requires |times| > 0
    decreases |times|
  {
    var first := ScanConfirming(store, directory, Ok(entries), times[0]);
    if |times| == 1 then first else RepeatConfirming(first.store, directory, entries, times[1..])
  }

  lemma {:induction false} RepeatStaysQuiet(store: Store, directory: string, entries: seq<RemoteEntry>, times: seq<int>)
    requires Quiet(store, directory, entries) && DistinctIds(entries) && |times| > 0
    ensures RepeatConfirming(store, directory, entries, times).changes == Ok([])
    decreases |times|
  {
    QuietScanIsSilent(store, directory, entries, times[0], true);
    if |times| > 1 {
      ConfirmingStaysQuiet(store, directory, entries, times[0]);
      RepeatStaysQuiet(ScanConfirming(store, directory, Ok(entries), times[0]).store, directory, entries, times[1..]);
    }
  }

  /** A scan of the example listing over an empty store: the file is new
      and recorded. */
  lemma {:induction false} ExampleFirstScan(confirm: bool, now: int)
    ensures var e := ExampleEntry();
      ScanWith([], "root", Ok([e]), now, confirm) == Outcome(Ok([Added(e)]), [ExampleRecord(now)])
  {
    var e := ExampleEntry();
    var rec := ExampleRecord(now);
    assert [rec] == ExpectedRows([], [e], now, confirm) && Diff([], [e]) == [Added(e)] by {
      assert NewRecord(e, 5, now) == Ok(rec) by {
        assert ReplaceChar("a.mp4", '\\', '/') == "a.mp4";
      }
      assert NewRows([], [e], now) == [rec];
    }
    assert DeletedChanges([rec], "root", {"a"}) == [] && Remaining([rec], "root", {"a"}) == [rec] by {
      assert !StartsWith("a.mp4", "root/") by {
        assert "a.mp4"[..5][0] != "root/"[0];
      }
    }
    assert Sweep([rec], now) == [rec];
    SamePathsFlushUnique([], [rec]);
    assert Ids([e]) == {"a"};
    assert DistinctIds([e]);
    ScanAgainstSnapshot([], "root", [e], now, confirm);
  }

  /** Two stored records trading their paths in one listing: the rows the
      loop leaves have distinct paths, but the first UPDATE of the flush puts
      both on `x/2`, so the scan is rolled back. */
  lemma ScanSwapRejected(now: int, confirm: bool)
    ensures var store := [SwapRecord("x/1", "a"), SwapRecord("x/2", "b")];
      var entries := [SwapEntry("a", "x/2"), SwapEntry("b", "x/1")];
      && UniquePaths(Fold(Pass(store, []), |store|, entries, now, confirm).rows)
      && ScanWith(store, "x", Ok(entries), now, confirm) == Outcome(Err(UniquenessViolation), Sweep(store, now))
  {
    var store := [SwapRecord("x/1", "a"), SwapRecord("x/2", "b")];
    var moved := SwapFold(now, confirm);
    assert UniquePaths(moved) by {
      forall i, j | 0 <= i < j < |moved| ensures PathOf(moved[i]) != PathOf(moved[j]) {
        assert i == 0 && j == 1;
      }
    }
    assert !FlushUnique(store, moved) by {
      var mid := moved[..1] + store[1..];
      assert PathOf(mid[0]) == PathOf(mid[1]);
      assert !UniquePaths(mid);
    }
  }

  /** The loop over the swapping listing moves each record to the other's
      path. */
  lemma SwapFold(now: int, confirm: bool) returns (moved: Store)
    ensures var store := [SwapRecord("x/1", "a"), SwapRecord("x/2", "b")];
      var entries := [SwapEntry("a", "x/2"), SwapEntry("b", "x/1")];
      Fold(Pass(store, []), |store|, entries, now, confirm).rows == moved
    ensures moved == [SwapRecord("x/1", "a").(path := "x/2", modifiedTime := 1, lastChecked := now),
                      SwapRecord("x/2", "b").(path := "x/1", modifiedTime := 1, lastChecked := now)]
  {
    var store := [SwapRecord("x/1", "a"), SwapRecord("x/2", "b")];
    var entries := [SwapEntry("a", "x/2"), SwapEntry("b", "x/1")];
    assert ValidatePath("x/1") == Ok("x/1") && ValidatePath("x/2") == Ok("x/2") by {
      assert ReplaceChar("x/1", '\\', '/') == "x/1";
      assert ReplaceChar("x/2", '\\', '/') == "x/2";
    }
    moved := [SwapRecord("x/1", "a").(path := "x/2", modifiedTime := 1, lastChecked := now),
              SwapRecord("x/2", "b").(path := "x/1", modifiedTime := 1, lastChecked := now)];
    var p1 := Step(Pass(store, []), 2, entries[0], now, confirm);
    assert FirstMatch(store, 2, "a") == Some(0);
    assert p1.rows == [moved[0], store[1]];
    assert FirstMatch(p1.rows, 2, "b") == Some(1);
    var p2 := Step(p1, 2, entries[1], now, confirm);
    assert p2.rows == moved;
    assert Fold(Pass(store, []), 2, entries, now, confirm) == p2 by {
      assert entries[1..][1..] == [];
    }
  }

  function SwapRecord(path: string, id: string): FileRecord {
    FileRecord(path, id, 0, 0, false, 0, "video/mp4")
  }

  function SwapEntry(id: string, name: string): RemoteEntry {
    RemoteEntry(id, Some(name), Some("video/mp4"), Some(1), NoSize)
  }

  function ExampleEntry(): RemoteEntry {
    RemoteEntry("a", Some("a.mp4"), Some("video/mp4"), Some(5), NoSize)
  }

  function ExampleRecord(checked: int): FileRecord {
    FileRecord("a.mp4", "a", 5, 0, false, checked, "video/mp4")
  }

  /** The scan as written is not idempotent: a file listed unchanged for 30
      days is swept although every scan confirmed it, and the next scan of
      the very same listing reports it added again. */
  lemma ScanForgetsConfirmedRecords()
    ensures var e := ExampleEntry();
      var first := Scan([], "root", Ok([e]), 0);
      var second := Scan(first.store, "root", Ok([e]), RetentionSeconds + 1);
      var third := Scan(second.store, "root", Ok([e]), RetentionSeconds + 1);
      && first.changes == Ok([Added(e)])
      && second.changes == Ok([])
      && third.changes == Ok([Added(e)])
  {
    ExampleFirstScan(false, 0);
    SecondScanSweeps();
    ExampleFirstScan(false, RetentionSeconds + 1);
  }

  /** The second scan confirms the record but, stamped at the first scan,
      it is swept. */
  lemma SecondScanSweeps()
    ensures Scan([ExampleRecord(0)], "root", Ok([ExampleEntry()]), RetentionSeconds + 1) == Outcome(Ok([]), [])
  {
    var e := ExampleEntry();
    var later := RetentionSeconds + 1;
    var rec := ExampleRecord(0);
    assert DistinctIds([e]);
    ScanAgainstSnapshot([rec], "root", [e], later, false);
    ExampleRecordConfirmed(later);
    SamePathsFlushUnique([rec], [rec]);
    ExampleRecordKept();
    assert Sweep([rec], later) == [];
  }

  /** Over the example record, the scan as written confirms the example
      entry without touching the record. */
  lemma ExampleRecordConfirmed(now: int)
    ensures Diff([ExampleRecord(0)], [ExampleEntry()]) == []
    ensures ExpectedRows([ExampleRecord(0)], [ExampleEntry()], now, false) == [ExampleRecord(0)]
  {
    var e := ExampleEntry();
    var rec := ExampleRecord(0);
    assert FirstMatch([rec], 1, "a") == Some(0);
    assert NewRows([rec], [e], now) == [];
  }

  /** The example record is not under `root/`, so it is never deleted. */
  lemma ExampleRecordKept()
    ensures Ids([ExampleEntry()]) == {"a"}
    ensures DeletedChanges([ExampleRecord(0)], "root", {"a"}) == []
    ensures Remaining([ExampleRecord(0)], "root", {"a"}) == [ExampleRecord(0)]
  {
    var rec := ExampleRecord(0);
    assert !StartsWith("a.mp4", "root/") by {
      assert "a.mp4"[..5][0] != "root/"[0];
    }
    assert !Gone(rec, "root", {"a"});
  }



  /** The corrected scan keeps the confirmed record through the same
      history. */
  lemma ScanConfirmingKeepsConfirmedRecords()
    ensures var e := ExampleEntry();
      var first := ScanConfirming([], "root", Ok([e]), 0);
      var second := ScanConfirming(first.store, "root", Ok([e]), RetentionSeconds + 1);
      var third := ScanConfirming(second.store, "root", Ok([e]), RetentionSeconds + 1);
      second.changes == Ok([]) && third.changes == Ok([])
  {
    var e := ExampleEntry();
    var first := ScanConfirming([], "root", Ok([e]), 0);
    assert first.changes.Ok? by {
      ExampleFirstScan(true, 0);
    }
    assert DistinctIds([e]) && AllCreatable([e]);
    FirstScanQuiet([], "root", [e], 0);
    QuietScanIsSilent(first.store, "root", [e], RetentionSeconds + 1, true);
    ConfirmingStaysQuiet(first.store, "root", [e], RetentionSeconds + 1);
    var second := ScanConfirming(first.store, "root", Ok([e]), RetentionSeconds + 1);
    QuietScanIsSilent(second.store, "root", [e], RetentionSeconds + 1, true);
  }
}

=== FILE: seqs.dfy ===
/** Order-preserving sequence utilities shared by the stores of the model. */
module Seqs {

  /** The elements of `s` that `keep` accepts, in their original order. */
  function Filter<T(!new)>(s: seq<T>, keep: T -> bool): (r: seq<T>)
    ensures |r| <= |s|
    ensures forall x :: x in r <==> x in s && keep(x)
    decreases |s|
  {
    if |s| == 0 then []
    else if keep(s[0]) then [s[0]] + Filter(s[1..], keep)
    else Filter(s[1..], keep)
  }

  /** No two positions of `s` share a key. */
  predicate Injective<T, K(==)>(s: seq<T>, key: T -> K) {
    forall i, j :: 0 <= i < j < |s| ==> key(s[i]) != key(s[j])
  }

  /** Dropping elements cannot create a key collision. */
  lemma {:induction false} FilterInjective<T(!new), K>(s: seq<T>, keep: T -> bool, key: T -> K)
    requires Injective(s, key)
    ensures Injective(Filter(s, keep), key)
    decreases |s|
  {
    if |s| > 0 {
      assert Injective(s[1..], key) by {
        forall i, j | 0 <= i < j < |s[1..]| ensures key(s[1..][i]) != key(s[1..][j]) {
          assert s[1..][i] == s[i + 1] && s[1..][j] == s[j + 1];
        }
      }
      FilterInjective(s[1..], keep, key);
      if keep(s[0]) {
        var tail := Filter(s[1..], keep);
        forall j | 0 <= j < |tail| ensures key(s[0]) != key(tail[j]) {
          assert tail[j] in s[1..];
          var k :| 0 <= k < |s[1..]| && s[1..][k] == tail[j];
          assert s[k + 1] == tail[j];
        }
        var r := [s[0]] + tail;
        forall i, j | 0 <= i < j < |r| ensures key(r[i]) != key(r[j]) {
          if i == 0 {
            assert r[j] == tail[j - 1];
          } else {
            assert r[i] == tail[i - 1] && r[j] == tail[j - 1];
          }
        }
      }
    }
  }

  /** Keys of an injective sequence pin down a unique position. */
  lemma {:induction false} InjectiveUniquePosition<T, K>(s: seq<T>, key: T -> K, i: int, j: int)
    requires Injective(s, key)
    requires 0 <= i < |s| && 0 <= j < |s| && key(s[i]) == key(s[j])
    ensures i == j
  {
  }

  /** A filter keeps every copy of an accepted element and none of a
      rejected one. */
  lemma {:induction false} FilterMultiset<T(!new)>(s: seq<T>, keep: T -> bool)
    ensures forall x :: multiset(Filter(s, keep))[x] == if keep(x) then multiset(s)[x] else 0
    decreases |s|
  {
    if |s| > 0 {
      FilterMultiset(s[1..], keep);
      assert s == [s[0]] + s[1..];
    }
  }

  lemma {:induction false} FilterConcat<T(!new)>(a: seq<T>, b: seq<T>, keep: T -> bool)
    ensures Filter(a + b, keep) == Filter(a, keep) + Filter(b, keep)
    decreases |a|
  {
    if |a| > 0 {
      assert (a + b)[1..] == a[1..] + b;
      FilterConcat(a[1..], b, keep);
    } else {
      assert a + b == b;
    }
  }

  /** Two tests that agree on every element filter alike. */
  lemma {:induction false} FilterExt<T(!new)>(s: seq<T>, p: T -> bool, q: T -> bool)
    requires forall x :: x in s ==> p(x) == q(x)
    ensures Filter(s, p) == Filter(s, q)
    decreases |s|
  {
    if |s| > 0 {
      FilterExt(s[1..], p, q);
    }
  }

  /** Filtering twice is filtering once by both tests. */
  lemma {:induction false} FilterCompose<T(!new)>(s: seq<T>, p: T -> bool, q: T -> bool, both: T -> bool)
    requires forall x :: both(x) == (p(x) && q(x))
    ensures Filter(Filter(s, p), q) == Filter(s, both)
    decreases |s|
  {
    if |s| > 0 {
      FilterCompose(s[1..], p, q, both);
    }
  }

  /** A test that accepts everything keeps the sequence whole. */
  lemma {:induction false} FilterAll<T(!new)>(s: seq<T>, keep: T -> bool)
    requires forall x :: x in s ==> keep(x)
    ensures Filter(s, keep) == s
    decreases |s|
  {
    if |s| > 0 {
      FilterAll(s[1..], keep);
    }
  }

  /** Only a test that accepts every element keeps the whole length. */
  lemma {:induction false} FilterFull<T(!new)>(s: seq<T>, keep: T -> bool)
    requires |Filter(s, keep)| == |s|
    ensures forall x :: x in s ==> keep(x)
    decreases |s|
  {
    if |s| > 0 {
      assert keep(s[0]);
      FilterFull(s[1..], keep);
      assert forall x :: x in s ==> x == s[0] || x in s[1..];
    }
  }

  /** A test and its complement split the length. */
  lemma {:induction false} FilterComplement<T(!new)>(s: seq<T>, p: T -> bool, q: T -> bool)
    requires forall x :: q(x) == !p(x)
    ensures |Filter(s, p)| + |Filter(s, q)| == |s|
    decreases |s|
  {
    if |s| > 0 {
      FilterComplement(s[1..], p, q);
    }
  }

  /** A duplicate-free sequence drawn from `u` is no longer than `u` is
      large. */
  lemma {:induction false} DistinctWithin<T>(s: seq<T>, u: set<T>)
    requires forall i, j :: 0 <= i < j < |s| ==> s[i] != s[j]
    requires forall i :: 0 <= i < |s| ==> s[i] in u
    ensures |s| <= |u|
    decreases |s|
  {
    if |s| > 0 {
      var rest := s[1..];
      forall i | 0 <= i < |rest|
        ensures rest[i] in u - {s[0]}
      {
        assert rest[i] == s[i + 1];
      }
      forall i, j | 0 <= i < j < |rest|
        ensures rest[i] != rest[j]
      {
        assert rest[i] == s[i + 1] && rest[j] == s[j + 1];
      }
      DistinctWithin(rest, u - {s[0]});
    }
  }
}

=== FILE: session.dfy ===
/** The database session manager of `app/core/session.py`: counts of open,
    opened and failed sessions and a bounded history of session durations.
    The database session itself, its commit and rollback, are collaborators:
    what happens inside the `async with` block is given as the session's
    outcome, and the elapsed time as a number the clock supplies. */
module Sessions {
  import opened Wrappers

  /** Only the most recent durations are kept. */
  const MaxDurations := 1000

  /** What ends a session abnormally: a database error or any other
      exception, raised by the caller's block or by the commit. */
  datatype SessionFailure = DatabaseError(message: string) | OtherError(message: string)

  /** `SessionManager`; `durations` is `_session_times`, oldest first. */
  datatype SessionManager = SessionManager(active: int, total: nat, failed: nat, durations: seq<nat>)

  function NewSessionManager(): (r: SessionManager)
    ensures r.active == 0 && r.total == 0 && r.failed == 0 && r.durations == []
  {
    SessionManager(0, 0, 0, [])
  }

  /** The last `MaxDurations` elements, as `times[-1000:]` keeps them once the
      list has grown past the bound. */
  function KeepRecent(times: seq<nat>): (r: seq<nat>)
    ensures |r| <= MaxDurations && |r| <= |times|
    ensures |times| <= MaxDurations ==> r == times
    ensures |times| > MaxDurations ==> |r| == MaxDurations
    ensures forall i :: 0 <= i < |r| ==> r[i] == times[|times| - |r| + i]
  {
    if |times| > MaxDurations then times[|times| - MaxDurations..] else times
  }

  /** Entering `session()`: one more active and one more opened session. */
  function Open(m: SessionManager): (r: SessionManager)
    ensures r.active == m.active + 1 && r.total == m.total + 1
    ensures r.failed == m.failed && r.durations == m.durations
  {
    m.(active := m.active + 1, total := m.total + 1)
  }

  /** Leaving `session()`. A successful commit records the elapsed time;
      a failure is counted and re-raised after rollback; either way the
      session stops being active and the history is trimmed. */
  function Close(m: SessionManager, failure: Option<SessionFailure>, elapsed: nat): (r: (SessionManager, Result<(), SessionFailure>))
    ensures r.0.active == m.active - 1 && r.0.total == m.total
    ensures r.0.failed == m.failed + (if failure.Some? then 1 else 0)
    ensures failure.Some? ==> r.1 == Err(failure.value) && r.0.durations == KeepRecent(m.durations)
    ensures failure.None? ==> r.1.Ok? && |r.0.durations| > 0 && r.0.durations[|r.0.durations| - 1] == elapsed
    ensures |m.durations| <= MaxDurations ==> |r.0.durations| <= MaxDurations
  {
    match failure
    case Some(f) => (m.(active := m.active - 1, failed := m.failed + 1, durations := KeepRecent(m.durations)), Err(f))
    case None =>
      var times := m.durations + [elapsed];
      (m.(active := m.active - 1, durations := KeepRecent(times)), Ok(()))
  }

  /** A whole `async with session_manager.session()` block. */
  function RunSession(m: SessionManager, failure: Option<SessionFailure>, elapsed: nat): (r: (SessionManager, Result<(), SessionFailure>))
    ensures r.0.active == m.active && r.0.total == m.total + 1
    ensures r.1.Err? <==> failure.Some?
    ensures r.1.Err? ==> r.1.error == failure.value
  {
    Close(Open(m), failure, elapsed)
  }

  /** The history bound holds after every session. */
  predicate Bounded(m: SessionManager) {
    |m.durations| <= MaxDurations
  }

  datatype Run = Run(failure: Option<SessionFailure>, elapsed: nat)

  function Failures(runs: seq<Run>): (n: nat)
    ensures n <= |runs|
  {
    if |runs| == 0 then 0 else (if runs[0].failure.Some? then 1 else 0) + Failures(runs[1..])
  }

  function RunAll(m: SessionManager, runs: seq<Run>): SessionManager
    decreases |runs|
  {
    if |runs| == 0 then m else RunAll(RunSession(m, runs[0].failure, runs[0].elapsed).0, runs[1..])
  }

  /** After any sequence of sessions: none stays active, every one is counted,
      the failed count is the number that failed, and the history stays
      within its bound. */
  lemma {:induction false} RunAllCounts(m: SessionManager, runs: seq<Run>)
    requires Bounded(m)
    ensures var r := RunAll(m, runs);
      r.active == m.active && r.total == m.total + |runs| && r.failed == m.failed + Failures(runs) && Bounded(r)
    decreases |runs|
  {
    if |runs| > 0 {
      RunAllCounts(RunSession(m, runs[0].failure, runs[0].elapsed).0, runs[1..]);
    }
  }

  function Sum(times: seq<nat>): nat {
    if |times| == 0 then 0 else times[0] + Sum(times[1..])
  }

  /** The summed durations lie between the least and the largest bound. */
  lemma {:induction false} SumBounds(times: seq<nat>, lo: nat, hi: nat)
    requires forall i :: 0 <= i < |times| ==> lo <= times[i] <= hi
    ensures |times| * lo <= Sum(times) <= |times| * hi
    decreases |times|
  {
    if |times| > 0 {
      SumBounds(times[1..], lo, hi);
      MulStep(|times|, lo);
      MulStep(|times|, hi);
    }
  }

  lemma {:induction false} MulStep(n: nat, x: nat)
    requires n > 0
    ensures n * x == x + (n - 1) * x
  {
  }

  lemma {:induction false} MulCast(n: nat, x: nat)
    ensures (n * x) as real == n as real * x as real
  {
  }

  /** Dividing a quantity bounded by `n` times two bounds by `n` stays
      within the bounds. */
  lemma {:induction false} QuotientBounds(s: real, n: real, lo: real, hi: real)
    requires n > 0.0 && n * lo <= s <= n * hi
    ensures lo <= s / n <= hi
  {
  }

  datatype SessionStats = SessionStats(active: int, total: nat, failed: nat, averageTime: real)

  /** The `stats` property; the last-cleanup timestamp is left out. */
  function Stats(m: SessionManager): (r: SessionStats)
    ensures r.active == m.active && r.total == m.total && r.failed == m.failed
    ensures m.durations == [] ==> r.averageTime == 0.0
    ensures m.durations != [] ==> r.averageTime * |m.durations| as real == Sum(m.durations) as real
  {
    var n := |m.durations|;
    SessionStats(m.active, m.total, m.failed,
                 if n == 0 then 0.0 else Sum(m.durations) as real / n as real)
  }

  /** The average lies between the shortest and the longest recorded
      session. */
  lemma {:induction false} AverageBetween(m: SessionManager, lo: nat, hi: nat)
    requires m.durations != []
    requires forall i :: 0 <= i < |m.durations| ==> lo <= m.durations[i] <= hi
    ensures lo as real <= Stats(m).averageTime <= hi as real
  {
    SumBounds(m.durations, lo, hi);
    AverageOfBounded(Sum(m.durations), |m.durations|, lo, hi, Stats(m).averageTime);
  }

  /** The quotient of a sum of `n` bounded terms by `n` keeps the bounds. */
  lemma {:induction false} AverageOfBounded(s: nat, n: nat, lo: nat, hi: nat, average: real)
    requires n > 0 && n * lo <= s <= n * hi
    requires average == s as real / n as real
    ensures lo as real <= average <= hi as real
  {
    MulCast(n, lo);
    MulCast(n, hi);
    QuotientBounds(s as real, n as real, lo as real, hi as real);
  }
}

=== FILE: settings.dfy ===
/** The application settings of `app/core/config.py` and the checks the
    settings model applies when it is built: numeric lower bounds,
    non-empty paths (path-normalised), the Emby server address and key, the
    token algorithm, the cache strategy and the generated secret key.

    Building a settings object reports every failing field at once, as the
    settings library does; a failure is the set of dotted field names that
    were rejected. The library checks only what the input supplies: a
    declared default, and a group built by its default factory, are taken
    as they are, without their validators or bounds. `given` is the set of
    fields the input supplied. `os.path.normpath` is the parameter
    `normpath`, and the token that `secrets.token_urlsafe(32)` would generate is the parameter
    `token`. */
module AppSettings {
  import opened Wrappers
  import opened Text

  /** The fields a check looks at, each named by its dotted location in
      the settings (see `Location`). */
  datatype Field =
    | ScanInterval | TokenFile
    | SourceDir | TargetDir | BackupDir | MaxBackups
    | ServerUrl | ApiKey | RefreshDelay | Timeout | MaxRetries | RetryDelay
    | Url | PoolSize | MaxOverflow | PoolTimeout | PoolRecycle | BatchSize
    | SecretKey | Algorithm | AccessTokenExpireMinutes
    | Strategy | DefaultTtl | Maxsize | CleanupInterval

  function Location(f: Field): string {
    match f
    case ScanInterval => "monitor.scan_interval"
    case TokenFile => "monitor.google_drive.token_file"
    case SourceDir => "symlink.source_dir"
    case TargetDir => "symlink.target_dir"
    case BackupDir => "symlink.backup_dir"
    case MaxBackups => "symlink.max_backups"
    case ServerUrl => "emby.server_url"
    case ApiKey => "emby.api_key"
    case RefreshDelay => "emby.refresh_delay"
    case Timeout => "emby.timeout"
    case MaxRetries => "emby.max_retries"
    case RetryDelay => "emby.retry_delay"
    case Url => "database.url"
    case PoolSize => "database.pool_size"
    case MaxOverflow => "database.max_overflow"
    case PoolTimeout => "database.pool_timeout"
    case PoolRecycle => "database.pool_recycle"
    case BatchSize => "database.batch_size"
    case SecretKey => "security.secret_key"
    case Algorithm => "security.algorithm"
    case AccessTokenExpireMinutes => "security.access_token_expire_minutes"
    case Strategy => "cache.strategy"
    case DefaultTtl => "cache.default_ttl"
    case Maxsize => "cache.maxsize"
    case CleanupInterval => "cache.cleanup_interval"
  }

  /** Every field, as a saved configuration file supplies them all. */
  const AllFields: set<Field> := {
    ScanInterval, TokenFile, SourceDir, TargetDir, BackupDir, MaxBackups,
    ServerUrl, ApiKey, RefreshDelay, Timeout, MaxRetries, RetryDelay,
    Url, PoolSize, MaxOverflow, PoolTimeout, PoolRecycle, BatchSize,
    SecretKey, Algorithm, AccessTokenExpireMinutes,
    Strategy, DefaultTtl, Maxsize, CleanupInterval}

  type Errors = set<Field>

  /** No error for `f` when `ok` holds. */
  function Check(ok: bool, f: Field): (e: Errors)
    ensures f in e <==> !ok
    ensures e == {} || e == {f}
  {
    if ok then {} else {f}
  }

  /** The check of `f` runs only when the input supplied `f`. */
  function Need(given: set<Field>, f: Field, ok: bool): (e: Errors)
    ensures f in e <==> f in given && !ok
    ensures e == {} || e == {f}
    ensures e <= given
  {
    Check(f !in given || ok, f)
  }

  /** A supplied path is normalised; a defaulted one is kept. */
  function PathOf(given: set<Field>, f: Field, p: string, normpath: string -> string): string {
    if f in given then normpath(p) else p
  }

  // ---- google_drive ----

  datatype DriveSettings = DriveSettings(clientId: string, clientSecret: string, tokenFile: string)

  const DefaultDrive := DriveSettings("", "", "data/gdrive_token.json")

  function DriveErrors(d: DriveSettings, given: set<Field>): (r: Errors)
    ensures r <= given
  {
    Need(given, TokenFile, d.tokenFile != "")
  }

  /** `GoogleDriveSettings`: a supplied token file must be non-empty and is
      normalised. */
  function ValidateDrive(d: DriveSettings, given: set<Field>, normpath: string -> string): (r: Result<DriveSettings, Errors>)
    ensures r.Err? <==> TokenFile in given && d.tokenFile == ""
    ensures r.Err? ==> r.error == {TokenFile}
    ensures r.Ok? ==> r.value.clientId == d.clientId && r.value.clientSecret == d.clientSecret
    ensures r.Ok? ==> r.value.tokenFile == (if TokenFile in given then normpath(d.tokenFile) else d.tokenFile)
  {
    if DriveErrors(d, given) != {} then Err(DriveErrors(d, given))
    else Ok(d.(tokenFile := PathOf(given, TokenFile, d.tokenFile, normpath)))
  }

  // ---- monitor ----

  datatype MonitorSettings = MonitorSettings(scanInterval: int, googleDrive: DriveSettings)

  const MinScanInterval := 60

  const DefaultMonitor := MonitorSettings(300, DefaultDrive)

  function MonitorErrors(m: MonitorSettings, given: set<Field>): (r: Errors)
    ensures r <= given
  {
    Need(given, ScanInterval, m.scanInterval >= MinScanInterval) + DriveErrors(m.googleDrive, given)
  }

  /** `MonitorSettings`: a supplied scan interval under 60 seconds is
      rejected. */
  function ValidateMonitor(m: MonitorSettings, given: set<Field>, normpath: string -> string)
    : (r: Result<MonitorSettings, Errors>)
    ensures r.Err? <==>
      (ScanInterval in given && m.scanInterval < MinScanInterval) || (TokenFile in given && m.googleDrive.tokenFile == "")
    ensures r.Err? ==> (ScanInterval in r.error <==> ScanInterval in given && m.scanInterval < MinScanInterval)
    ensures r.Err? ==> (TokenFile in r.error <==> TokenFile in given && m.googleDrive.tokenFile == "")
    ensures r.Ok? ==> r.value.scanInterval == m.scanInterval
    ensures r.Ok? && ScanInterval in given ==> r.value.scanInterval >= MinScanInterval
    ensures r.Ok? ==> Ok(r.value.googleDrive) == ValidateDrive(m.googleDrive, given, normpath)
  {
    if MonitorErrors(m, given) != {} then Err(MonitorErrors(m, given))
    else Ok(m.(googleDrive := ValidateDrive(m.googleDrive, given, normpath).value))
  }

  // ---- symlink ----

  datatype SymlinkSettings = SymlinkSettings(
    sourceDir: string,
    targetDir: string,
    preserveStructure: bool,
    backupOnConflict: bool,
    backupDir: string,
    maxBackups: int)

  const DefaultSymlink := SymlinkSettings("/mnt/media/nastool", "/mnt/nastool-nfo", true, true, "data/backup", 5)

  function SymlinkErrors(s: SymlinkSettings, given: set<Field>): (r: Errors)
    ensures r <= given
  {
    Need(given, SourceDir, s.sourceDir != "") + Need(given, TargetDir, s.targetDir != "")
    + Need(given, BackupDir, s.backupDir != "") + Need(given, MaxBackups, s.maxBackups >= 1)
  }

  /** `SymlinkSettings`: supplied directories must be non-empty and are
      normalised; a supplied backup count is at least 1. */
  function ValidateSymlink(s: SymlinkSettings, given: set<Field>, normpath: string -> string)
    : (r: Result<SymlinkSettings, Errors>)
    ensures r.Err? <==>
      (SourceDir in given && s.sourceDir == "") || (TargetDir in given && s.targetDir == "")
      || (BackupDir in given && s.backupDir == "") || (MaxBackups in given && s.maxBackups < 1)
    ensures r.Err? ==>
      (SourceDir in r.error <==> SourceDir in given && s.sourceDir == "")
      && (TargetDir in r.error <==> TargetDir in given && s.targetDir == "")
      && (BackupDir in r.error <==> BackupDir in given && s.backupDir == "")
      && (MaxBackups in r.error <==> MaxBackups in given && s.maxBackups < 1)
    ensures r.Ok? ==>
      r.value.sourceDir == (if SourceDir in given then normpath(s.sourceDir) else s.sourceDir)
      && r.value.targetDir == (if TargetDir in given then normpath(s.targetDir) else s.targetDir)
      && r.value.backupDir == (if BackupDir in given then normpath(s.backupDir) else s.backupDir)
    ensures r.Ok? ==> r.value.maxBackups == s.maxBackups && (MaxBackups in given ==> s.maxBackups >= 1)
    ensures r.Ok? ==> r.value.preserveStructure == s.preserveStructure && r.value.backupOnConflict == s.backupOnConflict
  {
    if SymlinkErrors(s, given) != {} then Err(SymlinkErrors(s, given))
    else Ok(s.(sourceDir := PathOf(given, SourceDir, s.sourceDir, normpath),
               targetDir := PathOf(given, TargetDir, s.targetDir, normpath),
               backupDir := PathOf(given, BackupDir, s.backupDir, normpath)))
  }

  // ---- emby ----

  datatype EmbySettings = EmbySettings(
    serverUrl: string,
    apiKey: Option<string>,
    autoRefresh: bool,
    refreshDelay: int,
    pathMapping: seq<(string, string)>,
    libraryPaths: seq<string>,
    timeout: int,
    maxRetries: int,
    retryDelay: int)

  const DefaultEmby := EmbySettings("http://emby:8096", None, true, 10, [], [], 30, 3, 5)

  function EmbyErrors(e: EmbySettings, given: set<Field>): (r: Errors)
    ensures r <= given
  {
    Need(given, ServerUrl, e.serverUrl != "") + Need(given, ApiKey, e.apiKey != Some(""))
    + Need(given, RefreshDelay, e.refreshDelay >= 1) + Need(given, Timeout, e.timeout >= 1)
    + Need(given, MaxRetries, e.maxRetries >= 0) + Need(given, RetryDelay, e.retryDelay >= 1)
  }

  /** `EmbySettings`: a supplied address must be non-empty and loses its
      trailing '/'s; a supplied key may be `None` but not empty; supplied
      delays and timeout are at least 1 and a supplied retry count is not
      negative. */
  function ValidateEmby(e: EmbySettings, given: set<Field>): (r: Result<EmbySettings, Errors>)
    ensures r.Err? <==>
      (ServerUrl in given && e.serverUrl == "") || (ApiKey in given && e.apiKey == Some(""))
      || (RefreshDelay in given && e.refreshDelay < 1) || (Timeout in given && e.timeout < 1)
      || (MaxRetries in given && e.maxRetries < 0) || (RetryDelay in given && e.retryDelay < 1)
    ensures r.Err? ==>
      (ServerUrl in r.error <==> ServerUrl in given && e.serverUrl == "")
      && (ApiKey in r.error <==> ApiKey in given && e.apiKey == Some(""))
      && (MaxRetries in r.error <==> MaxRetries in given && e.maxRetries < 0)
    ensures r.Ok? ==> r.value.serverUrl == (if ServerUrl in given then RStrip(e.serverUrl, '/') else e.serverUrl)
    ensures r.Ok? && ServerUrl in given ==> !EndsWith(r.value.serverUrl, "/")
    ensures r.Ok? ==>
      r.value.apiKey == e.apiKey && r.value.timeout == e.timeout && r.value.maxRetries == e.maxRetries
      && r.value.retryDelay == e.retryDelay && r.value.refreshDelay == e.refreshDelay
    ensures r.Ok? ==> r.value.pathMapping == e.pathMapping && r.value.libraryPaths == e.libraryPaths
  {
    if EmbyErrors(e, given) != {} then Err(EmbyErrors(e, given))
    else Ok(e.(serverUrl := if ServerUrl in given then RStrip(e.serverUrl, '/') else e.serverUrl))
  }

  /** A supplied address made only of '/'s passes the emptiness check and
      then becomes the empty string. */
  lemma SlashOnlyServerUrlBecomesEmpty()
    ensures ValidateEmby(DefaultEmby.(serverUrl := "/"), {ServerUrl}) == Ok(DefaultEmby.(serverUrl := ""))
  {
    assert RStrip("/", '/') == RStrip("", '/');
  }

  // ---- database ----

  datatype DatabaseSettings = DatabaseSettings(
    url: string,
    poolSize: int,
    maxOverflow: int,
    poolTimeout: int,
    poolRecycle: int,
    echo: bool,
    batchSize: int)

  const DefaultDatabase := DatabaseSettings("sqlite+aiosqlite:///data/graylink.db", 20, 10, 30, 3600, false, 1000)

  function DatabaseErrors(d: DatabaseSettings, given: set<Field>): (r: Errors)
    ensures r <= given
  {
    Need(given, Url, d.url != "") + Need(given, PoolSize, d.poolSize >= 1) + Need(given, MaxOverflow, d.maxOverflow >= 0)
    + Need(given, PoolTimeout, d.poolTimeout >= 1) + Need(given, PoolRecycle, d.poolRecycle >= 1)
    + Need(given, BatchSize, d.batchSize >= 1)
  }

  /** `DatabaseSettings`: a supplied URL must be non-empty; supplied pool
      figures and batch size have their lower bounds. Nothing is
      rewritten. */
  function ValidateDatabase(d: DatabaseSettings, given: set<Field>): (r: Result<DatabaseSettings, Errors>)
    ensures r.Err? <==>
      (Url in given && d.url == "") || (PoolSize in given && d.poolSize < 1)
      || (MaxOverflow in given && d.maxOverflow < 0) || (PoolTimeout in given && d.poolTimeout < 1)
      || (PoolRecycle in given && d.poolRecycle < 1) || (BatchSize in given && d.batchSize < 1)
    ensures r.Err? ==>
      (Url in r.error <==> Url in given && d.url == "") && (BatchSize in r.error <==> BatchSize in given && d.batchSize < 1)
    ensures r.Ok? ==> r.value == d
  {
    if DatabaseErrors(d, given) != {} then Err(DatabaseErrors(d, given)) else Ok(d)
  }

  // ---- security ----

  datatype SecuritySettings = SecuritySettings(secretKey: string, algorithm: string, accessTokenExpireMinutes: int)

  const Algorithms := ["HS256", "HS384", "HS512"]

  const DefaultSecurity := SecuritySettings("", "HS256", 30)

  function SecurityErrors(s: SecuritySettings, given: set<Field>): (r: Errors)
    ensures r <= given
  {
    Need(given, Algorithm, s.algorithm in Algorithms)
    + Need(given, AccessTokenExpireMinutes, s.accessTokenExpireMinutes >= 1)
  }

  /** `SecuritySettings`: a supplied empty secret key is replaced by the
      generated `token`, while a defaulted key stays empty; a supplied
      algorithm is one of the three HMAC-SHA variants. */
  function ValidateSecurity(s: SecuritySettings, given: set<Field>, token: string): (r: Result<SecuritySettings, Errors>)
    ensures r.Err? <==>
      (Algorithm in given && s.algorithm !in Algorithms)
      || (AccessTokenExpireMinutes in given && s.accessTokenExpireMinutes < 1)
    ensures r.Err? ==> (Algorithm in r.error <==> Algorithm in given && s.algorithm !in Algorithms)
    ensures r.Ok? ==> r.value.secretKey == (if SecretKey in given && s.secretKey == "" then token else s.secretKey)
    ensures r.Ok? && SecretKey in given && token != "" ==> r.value.secretKey != ""
    ensures r.Ok? ==> r.value.algorithm == s.algorithm && r.value.accessTokenExpireMinutes == s.accessTokenExpireMinutes
  {
    if SecurityErrors(s, given) != {} then Err(SecurityErrors(s, given))
    else Ok(s.(secretKey := if SecretKey in given && s.secretKey == "" then token else s.secretKey))
  }

  // ---- cache ----

  datatype CacheSettings = CacheSettings(strategy: string, defaultTtl: int, maxsize: int, cleanupInterval: int)

  const DefaultCacheSettings := CacheSettings("ttl", 300, 1000, 3600)

  function CacheErrors(c: CacheSettings, given: set<Field>): (r: Errors)
    ensures r <= given
  {
    Need(given, Strategy, c.strategy == "ttl" || c.strategy == "lru") + Need(given, DefaultTtl, c.defaultTtl >= 1)
    + Need(given, Maxsize, c.maxsize >= 1) + Need(given, CleanupInterval, c.cleanupInterval >= 60)
  }

  /** `CacheSettings`: a supplied strategy is "ttl" or "lru"; supplied TTL
      and size are positive and a supplied cleanup interval is at least a
      minute. Nothing is rewritten. */
  function ValidateCache(c: CacheSettings, given: set<Field>): (r: Result<CacheSettings, Errors>)
    ensures r.Err? <==>
      (Strategy in given && !(c.strategy == "ttl" || c.strategy == "lru"))
      || (DefaultTtl in given && c.defaultTtl < 1) || (Maxsize in given && c.maxsize < 1)
      || (CleanupInterval in given && c.cleanupInterval < 60)
    ensures r.Err? ==> (Strategy in r.error <==> Strategy in given && !(c.strategy == "ttl" || c.strategy == "lru"))
    ensures r.Ok? ==> r.value == c
  {
    if CacheErrors(c, given) != {} then Err(CacheErrors(c, given)) else Ok(c)
  }

  // ---- the whole settings object ----

  datatype Settings = Settings(
    appName: string,
    debug: bool,
    configFile: string,
    monitor: MonitorSettings,
    symlink: SymlinkSettings,
    emby: EmbySettings,
    database: DatabaseSettings,
    security: SecuritySettings,
    cache: CacheSettings)

  const Defaults := Settings("GrayLink", false, "config/config.yml", DefaultMonitor, DefaultSymlink,
                             DefaultEmby, DefaultDatabase, DefaultSecurity, DefaultCacheSettings)

  /** Every failing check; only fields the input supplied are reported. */
  function AllErrors(s: Settings, given: set<Field>): (e: Errors)
    ensures e <= given
  {
    MonitorErrors(s.monitor, given) + SymlinkErrors(s.symlink, given) + EmbyErrors(s.emby, given)
    + DatabaseErrors(s.database, given) + SecurityErrors(s.security, given) + CacheErrors(s.cache, given)
  }

  /** Every group's checks pass. */
  predicate Acceptable(s: Settings, given: set<Field>) {
    MonitorErrors(s.monitor, given) == {} && SymlinkErrors(s.symlink, given) == {} && EmbyErrors(s.emby, given) == {}
    && DatabaseErrors(s.database, given) == {} && SecurityErrors(s.security, given) == {}
    && CacheErrors(s.cache, given) == {}
  }

  /** The input an object is built from: every field the input did not
      supply holds its declared default. */
  predicate DefaultedOutside(s: Settings, given: set<Field>) {
    (ScanInterval !in given ==> s.monitor.scanInterval == DefaultMonitor.scanInterval)
    && (TokenFile !in given ==> s.monitor.googleDrive.tokenFile == DefaultDrive.tokenFile)
    && (SourceDir !in given ==> s.symlink.sourceDir == DefaultSymlink.sourceDir)
    && (TargetDir !in given ==> s.symlink.targetDir == DefaultSymlink.targetDir)
    && (BackupDir !in given ==> s.symlink.backupDir == DefaultSymlink.backupDir)
    && (MaxBackups !in given ==> s.symlink.maxBackups == DefaultSymlink.maxBackups)
    && (ServerUrl !in given ==> s.emby.serverUrl == DefaultEmby.serverUrl)
    && (ApiKey !in given ==> s.emby.apiKey == DefaultEmby.apiKey)
    && (RefreshDelay !in given ==> s.emby.refreshDelay == DefaultEmby.refreshDelay)
    && (Timeout !in given ==> s.emby.timeout == DefaultEmby.timeout)
    && (MaxRetries !in given ==> s.emby.maxRetries == DefaultEmby.maxRetries)
    && (RetryDelay !in given ==> s.emby.retryDelay == DefaultEmby.retryDelay)
    && (Url !in given ==> s.database.url == DefaultDatabase.url)
    && (PoolSize !in given ==> s.database.poolSize == DefaultDatabase.poolSize)
    && (MaxOverflow !in given ==> s.database.maxOverflow == DefaultDatabase.maxOverflow)
    && (PoolTimeout !in given ==> s.database.poolTimeout == DefaultDatabase.poolTimeout)
    && (PoolRecycle !in given ==> s.database.poolRecycle == DefaultDatabase.poolRecycle)
    && (BatchSize !in given ==> s.database.batchSize == DefaultDatabase.batchSize)
    && (SecretKey !in given ==> s.security.secretKey == DefaultSecurity.secretKey)
    && (Algorithm !in given ==> s.security.algorithm == DefaultSecurity.algorithm)
    && (AccessTokenExpireMinutes !in given ==> s.security.accessTokenExpireMinutes == DefaultSecurity.accessTokenExpireMinutes)
    && (Strategy !in given ==> s.cache.strategy == DefaultCacheSettings.strategy)
    && (DefaultTtl !in given ==> s.cache.defaultTtl == DefaultCacheSettings.defaultTtl)
    && (Maxsize !in given ==> s.cache.maxsize == DefaultCacheSettings.maxsize)
    && (CleanupInterval !in given ==> s.cache.cleanupInterval == DefaultCacheSettings.cleanupInterval)
  }

  /** The declared bounds (`ge=`) and the validators' conditions, over every
      group. */
  predicate Sound(s: Settings) {
    s.monitor.scanInterval >= MinScanInterval && s.monitor.googleDrive.tokenFile != ""
    && s.symlink.sourceDir != "" && s.symlink.targetDir != "" && s.symlink.backupDir != "" && s.symlink.maxBackups >= 1
    && s.emby.apiKey != Some("") && !EndsWith(s.emby.serverUrl, "/")
    && s.emby.refreshDelay >= 1 && s.emby.timeout >= 1 && s.emby.maxRetries >= 0 && s.emby.retryDelay >= 1
    && s.database.url != "" && s.database.poolSize >= 1 && s.database.maxOverflow >= 0
    && s.database.poolTimeout >= 1 && s.database.poolRecycle >= 1 && s.database.batchSize >= 1
    && s.security.algorithm in Algorithms && s.security.accessTokenExpireMinutes >= 1
    && (s.cache.strategy == "ttl" || s.cache.strategy == "lru") && s.cache.defaultTtl >= 1 && s.cache.maxsize >= 1
    && s.cache.cleanupInterval >= 60
  }

  /** `Settings(...)`: all groups are checked; either every failing
      supplied field is reported, or each group comes out as its own check
      made it. */
  function Validate(s: Settings, given: set<Field>, normpath: string -> string, token: string): (r: Result<Settings, Errors>)
    ensures r.Err? <==> !Acceptable(s, given)
    ensures r.Err? ==> r.error == AllErrors(s, given) && r.error != {} && r.error <= given
    ensures r.Ok? ==>
      Ok(r.value.monitor) == ValidateMonitor(s.monitor, given, normpath)
      && Ok(r.value.symlink) == ValidateSymlink(s.symlink, given, normpath)
      && Ok(r.value.emby) == ValidateEmby(s.emby, given)
      && Ok(r.value.database) == ValidateDatabase(s.database, given)
      && Ok(r.value.security) == ValidateSecurity(s.security, given, token)
      && Ok(r.value.cache) == ValidateCache(s.cache, given)
    ensures r.Ok? ==> r.value.appName == s.appName && r.value.debug == s.debug && r.value.configFile == s.configFile
  {
    if !Acceptable(s, given) then Err(AllErrors(s, given))
    else
      Ok(s.(monitor := ValidateMonitor(s.monitor, given, normpath).value,
            symlink := ValidateSymlink(s.symlink, given, normpath).value,
            emby := ValidateEmby(s.emby, given).value,
            security := ValidateSecurity(s.security, given, token).value))
  }

  /** What `normpath` does: it never turns a non-empty path into an empty
      one, and normalising twice is normalising once. */
  ghost predicate NormpathLike(normpath: string -> string) {
    (forall p :: p != "" ==> normpath(p) != "")
    && (forall p :: normpath(normpath(p)) == normpath(p))
  }

  /** The declared default paths are already normal. */
  predicate DefaultPathsNormal(normpath: string -> string) {
    normpath(DefaultDrive.tokenFile) == DefaultDrive.tokenFile
    && normpath(DefaultSymlink.sourceDir) == DefaultSymlink.sourceDir
    && normpath(DefaultSymlink.targetDir) == DefaultSymlink.targetDir
    && normpath(DefaultSymlink.backupDir) == DefaultSymlink.backupDir
  }

  /** Whatever is built from an input satisfies every declared bound. The
      secret key is non-empty when the input supplied one (a generated
      `token_urlsafe(32)` has 43 characters) and stays empty when the input
      left it out. */
  lemma {:induction false} AcceptedIsSound(s: Settings, given: set<Field>, normpath: string -> string, token: string)
    requires NormpathLike(normpath) && DefaultedOutside(s, given)
    requires Validate(s, given, normpath, token).Ok?
    ensures Sound(Validate(s, given, normpath, token).value)
    ensures SecretKey in given && token != "" ==> Validate(s, given, normpath, token).value.security.secretKey != ""
    ensures SecretKey !in given ==> Validate(s, given, normpath, token).value.security.secretKey == ""
  {
    var v := Validate(s, given, normpath, token).value;
    assert v.monitor.googleDrive.tokenFile != "" by {
      if TokenFile in given {
        assert s.monitor.googleDrive.tokenFile != "";
      }
    }
    assert !EndsWith(v.emby.serverUrl, "/") by {
      if ServerUrl !in given {
        assert v.emby.serverUrl == "http://emby:8096";
      }
    }
    assert "HS256" in Algorithms;
  }

  lemma {:induction false} RStripIdempotent(s: string, c: char)
    ensures RStrip(RStrip(s, c), c) == RStrip(s, c)
  {
  }

  /** The secret key an object gets when its saved form is loaded again:
      an empty key is supplied by the file and so is replaced. */
  function Rekeyed(v: Settings, token: string): (r: Settings)
    ensures r.security.secretKey == (if v.security.secretKey == "" then token else v.security.secretKey)
    ensures r.(security := v.security) == v
  {
    v.(security := v.security.(secretKey := if v.security.secretKey == "" then token else v.security.secretKey))
  }

  /** Loading a saved configuration, which supplies every field, gives back
      the settings it was saved from, except that an empty secret key is
      generated afresh, and unless the server address was made only of
      '/'s (see `SlashOnlyServerUrlNotReloadable`). */
  lemma {:induction false} ValidateIdempotent(s: Settings, given: set<Field>, normpath: string -> string, token: string, token2: string)
    requires NormpathLike(normpath) && DefaultPathsNormal(normpath) && DefaultedOutside(s, given)
    requires Validate(s, given, normpath, token).Ok?
    requires RStrip(s.emby.serverUrl, '/') != ""
    ensures var v := Validate(s, given, normpath, token).value;
      Validate(v, AllFields, normpath, token2) == Ok(Rekeyed(v, token2))
  {
    var v := Validate(s, given, normpath, token).value;
    OtherGroupsStayAccepted(s, given, normpath, token);
    MonitorRevalidates(s.monitor, given, normpath);
    SymlinkRevalidates(s.symlink, given, normpath);
    EmbyRevalidates(s.emby, given);
    assert Acceptable(v, AllFields);
  }

  /** A built monitor group comes out of a second check unchanged. */
  lemma {:induction false} MonitorRevalidates(m: MonitorSettings, given: set<Field>, normpath: string -> string)
    requires NormpathLike(normpath) && DefaultPathsNormal(normpath)
    requires TokenFile !in given ==> m.googleDrive.tokenFile == DefaultDrive.tokenFile
    requires ScanInterval !in given ==> m.scanInterval == DefaultMonitor.scanInterval
    requires ValidateMonitor(m, given, normpath).Ok?
    ensures var v := ValidateMonitor(m, given, normpath).value;
      ValidateMonitor(v, AllFields, normpath) == Ok(v)
  {
    var v := ValidateMonitor(m, given, normpath).value;
    assert v.googleDrive.tokenFile != "" && normpath(v.googleDrive.tokenFile) == v.googleDrive.tokenFile;
  }

  /** A built symlink group comes out of a second check unchanged. */
  lemma {:induction false} SymlinkRevalidates(s: SymlinkSettings, given: set<Field>, normpath: string -> string)
    requires NormpathLike(normpath) && DefaultPathsNormal(normpath)
    requires SourceDir !in given ==> s.sourceDir == DefaultSymlink.sourceDir
    requires TargetDir !in given ==> s.targetDir == DefaultSymlink.targetDir
    requires BackupDir !in given ==> s.backupDir == DefaultSymlink.backupDir
    requires MaxBackups !in given ==> s.maxBackups == DefaultSymlink.maxBackups
    requires ValidateSymlink(s, given, normpath).Ok?
    ensures var v := ValidateSymlink(s, given, normpath).value;
      ValidateSymlink(v, AllFields, normpath) == Ok(v)
  {
    var v := ValidateSymlink(s, given, normpath).value;
    assert v.sourceDir != "" && normpath(v.sourceDir) == v.sourceDir;
    assert v.targetDir != "" && normpath(v.targetDir) == v.targetDir;
    assert v.backupDir != "" && normpath(v.backupDir) == v.backupDir;
  }

  /** A built Emby group whose address keeps a character after stripping
      comes out of a second check unchanged. */
  lemma {:induction false} EmbyRevalidates(e: EmbySettings, given: set<Field>)
    requires RStrip(e.serverUrl, '/') != ""
    requires ServerUrl !in given ==> e.serverUrl == DefaultEmby.serverUrl
    requires ApiKey !in given ==> e.apiKey == DefaultEmby.apiKey
    requires RefreshDelay !in given ==> e.refreshDelay == DefaultEmby.refreshDelay
    requires Timeout !in given ==> e.timeout == DefaultEmby.timeout
    requires MaxRetries !in given ==> e.maxRetries == DefaultEmby.maxRetries
    requires RetryDelay !in given ==> e.retryDelay == DefaultEmby.retryDelay
    requires ValidateEmby(e, given).Ok?
    ensures var v := ValidateEmby(e, given).value;
      ValidateEmby(v, AllFields) == Ok(v)
  {
    var v := ValidateEmby(e, given).value;
    RStripIdempotent(e.serverUrl, '/');
    assert v.serverUrl != "" && RStrip(v.serverUrl, '/') == v.serverUrl;
    assert EmbyErrors(v, AllFields) == {};
  }

  /** Built settings pass every group's checks again when every field is
      supplied, the server address aside. */
  lemma {:induction false} OtherGroupsStayAccepted(s: Settings, given: set<Field>, normpath: string -> string, token: string)
    requires NormpathLike(normpath) && DefaultedOutside(s, given)
    requires Validate(s, given, normpath, token).Ok?
    ensures var v := Validate(s, given, normpath, token).value;
      MonitorErrors(v.monitor, AllFields) == {} && SymlinkErrors(v.symlink, AllFields) == {}
      && DatabaseErrors(v.database, AllFields) == {} && SecurityErrors(v.security, AllFields) == {}
      && CacheErrors(v.cache, AllFields) == {}
  {
    var v := Validate(s, given, normpath, token).value;
    AcceptedIsSound(s, given, normpath, token);
    assert MonitorErrors(v.monitor, AllFields) == {};
    assert SymlinkErrors(v.symlink, AllFields) == {};
  }

  /** A supplied address of only '/'s is accepted once, and the settings it
      yields are rejected when their saved form is loaded again. */
  lemma {:induction false} SlashOnlyServerUrlNotReloadable(normpath: string -> string, token: string)
    requires NormpathLike(normpath)
    ensures var s := Defaults.(emby := DefaultEmby.(serverUrl := "/"));
      Validate(s, {ServerUrl}, normpath, token).Ok?
      && Validate(Validate(s, {ServerUrl}, normpath, token).value, AllFields, normpath, token) == Err({ServerUrl})
  {
    var s := Defaults.(emby := DefaultEmby.(serverUrl := "/"));
    SlashOnlyServerUrlBecomesEmpty();
    assert Acceptable(s, {ServerUrl});
    var v := Validate(s, {ServerUrl}, normpath, token).value;
    assert v.emby == DefaultEmby.(serverUrl := "");
    OtherGroupsStayAccepted(s, {ServerUrl}, normpath, token);
    assert EmbyErrors(v.emby, AllFields) == {ServerUrl};
    assert AllErrors(v, AllFields) == {ServerUrl};
  }

  /** `Settings()` with nothing supplied, as `load_config` builds it when no
      file exists: the declared defaults, taken as they are, so the secret
      key stays empty. */
  lemma {:induction false} DefaultsAccepted(normpath: string -> string, token: string)
    ensures Validate(Defaults, {}, normpath, token) == Ok(Defaults)
    ensures Validate(Defaults, {}, normpath, token).value.security.secretKey == ""
  {
    assert Acceptable(Defaults, {});
  }

  /** The default file `load_config` writes holds `secret_key: ''`; every
      load of it supplies that empty key, so each load gets the key it
      generates then. */
  lemma {:induction false} SavedDefaultsRekeyedOnLoad(normpath: string -> string, token: string)
    requires NormpathLike(normpath)
    ensures Validate(Defaults, AllFields, normpath, token).Ok?
    ensures Validate(Defaults, AllFields, normpath, token).value.security.secretKey == token
  {
    assert "HS256" in Algorithms;
    assert Acceptable(Defaults, AllFields);
  }
}

=== FILE: symlink_manager.dfy ===
/** The symlink manager (`SymlinkManager`): a registry of the links it made,
    keyed by target path in insertion order, with its operation counters,
    over the abstract filesystem. Timestamps other than the backup stamp are
    not modelled; every operation catches its errors and reports `false`. */
module SymlinkManager {
  import opened Wrappers
  import opened Text
  import opened Seqs
  import opened Decimal
  import opened FileSystem
  import opened SymlinkUtil
  import opened AppPaths

  /** `_symlinks[target]`: the link's source, and whether that source
      existed when the entry was written. */
  datatype Entry = Entry(target: string, source: string, valid: bool)

  /** The registry in the dictionary's insertion order. */
  type Registry = seq<Entry>

  function TargetOf(e: Entry): string { e.target }

  /** Both paths of an entry went through `normalize_path`. */
  predicate Normal(e: Entry) {
    '\\' !in e.target && '\\' !in e.source
  }

  /** What every reachable registry satisfies: one entry per target, all
      paths normalised. */
  predicate Registered(links: Registry) {
    Injective(links, TargetOf) && forall e :: e in links ==> Normal(e)
  }

  /** What the manager records as `last_error`. */
  datatype Failure = SourceMissing(path: string) | NotALinkAt(path: string) | Os(error: OsError)

  datatype Manager = Manager(
    links: Registry,
    backupDir: string,
    created: nat,
    removed: nat,
    failed: nat,
    lastError: Option<Failure>)

  const DefaultBackupDir: string := "data/symlink_backups"

  /** The constructor: an empty registry (loading existing links is not
      modelled), zero counters, and the backup directory defaulting when
      none (or an empty one) is given. */
  function NewManager(backupDir: Option<string>): (m: Manager)
    ensures m.links == [] && m.created == 0 && m.removed == 0 && m.failed == 0 && m.lastError.None?
    ensures backupDir.Some? && backupDir.value != "" ==> m.backupDir == backupDir.value
    ensures backupDir.None? || backupDir.value == "" ==> m.backupDir == DefaultBackupDir
  {
    var dir := if backupDir.Some? && backupDir.value != "" then backupDir.value else DefaultBackupDir;
    Manager([], dir, 0, 0, 0, None)
  }

  /** The position of the entry for `t`, if any. */
  function Find(links: Registry, t: string): (r: Option<nat>)
    ensures r.Some? ==> r.value < |links| && links[r.value].target == t
    ensures r.None? <==> forall e :: e in links ==> e.target != t
    decreases |links|
  {
    if |links| == 0 then None
    else if links[0].target == t then Some(0)
    else match Find(links[1..], t)
      case None => None
      case Some(i) => Some(i + 1)
  }

  /** `_symlinks[e.target] = e`: an existing entry is replaced in place, a
      new one goes to the end. */
  function Put(links: Registry, e: Entry): (r: Registry)
    ensures e in r
    ensures forall x :: x in r ==> x == e || x in links
    ensures forall x :: x in links && x.target != e.target ==> x in r
    ensures |r| == |links| || |r| == |links| + 1
    ensures Registered(links) && Normal(e) ==> Registered(r)
  {
    match Find(links, e.target)
    case Some(i) =>
      var r := links[i := e];
      assert forall x :: x in links && x.target != e.target ==> x in r by {
        forall x | x in links && x.target != e.target ensures x in r {
          var j :| 0 <= j < |links| && links[j] == x;
          assert r[j] == x;
        }
      }
      assert r[i] == e;
      r
    case None => links + [e]
  }

  function NotAt(t: string): Entry -> bool {
    (e: Entry) => e.target != t
  }

  /** `del _symlinks[t]`. */
  function Delete(links: Registry, t: string): (r: Registry)
    ensures forall x :: x in r <==> x in links && x.target != t
    ensures Registered(links) ==> Registered(r)
  {
    var r := Filter(links, NotAt(t));
    assert Injective(links, TargetOf) ==> Injective(r, TargetOf) by {
      if Injective(links, TargetOf) {
        FilterInjective(links, NotAt(t), TargetOf);
      }
    }
    r
  }

  function Fail(m: Manager, f: Failure): (r: Manager)
    ensures r.failed == m.failed + 1 && r.lastError == Some(f)
    ensures r.links == m.links && r.created == m.created && r.removed == m.removed
  {
    m.(failed := m.failed + 1, lastError := Some(f))
  }

  /** A `datetime`, for the backup stamp. */
  datatype Stamp = Stamp(year: nat, month: nat, day: nat, hour: nat, minute: nat, second: nat)

  predicate ValidStamp(s: Stamp) {
    1 <= s.year < 10000 && 1 <= s.month <= 12 && 1 <= s.day <= 31 &&
    s.hour < 24 && s.minute < 60 && s.second < 60
  }

  /** `strftime('%Y%m%d_%H%M%S')` */
  function StampText(s: Stamp): (r: string)
    ensures |r| == 15
  {
    Padded(s.year, 4) + (Padded(s.month, 2) + (Padded(s.day, 2) +
      ("_" + (Padded(s.hour, 2) + (Padded(s.minute, 2) + Padded(s.second, 2))))))
  }

  lemma {:induction false} SplitEq(a: string, b: string, c: string, d: string)
    requires a + b == c + d && |a| == |c|
    ensures a == c && b == d
  {
    assert a == (a + b)[..|a|] && c == (c + d)[..|c|];
    assert b == (a + b)[|a|..] && d == (c + d)[|c|..];
  }

  /** A padded field that fits its width determines the number. */
  lemma {:induction false} PaddedInjective(a: nat, b: nat, width: nat)
    requires a < Pow10(width) && b < Pow10(width) && Padded(a, width) == Padded(b, width)
    ensures a == b
  {
    PaddedRoundTrip(a, width);
    PaddedRoundTrip(b, width);
  }

  /** Different valid moments give different stamps, so backups of one file
      taken in different seconds never collide. */
  lemma {:induction false} StampTextInjective(a: Stamp, b: Stamp)
    requires ValidStamp(a) && ValidStamp(b) && StampText(a) == StampText(b)
    ensures a == b
  {
    assert Pow10(2) == 100;
    assert Pow10(4) == 10000 by {
      assert Pow10(3) == 1000;
    }
    var ra := Padded(a.month, 2) + (Padded(a.day, 2) + ("_" + (Padded(a.hour, 2) + (Padded(a.minute, 2) + Padded(a.second, 2)))));
    var rb := Padded(b.month, 2) + (Padded(b.day, 2) + ("_" + (Padded(b.hour, 2) + (Padded(b.minute, 2) + Padded(b.second, 2)))));
    SplitEq(Padded(a.year, 4), ra, Padded(b.year, 4), rb);
    PaddedInjective(a.year, b.year, 4);
    var sa := Padded(a.day, 2) + ("_" + (Padded(a.hour, 2) + (Padded(a.minute, 2) + Padded(a.second, 2))));
    var sb := Padded(b.day, 2) + ("_" + (Padded(b.hour, 2) + (Padded(b.minute, 2) + Padded(b.second, 2))));
    SplitEq(Padded(a.month, 2), sa, Padded(b.month, 2), sb);
    PaddedInjective(a.month, b.month, 2);
    var ta := "_" + (Padded(a.hour, 2) + (Padded(a.minute, 2) + Padded(a.second, 2)));
    var tb := "_" + (Padded(b.hour, 2) + (Padded(b.minute, 2) + Padded(b.second, 2)));
    SplitEq(Padded(a.day, 2), ta, Padded(b.day, 2), tb);
    PaddedInjective(a.day, b.day, 2);
    var ua := Padded(a.hour, 2) + (Padded(a.minute, 2) + Padded(a.second, 2));
    var ub := Padded(b.hour, 2) + (Padded(b.minute, 2) + Padded(b.second, 2));
    SplitEq("_", ua, "_", ub);
    SplitEq(Padded(a.hour, 2), Padded(a.minute, 2) + Padded(a.second, 2), Padded(b.hour, 2), Padded(b.minute, 2) + Padded(b.second, 2));
    PaddedInjective(a.hour, b.hour, 2);
    SplitEq(Padded(a.minute, 2), Padded(a.second, 2), Padded(b.minute, 2), Padded(b.second, 2));
    PaddedInjective(a.minute, b.minute, 2);
    PaddedInjective(a.second, b.second, 2);
  }

  /** `<backup_dir>/<basename>_<YYYYmmdd_HHMMSS>` */
  function BackupPath(backupDir: string, path: string, now: Stamp): (r: string)
    ensures EndsWith(r, Basename(path) + "_" + StampText(now))
  {
    JoinPath(backupDir, Basename(path) + "_" + StampText(now))
  }

  /** Backups of one path taken at different moments get different names. */
  lemma {:induction false} BackupPathsDistinct(backupDir: string, path: string, a: Stamp, b: Stamp)
    requires ValidStamp(a) && ValidStamp(b) && a != b
    ensures BackupPath(backupDir, path, a) != BackupPath(backupDir, path, b)
  {
    var na := Basename(path) + "_" + StampText(a);
    var nb := Basename(path) + "_" + StampText(b);
    var pa := BackupPath(backupDir, path, a);
    if pa == BackupPath(backupDir, path, b) {
      assert |na| == |nb|;
      assert na == pa[|pa| - |na|..] == nb;
      SplitEq(Basename(path) + "_", StampText(a), Basename(path) + "_", StampText(b));
      StampTextInjective(a, b);
    }
  }

  /** The node a path resolves to. */
  function Resolved(fs: Fs, p: string): (n: Node)
    requires Exists(fs, p)
    ensures !n.Link?
  {
    RealPathOfExisting(fs, p);
    fs[RealPath(fs, p)]
  }

  /** `_backup_file`: nothing happens for a missing path; otherwise what it
      resolves to is copied to the backup path (`shutil.copy2`, which
      follows links and refuses a directory). */
  function BackupFile(fs: Fs, path: string, backupDir: string, now: Stamp): (r: Result<Fs, OsError>)
    ensures !Exists(fs, path) ==> r == Ok(fs)
    ensures r.Err? <==> Exists(fs, path) && Resolved(fs, path).Dir?
    ensures r.Ok? && Exists(fs, path) ==>
              r.value == fs[BackupPath(backupDir, path, now) := Resolved(fs, path)]
  {
    if !Exists(fs, path) then Ok(fs)
    else match Resolved(fs, path)
      case Dir => Err(IsADirectory(path))
      case File(c) => Ok(fs[BackupPath(backupDir, path, now) := File(c)])
  }

  /** Two files with the same name backed up within one second share a
      backup path: the second copy replaces the first. */
  lemma {:induction false} SameSecondBackupsCollide(fs: Fs, p: string, q: string, backupDir: string, now: Stamp)
    requires p in fs && fs[p].File? && q in fs && fs[q].File?
    requires Basename(p) == Basename(q) && q != BackupPath(backupDir, p, now)
    ensures BackupFile(fs, p, backupDir, now).Ok?
    ensures var once := BackupFile(fs, p, backupDir, now).value;
            BackupFile(once, q, backupDir, now).Ok? &&
            BackupFile(once, q, backupDir, now).value[BackupPath(backupDir, p, now)] == fs[q]
  {
    PlainExists(fs, p);
    var once := BackupFile(fs, p, backupDir, now).value;
    assert once[q] == fs[q];
    PlainExists(once, q);
  }

  /** The state of the manager and the filesystem after an operation, and
      its boolean result. */
  datatype Outcome = Outcome(m: Manager, fs: Fs, ok: bool)

  /** The part of `create` that clears an existing non-link target: an
      optional backup, then removal. */
  function ClearTarget(fs: Fs, t: string, backup: bool, backupDir: string, now: Stamp): (r: Result<Fs, OsError>)
    requires Exists(fs, t) && !IsLink(fs, t)
    ensures r.Ok? ==> t !in r.value
    ensures r.Ok? && !backup ==> r.value == fs - {t}
  {
    var backed := if backup then BackupFile(fs, t, backupDir, now) else Ok(fs);
    match backed
    case Err(e) => Err(e)
    case Ok(fs1) => Remove(fs1, t)
  }

  /** `create`. A missing source fails and records the error; an existing
      non-link target is backed up (if asked) and removed; then the link is
      made, and a new or already correct link is registered and counted as
      created. A plain `false` from the helper is counted as a failure with
      no error recorded. */
  function CreateLink(m: Manager, fs: Fs, source: string, target: string, backup: bool, now: Stamp): (o: Outcome)
    ensures !Exists(fs, NormalizePath(source)) ==> o == Outcome(Fail(m, SourceMissing(NormalizePath(source))), fs, false)
    ensures o.ok ==> Entry(NormalizePath(target), NormalizePath(source), Exists(o.fs, NormalizePath(source))) in o.m.links
    ensures o.ok ==> forall x :: x in m.links && x.target != NormalizePath(target) ==> x in o.m.links
    ensures o.ok ==> o.m.created == m.created + 1 && o.m.failed == m.failed && o.m.lastError == m.lastError
    ensures !o.ok ==> o.m.links == m.links && o.m.created == m.created && o.m.failed == m.failed + 1
    ensures o.m.removed == m.removed && o.m.backupDir == m.backupDir
    ensures Registered(m.links) ==> Registered(o.m.links)
  {
    var s := NormalizePath(source);
    var t := NormalizePath(target);
    if !Exists(fs, s) then Outcome(Fail(m, SourceMissing(s)), fs, false)
    else
      var cleared := if Exists(fs, t) && !IsLink(fs, t) then ClearTarget(fs, t, backup, m.backupDir, now) else Ok(fs);
      match cleared
      case Err(e) => Outcome(Fail(m, Os(e)), fs, false)
      case Ok(fs1) => Place(m, fs1, s, t)
  }

  /** The rest of `create` once the target is out of the way: the helper
      makes the link, and anything but a plain `false` registers it. */
  function Place(m: Manager, fs1: Fs, s: string, t: string): Outcome {
    var c := CreateSymlink(fs1, s, t);
    if c.result != Some(false) then
      Outcome(m.(links := Put(m.links, Entry(t, s, Exists(c.fs, s))), created := m.created + 1), c.fs, true)
    else Outcome(m.(failed := m.failed + 1), c.fs, false)
  }

  /** Clearing a plain file with a backup copies it to the backup path and
      then removes it. */
  lemma {:induction false} ClearBacksUp(fs: Fs, target: string, backupDir: string, now: Stamp)
    requires target in fs && fs[target].File? && BackupPath(backupDir, target, now) != target
    ensures Exists(fs, target) && !IsLink(fs, target)
    ensures ClearTarget(fs, target, true, backupDir, now)
         == Ok(fs[BackupPath(backupDir, target, now) := fs[target]] - {target})
  {
    PlainExists(fs, target);
    var bp := BackupPath(backupDir, target, now);
    assert Resolved(fs, target) == fs[target];
    assert BackupFile(fs, target, backupDir, now) == Ok(fs[bp := fs[target]]);
  }

  /** A file in the way of a new link is copied to the backup path first,
      and the link replaces it. */
  lemma {:induction false} CreateBacksUpPlainFile(m: Manager, fs: Fs, source: string, target: string, now: Stamp)
    requires '\\' !in source && '\\' !in target && source != target
    requires source in fs && fs[source].File? && target in fs && fs[target].File?
    requires BackupPath(m.backupDir, target, now) != target
    requires BackupPath(m.backupDir, target, now) != source
    ensures BackupPath(m.backupDir, target, now) in CreateLink(m, fs, source, target, true, now).fs
    ensures CreateLink(m, fs, source, target, true, now).fs[BackupPath(m.backupDir, target, now)] == fs[target]
    ensures CreateLink(m, fs, source, target, true, now).ok ==>
              target in CreateLink(m, fs, source, target, true, now).fs &&
              CreateLink(m, fs, source, target, true, now).fs[target] == Link(source)
  {
    NormalizeKeeps(source);
    NormalizeKeeps(target);
    PlainExists(fs, source);
    PlainExists(fs, target);
    var bp := BackupPath(m.backupDir, target, now);
    var fs1 := fs[bp := fs[target]] - {target};
    ClearBacksUp(fs, target, m.backupDir, now);
    assert fs1[source] == fs[source] && bp in fs1 && fs1[bp] == fs[target];
    CreateLinkOverPlain(m, fs, source, target, now, fs1);
    PlaceKeepsBackup(m, fs1, source, target, bp, CreateLink(m, fs, source, target, true, now));
  }

  /** Placing the link over a cleared target keeps the backup copy. */
  lemma {:induction false} PlaceKeepsBackup(m: Manager, fs1: Fs, source: string, target: string, bp: string, o: Outcome)
    requires source in fs1 && fs1[source].File? && target !in fs1
    requires bp in fs1 && bp != target
    requires o == Place(m, fs1, source, target)
    ensures bp in o.fs && o.fs[bp] == fs1[bp]
    ensures o.ok ==> target in o.fs && o.fs[target] == Link(source)
  {
    LinkOverCleared(fs1, source, target, bp);
  }

  /** With the target cleared, the helper makes the link (or fails) and
      leaves every other entry alone. */
  lemma {:induction false} LinkOverCleared(fs1: Fs, source: string, target: string, bp: string)
    requires source in fs1 && fs1[source].File? && target !in fs1
    requires bp in fs1 && bp != target
    ensures CreateSymlink(fs1, source, target).result != None
    ensures bp in CreateSymlink(fs1, source, target).fs
    ensures CreateSymlink(fs1, source, target).fs[bp] == fs1[bp]
    ensures CreateSymlink(fs1, source, target).result == Some(true) ==>
              target in CreateSymlink(fs1, source, target).fs &&
              CreateSymlink(fs1, source, target).fs[target] == Link(source)
  {
    PlainExists(fs1, source);
    assert !Exists(fs1, target);
  }

  /** Over a cleared plain target, `create` is the helper's link creation on
      the cleared filesystem. */
  lemma {:induction false} CreateLinkOverPlain(m: Manager, fs: Fs, source: string, target: string, now: Stamp, fs1: Fs)
    requires NormalizePath(source) == source && NormalizePath(target) == target
    requires Exists(fs, source) && Exists(fs, target) && !IsLink(fs, target)
    requires ClearTarget(fs, target, true, m.backupDir, now) == Ok(fs1)
    ensures CreateLink(m, fs, source, target, true, now) == Place(m, fs1, source, target)
  {
  }

  /** `remove`. An unregistered target changes nothing; a registered target
      that exists but is not a link fails and records the error; otherwise
      the link (when it exists) is deleted from disk, the entry is dropped
      when `cleanup` is set, and the removal is counted. */
  function RemoveLink(m: Manager, fs: Fs, target: string, cleanup: bool): (o: Outcome)
    ensures Find(m.links, NormalizePath(target)).None? ==> o == Outcome(m, fs, false)
    ensures Find(m.links, NormalizePath(target)).Some? &&
            Exists(fs, NormalizePath(target)) && !IsLink(fs, NormalizePath(target)) ==>
              o == Outcome(Fail(m, NotALinkAt(NormalizePath(target))), fs, false)
    ensures o.ok ==> o.m == m.(links := o.m.links, removed := m.removed + 1)
    ensures o.ok && cleanup ==> o.m.links == Delete(m.links, NormalizePath(target))
    ensures o.ok && !cleanup ==> o.m.links == m.links
    ensures o.ok ==> o.fs == fs || o.fs == fs - {NormalizePath(target)}
    ensures o.ok ==> !Exists(o.fs, NormalizePath(target)) || !Exists(fs, NormalizePath(target))
    ensures !o.ok ==> o.fs == fs && o.m.links == m.links && o.m.removed == m.removed
    ensures Registered(m.links) ==> Registered(o.m.links)
  {
    var t := NormalizePath(target);
    if Find(m.links, t).None? then Outcome(m, fs, false)
    else if Exists(fs, t) && !IsLink(fs, t) then Outcome(Fail(m, NotALinkAt(t)), fs, false)
    else
      var fs1 := if Exists(fs, t) then Remove(fs, t).value else fs;
      var links := if cleanup then Delete(m.links, t) else m.links;
      Outcome(m.(links := links, removed := m.removed + 1), fs1, true)
  }

  /** Removing a registered dangling link forgets the entry but leaves the
      link file on disk, since it does not "exist". */
  lemma {:induction false} RemoveLeavesDanglingLink(m: Manager, fs: Fs, target: string)
    requires '\\' !in target && Find(m.links, target).Some?
    requires IsLink(fs, target) && !Exists(fs, target)
    ensures RemoveLink(m, fs, target, true).ok
    ensures RemoveLink(m, fs, target, true).fs == fs && target in fs
  {
    NormalizeKeeps(target);
  }

  /** A registered target that is present on disk and not a link: removal
      refuses it. */
  function StuckAt(fs: Fs): Entry -> bool {
    (e: Entry) => e.target in fs && !fs[e.target].Link?
  }

  /** The survivors of removing each entry of `es`: entries not in `es`,
      and those whose removal is refused. */
  function Survives(fs: Fs, es: seq<Entry>): Entry -> bool {
    (e: Entry) => e !in es || StuckAt(fs)(e)
  }

  /** The manager and filesystem together. */
  datatype World = World(m: Manager, fs: Fs)

  /** `remove(t)` with cleanup, for the target of each entry in turn. */
  function RemoveEach(w: World, es: seq<Entry>): (r: World)
    ensures r.m.backupDir == w.m.backupDir && r.m.created == w.m.created
    ensures forall p :: p in r.fs ==> p in w.fs && r.fs[p] == w.fs[p]
    decreases |es|
  {
    if |es| == 0 then w
    else
      var o := RemoveLink(w.m, w.fs, es[0].target, true);
      RemoveEach(World(o.m, o.fs), es[1..])
  }

  /** Two registered entries with one target are the same entry. */
  lemma {:induction false} SameTarget(links: Registry, a: Entry, b: Entry)
    requires Injective(links, TargetOf) && a in links && b in links && a.target == b.target
    ensures a == b
  {
    var i :| 0 <= i < |links| && links[i] == a;
    var j :| 0 <= j < |links| && links[j] == b;
    InjectiveUniquePosition(links, TargetOf, i, j);
  }

  /** The entries of `es` after the first are registered, listed once, and
      have other targets than the first. */
  lemma {:induction false} RestOfEntries(links: Registry, es: seq<Entry>)
    requires |es| > 0 && Injective(es, TargetOf) && forall e :: e in es ==> e in links
    ensures Injective(es[1..], TargetOf)
    ensures forall e :: e in es[1..] ==> e in links && e.target != es[0].target
  {
    var rest := es[1..];
    forall e | e in rest ensures e.target != es[0].target {
      var k :| 0 <= k < |rest| && rest[k] == e;
      assert es[k + 1] == e;
    }
    forall i, j | 0 <= i < j < |rest| ensures TargetOf(rest[i]) != TargetOf(rest[j]) {
      assert rest[i] == es[i + 1] && rest[j] == es[j + 1];
    }
  }

  /** A stuck first entry stays, as it would had it not been listed. */
  lemma {:induction false} SurvivesStuckFirst(links: Registry, fs: Fs, es: seq<Entry>)
    requires |es| > 0 && Injective(links, TargetOf) && es[0] in links && StuckAt(fs)(es[0])
    ensures Filter(links, Survives(fs, es[1..])) == Filter(links, Survives(fs, es))
  {
    forall e | e in links ensures Survives(fs, es[1..])(e) == Survives(fs, es)(e) {
      if e.target == es[0].target {
        SameTarget(links, e, es[0]);
      }
    }
    FilterExt(links, Survives(fs, es[1..]), Survives(fs, es));
  }

  /** A dropped first entry: deleting it, then removing the rest over the
      filesystem without its link, drops what removing all of `es` drops. */
  lemma {:induction false} SurvivesDroppedFirst(links: Registry, fs: Fs, fs1: Fs, es: seq<Entry>)
    requires |es| > 0 && Injective(links, TargetOf) && es[0] in links && !StuckAt(fs)(es[0])
    requires fs1 == fs || fs1 == fs - {es[0].target}
    requires forall e :: e in es[1..] ==> e.target != es[0].target
    ensures Filter(Delete(links, es[0].target), Survives(fs1, es[1..])) == Filter(links, Survives(fs, es))
    ensures Filter(es[1..], StuckAt(fs1)) == Filter(es[1..], StuckAt(fs))
  {
    var x := es[0];
    var both := (e: Entry) => NotAt(x.target)(e) && Survives(fs1, es[1..])(e);
    FilterCompose(links, NotAt(x.target), Survives(fs1, es[1..]), both);
    assert es == [x] + es[1..];
    forall e | e in links ensures both(e) == Survives(fs, es)(e) {
      if e.target == x.target {
        SameTarget(links, e, x);
      } else {
        assert (e in es) == (e in es[1..]);
        assert StuckAt(fs1)(e) == StuckAt(fs)(e);
      }
    }
    FilterExt(links, both, Survives(fs, es));
    forall e | e in es[1..] ensures StuckAt(fs1)(e) == StuckAt(fs)(e) {
    }
    FilterExt(es[1..], StuckAt(fs1), StuckAt(fs));
  }

  /** With every entry of `es` registered and listed once, removing them
      drops exactly those whose target is not stuck (a registry entry for a
      present non-link is kept), counts the dropped ones as removed and the
      stuck ones as failed. */
  lemma {:induction false} RemoveEachEffect(w: World, es: seq<Entry>)
    requires Registered(w.m.links) && Injective(es, TargetOf)
    requires forall e :: e in es ==> e in w.m.links
    ensures RemoveEach(w, es).m.links == Filter(w.m.links, Survives(w.fs, es))
    ensures RemoveEach(w, es).m.failed == w.m.failed + |Filter(es, StuckAt(w.fs))|
    ensures RemoveEach(w, es).m.removed + |Filter(es, StuckAt(w.fs))| == w.m.removed + |es|
    decreases |es|
  {
    if |es| == 0 {
      FilterAll(w.m.links, Survives(w.fs, es));
    } else {
      var x := es[0];
      assert x in w.m.links && Normal(x);
      NormalizeKeeps(x.target);
      var o := RemoveLink(w.m, w.fs, x.target, true);
      RestOfEntries(w.m.links, es);
      assert Filter(es, StuckAt(w.fs)) == (if StuckAt(w.fs)(x) then [x] else []) + Filter(es[1..], StuckAt(w.fs));
      if StuckAt(w.fs)(x) {
        PlainExists(w.fs, x.target);
        RemoveEachEffect(World(o.m, o.fs), es[1..]);
        SurvivesStuckFirst(w.m.links, w.fs, es);
      } else {
        assert o.ok && o.m.links == Delete(w.m.links, x.target);
        RemoveEachEffect(World(o.m, o.fs), es[1..]);
        SurvivesDroppedFirst(w.m.links, w.fs, o.fs, es);
      }
    }
  }

  /** How `verify` sees an entry: its target is missing, or its source is
      (an orphan), or both exist. */
  datatype Class = TargetGone | SourceGone | BothPresent

  function Classify(fs: Fs, e: Entry): Class {
    if !Exists(fs, e.target) then TargetGone
    else if !Exists(fs, e.source) then SourceGone
    else BothPresent
  }

  function OfClass(fs: Fs, c: Class): Entry -> bool {
    (e: Entry) => Classify(fs, e) == c
  }

  /** Every entry falls in exactly one class. */
  lemma {:induction false} ClassCounts(fs: Fs, links: Registry)
    ensures |Filter(links, OfClass(fs, BothPresent))| + |Filter(links, OfClass(fs, SourceGone))|
          + |Filter(links, OfClass(fs, TargetGone))| == |links|
    decreases |links|
  {
    if |links| > 0 {
      ClassCounts(fs, links[1..]);
    }
  }

  /** The dictionary `verify` returns. */
  datatype Report = Report(total: nat, valid: nat, invalid: nat, missing: nat, orphaned: nat)

  datatype Verified = Verified(report: Report, w: World)

  /** `verify`: classify every entry against the filesystem as it is, then
      `remove` each orphan; `total` is the registry's size after that
      cleanup. The orphans are removed in registry order. */
  function VerifyLinks(m: Manager, fs: Fs): (v: Verified)
    ensures v.report.valid + v.report.invalid + v.report.missing == |m.links|
    ensures v.report.orphaned == v.report.invalid
    ensures v.report.total == |v.w.m.links|
    ensures v.w.m.created == m.created && v.w.m.backupDir == m.backupDir
    ensures forall p :: p in v.w.fs ==> p in fs && v.w.fs[p] == fs[p]
  {
    var orphans := Filter(m.links, OfClass(fs, SourceGone));
    var after := RemoveEach(World(m, fs), orphans);
    ClassCounts(fs, m.links);
    Verified(Report(|after.m.links|, |Filter(m.links, OfClass(fs, BothPresent))|, |orphans|,
                    |Filter(m.links, OfClass(fs, TargetGone))|, |orphans|), after)
  }

  function NotStuckAt(fs: Fs): Entry -> bool {
    (e: Entry) => !StuckAt(fs)(e)
  }

  /** `verify` keeps every entry except the orphans whose target is a link
      (or has vanished); an orphan whose target is a plain file or directory
      cannot be removed, stays registered and counts as a failure. `total`
      plus the removals made equals the registry's size before. */
  lemma {:induction false} VerifyEffect(m: Manager, fs: Fs)
    requires Registered(m.links)
    ensures var v := VerifyLinks(m, fs);
            forall e :: e in v.w.m.links <==>
              e in m.links && (Classify(fs, e) != SourceGone || StuckAt(fs)(e))
    ensures VerifyLinks(m, fs).report.total + VerifyLinks(m, fs).w.m.removed == |m.links| + m.removed
    ensures VerifyLinks(m, fs).w.m.failed == m.failed + |Filter(Filter(m.links, OfClass(fs, SourceGone)), StuckAt(fs))|
    ensures Registered(VerifyLinks(m, fs).w.m.links)
  {
    var orphans := Filter(m.links, OfClass(fs, SourceGone));
    FilterInjective(m.links, OfClass(fs, SourceGone), TargetOf);
    RemoveEachEffect(World(m, fs), orphans);
    var kept := Filter(m.links, Survives(fs, orphans));
    assert Registered(kept) by {
      FilterInjective(m.links, Survives(fs, orphans), TargetOf);
    }
    var gone := (e: Entry) => !Survives(fs, orphans)(e);
    FilterComplement(m.links, Survives(fs, orphans), gone);
    var both := (e: Entry) => OfClass(fs, SourceGone)(e) && NotStuckAt(fs)(e);
    FilterCompose(m.links, OfClass(fs, SourceGone), NotStuckAt(fs), both);
    FilterExt(m.links, both, gone);
    FilterComplement(orphans, StuckAt(fs), NotStuckAt(fs));
  }

  datatype Rebuilt = Rebuilt(w: World, ok: bool, calls: seq<Call>)

  /** One `create` call made by `rebuild`: the target and what it returned. */
  datatype Call = Call(target: string, ok: bool)

  /** The loop of `rebuild` over the entries: `create` (with backup) for
      each entry whose target or source is missing at that moment; the
      result is false when any such call failed, and the loop goes on. Each
      entry's source is read from the snapshot, which `create` only ever
      rewrites for its own target. */
  function RebuildEach(w: World, es: seq<Entry>, now: Stamp): (r: Rebuilt)
    ensures r.ok == AllOk(r.calls)
    ensures |r.calls| <= |es|
    ensures r.w.m.removed == w.m.removed && r.w.m.backupDir == w.m.backupDir
    ensures r.w.m.created + r.w.m.failed == w.m.created + w.m.failed + |r.calls|
    decreases |es|
  {
    if |es| == 0 then Rebuilt(w, true, [])
    else
      var e := es[0];
      if !Exists(w.fs, e.target) || !Exists(w.fs, e.source) then
        var o := RebuildStep(w, e, now);
        var rest := RebuildEach(World(o.m, o.fs), es[1..], now);
        var calls := [Call(e.target, o.ok)] + rest.calls;
        assert calls[1..] == rest.calls;
        Rebuilt(rest.w, o.ok && rest.ok, calls)
      else RebuildEach(w, es[1..], now)
  }

  predicate AllOk(calls: seq<Call>)
    decreases |calls|
  {
    |calls| == 0 || (calls[0].ok && AllOk(calls[1..]))
  }

  /** `AllOk` says every call succeeded. */
  lemma {:induction false} AllOkMeans(calls: seq<Call>)
    ensures AllOk(calls) <==> forall k :: 0 <= k < |calls| ==> calls[k].ok
    decreases |calls|
  {
    if |calls| > 0 {
      AllOkMeans(calls[1..]);
      assert forall k :: 0 < k < |calls| ==> calls[k] == calls[1..][k - 1];
    }
  }

  /** The `create` call `rebuild` makes for one entry, with backup. */
  function RebuildStep(w: World, e: Entry, now: Stamp): (o: Outcome)
    ensures o.m.removed == w.m.removed && o.m.backupDir == w.m.backupDir
    ensures o.m.created + o.m.failed == w.m.created + w.m.failed + 1
  {
    CreateLink(w.m, w.fs, e.source, e.target, true, now)
  }

  /** `rebuild` as written. `verify` is wrapped by the `cached` decorator,
      whose wrapper is a coroutine function, so `self.verify()` only makes a
      coroutine that is never awaited: whatever `verifyFirst` says, nothing
      is verified or removed, and the loop runs over the registry as it is. */
  function Rebuild(m: Manager, fs: Fs, verifyFirst: bool, now: Stamp): (r: Rebuilt)
    ensures r.ok <==> forall k :: 0 <= k < |r.calls| ==> r.calls[k].ok
    ensures |r.calls| <= |m.links| && r.w.m.removed == m.removed
  {
    var r := RebuildEach(World(m, fs), m.links, now);
    AllOkMeans(r.calls);
    r
  }

  /** The verify flag changes nothing. */
  lemma {:induction false} RebuildIgnoresVerifyFirst(m: Manager, fs: Fs, now: Stamp)
    ensures Rebuild(m, fs, true, now) == Rebuild(m, fs, false, now)
  {
  }

  /** `rebuild(verify_first=True)` as the flag means it: the verify pass runs
      to completion first, and the loop goes over the registry it leaves. */
  function RebuildVerifying(m: Manager, fs: Fs, now: Stamp): (r: Rebuilt)
    ensures r.ok <==> forall k :: 0 <= k < |r.calls| ==> r.calls[k].ok
    ensures |r.calls| <= |VerifyLinks(m, fs).w.m.links|
    ensures r.w.m.removed == VerifyLinks(m, fs).w.m.removed
  {
    var w := VerifyLinks(m, fs).w;
    var r := RebuildEach(w, w.m.links, now);
    AllOkMeans(r.calls);
    r
  }

  /** A registered link that still resolves, but whose source is gone: as
      written, `rebuild` calls `create` for it, which fails on the missing
      source, so the result is false and the entry stays. */
  lemma {:induction false} OrphanFailsRebuild(m: Manager, fs: Fs, now: Stamp)
    requires Registered(m.links) && |m.links| == 1
    requires Exists(fs, m.links[0].target) && !Exists(fs, m.links[0].source)
    ensures !Rebuild(m, fs, true, now).ok && Rebuild(m, fs, true, now).w.m.links == m.links
  {
    var e := m.links[0];
    assert Normal(e);
    NormalizeKeeps(e.source);
    var o := RebuildStep(World(m, fs), e, now);
    assert !o.ok && o.m.links == m.links;
    assert m.links[1..] == [];
    assert RebuildEach(World(o.m, o.fs), m.links[1..], now).w == World(o.m, o.fs);
  }

  /** With the verify pass awaited, the same orphan is removed first, when
      its target is a link, and the rebuild succeeds over an empty registry. */
  lemma {:induction false} OrphanRemovedBeforeRebuild(m: Manager, fs: Fs, now: Stamp)
    requires Registered(m.links) && |m.links| == 1
    requires IsLink(fs, m.links[0].target) && Exists(fs, m.links[0].target) && !Exists(fs, m.links[0].source)
    ensures RebuildVerifying(m, fs, now).ok && RebuildVerifying(m, fs, now).w.m.links == []
  {
    var e := m.links[0];
    assert m.links == [e] && m.links[1..] == [];
    var orphans := Filter(m.links, OfClass(fs, SourceGone));
    assert orphans == [e];
    RemoveEachEffect(World(m, fs), orphans);
    assert !Survives(fs, orphans)(e);
    assert Filter(m.links, Survives(fs, orphans)) == [];
  }

  /** Entries whose target and source both exist need no `create`. */
  lemma {:induction false} RebuildEachNothingMissing(w: World, es: seq<Entry>, now: Stamp)
    requires forall e :: e in es ==> Exists(w.fs, e.target) && Exists(w.fs, e.source)
    ensures RebuildEach(w, es, now) == Rebuilt(w, true, [])
    decreases |es|
  {
    if |es| > 0 {
      RebuildEachNothingMissing(w, es[1..], now);
    }
  }

  /** With every registered link and source in place, `rebuild` (without
      the verify pass) succeeds without touching anything. */
  lemma {:induction false} RebuildNothingMissing(m: Manager, fs: Fs, now: Stamp)
    requires forall e :: e in m.links ==> Exists(fs, e.target) && Exists(fs, e.source)
    ensures Rebuild(m, fs, false, now) == Rebuilt(World(m, fs), true, [])
  {
    RebuildEachNothingMissing(World(m, fs), m.links, now);
  }

  /** The loop of `clear` over the registry's targets: back the target up
      when asked and it exists, then `remove` it. A failed backup ends the
      loop, records the error and makes the result false. */
  function ClearEach(w: World, es: seq<Entry>, backup: bool, now: Stamp): (r: (World, bool))
    ensures !r.1 ==> backup && r.0.m.lastError.Some? && r.0.m.lastError.value.Os?
    ensures r.0.m.created == w.m.created && r.0.m.backupDir == w.m.backupDir
    decreases |es|
  {
    if |es| == 0 then (w, true)
    else
      var t := es[0].target;
      var backed := if backup && Exists(w.fs, t) then BackupFile(w.fs, t, w.m.backupDir, now) else Ok(w.fs);
      match backed
      case Err(e) => (World(Fail(w.m, Os(e)), w.fs), false)
      case Ok(fs1) =>
        var o := RemoveLink(w.m, fs1, t, true);
        ClearEach(World(o.m, o.fs), es[1..], backup, now)
  }

  /** `clear` */
  function Clear(m: Manager, fs: Fs, backup: bool, now: Stamp): (r: (World, bool))
    ensures !backup ==> r.1
  {
    ClearEach(World(m, fs), m.links, backup, now)
  }

  /** Without backups, clearing is removing every entry in turn. */
  lemma {:induction false} ClearEachWithoutBackup(w: World, es: seq<Entry>, now: Stamp)
    ensures ClearEach(w, es, false, now) == (RemoveEach(w, es), true)
    decreases |es|
  {
    if |es| > 0 {
      var o := RemoveLink(w.m, w.fs, es[0].target, true);
      ClearEachWithoutBackup(World(o.m, o.fs), es[1..], now);
    }
  }

  /** `clear(backup=False)` empties the registry except for the entries
      whose target is a plain file or directory, which `remove` refuses;
      each dropped entry counts as removed. */
  lemma {:induction false} ClearKeepsOnlyStuck(m: Manager, fs: Fs, now: Stamp)
    requires Registered(m.links)
    ensures Clear(m, fs, false, now).0.m.links == Filter(m.links, StuckAt(fs))
    ensures Clear(m, fs, false, now).0.m.removed + |Filter(m.links, StuckAt(fs))| == m.removed + |m.links|
  {
    ClearEachWithoutBackup(World(m, fs), m.links, now);
    RemoveEachEffect(World(m, fs), m.links);
    FilterExt(m.links, Survives(fs, m.links), StuckAt(fs));
  }

  /** A listed backup is older than the cutoff. */
  function OldIn(backupDir: string, ctime: string -> int, cutoff: int): string -> bool {
    (name: string) => ctime(JoinPath(backupDir, name)) < cutoff
  }

  /** `cleanup_backups` over the names `os.listdir` returned, in its order,
      with `os.path.getctime` as `ctime` (of the resolved path): every entry
      older than `max_age_days` days is removed and counted. A missing entry
      or a directory to remove raises, and then the result is 0 while the
      removals made so far stay. */
  function CleanupBackups(fs: Fs, backupDir: string, names: seq<string>, ctime: string -> int,
                          now: int, maxAgeDays: int): (r: (Fs, nat))
    ensures r.1 <= |names|
    ensures forall p :: p in r.0 ==> p in fs && r.0[p] == fs[p]
  {
    CleanupFrom(fs, backupDir, names, ctime, now - maxAgeDays * 86400, 0)
  }

  function CleanupFrom(fs: Fs, backupDir: string, names: seq<string>, ctime: string -> int,
                       cutoff: int, cleaned: nat): (r: (Fs, nat))
    ensures r.1 == 0 || r.1 <= cleaned + |names|
    ensures forall p :: p in r.0 ==> p in fs && r.0[p] == fs[p]
    decreases |names|
  {
    if |names| == 0 then (fs, cleaned)
    else
      var p := JoinPath(backupDir, names[0]);
      if !Exists(fs, p) then (fs, 0)
      else if ctime(RealPath(fs, p)) < cutoff then
        match Remove(fs, p)
        case Err(_) => (fs, 0)
        case Ok(fs1) => CleanupFrom(fs1, backupDir, names[1..], ctime, cutoff, cleaned + 1)
      else CleanupFrom(fs, backupDir, names[1..], ctime, cutoff, cleaned)
  }

  /** The listing names distinct plain entries, and the old ones are files. */
  predicate PlainListing(fs: Fs, backupDir: string, names: seq<string>, ctime: string -> int, cutoff: int) {
    (forall i :: 0 <= i < |names| ==>
       JoinPath(backupDir, names[i]) in fs && !fs[JoinPath(backupDir, names[i])].Link? &&
       (OldIn(backupDir, ctime, cutoff)(names[i]) ==> fs[JoinPath(backupDir, names[i])].File?)) &&
    (forall i, j :: 0 <= i < j < |names| ==> JoinPath(backupDir, names[i]) != JoinPath(backupDir, names[j]))
  }

  /** The paths a listing names. */
  function Listed(backupDir: string, names: seq<string>): set<string> {
    set i | 0 <= i < |names| :: JoinPath(backupDir, names[i])
  }

  /** Over a listing of plain backups, exactly the old ones are removed and
      the count returned is their number. */
  lemma {:induction false} CleanupRemovesExactlyOld(fs: Fs, backupDir: string, names: seq<string>,
                                                     ctime: string -> int, cutoff: int, cleaned: nat)
    requires PlainListing(fs, backupDir, names, ctime, cutoff)
    ensures CleanupFrom(fs, backupDir, names, ctime, cutoff, cleaned).1
         == cleaned + |Filter(names, OldIn(backupDir, ctime, cutoff))|
    ensures forall i :: 0 <= i < |names| ==>
              (JoinPath(backupDir, names[i]) in CleanupFrom(fs, backupDir, names, ctime, cutoff, cleaned).0
               <==> !OldIn(backupDir, ctime, cutoff)(names[i]))
    ensures forall q :: q in fs && q !in Listed(backupDir, names) ==>
              q in CleanupFrom(fs, backupDir, names, ctime, cutoff, cleaned).0
    decreases |names|
  {
    if |names| > 0 {
      var p := JoinPath(backupDir, names[0]);
      var fs1 := CleanupNext(fs, backupDir, names, ctime, cutoff);
      var c := if OldIn(backupDir, ctime, cutoff)(names[0]) then cleaned + 1 else cleaned;
      CleanupStep(fs, backupDir, names, ctime, cutoff, cleaned);
      CleanupRemovesExactlyOld(fs1, backupDir, names[1..], ctime, cutoff, c);
      CleanupMembersStep(fs, backupDir, names, ctime, cutoff, fs1,
                         CleanupFrom(fs, backupDir, names, ctime, cutoff, cleaned).0);
    }
  }

  /** What stays after the first entry is looked at and the rest of the
      listing is cleaned. */
  lemma {:induction false} CleanupMembersStep(fs: Fs, backupDir: string, names: seq<string>, ctime: string -> int, cutoff: int,
                           fs1: Fs, out: Fs)
    requires PlainListing(fs, backupDir, names, ctime, cutoff) && |names| > 0
    requires fs1 == CleanupNext(fs, backupDir, names, ctime, cutoff)
    requires forall i :: 0 <= i < |names[1..]| ==>
               (JoinPath(backupDir, names[1..][i]) in out <==> !OldIn(backupDir, ctime, cutoff)(names[1..][i]))
    requires forall q :: q in fs1 && q !in Listed(backupDir, names[1..]) ==> q in out
    requires forall q :: q in out ==> q in fs1
    ensures forall i :: 0 <= i < |names| ==>
              (JoinPath(backupDir, names[i]) in out <==> !OldIn(backupDir, ctime, cutoff)(names[i]))
    ensures forall q :: q in fs && q !in Listed(backupDir, names) ==> q in out
  {
    var p := JoinPath(backupDir, names[0]);
    forall i | 0 <= i < |names|
      ensures JoinPath(backupDir, names[i]) in out <==> !OldIn(backupDir, ctime, cutoff)(names[i])
    {
      if i > 0 {
        assert names[i] == names[1..][i - 1];
      } else if !OldIn(backupDir, ctime, cutoff)(names[0]) {
        assert p !in Listed(backupDir, names[1..]);
      }
    }
    forall q | q in fs && q !in Listed(backupDir, names) ensures q in out {
      assert q != p;
    }
  }

  /** The file system after the first listed entry is looked at. */
  function CleanupNext(fs: Fs, backupDir: string, names: seq<string>, ctime: string -> int, cutoff: int): Fs
    requires |names| > 0
  {
    if OldIn(backupDir, ctime, cutoff)(names[0]) then fs - {JoinPath(backupDir, names[0])} else fs
  }

  /** One step of the sweep over a plain listing: an old entry is removed and
      counted, a young one is kept, and the rest is still a plain listing. */
  lemma {:induction false} CleanupStep(fs: Fs, backupDir: string, names: seq<string>,
                                       ctime: string -> int, cutoff: int, cleaned: nat)
    requires PlainListing(fs, backupDir, names, ctime, cutoff) && |names| > 0
    ensures PlainListing(CleanupNext(fs, backupDir, names, ctime, cutoff), backupDir, names[1..], ctime, cutoff)
    ensures CleanupFrom(fs, backupDir, names, ctime, cutoff, cleaned)
         == CleanupFrom(CleanupNext(fs, backupDir, names, ctime, cutoff), backupDir, names[1..], ctime, cutoff,
                        if OldIn(backupDir, ctime, cutoff)(names[0]) then cleaned + 1 else cleaned)
  {
    CleanupStepRest(fs, backupDir, names, ctime, cutoff);
    CleanupStepFirst(fs, backupDir, names, ctime, cutoff, cleaned);
  }

  /** The entries after the first still form a plain listing once the first
      is handled. */
  lemma {:induction false} CleanupStepRest(fs: Fs, backupDir: string, names: seq<string>, ctime: string -> int, cutoff: int)
    requires PlainListing(fs, backupDir, names, ctime, cutoff) && |names| > 0
    ensures PlainListing(CleanupNext(fs, backupDir, names, ctime, cutoff), backupDir, names[1..], ctime, cutoff)
  {
    var p := JoinPath(backupDir, names[0]);
    forall i | 0 <= i < |names[1..]| ensures JoinPath(backupDir, names[1..][i]) != p {
      assert names[1..][i] == names[i + 1];
    }
  }

  /** The sweep looks at the first entry and goes on with the rest. */
  lemma {:induction false} CleanupStepFirst(fs: Fs, backupDir: string, names: seq<string>,
                         ctime: string -> int, cutoff: int, cleaned: nat)
    requires PlainListing(fs, backupDir, names, ctime, cutoff) && |names| > 0
    ensures CleanupFrom(fs, backupDir, names, ctime, cutoff, cleaned)
         == CleanupFrom(CleanupNext(fs, backupDir, names, ctime, cutoff), backupDir, names[1..], ctime, cutoff,
                        if OldIn(backupDir, ctime, cutoff)(names[0]) then cleaned + 1 else cleaned)
  {
    var p := JoinPath(backupDir, names[0]);
    assert p in fs && !fs[p].Link?;
    PlainExists(fs, p);
  }
}

=== FILE: symlink_util.dfy ===
/** The low-level link helpers (`create_symlink`, `verify_symlink`,
    `find_broken_symlinks`, `repair_symlink`) over the abstract filesystem.
    Every OS error they catch becomes a `false` result; the filesystem
    keeps whatever changes were made before the error. */
module SymlinkUtil {
  import opened Wrappers
  import opened Text
  import opened FileSystem

  /** The filesystem after a call and its result: `Some(true)` for a new
      link, `None` when the right link was already there, `Some(false)` on
      any failure. */
  datatype Created = Created(fs: Fs, result: Option<bool>)

  /** The right link is already in place: the target exists, is a link, and
      resolves to the source. */
  predicate AlreadyLinked(fs: Fs, source: string, target: string) {
    Exists(fs, target) && IsLink(fs, target) && RealPath(fs, target) == source
  }

  /** `create_symlink`. A missing source fails with nothing changed; the
      right link already in place is reported with `None`; any other
      existing target is removed first (a directory cannot be, and fails);
      the parent directory is created when missing; then the link is made,
      which fails if anything (a dangling link) is still at the target. */
  function CreateSymlink(fs: Fs, source: string, target: string): (c: Created)
    ensures !Exists(fs, source) ==> c == Created(fs, Some(false))
    ensures c.result.None? <==> Exists(fs, source) && AlreadyLinked(fs, source, target)
    ensures c.result.None? ==> c.fs == fs
    ensures c.result == Some(true) ==>
              target in c.fs && c.fs[target] == Link(source) && target != Dirname(target) && Exists(c.fs, Dirname(target))
    ensures forall p :: p in fs && p != target ==> p in c.fs && c.fs[p] == fs[p]
    ensures forall p :: p in c.fs && p !in fs ==> p == target || p == Dirname(target)
  {
    if !Exists(fs, source) then Created(fs, Some(false))
    else if AlreadyLinked(fs, source, target) then Created(fs, None)
    else
      var cleared := if Exists(fs, target) then Remove(fs, target) else Ok(fs);
      match cleared
      case Err(_) => Created(fs, Some(false))
      case Ok(fs1) =>
        var dir := Dirname(target);
        var made := if Exists(fs1, dir) then Ok(fs1) else MakeDirs(fs1, dir);
        match made
        case Err(_) => Created(fs1, Some(false))
        case Ok(fs2) =>
          match Symlink(fs2, source, target)
          case Err(_) => Created(fs2, Some(false))
          case Ok(fs3) =>
            assert Exists(fs2, dir);
            ResolveAddAbsent(fs2, dir, MaxHops, target, Link(source));
            Created(fs3, Some(true))
  }

  /** A second identical call after a successful one finds the right link
      and changes nothing, provided the source is not itself a link (whose
      real path would be a different path) and is not the target. */
  lemma {:induction false} CreateSymlinkIdempotent(fs: Fs, source: string, target: string)
    requires source in fs && !IsLink(fs, source) && source != target
    requires CreateSymlink(fs, source, target).result == Some(true)
    ensures CreateSymlink(CreateSymlink(fs, source, target).fs, source, target)
         == Created(CreateSymlink(fs, source, target).fs, None)
  {
    var after := CreateSymlink(fs, source, target).fs;
    assert after[source] == fs[source];
    PlainExists(after, source);
    assert Resolve(after, target, MaxHops) == Resolve(after, source, MaxHops - 1);
  }

  /** A dangling link at the target is not removed (it does not "exist"),
      so making the link fails and the dangling link stays. */
  lemma {:induction false} DanglingTargetFails(fs: Fs, source: string, target: string)
    requires Exists(fs, source) && IsLink(fs, target) && !Exists(fs, target)
    ensures CreateSymlink(fs, source, target).result == Some(false)
    ensures CreateSymlink(fs, source, target).fs[target] == fs[target]
  {
  }

  /** Why a path is not a valid link. */
  datatype LinkProblem = LinkMissing | NotALink | TargetMissing

  datatype Verdict = Valid | Invalid(problem: LinkProblem)

  /** `verify_symlink`: the path must exist, be a link, and its real path
      must exist. */
  function VerifySymlink(fs: Fs, p: string): (v: Verdict)
    ensures !Exists(fs, p) ==> v == Invalid(LinkMissing)
    ensures Exists(fs, p) && !IsLink(fs, p) ==> v == Invalid(NotALink)
  {
    if !Exists(fs, p) then Invalid(LinkMissing)
    else if !IsLink(fs, p) then Invalid(NotALink)
    else if !Exists(fs, RealPath(fs, p)) then Invalid(TargetMissing)
    else Valid
  }

  /** A link is valid exactly when it exists (following links); the third
      check can never fail, because the real path of an existing path
      always exists. */
  lemma {:induction false} VerifyValidIff(fs: Fs, p: string)
    ensures VerifySymlink(fs, p) == Valid <==> Exists(fs, p) && IsLink(fs, p)
    ensures VerifySymlink(fs, p) != Invalid(TargetMissing)
  {
    if Exists(fs, p) {
      RealPathOfExisting(fs, p);
    }
  }

  /** `os.walk(directory)` reaches anything at all: the directory resolves
      to a directory. */
  predicate Walkable(fs: Fs, directory: string) {
    Exists(fs, directory) && fs[RealPath(fs, directory)].Dir?
  }

  /** `find_broken_symlinks`: the links below the directory that
      `verify_symlink` rejects. The walk's order is not modelled. */
  function FindBroken(fs: Fs, directory: string): (r: set<string>)
    ensures !Walkable(fs, directory) ==> r == {}
    ensures forall p :: p in r ==> p in fs && StartsWith(p, directory + "/") && IsLink(fs, p)
  {
    if !Walkable(fs, directory) then {}
    else set p | p in fs && StartsWith(p, directory + "/") && IsLink(fs, p) && VerifySymlink(fs, p) != Valid
  }

  /** The broken links found are exactly the dangling (or looping) links
      below a walkable directory. */
  lemma {:induction false} BrokenAreDangling(fs: Fs, directory: string, p: string)
    ensures p in FindBroken(fs, directory) <==>
              Walkable(fs, directory) && p in fs && StartsWith(p, directory + "/") && IsLink(fs, p) && !Exists(fs, p)
  {
    VerifyValidIff(fs, p);
  }

  /** `repair_symlink`: the link is replaced by a fresh link to `source`, or
      to its own real path when no (or an empty) source is given. A
      non-link or a missing source fails with nothing changed. */
  function RepairSymlink(fs: Fs, p: string, source: Option<string>): (r: (Fs, bool))
    ensures !IsLink(fs, p) ==> r == (fs, false)
    ensures IsLink(fs, p) && !Exists(fs, RepairSource(fs, p, source)) ==> r == (fs, false)
    ensures IsLink(fs, p) && Exists(fs, RepairSource(fs, p, source)) ==>
              var c := CreateSymlink(fs - {p}, RepairSource(fs, p, source), p);
              r == (c.fs, c.result == Some(true))
  {
    if !IsLink(fs, p) then (fs, false)
    else
      var src := RepairSource(fs, p, source);
      if !Exists(fs, src) then (fs, false)
      else
        var c := CreateSymlink(Remove(fs, p).value, src, p);
        (c.fs, c.result == Some(true))
  }

  /** The source a repair links to. */
  function RepairSource(fs: Fs, p: string, source: Option<string>): string {
    if source.None? || source.value == "" then RealPath(fs, p) else source.value
  }

  /** A successful repair leaves a link to the chosen source. */
  lemma {:induction false} RepairedLinksSource(fs: Fs, p: string, source: Option<string>)
    requires RepairSymlink(fs, p, source).1
    ensures RepairSymlink(fs, p, source).0[p] == Link(RepairSource(fs, p, source))
  {
  }

  /** Without a new source a repair can only succeed on a link that was not
      broken: the real path of a dangling link never exists. */
  lemma {:induction false} RepairWithoutSourceNeedsValidLink(fs: Fs, p: string)
    requires RepairSymlink(fs, p, None).1
    ensures Exists(fs, p)
  {
    var q := RealPath(fs, p);
    assert Exists(fs, q);
    if Resolve(fs, p, MaxHops).Some? {
      assert Resolve(fs, q, MaxHops) == Some(q);
    }
  }
}

=== FILE: text.dfy ===
/** String helpers with Python `str` semantics, used throughout the model.
    Strings are `seq<char>`; every helper works on code points, with no
    locale, encoding or Unicode case folding. */
module Text {

  predicate StartsWith(s: string, prefix: string) {
    |prefix| <= |s| && s[..|prefix|] == prefix
  }

  predicate EndsWith(s: string, suffix: string) {
    |suffix| <= |s| && s[|s| - |suffix|..] == suffix
  }

  /** `p in s` for two strings: `p` occurs somewhere in `s`. */
  predicate Contains(s: string, p: string)
    decreases |s|
  {
    StartsWith(s, p) || (|s| > 0 && Contains(s[1..], p))
  }

  lemma {:induction false} StartsWithTrans(s: string, p: string, q: string)
    requires StartsWith(s, p) && StartsWith(p, q)
    ensures StartsWith(s, q)
  {
    assert s[..|q|] == s[..|p|][..|q|];
  }

  lemma {:induction false} StartsWithConcat(p: string, rest: string)
    ensures StartsWith(p + rest, p)
  {
    assert (p + rest)[..|p|] == p;
  }

  /** Python `s.replace(a, b)` for single characters. */
  function ReplaceChar(s: string, a: char, b: char): (r: string)
    ensures |r| == |s|
    ensures forall i :: 0 <= i < |s| ==> r[i] == (if s[i] == a then b else s[i])
  {
    seq(|s|, i requires 0 <= i < |s| => if s[i] == a then b else s[i])
  }

  /** Python `s.replace(pat, repl)`: every non-overlapping occurrence of `pat`,
      scanning left to right, is substituted. An empty `pat` inserts `repl`
      before every character and at the end, as CPython does. */
  function ReplaceAll(s: string, pat: string, repl: string): string
    decreases |s|
  {
    if |pat| == 0 then InsertEverywhere(s, repl)
    else if StartsWith(s, pat) then repl + ReplaceAll(s[|pat|..], pat, repl)
    else if |s| == 0 then ""
    else [s[0]] + ReplaceAll(s[1..], pat, repl)
  }

  function InsertEverywhere(s: string, repl: string): string
    decreases |s|
  {
    if |s| == 0 then repl else repl + [s[0]] + InsertEverywhere(s[1..], repl)
  }

  lemma {:induction false} ReplaceAllAbsent(s: string, pat: string, repl: string)
    requires |pat| > 0 && !Contains(s, pat)
    ensures ReplaceAll(s, pat, repl) == s
    decreases |s|
  {
    if |s| > 0 {
      ReplaceAllAbsent(s[1..], pat, repl);
      assert [s[0]] + s[1..] == s;
    }
  }

  /** Index of the last `c` in `s`, or -1 (JavaScript / Python `rfind`). */
  function LastIndexOf(s: string, c: char): (r: int)
    ensures -1 <= r < |s|
    ensures r >= 0 ==> s[r] == c && forall j :: r < j < |s| ==> s[j] != c
    ensures r == -1 <==> c !in s
    decreases |s|
  {
    if |s| == 0 then -1
    else if s[|s| - 1] == c then |s| - 1
    else LastIndexOf(s[..|s| - 1], c)
  }

  /** Python `s.split(c)` for a one-character separator. */
  function Split(s: string, c: char): (r: seq<string>)
    ensures |r| >= 1
    decreases |s|
  {
    if |s| == 0 then [""]
    else
      var rest := Split(s[1..], c);
      if s[0] == c then [""] + rest else [[s[0]] + rest[0]] + rest[1..]
  }

  /** Python `c.join(parts)`. */
  function Join(parts: seq<string>, c: char): string
    decreases |parts|
  {
    if |parts| == 0 then ""
    else if |parts| == 1 then parts[0]
    else parts[0] + [c] + Join(parts[1..], c)
  }

  lemma {:induction false} SplitPiecesLackSeparator(s: string, c: char)
    ensures forall i :: 0 <= i < |Split(s, c)| ==> c !in Split(s, c)[i]
    decreases |s|
  {
    if |s| > 0 {
      SplitPiecesLackSeparator(s[1..], c);
    }
  }

  /** Joining the pieces of a split gives back the original string. */
  lemma {:induction false} JoinSplit(s: string, c: char)
    ensures Join(Split(s, c), c) == s
    decreases |s|
  {
    if |s| > 0 {
      var rest := Split(s[1..], c);
      JoinSplit(s[1..], c);
      if s[0] == c {
        assert Split(s, c) == [""] + rest;
        assert Join([""] + rest, c) == "" + [c] + Join(rest, c);
      } else {
        var r := Split(s, c);
        assert r == [[s[0]] + rest[0]] + rest[1..];
        if |rest| == 1 {
          assert Join(r, c) == [s[0]] + rest[0];
        } else {
          assert r[1..] == rest[1..];
          assert Join(rest, c) == rest[0] + [c] + Join(rest[1..], c);
          assert Join(r, c) == ([s[0]] + rest[0]) + [c] + Join(rest[1..], c);
        }
      }
    }
  }

  lemma {:induction false} SplitWithoutSeparator(s: string, c: char)
    requires c !in s
    ensures Split(s, c) == [s]
    decreases |s|
  {
    if |s| > 0 {
      SplitWithoutSeparator(s[1..], c);
      assert [s[0]] + s[1..] == s;
    }
  }

  /** Splitting `a + c + b` where `b` has no `c` ends with the piece `b`. */
  lemma {:induction false} SplitAppend(a: string, b: string, c: char)
    requires c !in b
    ensures Split(a + [c] + b, c) == Split(a, c) + [b]
    decreases |a|
  {
    if |a| == 0 {
      SplitWithoutSeparator(b, c);
      assert a + [c] + b == [c] + b;
      assert ([c] + b)[1..] == b;
    } else {
      var s := a + [c] + b;
      assert s[0] == a[0];
      assert s[1..] == a[1..] + [c] + b;
      SplitAppend(a[1..], b, c);
      var ra := Split(a[1..], c);
      if a[0] == c {
        assert Split(s, c) == [""] + (ra + [b]);
      } else {
        assert (ra + [b])[0] == ra[0] && (ra + [b])[1..] == ra[1..] + [b];
        assert Split(s, c) == [[a[0]] + ra[0]] + (ra[1..] + [b]);
      }
    }
  }

  /** Splitting a join of separator-free pieces gives the pieces back. */
  lemma {:induction false} SplitJoin(parts: seq<string>, c: char)
    requires |parts| >= 1
    requires forall i :: 0 <= i < |parts| ==> c !in parts[i]
    ensures Split(Join(parts, c), c) == parts
    decreases |parts|
  {
    if |parts| == 1 {
      SplitWithoutSeparator(parts[0], c);
    } else {
      var init := parts[..|parts| - 1];
      JoinInitLast(parts, c);
      SplitJoin(init, c);
      SplitAppend(Join(init, c), parts[|parts| - 1], c);
      assert init + [parts[|parts| - 1]] == parts;
    }
  }

  lemma {:induction false} JoinInitLast(parts: seq<string>, c: char)
    requires |parts| >= 2
    ensures Join(parts, c) == Join(parts[..|parts| - 1], c) + [c] + parts[|parts| - 1]
    decreases |parts|
  {
    if |parts| == 2 {
      assert parts[..1] == [parts[0]];
    } else {
      JoinInitLast(parts[1..], c);
      assert parts[1..][..|parts| - 2] == parts[..|parts| - 1][1..];
    }
  }

  /** The last piece of a split is the text after the last separator. */
  lemma {:induction false} SplitLastPiece(s: string, c: char)
    ensures var r := Split(s, c); r[|r| - 1] == s[LastIndexOf(s, c) + 1..]
  {
    var k := LastIndexOf(s, c);
    if k < 0 {
      SplitWithoutSeparator(s, c);
    } else {
      SplitAroundLast(s, c);
    }
  }

  /** When `s` contains `c`, its split is the split of the text before the
      last `c`, followed by the text after it. */
  lemma {:induction false} SplitAroundLast(s: string, c: char)
    requires c in s
    ensures var k := LastIndexOf(s, c);
      Split(s, c) == Split(s[..k], c) + [s[k + 1..]]
  {
    var k := LastIndexOf(s, c);
    assert s == s[..k] + [c] + s[k + 1..];
    var tail := s[k + 1..];
    assert c !in tail by {
      forall j | 0 <= j < |tail| ensures tail[j] != c {
        assert tail[j] == s[k + 1 + j];
      }
    }
    SplitAppend(s[..k], s[k + 1..], c);
  }

  /** Python `s.lstrip(c)` / `s.rstrip(c)` for one character. */
  function LStrip(s: string, c: char): (r: string)
    ensures |r| <= |s| && s[|s| - |r|..] == r
    ensures |r| > 0 ==> r[0] != c
    ensures forall i :: 0 <= i < |s| - |r| ==> s[i] == c
    decreases |s|
  {
    if |s| > 0 && s[0] == c then LStrip(s[1..], c) else s
  }

  function RStrip(s: string, c: char): (r: string)
    ensures |r| <= |s| && s[..|r|] == r
    ensures |r| > 0 ==> r[|r| - 1] != c
    ensures forall i :: |r| <= i < |s| ==> s[i] == c
    decreases |s|
  {
    if |s| > 0 && s[|s| - 1] == c then RStrip(s[..|s| - 1], c) else s
  }

  predicate IsSpace(ch: char) {
    ch == ' ' || ch == '\t' || ch == '\n' || ch == '\r' || ch == '\U{000B}' || ch == '\U{000C}'
  }

  /** Python `s.strip()` restricted to ASCII whitespace. */
  function StripSpace(s: string): (r: string)
    ensures |r| <= |s|
    ensures |r| > 0 ==> !IsSpace(r[0]) && !IsSpace(r[|r| - 1])
    decreases |s|
  {
    if |s| > 0 && IsSpace(s[0]) then StripSpace(s[1..])
    else if |s| > 0 && IsSpace(s[|s| - 1]) then StripSpace(s[..|s| - 1])
    else s
  }

  /** Python `str.lower()` restricted to ASCII letters. */
  function LowerChar(ch: char): char {
    if 'A' <= ch <= 'Z' then (ch as int + 32) as char else ch
  }

  function Lower(s: string): (r: string)
    ensures |r| == |s|
    ensures forall i :: 0 <= i < |s| ==> r[i] == LowerChar(s[i])
    decreases |s|
  {
    if |s| == 0 then [] else [LowerChar(s[0])] + Lower(s[1..])
  }
  /** Code-point lexicographic order, the order SQLite's default BINARY
      collation gives UTF-8 text. */
  predicate StrLe(a: string, b: string)
    decreases |a|
  {
    |a| == 0 || (|b| > 0 && (a[0] < b[0] || (a[0] == b[0] && StrLe(a[1..], b[1..]))))
  }

  lemma {:induction false} StrLeRefl(a: string)
    ensures StrLe(a, a)
    decreases |a|
  {
    if |a| > 0 {
      StrLeRefl(a[1..]);
    }
  }

  lemma {:induction false} StrLeTotal(a: string, b: string)
    ensures StrLe(a, b) || StrLe(b, a)
    decreases |a|
  {
    if |a| > 0 && |b| > 0 && a[0] == b[0] {
      StrLeTotal(a[1..], b[1..]);
    }
  }

  lemma {:induction false} StrLeTrans(a: string, b: string, c: string)
    requires StrLe(a, b) && StrLe(b, c)
    ensures StrLe(a, c)
    decreases |a|
  {
    if |a| > 0 && a[0] == b[0] && b[0] == c[0] {
      StrLeTrans(a[1..], b[1..], c[1..]);
    }
  }

  lemma {:induction false} StrLeAntisymmetric(a: string, b: string)
    requires StrLe(a, b) && StrLe(b, a)
    ensures a == b
    decreases |a|
  {
    if |a| > 0 {
      StrLeAntisymmetric(a[1..], b[1..]);
      assert a == [a[0]] + a[1..] && b == [b[0]] + b[1..];
    }
  }
}

=== FILE: web_path.dfy ===
/** The web client's path helpers (`src/utils/path.ts`): validation,
    normalisation, parent and name, joining, containment and relative
    paths, all on '/'-separated text. */
module WebPath {
  import opened Text
  import opened Seqs

  /** No two slashes in a row. */
  predicate NoDoubleSlash(s: string) {
    forall i: nat :: i + 1 < |s| ==> !DoubleAt(s, i)
  }

  /** Slashes at `i` and `i + 1`. */
  predicate DoubleAt(s: string, i: nat)
    requires i + 1 < |s|
  {
    s[i] == '/' && s[i + 1] == '/'
  }

  /** Some character is not a slash. */
  predicate HasName(s: string) {
    exists i :: 0 <= i < |s| && s[i] != '/'
  }

  /** The shape every result of `normalizePath` but one has: the root, or a
      '/'-led path without doubled or trailing slashes. */
  predicate Normal(s: string) {
    s == "/" || (|s| >= 2 && s[0] == '/' && s[|s| - 1] != '/' && NoDoubleSlash(s))
  }

  /** A path has no doubled slash when its first two characters are not
      both slashes and its tail has none. */
  lemma {:induction false} DoubleSlashStep(s: string)
    requires |s| > 0
    ensures NoDoubleSlash(s) <==> (|s| < 2 || !DoubleAt(s, 0)) && NoDoubleSlash(s[1..])
  {
    forall j: nat | j + 2 < |s|
      ensures DoubleAt(s[1..], j) <==> DoubleAt(s, j + 1)
    {
      assert s[1..][j] == s[j + 1] && s[1..][j + 1] == s[j + 2];
    }
    if (|s| < 2 || !DoubleAt(s, 0)) && NoDoubleSlash(s[1..]) {
      forall i: nat | i + 1 < |s|
        ensures !DoubleAt(s, i)
      {
        if i > 0 {
          assert !DoubleAt(s[1..], i - 1);
        }
      }
    }
  }

  /** `s.includes('//')` is a doubled slash somewhere. */
  lemma {:induction false} ContainsDoubleSlash(s: string)
    ensures Contains(s, "//") <==> !NoDoubleSlash(s)
    decreases |s|
  {
    if |s| > 0 {
      ContainsDoubleSlash(s[1..]);
      DoubleSlashStep(s);
      if |s| >= 2 {
        assert StartsWith(s, "//") <==> s[0] == '/' && s[1] == '/' by {
          assert StartsWith(s, "//") <==> s[..2] == "//";
          assert s[..2] == [s[0], s[1]];
        }
      }
    }
  }

  /** The characters the validity pattern rejects: `<>:"|?*` and the
      control characters U+0000 to U+001F. */
  predicate BadChar(ch: char) {
    ch == '<' || ch == '>' || ch == ':' || ch == '"' || ch == '|' || ch == '?' || ch == '*' || ch < ' '
  }

  /** `isValidPath`: non-empty, '/'-led, no `..`, no `//`, no rejected
      character. */
  function IsValidPath(path: string): (r: bool)
    ensures r <==> |path| > 0 && path[0] == '/' && !Contains(path, "..") && NoDoubleSlash(path)
                   && forall i :: 0 <= i < |path| ==> !BadChar(path[i])
  {
    ContainsDoubleSlash(path);
    if path == "" then false
    else if !StartsWith(path, "/") then false
    else if Contains(path, "..") || Contains(path, "//") then false
    else forall i :: 0 <= i < |path| ==> !BadChar(path[i])
  }

  /** `s.replace(/\/+/g, '/')`: each run of slashes becomes one. */
  function Collapse(s: string): (r: string)
    ensures |r| <= |s|
    ensures |s| > 0 ==> |r| > 0 && r[0] == s[0] && r[|r| - 1] == s[|s| - 1]
    ensures NoDoubleSlash(r)
    ensures NoDoubleSlash(s) ==> r == s
    decreases |s|
  {
    if |s| <= 1 then s
    else if s[0] == '/' && s[1] == '/' then
      assert DoubleAt(s, 0);
      Collapse(s[1..])
    else
      var rest := Collapse(s[1..]);
      var r := [s[0]] + rest;
      assert NoDoubleSlash(r) && (NoDoubleSlash(s) ==> NoDoubleSlash(s[1..])) by {
        DoubleSlashStep(s);
        assert r[1..] == rest;
        DoubleSlashStep(r);
      }
      r
  }

  /** `normalizePath`: the empty path is the root; otherwise a leading '/'
      is ensured, trailing slashes are dropped (unless the path is exactly
      `/`), and runs of slashes are collapsed. */
  function NormalizePath(path: string): (r: string)
    ensures path == "" ==> r == "/"
    ensures HasName(path) ==> Normal(r) && r != "/"
    ensures path != "" && !HasName(path) ==> r == (if path == "/" then "/" else "")
  {
    if path == "" then "/"
    else
      var p1 := if StartsWith(path, "/") then path else "/" + path;
      var p2 := if p1 == "/" then p1 else RStrip(p1, '/');
      assert HasName(path) ==> |p2| > 0 && p2[0] == '/' by {
        if HasName(path) {
          var i :| 0 <= i < |path| && path[i] != '/';
          assert p1 != "/" && HasName(p1) by {
            if StartsWith(path, "/") {
              assert p1[i] != '/';
            } else {
              assert p1[i + 1] == path[i];
            }
          }
          var j :| 0 <= j < |p1| && p1[j] != '/';
          assert !(|p2| <= j);
        }
      }
      assert path != "/" && !HasName(path) ==> p2 == "" by {
        if path != "/" && !HasName(path) {
          assert p1 == path;
        }
      }
      Collapse(p2)
  }

  /** The normal paths are exactly the ones normalisation leaves alone. */
  lemma {:induction false} NormalFixpoint(x: string)
    ensures NormalizePath(x) == x <==> Normal(x)
  {
    if Normal(x) && x != "/" {
      assert StartsWith(x, "/");
      assert RStrip(x, '/') == x;
      assert HasName(x) by {
        assert x[|x| - 1] != '/';
      }
    }
  }

  /** Normalising a path that holds a name, or the root, or nothing, a second
      time changes nothing. */
  lemma {:induction false} NormalizeIdempotent(p: string)
    requires HasName(p) || |p| <= 1
    ensures NormalizePath(NormalizePath(p)) == NormalizePath(p)
  {
    if p != "" && !HasName(p) {
      assert p == "/" by {
        assert p[0] == '/';
        assert p == [p[0]];
      }
    }
    NormalFixpoint(NormalizePath(p));
  }

  /** A run of slashes normalises to the empty string, which normalises to
      the root: normalisation is not idempotent there. */
  lemma SlashesNotIdempotent()
    ensures NormalizePath("//") == ""
    ensures NormalizePath(NormalizePath("//")) == "/"
  {
    assert !HasName("//");
  }

  /** A valid path without a trailing slash is already normal. */
  lemma {:induction false} ValidIsNormal(path: string)
    requires IsValidPath(path) && (path == "/" || path[|path| - 1] != '/')
    ensures NormalizePath(path) == path
  {
    NormalFixpoint(path);
  }

  /** Where the last '/' of a normal path other than the root sits: at the
      front, or after a normal parent. */
  lemma {:induction false} LastSlashOfNormal(n: string)
    requires Normal(n) && n != "/"
    ensures var k := LastIndexOf(n, '/');
      0 <= k && k + 1 < |n| && n[k..] == "/" + n[k + 1..] && '/' !in n[k + 1..]
      && (k == 0 ==> '/' !in n[1..])
      && (k > 0 ==> Normal(n[..k]) && n[..k] != "/" && n[..k + 1] == n[..k] + "/")
  {
    var k := LastIndexOf(n, '/');
    LastSlashSplits(n);
    if k > 0 {
      InnerSlash(n, k);
    } else {
      assert k == 0;
    }
  }

  /** An inner '/' of a normal path ends a normal parent. */
  lemma {:induction false} InnerSlash(n: string, k: nat)
    requires Normal(n) && 0 < k < |n| && n[k] == '/'
    ensures Normal(n[..k]) && n[..k] != "/" && n[..k + 1] == n[..k] + "/"
  {
    HeadOfNormal(n, k);
    assert n[..k + 1] == n[..k] + [n[k]];
  }

  /** A '/'-led text that does not end in '/' splits at its last '/' into a
      slash and a slash-free rest. */
  lemma {:induction false} LastSlashSplits(n: string)
    requires |n| > 0 && n[0] == '/' && n[|n| - 1] != '/'
    ensures var k := LastIndexOf(n, '/');
      0 <= k && k + 1 < |n| && n[k..] == "/" + n[k + 1..] && '/' !in n[k + 1..]
  {
    var k := LastIndexOf(n, '/');
    assert n[0] in n;
    assert 0 <= k < |n| - 1 && n[k] == '/';
    var rest := n[k + 1..];
    forall j | 0 <= j < |rest|
      ensures rest[j] != '/'
    {
      assert rest[j] == n[k + 1 + j];
    }
    assert n[k..] == [n[k]] + rest by {
      assert n[k..][1..] == rest;
    }
  }

  /** The text after the last '/' of a normal path other than the root is a
      name that ends the path. */
  lemma {:induction false} NameOfNormal(n: string)
    requires Normal(n) && n != "/"
    ensures var k := LastIndexOf(n, '/');
      0 <= k < |n| && n[k + 1..] != "" && '/' !in n[k + 1..] && EndsWith(n, "/" + n[k + 1..])
  {
    LastSlashOfNormal(n);
  }

  /** The text before an inner '/' of a normal path is normal. */
  lemma {:induction false} HeadOfNormal(n: string, k: nat)
    requires Normal(n) && 0 < k < |n| && n[k] == '/'
    ensures Normal(n[..k]) && n[..k] != "/"
  {
    var head := n[..k];
    assert !DoubleAt(n, k - 1);
    assert head[0] == '/';
    assert head[|head| - 1] != '/';
    forall i | 0 <= i < |head| - 1
      ensures !DoubleAt(head, i)
    {
      assert head[i] == n[i] && head[i + 1] == n[i + 1];
      assert !DoubleAt(n, i);
    }
  }

  /** `getParentPath`: the text before the last '/' of the normalised path,
      or the root when that is empty; the root for `''` and `/`. */
  function GetParentPath(path: string): (r: string)
    ensures path == "" || path == "/" ==> r == "/"
    ensures HasName(path) ==> Normal(r)
    ensures HasName(path) && r != "/" ==>
      var n := NormalizePath(path);
      StartsWith(n, r + "/") && '/' !in n[|r| + 1..]
    ensures HasName(path) && r == "/" ==> '/' !in NormalizePath(path)[1..]
  {
    if path == "" || path == "/" then "/" else BeforeLastSlash(NormalizePath(path))
  }

  /** The text before the last '/' of `n`, or the root when that is empty. */
  function BeforeLastSlash(n: string): (r: string)
    ensures Normal(n) && n != "/" ==> Normal(r)
    ensures Normal(n) && n != "/" && r != "/" ==> StartsWith(n, r + "/") && '/' !in n[|r| + 1..]
    ensures Normal(n) && n != "/" && r == "/" ==> '/' !in n[1..]
  {
    var k := LastIndexOf(n, '/');
    var head := if k < 0 then "" else n[..k];
    assert Normal(n) && n != "/" ==>
      (head == "" ==> '/' !in n[1..])
      && (head != "" ==> Normal(head) && head != "/" && StartsWith(n, head + "/") && '/' !in n[|head| + 1..]) by {
      if Normal(n) && n != "/" {
        LastSlashOfNormal(n);
      }
    }
    if head == "" then "/" else head
  }

  /** `getPathName`: the text after the last '/' of the normalised path;
      `/` for `''` and `/`. */
  function GetPathName(path: string): (r: string)
    ensures path == "" || path == "/" ==> r == "/"
    ensures HasName(path) ==> r != "" && '/' !in r && EndsWith(NormalizePath(path), "/" + r)
  {
    if path == "" || path == "/" then "/" else AfterLastSlash(NormalizePath(path))
  }

  /** The text after the last '/' of `n`. */
  function AfterLastSlash(n: string): (r: string)
    ensures Normal(n) && n != "/" ==> r != "" && '/' !in r && EndsWith(n, "/" + r)
  {
    var k := LastIndexOf(n, '/');
    assert Normal(n) && n != "/" ==> 0 <= k < |n| && n[k + 1..] != "" && '/' !in n[k + 1..] && EndsWith(n, "/" + n[k + 1..]) by {
      if Normal(n) && n != "/" {
        NameOfNormal(n);
      }
    }
    n[k + 1..]
  }

  /** `joinPath(...paths)`: the parts joined with '/' and normalised. */
  function JoinPath(parts: seq<string>): (r: string)
    ensures r == "" || Normal(r)
  {
    NormalizePath(Join(parts, '/'))
  }

  lemma {:induction false} JoinTwo(a: string, b: string)
    ensures JoinPath([a, b]) == NormalizePath(a + "/" + b)
  {
    assert Join([a, b], '/') == a + ['/'] + Join([b], '/');
  }

  /** A normal path with one more '/' in front normalises back to itself. */
  lemma {:induction false} NormalizeUnderRoot(x: string)
    requires Normal(x) && x != "/"
    ensures NormalizePath("/" + x) == x
  {
    var s := "/" + x;
    assert StartsWith(s, "/") && s != "/";
    assert HasName(s) by {
      assert s[|s| - 1] == x[|x| - 1];
    }
    assert RStrip(s, '/') == s by {
      assert s[|s| - 1] == x[|x| - 1];
    }
    assert Collapse(s) == Collapse(x) by {
      assert s[0] == '/' && s[1] == '/' && s[1..] == x;
    }
  }

  /** A name without slashes added below a normal path keeps it normal. */
  lemma {:induction false} NormalExtend(p: string, name: string)
    requires Normal(p) && name != "" && '/' !in name
    ensures var c := (if p == "/" then "" else p) + "/" + name;
      Normal(c) && c != "/"
  {
    var q := if p == "/" then "" else p;
    var c := q + "/" + name;
    assert c[|c| - 1] == name[|name| - 1];
    forall i | 0 <= i < |c| - 1
      ensures !DoubleAt(c, i)
    {
      if i < |q| - 1 {
        assert c[i] == q[i] && c[i + 1] == q[i + 1];
        assert !DoubleAt(q, i);
      } else if i == |q| - 1 {
        assert c[i] == q[|q| - 1];
      } else {
        assert c[i + 1] == name[i - |q|];
      }
    }
  }

  /** Joining a path's parent and name gives back the normalised path. */
  lemma {:induction false} ParentNameRoundTrip(path: string)
    requires HasName(path)
    ensures JoinPath([GetParentPath(path), GetPathName(path)]) == NormalizePath(path)
  {
    var n := NormalizePath(path);
    var parent := GetParentPath(path);
    var name := GetPathName(path);
    assert parent == BeforeLastSlash(n) && name == AfterLastSlash(n);
    JoinTwo(parent, name);
    ParentNameOfNormal(n);
    if parent == "/" {
      NormalizeUnderRoot(n);
    } else {
      NormalFixpoint(n);
    }
  }

  /** The parent and name of a normal path put back together. */
  lemma {:induction false} ParentNameOfNormal(n: string)
    requires Normal(n) && n != "/"
    ensures var parent := BeforeLastSlash(n);
      parent + "/" + AfterLastSlash(n) == (if parent == "/" then "/" + n else n)
  {
    LastSlashOfNormal(n);
  }

  /** `isSubPath(parent, child)`: the root holds everything; otherwise the
      normalised child must start with the normalised parent and a '/'. */
  function IsSubPath(parent: string, child: string): (r: bool)
    ensures NormalizePath(parent) == "/" ==> r
    ensures NormalizePath(parent) != "/" && NormalizePath(child) == "/" ==> !r
    ensures NormalizePath(parent) != "/" && NormalizePath(child) != "/" ==>
      (r <==> |NormalizePath(child)| > |NormalizePath(parent)|
              && NormalizePath(child) == NormalizePath(parent) + "/" + NormalizePath(child)[|NormalizePath(parent)| + 1..])
  {
    Below(NormalizePath(parent), NormalizePath(child))
  }

  /** The test `isSubPath` makes once both paths are normalised. */
  function Below(np: string, nc: string): (r: bool)
    ensures np == "/" ==> r
    ensures np != "/" && nc == "/" ==> !r
    ensures np != "/" && nc != "/" ==> (r <==> |nc| > |np| && nc == np + "/" + nc[|np| + 1..])
  {
    if np == "/" then true
    else if nc == "/" then false
    else
      assert StartsWith(nc, np + "/") ==> nc == np + "/" + nc[|np| + 1..] by {
        if StartsWith(nc, np + "/") {
          assert nc[..|np| + 1] == np + "/";
        }
      }
      StartsWith(nc, np + "/")
  }

  /** No path other than the root lies below itself. */
  lemma {:induction false} NotOwnSubPath(p: string)
    requires NormalizePath(p) != "/"
    ensures !IsSubPath(p, p)
  {
  }

  /** A name joined onto a normal path lies below it. */
  lemma {:induction false} JoinedIsSubPath(p: string, name: string)
    requires Normal(p) && name != "" && '/' !in name
    ensures IsSubPath(p, JoinPath([p, name]))
  {
    JoinTwo(p, name);
    NormalFixpoint(p);
    if p != "/" {
      var c := p + "/" + name;
      NormalExtend(p, name);
      NormalFixpoint(c);
      assert c[|p| + 1..] == name;
    }
  }

  function NonEmpty(): string -> bool {
    s => s != ""
  }

  /** `p.split('/').filter(Boolean)`: the names along a path. */
  function Segments(p: string): (r: seq<string>)
    ensures forall i :: 0 <= i < |r| ==> r[i] != "" && '/' !in r[i]
  {
    var parts := Split(p, '/');
    var kept := Filter(parts, NonEmpty());
    SplitPiecesLackSeparator(p, '/');
    assert forall i :: 0 <= i < |kept| ==> kept[i] in kept;
    assert forall x :: x in parts ==> '/' !in x by {
      forall x | x in parts ensures '/' !in x {
        var i :| 0 <= i < |parts| && parts[i] == x;
      }
    }
    kept
  }

  /** How many leading segments two segment lists share. */
  function CommonPrefix(a: seq<string>, b: seq<string>): (c: nat)
    ensures c <= |a| && c <= |b|
    ensures a[..c] == b[..c]
    ensures c < |a| && c < |b| ==> a[c] != b[c]
    decreases |a|
  {
    if |a| == 0 || |b| == 0 || a[0] != b[0] then 0
    else
      var c := 1 + CommonPrefix(a[1..], b[1..]);
      assert a[..c] == [a[0]] + a[1..][..c - 1];
      assert b[..c] == [b[0]] + b[1..][..c - 1];
      c
  }

  function Ups(k: nat): (r: seq<string>)
    ensures |r| == k && forall i :: 0 <= i < k ==> r[i] == ".."
  {
    seq(k, _ => "..")
  }

  /** JavaScript `s.substring(start)` for a non-negative start: past the end
      it is empty. */
  function Substring(s: string, start: nat): (r: string)
    ensures start <= |s| ==> r == s[start..]
    ensures start > |s| ==> r == ""
  {
    if start <= |s| then s[start..] else ""
  }

  /** `getRelativePath(from, to)`: `.` for the same place; below the root,
      the path without its leading '/'; below `from`, the rest after `from`
      and its '/'; otherwise one `..` per segment of `from` past the shared
      ones, then the remaining segments of `to`. */
  function GetRelativePath(from: string, to: string): (r: string)
    ensures NormalizePath(from) == NormalizePath(to) ==> r == "."
    ensures NormalizePath(from) != NormalizePath(to) && NormalizePath(from) == "/" ==>
      (NormalizePath(to) == "" && r == "") || NormalizePath(to) == "/" + r
    ensures NormalizePath(from) != NormalizePath(to) && NormalizePath(from) != "/"
            && IsSubPath(NormalizePath(from), NormalizePath(to)) ==>
      NormalizePath(to) == NormalizePath(from) + "/" + r
    ensures NormalizePath(from) != NormalizePath(to) && NormalizePath(from) != "/"
            && !IsSubPath(NormalizePath(from), NormalizePath(to)) ==>
      ClimbsTo(Segments(NormalizePath(from)), Segments(NormalizePath(to)), r)
  {
    var nf := NormalizePath(from);
    var nt := NormalizePath(to);
    if nf == nt then "."
    else if nf == "/" then
      assert nt != "" ==> nt[0] == '/';
      Substring(nt, 1)
    else if IsSubPath(nf, nt) then
      assert nt == nf + "/" + Substring(nt, |nf| + 1) by {
        RelativeBelow(from, to);
      }
      Substring(nt, |nf| + 1)
    else
      var fp := Segments(nf);
      var tp := Segments(nt);
      Climb(fp, tp)
  }

  /** `r` climbs from the segments `fp` to the segments `tp`: its pieces
      between '/'s are one `..` per segment of `fp` past the ones the two
      share, then the segments of `tp` past them; it is empty when there are
      none. */
  predicate ClimbsTo(fp: seq<string>, tp: seq<string>, r: string) {
    var k := CommonPrefix(fp, tp);
    (|fp| == k && |tp| == k ==> r == "")
    && (|fp| > k || |tp| > k ==> Split(r, '/') == Ups(|fp| - k) + tp[k..])
  }

  /** The climbing case: one `..` per segment of `fp` past the shared ones,
      then the rest of `tp`, joined with '/'. */
  function Climb(fp: seq<string>, tp: seq<string>): (r: string)
    requires forall i :: 0 <= i < |tp| ==> '/' !in tp[i]
    ensures ClimbsTo(fp, tp, r)
  {
    var c := CommonPrefix(fp, tp);
    var parts := Ups(|fp| - c) + tp[c..];
    assert |parts| > 0 ==> Split(Join(parts, '/'), '/') == parts by {
      if |parts| > 0 {
        forall i | 0 <= i < |parts| ensures '/' !in parts[i] {
          if i >= |fp| - c {
            assert parts[i] == tp[c + i - (|fp| - c)];
          }
        }
        SplitJoin(parts, '/');
      }
    }
    Join(parts, '/')
  }

  /** Below a `from` other than the root, the normalised `to` is the
      normalised `from`, a '/', and the rest. */
  lemma {:induction false} RelativeBelow(from: string, to: string)
    requires NormalizePath(from) != NormalizePath(to) && NormalizePath(from) != "/"
    requires IsSubPath(NormalizePath(from), NormalizePath(to))
    ensures var nf := NormalizePath(from);
      var nt := NormalizePath(to);
      nt == nf + "/" + Substring(nt, |nf| + 1)
  {
    var nf := NormalizePath(from);
    var nt := NormalizePath(to);
    if nf == "" {
      // `from` was all slashes, and `Normalize("")` is the root
      assert nt[0] == '/';
    } else {
      assert HasName(from);
      NormalFixpoint(nf);
      assert NormalizePath(nt) != "/";
      assert HasName(to) || |to| <= 1 by {
        if !HasName(to) && |to| > 1 {
          assert false;
        }
      }
      NormalizeIdempotent(to);
      assert |nt| > |nf| && nt == nf + "/" + nt[|nf| + 1..];
    }
  }

  /** The relative path from any `from` to a normal `to` below it leads
      back to `to` when joined onto `from`. */
  lemma {:induction false} JoinRelativeRoundTrip(from: string, to: string)
    requires Normal(to) && NormalizePath(from) != to
    requires IsSubPath(from, to)
    ensures JoinPath([from, GetRelativePath(from, to)]) == to
  {
    NormalFixpoint(to);
    var r := GetRelativePath(from, to);
    JoinTwo(from, r);
    if HasName(from) {
      var nf := NormalizePath(from);
      NormalFixpoint(nf);
      assert to == nf + "/" + r;
      assert |r| > 0 && r[|r| - 1] == to[|to| - 1];
      NamedThenNormal(from, nf, r);
    } else {
      // `from` is empty or only slashes: its normal form is `/` or empty
      if NormalizePath(from) == "" {
        RelativeBelow(from, to);
      }
      assert to == "/" + r && to != "/";
      Assoc(from, "/", r);
      SlashesThenNormal(from, to);
    }
  }

  /** Only slashes. */
  predicate Slashes(s: string) {
    forall i :: 0 <= i < |s| ==> s[i] == '/'
  }

  lemma {:induction false} Assoc(a: string, b: string, c: string)
    ensures a + (b + c) == a + b + c
  {
  }

  /** Slashes followed by a normal path other than the root normalise to
      that path. */
  lemma {:induction false} SlashesThenNormal(s: string, x: string)
    requires !HasName(s) && Normal(x) && x != "/"
    ensures NormalizePath(s + x) == x
  {
    assert (s + x)[|s + x| - 1] == x[|x| - 1];
    NormalizeEndsInName(s + x);
    Assoc("/", s, x);
    assert Slashes("/" + s) by {
      forall i | 0 <= i < |"/" + s| ensures ("/" + s)[i] == '/' {
        if i > 0 {
          assert ("/" + s)[i] == s[i - 1];
        }
      }
    }
    CollapseSlashRun("/" + s, x);
  }

  /** `normalizePath`'s first step: a leading '/' is ensured. */
  function Lead(x: string): (r: string)
    ensures |r| > 0 && r[0] == '/'
    ensures |x| > 0 ==> r[|r| - 1] == x[|x| - 1]
  {
    if |x| > 0 && x[0] == '/' then x else "/" + x
  }

  /** A path holding a name normalises to the collapse of its '/'-led form
      without trailing slashes. */
  lemma {:induction false} NormalizeNamed(x: string)
    requires HasName(x)
    ensures NormalizePath(x) == Collapse(RStrip(Lead(x), '/'))
  {
    var i :| 0 <= i < |x| && x[i] != '/';
    assert StartsWith(x, "/") <==> x[0] == '/';
    assert Lead(x) != "/" by {
      if x[0] == '/' {
        assert Lead(x)[i] != '/';
      } else {
        assert Lead(x)[i + 1] == x[i];
      }
    }
  }

  /** A '/' in front of a text and its '/'-led form collapse alike, with
      anything after them. */
  lemma {:induction false} LeadCollapse(x: string, w: string)
    ensures Collapse("/" + (x + w)) == Collapse(Lead(x) + w)
  {
    if |x| > 0 && x[0] == '/' {
      assert (x + w)[0] == '/';
      CollapseSlashRun("/", x + w);
    } else {
      Assoc("/", x, w);
    }
  }

  /** A text is its right-stripped form followed by slashes. */
  lemma {:induction false} RStripSplit(p: string)
    ensures var q := RStrip(p, '/'); p == q + p[|q|..] && Slashes(p[|q|..])
  {
    var q := RStrip(p, '/');
    assert p[..|q|] == q;
  }

  /** A path holding a name, a '/' and a relative rest normalise as its
      normal form `nf` followed by the '/' and the rest. */
  lemma {:induction false} NamedThenNormal(from: string, nf: string, r: string)
    requires HasName(from) && nf == NormalizePath(from)
    requires |r| > 0 && r[|r| - 1] != '/' && NoDoubleSlash(nf + "/" + r)
    ensures NormalizePath(from + "/" + r) == nf + "/" + r
  {
    var w := "/" + r;
    Assoc(from, "/", r);
    Assoc(nf, "/", r);
    assert w[|w| - 1] == r[|r| - 1];
    LedByName(from, w);
    NormalizeNamed(from);
    CollapseThroughStrip(Lead(from), nf, w);
  }

  /** A path followed by a '/'-led text ending in a name normalises to the
      collapse of its '/'-led form and that text. */
  lemma {:induction false} LedByName(from: string, w: string)
    requires |w| > 1 && w[0] == '/' && w[|w| - 1] != '/'
    ensures NormalizePath(from + w) == Collapse(Lead(from) + w)
  {
    assert (from + w)[|from + w| - 1] == w[|w| - 1];
    NormalizeEndsInName(from + w);
    LeadCollapse(from, w);
  }

  /** Trailing slashes stripped before a collapse are restored by a
      '/'-led continuation. */
  lemma {:induction false} CollapseThroughStrip(p: string, nf: string, w: string)
    requires nf == Collapse(RStrip(p, '/')) && |w| > 0 && w[0] == '/'
    ensures Collapse(p + w) == Collapse(nf + w)
  {
    var q := RStrip(p, '/');
    var tail := p[|q|..];
    RStripSplit(p);
    Assoc(q, tail, w);
    CollapseLeft(q, tail + w);
    CollapseRight(nf, tail + w);
    CollapseSlashRun(tail, w);
    CollapseRight(nf, w);
  }

  /** A text that ends in a name normalises to its collapse behind a '/'. */
  lemma {:induction false} NormalizeEndsInName(x: string)
    requires |x| > 0 && x[|x| - 1] != '/'
    ensures NormalizePath(x) == Collapse("/" + x)
  {
    assert HasName(x);
    NormalizeNamed(x);
    assert RStrip(Lead(x), '/') == Lead(x);
    LeadCollapse(x, "");
    assert x + "" == x && Lead(x) + "" == Lead(x);
  }

  /** A run of slashes before a '/'-led text collapses into it. */
  lemma {:induction false} CollapseSlashRun(s: string, x: string)
    requires Slashes(s) && |x| > 0 && x[0] == '/'
    ensures Collapse(s + x) == Collapse(x)
    decreases |s|
  {
    if |s| == 0 {
      assert s + x == x;
    } else {
      var t := s + x;
      assert t[1..] == s[1..] + x;
      assert t[0] == '/' && t[1] == '/' by {
        if |s| > 1 {
          assert t[1] == s[1];
        }
      }
      assert Slashes(s[1..]) by {
        forall i | 0 <= i < |s[1..]| ensures s[1..][i] == '/' {
          assert s[1..][i] == s[i + 1];
        }
      }
      CollapseSlashRun(s[1..], x);
    }
  }

  /** Collapsing a prefix first collapses the same runs. */
  lemma {:induction false} CollapseLeft(u: string, w: string)
    ensures Collapse(u + w) == Collapse(Collapse(u) + w)
    decreases |u|
  {
    if |u| >= 2 {
      var t := u + w;
      assert t[0] == u[0] && t[1] == u[1] && t[1..] == u[1..] + w;
      CollapseLeft(u[1..], w);
      if u[0] == '/' && u[1] == '/' {
        assert Collapse(u) == Collapse(u[1..]);
        assert Collapse(t) == Collapse(u[1..] + w);
      } else {
        CollapseLeftKeep(u, w);
      }
    }
  }

  /** `CollapseLeft`'s step when `u` does not open with two slashes. */
  lemma {:induction false} CollapseLeftKeep(u: string, w: string)
    requires |u| >= 2 && !(u[0] == '/' && u[1] == '/')
    requires Collapse(u[1..] + w) == Collapse(Collapse(u[1..]) + w)
    ensures Collapse(u + w) == Collapse(Collapse(u) + w)
  {
    KeepBeforeRaw(u, w);
    KeepBeforeCollapsed(u, w);
  }

  lemma {:induction false} KeepBeforeRaw(u: string, w: string)
    requires |u| >= 2 && !(u[0] == '/' && u[1] == '/')
    ensures Collapse(u + w) == [u[0]] + Collapse(u[1..] + w)
  {
    assert u + w == [u[0]] + (u[1..] + w);
    CollapseCons(u[0], u[1..] + w);
  }

  lemma {:induction false} KeepBeforeCollapsed(u: string, w: string)
    requires |u| >= 2 && !(u[0] == '/' && u[1] == '/')
    ensures Collapse(Collapse(u) + w) == [u[0]] + Collapse(Collapse(u[1..]) + w)
  {
    var cu := Collapse(u[1..]);
    assert u == [u[0]] + u[1..];
    CollapseCons(u[0], u[1..]);
    assert Collapse(u) + w == [u[0]] + (cu + w);
    assert (cu + w)[0] == u[1];
    CollapseCons(u[0], cu + w);
  }

  /** A character that does not start a double slash is kept in front of
      the collapse of the rest. */
  lemma {:induction false} CollapseCons(c: char, s: string)
    requires |s| > 0 && !(c == '/' && s[0] == '/')
    ensures Collapse([c] + s) == [c] + Collapse(s)
  {
    assert ([c] + s)[1..] == s;
  }

  /** Collapsing a suffix first collapses the same runs. */
  lemma {:induction false} CollapseRight(u: string, w: string)
    ensures Collapse(u + w) == Collapse(u + Collapse(w))
    decreases |u|
  {
    var cw := Collapse(w);
    if |u| == 0 {
      assert u + w == w && u + cw == cw;
    } else if |u| == 1 {
      if |w| > 0 {
        var t := u + w;
        var v := u + cw;
        assert t[0] == u[0] && t[1] == w[0] && t[1..] == w;
        assert v[0] == u[0] && v[1] == cw[0] && v[1..] == cw;
      } else {
        assert u + w == u + cw;
      }
    } else {
      var t := u + w;
      var v := u + cw;
      assert t[0] == u[0] && t[1] == u[1] && t[1..] == u[1..] + w;
      assert v[0] == u[0] && v[1] == u[1] && v[1..] == u[1..] + cw;
      CollapseRight(u[1..], w);
    }
  }

  /** Between siblings the relative path climbs once and descends once. */
  lemma SiblingRelative()
    ensures GetRelativePath("/a/b", "/a/c") == "../c"
  {
    TwoLevelPath('b');
    TwoLevelPath('c');
    assert !IsSubPath("/a/b", "/a/c");
    TwoLevelSegments('b');
    TwoLevelSegments('c');
    SiblingSteps();
  }

  lemma SiblingSteps()
    ensures var fp := Segments("/a/b");
      var tp := Segments("/a/c");
      var c := CommonPrefix(fp, tp);
      Join(Ups(|fp| - c) + tp[c..], '/') == "../c"
  {
    TwoLevelSegments('b');
    TwoLevelSegments('c');
    var fp := Segments("/a/b");
    var tp := Segments("/a/c");
    assert CommonPrefix(fp, tp) == 1 by {
      assert fp[1..] == ["b"] && tp[1..] == ["c"];
    }
    assert Ups(|fp| - 1) + tp[1..] == ["..", "c"];
    UpThenDown();
  }

  lemma UpThenDown()
    ensures Join(["..", "c"], '/') == "../c"
  {
    var parts := ["..", "c"];
    assert parts[1..] == ["c"];
    assert Join(parts[1..], '/') == "c";
    assert parts[0] + ['/'] + "c" == "../c";
  }

  /** `/a/x` for a name character `x` is normal. */
  lemma {:induction false} TwoLevelPath(x: char)
    requires x != '/'
    ensures NormalizePath(['/', 'a', '/', x]) == ['/', 'a', '/', x]
  {
    var p := ['/', 'a', '/', x];
    assert Normal(p) by {
      assert !DoubleAt(p, 0) && !DoubleAt(p, 1) && !DoubleAt(p, 2);
    }
    NormalFixpoint(p);
  }

  lemma {:induction false} TwoLevelSegments(x: char)
    requires x != '/'
    ensures Segments(['/', 'a', '/', x]) == ["a", [x]]
  {
    var p := ['/', 'a', '/', x];
    assert Split("", '/') == [""];
    assert Split([x], '/') == [[x]] by {
      assert [x][1..] == "";
      assert [x] + "" == [x];
    }
    assert Split(['/', x], '/') == ["", [x]] by {
      assert ['/', x][1..] == [x];
    }
    assert Split(['a', '/', x], '/') == ["a", [x]] by {
      assert ['a', '/', x][1..] == ['/', x];
      assert ['a'] + "" == "a";
    }
    assert Split(p, '/') == ["", "a", [x]] by {
      assert p[1..] == ['a', '/', x];
    }
    var parts := ["", "a", [x]];
    var keep := NonEmpty();
    assert Filter(parts[1..][1..][1..], keep) == [];
    assert Filter(parts[1..][1..], keep) == [[x]];
    assert Filter(parts[1..], keep) == ["a", [x]];
    assert Filter(parts, keep) == ["a", [x]];
  }
}

=== FILE: wrappers.dfy ===
/** Failure-carrying return types shared by every module of the model.
    Python's `None` becomes `None`; a raised exception becomes `Err`. */
module Wrappers {

  datatype Option<+T> = None | Some(value: T) {

    function GetOr(default: T): T {
      match this
      case Some(v) => v
      case None => default
    }
  }

  datatype Result<+T, +E> = Ok(value: T) | Err(error: E) {

    function ToOption(): Option<T> {
      match this
      case Ok(v) => Some(v)
      case Err(_) => None
    }
  }
}
